=== FILE: README.md ===
# musq core, modelled in Dafny

musq is an asynchronous SQLite library for Rust. Each connection runs on a
worker thread that owns the SQLite handle. A pool hands those connections
out. Queries are composed from SQL text, bound arguments and reusable
fragments, and the `sql!` / `sql_as!` macros and the derive macros generate
that composition code at compile time.

This project models the sequential logic at the heart of the library and
proves properties of it. Every engine (FFI) answer is an input, which makes
each component a pure function:

- **Parameters and statements.** `parse_question_param`, `Arguments::add`,
  `add_named` and `bind`, which resolves host parameters to value indices.
  Also the compound statement's index bookkeeping, the execute iterator
  (with the argument offset threaded across statements), the step
  retry policy, and the LRU statement cache.
- **Transactions.** The savepoint SQL for each depth, the worker's
  Begin/Commit/Rollback handling of `transaction_depth` and
  `ignore_next_start_rollback`, and the `Transaction` open flag. These are
  paired with an engine savepoint stack that follows SQLite's SAVEPOINT,
  RELEASE and ROLLBACK TO semantics.
- **Values and decoding.** The owned `Value` and its accessors, the
  declared-type classifier, measured against the column affinity rules of
  section 3.1 of SQLite's "Datatypes In SQLite". Also the `compatible!`
  gate, the integer, string and byte codecs, `Row`, `FromRow`, and the
  error types with the SQLite result-code classification.
- **Query composition.** `Values` (an insertion-ordered map), `Expr`,
  `Query`, `QueryBuilder`, `InsertInto`, and the `sql!` macro's format
  parser and argument accounting.
- **Configuration.** The ordered pragma map and its rendering, and the open
  flags, filename and busy timeout computed when a connection is
  established.
- **Pool accounting.** Size, idle count, idle queue, semaphore permits and
  size guards, as sequential transitions whose accounting invariant is
  proved for every sequence of operations.
- **Derive checks.** `RenameAll`, the `FromRow` field-attribute checks, and
  the shape checks of the `Encode`/`Decode` derives.

One module per source component: `Arguments`, `Compound`, `Execute`,
`Step`, `StatementCache`, `Transaction`, `SavepointEngine`, `Worker`,
`Connection`, `SqlValue`, `TypeInfo`, `DeclaredType`, `Codec`, `Rows`,
`FromRow`, `Errors`, `CodecErrors`, `SqliteCodes`, `OrderedMap`, `Values`,
`Expr`, `Query`, `QueryBuilder`, `InsertBuilder`, `Config`, `Establish`,
`Pool`, `MacroFormat`, `MacroExpand` and `Derive`. They share the helper
modules `Wrappers`, `Numeric`, `Utf8` and `Text`.

The source at the modelled revision mixes revisions in three places, and the model follows the code:

- `Encode` returns a bare value in `types/int.rs` but a `Result` elsewhere
  (`values.rs:25` propagates it). Encoding is modelled as possibly failing,
  with the outcome as an input.
- The data-type mismatch error is built as `DecodeError::DataType` in
  `types/mod.rs` but declared as `IncompatibleDataType` in `error.rs`. One
  data-type-mismatch variant stands for both.
- The `sql!` expansion in `crates/musq-macros/src/sql.rs:322-346` applies `?`
  to `push_bind`, `push_bind_named`, `push_values` and `push_idents`, and
  calls `push_insert`, `push_set`, `push_where` and `push_upsert`. The
  `QueryBuilder` in `query_builder.rs:78-103` returns nothing from the
  first four and defines none of the last four. The expansion is modelled
  as the sequence of builder calls it emits, and the builder as written,
  with its encoding failures dropped.

Two other places where the model follows the code:

- `Row::current` returns a `Result`, but `execute.rs` uses it unwrapped.
  The model surfaces a row-building failure as an error item of the
  iterator.
- The `i64` decoder writes `Ok(value.int64())`, which nests a `Result`. The
  model returns the accessor's result directly, so an accessor error is the
  decoder's error.

One representation choice: `ExtendedErrCode` has eighty named variants,
each standing for one SQLite extended result code. The model identifies a
variant by that code (`Named(code)`). The codes are listed per primary code
as a range of sub-codes, following SQLite's own definition of an extended
code as its primary code plus a sub-code shifted left by 8 bits.

## Model

| member | source | states |
|---|---|---|
| Utf8.DecodeEncode | crates/musq/src/sqlite/value.rs:100-104 | the bytes `blob` hands out for a Text value are well-formed UTF-8 and decode back to the same string |
| Utf8.EncodeDecode | crates/musq/src/row.rs:95-99 | bytes that pass the UTF-8 check are exactly the encoding of the text they decode to, so storing them as a `String` loses nothing |
| Utf8.DecodeFirstOfEncodeChar | crates/musq/src/sqlite/value.rs:103 | the encoding of one scalar value is read back as that value, with its length, whatever bytes follow |
| Utf8.EncodeCharOfDecodeFirst | crates/musq/src/row.rs:95-99 | a well-formed leading sequence is the shortest-form encoding of the value it decodes to |
| Utf8.LeadErrorAgrees | crates/musq/src/row.rs:95-99 | the validator of `str::from_utf8` accepts a leading sequence exactly when it decodes |
| Utf8.Validate | crates/musq/src/row.rs:95-99 | a reported error lies inside the input: an invalid sequence of 1 to 3 bytes after the valid prefix, or an incomplete sequence of fewer than 4 bytes at the end |
| Utf8.ValidateAgrees | crates/musq/src/row.rs:95-99 | `str::from_utf8` fails exactly when the bytes do not decode, and the prefix it reports as valid does decode |
| Utf8.DecodeFirstPrefix | crates/musq/src/row.rs:95-99 | the first sequence is judged from its own bytes only |
| TypeInfo.FromCode | crates/musq/src/sqlite/type_info.rs:54-65 | codes 1 to 5 map to the five storage classes, each to the class with that code; every other code is None |
| TypeInfo.FromCodeOfStorageCode | crates/musq/src/sqlite/type_info.rs:54-65 | `from_code` inverts the storage-class code of each storage-class type |
| TypeInfo.NameSeparatesTypes | crates/musq/src/sqlite/type_info.rs:33-52 | `name` gives INTEGER for both integer types and different names to every other pair; `is_null` holds for Null only |
| TypeInfo.FromCodeExamples | crates/musq/src/sqlite/type_info.rs:156-159 | an unknown code such as 9999 maps to None |
| TypeInfo.IsNullMeansNullCode | crates/musq/src/sqlite/type_info.rs:33-35 | `is_null` holds exactly for the storage class whose code is SQLITE_NULL, the type `from_code` gives that code |
| TypeInfo.Name | crates/musq/src/sqlite/type_info.rs:37-52 | every name is non-empty; INTEGER is the name exactly of the two integer types and NULL exactly of Null |
| CodecErrors.DecodeErrorFromTryFromInt | crates/musq/src/error.rs:29-33 | a failed integer conversion becomes a Conversion error carrying the conversion's message |
| CodecErrors.DecodeErrorFromString | crates/musq/src/error.rs:35-39 | a string becomes a Conversion decode error with that message |
| CodecErrors.EncodeErrorFromString | crates/musq/src/error.rs:41-45 | a string becomes a Conversion encode error with that message |
| SqlValue.AsInt | crates/musq/src/sqlite/value.rs:63-74 | `int` succeeds exactly on an Integer that fits in an `i32`; NULL is "unexpected NULL", an out-of-range integer is the integer-conversion error, other variants their own message |
| SqlValue.AsInt64 | crates/musq/src/sqlite/value.rs:76-86 | `int64` succeeds exactly on Integer, with the stored value; NULL is "unexpected NULL" |
| SqlValue.AsBlob | crates/musq/src/sqlite/value.rs:100-110 | `blob` succeeds exactly on Blob and Text, giving the bytes or the UTF-8 encoding of the text |
| SqlValue.AsText | crates/musq/src/sqlite/value.rs:112-121 | `text` succeeds exactly on Text, with the stored string |
| SqlValue.TypeInfoOf | crates/musq/src/sqlite/value.rs:124-132 | the declared type when one was captured, otherwise the variant's natural type |
| SqlValue.DecodeValue | crates/musq/src/sqlite/value.rs:156-160 | decoding a `Value` gives a copy of it and never fails |
| SqlValue.IntAgreesWithInt64 | crates/musq/src/sqlite/value.rs:63-86 | `int` succeeds exactly where `int64` does and the integer fits in 32 bits, and then both give the same number |
| SqlValue.NullAccessorsFail | crates/musq/src/sqlite/value.rs:63-121 | every accessor fails on NULL with "unexpected NULL", whatever type the column declared |
| SqlValue.BlobOfTextIsUtf8 | crates/musq/src/sqlite/value.rs:100-104 | `blob` on a Text value succeeds, and its bytes decode back to the stored string |
| SqlValue.IsNullIgnoresDeclaredType | crates/musq/src/sqlite/value.rs:124-138 | `is_null` depends on the variant only, and a NULL's type is its declared type or Null |
| SqlValue.IsNull | crates/musq/src/sqlite/value.rs:135-137 | `is_null` holds exactly when the variant's natural type is Null; for a value without a declared type, exactly when its reported type is Null |
| Errors.FromSqliteError | crates/musq/src/error.rs:154-162 | an engine error converts to `Error::Sqlite` |
| Errors.IntoSqliteError | crates/musq/src/error.rs:137-152 | `into_sqlite_error` is Some exactly for `Error::Sqlite` |
| Errors.FromLockError | crates/musq/src/error.rs:164-174 | a poisoned lock and a failed try-lock are both reported as WorkerCrashed, whatever the lock error was |
| Errors.SqliteErrorRoundTrip | crates/musq/src/error.rs:137-162 | converting an engine error into `Error` and back gives the same primary code, extended code and message |
| Errors.IntoSqliteErrorInverse | crates/musq/src/error.rs:137-162 | an `Error::Sqlite` is the conversion of what `into_sqlite_error` extracts from it |
| SqliteCodes.AsU32 | crates/musq/src/sqlite/error.rs:78 | `code as u32` is the two's-complement reinterpretation: below 2^32, congruent to the code, and the code itself when non-negative |
| SqliteCodes.PrimaryFromCode | crates/musq/src/sqlite/error.rs:47-80 | a named primary code exactly when the low byte is 1 to 28, and then the one whose value is that byte; otherwise Unknown with the whole code as unsigned |
| SqliteCodes.ExtendedFromCode | crates/musq/src/sqlite/error.rs:168-252 | a code is a named variant exactly when it is one of the extended codes the library lists, and the variant keeps that code; any other code is Unknown with the whole code as unsigned |
| SqliteCodes.BusySubcodes | crates/musq/src/sqlite/error.rs:254-261 | an extended code is busy exactly when it is a named extended code whose low byte is SQLITE_BUSY |
| SqliteCodes.ErrorFromCode | crates/musq/src/sqlite/error.rs:273-287 | both classifications of a `SqliteError` come from the same extended result code, and the message is kept |
| SqliteCodes.ExtendedCarriesPrimary | crates/musq/src/sqlite/error.rs:168-261 | every named extended code is a positive `i32` that carries its primary code in the low byte: only the two OK codes have no named primary code, the busy ones classify as Busy and LockedSharedCache as Locked |
| SqliteCodes.IsBusyIffLowByteBusy | crates/musq/src/sqlite/error.rs:289-291 | for an error built from one code, `is_busy` holds exactly when the low byte is SQLITE_BUSY |
| SqliteCodes.ShouldRetryIffBusyOrLocked | crates/musq/src/sqlite/error.rs:293-297 | for an error built from one code, `should_retry` holds exactly when the low byte is SQLITE_BUSY or SQLITE_LOCKED |
| SqliteCodes.IsBusy | crates/musq/src/sqlite/error.rs:289-291 | a Busy primary code makes an error busy; when the extended code is a named one carrying the primary code, the error is busy exactly when the primary code is Busy |
| SqliteCodes.ShouldRetry | crates/musq/src/sqlite/error.rs:293-297 | every busy error is retried; when the codes agree, an error is retried exactly when its primary code is Busy or Locked |
| Text.AsciiLower | crates/musq/src/sqlite/type_info.rs:76 | `to_ascii_lowercase`: same length, each character mapped on its own, ASCII letters only |
| Text.Trim | crates/musq-macros/src/sql.rs:216-221 | `str::trim`: the result is the slice of the input between a run of leading whitespace and a run of trailing whitespace, and neither starts nor ends with whitespace |
| DeclaredType.FromStr | crates/musq/src/sqlite/type_info.rs:74-106 | a name no rule accepts fails with TypeNotFound carrying the name as given, not the lower-cased one |
| DeclaredType.FromStrFollowsAffinity | crates/musq/src/sqlite/type_info.rs:85-98 | outside the exact names, the classification follows SQLite's affinity rules, except that an empty name and a NUMERIC-affinity name without "num" or "dec" are not found |
| DeclaredType.ExactNamesFirst | crates/musq/src/sqlite/type_info.rs:78-83 | the exact names (int4, int8, bool, boolean, date, time, datetime, timestamp) win over every substring rule |
| DeclaredType.FromStrIgnoresCase | crates/musq/src/sqlite/type_info.rs:75-76 | names equal up to ASCII case get the same type, or both fail |
| DeclaredType.FromStrExampleInt4 | crates/musq/src/sqlite/type_info.rs:112 | "INT4" is Int |
| DeclaredType.FromStrExampleIntegerNames | crates/musq/src/sqlite/type_info.rs:114-116 | "INT", "INTEGER" and "INTBIG" are Int64 |
| DeclaredType.FromStrExampleUnsignedBigInt | crates/musq/src/sqlite/type_info.rs:120 | "UNSIGNED BIG INT" is Int64 |
| DeclaredType.FromStrExampleInt8 | crates/musq/src/sqlite/type_info.rs:121 | "INT8" is Int64 through the exact name |
| DeclaredType.FromStrExampleBlob | crates/musq/src/sqlite/type_info.rs:128 | "BLOB" is Blob |
| DeclaredType.FromStrExampleBoolNames | crates/musq/src/sqlite/type_info.rs:137-138 | "BOOLEAN" and "BOOL" are Bool |
| DeclaredType.FromStrExampleTimeNames | crates/musq/src/sqlite/type_info.rs:140-142 | "DATETIME", "TIME" and "DATE" are the three time types |
| Codec.ToValue | crates/musq/src/sqlite/arguments.rs:156-170 | binding stores both integer widths as SQLite's 64-bit INTEGER, texts and blobs unchanged, with no declared type |
| Codec.Stored | crates/musq/src/sqlite/value.rs:24-58 | the value read back from a column carries that column's declared type |
| Codec.Gate | crates/musq/src/types/mod.rs:42-49 | `compatible!` lets a decoder continue exactly when the value's type is Null or in the allowed set, and otherwise fails with the data-type error naming that type |
| Codec.NarrowInt | crates/musq/src/types/int.rs:18-19 | `value.int()` then `try_into`: succeeds exactly on an Integer inside the target range, with that integer |
| Codec.DecodeI8 | crates/musq/src/types/int.rs:15-21 | `i8` decodes exactly the integers in [-128, 127] of an integer-compatible value; a gate failure is returned first |
| Codec.DecodeI16 | crates/musq/src/types/int.rs:29-35 | `i16` decodes exactly the integers in its range; a gate failure is returned first |
| Codec.DecodeI32 | crates/musq/src/types/int.rs:43-48 | `i32` decodes exactly the integers in its range, and otherwise gives `Value::int`'s error |
| Codec.DecodeI64 | crates/musq/src/types/int.rs:56-61 | `i64` decodes every Integer past the gate, and otherwise gives `Value::int64`'s error |
| Codec.DecodeU8 | crates/musq/src/types/uint.rs:15-21 | `u8` decodes exactly the integers in [0, 255]; a gate failure is returned first |
| Codec.DecodeU16 | crates/musq/src/types/uint.rs:29-35 | `u16` decodes exactly the integers in [0, 65535]; a gate failure is returned first |
| Codec.DecodeU32 | crates/musq/src/types/uint.rs:43-48 | `u32` decodes exactly the integers in [0, 2^32-1] through `int64`; a larger or negative one is the integer-conversion error |
| Codec.DecodeText | crates/musq/src/types/str.rs:14-45 | strings decode exactly from Text values past the Text-only gate, giving the stored text |
| Codec.DecodeBytes | crates/musq/src/types/bytes.rs:14-45 | byte strings decode from Blob and Text values past the gate, giving the bytes or the text's UTF-8 encoding |
| Codec.EncodeI8 | crates/musq/src/types/int.rs:9-13 | `i8` is written without loss as a 32-bit argument |
| Codec.EncodeI16 | crates/musq/src/types/int.rs:23-27 | `i16` is written without loss as a 32-bit argument |
| Codec.EncodeI32 | crates/musq/src/types/int.rs:37-41 | `i32` is written as a 32-bit argument |
| Codec.EncodeI64 | crates/musq/src/types/int.rs:50-54 | `i64` is written as a 64-bit argument |
| Codec.EncodeU8 | crates/musq/src/types/uint.rs:9-13 | `u8` is written without loss as a 32-bit argument |
| Codec.EncodeU16 | crates/musq/src/types/uint.rs:23-27 | `u16` is written without loss as a 32-bit argument |
| Codec.EncodeU32 | crates/musq/src/types/uint.rs:37-41 | `u32` is widened without loss to a 64-bit argument |
| Codec.EncodeText | crates/musq/src/types/str.rs:8-38 | strings are written as text arguments with the same contents |
| Codec.EncodeBytes | crates/musq/src/types/bytes.rs:8-25 | byte strings are written as blob arguments with the same contents |
| Codec.SignedRoundTrip | crates/musq/src/types/int.rs:9-61 | encoding, storing in an integer-typed or untyped column and decoding gives back every signed value at every width |
| Codec.UnsignedRoundTrip | crates/musq/src/types/uint.rs:9-48 | the same for every unsigned width; `u32` survives the trip through `i64` |
| Codec.TextAndBytesRoundTrip | crates/musq/src/types/str.rs:21-32 | strings and byte strings come back unchanged from a column whose declared type the decoder accepts |
| Codec.UnsignedRejectsNegative | crates/musq/src/types/uint.rs:15-48 | no unsigned decoder yields a value from a negative stored integer |
| Codec.NullDecodeErrors | crates/musq/src/types/mod.rs:42-49 | a NULL from a column declared outside the decoder's set fails with the data-type error; from an untyped column it fails with "unexpected NULL" |
| Codec.TextDecoderRejectsBlob | crates/musq/src/types/str.rs:27-32 | a Blob is rejected by the string decoder whatever its bytes; a Text read as bytes decodes back to the same string |
| Codec.DecodersAgree | crates/musq/src/types/int.rs:15-61 | the narrow integer decoders succeed exactly where `i64` does and the value fits their width, and then agree with it |
| Rows.DeclaredTypeInfo | crates/musq/src/row.rs:70-71 | a declared type of Null means no declared type; any other is kept |
| Rows.ReadColumn | crates/musq/src/row.rs:69-127 | a column is read exactly when its storage code is one of the five classes (and a non-empty TEXT has a pointer and is valid UTF-8); the value has the class of that code, the engine's integer or bytes, and the column's declared type; an unknown code is UnknownColumnType |
| Rows.ReadColumns | crates/musq/src/row.rs:69-128 | all columns read in order, or the error of the first column that fails |
| Rows.Current | crates/musq/src/row.rs:36-144 | `Row::current` gives one value per reported column, each the column read, and keeps the column metadata and name table; otherwise an error some column produced |
| Rows.EmptyRowRejectsEveryIndex | crates/musq/src/row.rs:146-160 | a row that `is_empty` holds no values, so every index lookup in it is ColumnIndexOutOfBounds against a length of 0 |
| Rows.NameOfIndex | crates/musq/src/row.rs:165-170 | the name the table gives an index is paired with it in the table; None only when no entry has that index |
| Rows.IndexOfName | crates/musq/src/row.rs:188-191 | the index the table gives a name is paired with it; None only when the name is absent |
| Rows.LookupAgreesWithMap | crates/musq/src/row.rs:188-191 | over a name table that lists the column-name map's pairs once each, the lookup finds a name exactly when the map holds it, at the map's index |
| Rows.GetValueIdx | crates/musq/src/row.rs:152-180 | an index past the end is ColumnIndexOutOfBounds with the index and length; otherwise the decoder's value, or ColumnDecode carrying the index, the column's name, the value and the decoder's error |
| Rows.GetValue | crates/musq/src/row.rs:183-193 | an unknown name is ColumnNotFound; a known one behaves as `get_value_idx` at its index |
| Rows.RowFromRow | crates/musq/src/row.rs:196-200 | reading a whole row never fails and gives the same row, whatever the prefix |
| Rows.InvalidUtf8FailsRow | crates/musq/src/row.rs:95-99 | a TEXT column holding invalid UTF-8 fails the whole row with the conversion error naming the column, when every earlier column is clean |
| Rows.FirstErrorDecides | crates/musq/src/row.rs:69-128 | when the columns before `i` read cleanly and column `i` fails, the row fails with column `i`'s error |
| Rows.CurrentCarriesDeclaredTypes | crates/musq/src/row.rs:70-71 | every value of a built row carries no declared type exactly when its column's declared type is Null |
| FromRow.OptionFromRow | crates/musq/src/from_row.rs:215-226 | an optional nested record is None when all its columns are NULL, Some of the inner record otherwise, and an `all_null` failure propagates |
| FromRow.TupleFrom | crates/musq/src/from_row.rs:231-243 | tuple elements from `from` onwards: element `i` is column `i` decoded; all decode, or the first failing element's error |
| FromRow.TupleFromRow | crates/musq/src/from_row.rs:238-240 | a tuple of width 1 to 16 reads columns 0 to n-1 in order, ignoring the prefix, and succeeds exactly when each of them decodes |
| FromRow.TupleTooWide | crates/musq/src/row.rs:156-163 | a tuple wider than the row fails with ColumnIndexOutOfBounds at the row's length, once the columns that exist decode |
| Arguments.InvalidNumeric | crates/musq/src/sqlite/arguments.rs:13-15 | the error for a bad numbered parameter is a protocol error whose message contains the parameter's name after the fixed prefix |
| Arguments.ParseQuestionParam | crates/musq/src/sqlite/arguments.rs:10-39 | accepted exactly when the name is one `?` followed by decimal digits with no leading zero and a value that fits a `usize`; the value is at least 1; every rejection is the same protocol error naming the parameter |
| Arguments.ParseQuestionParamExactly | crates/musq/src/sqlite/arguments.rs:10-39 | the parser and decimal rendering are inverse: "?N" parses to N for 1 <= N <= usize::MAX, fails past it, and every accepted name is "?" followed by the rendering of its value |
| Arguments.LongNumeralOverflows | crates/musq/src/sqlite/arguments.rs:248-257 | a numeral of more than twenty digits overflows a `usize` and is rejected with the message naming it |
| Arguments.ParseQuestionParamRejects | crates/musq/src/sqlite/arguments.rs:174-246 | "?foo", "?0", "?12a", "?01", "??1", ":1a" and "@0" are each rejected with the error naming them |
| Arguments.Add | crates/musq/src/sqlite/arguments.rs:49-56 | `add` appends the encoded value and leaves the names alone; a failed encoding is returned as `Error::Encode` and nothing changes; the name table stays consistent |
| Arguments.StripPrefixes | crates/musq/src/sqlite/arguments.rs:64 | `trim_start_matches`: removes exactly the leading run of `:`, `@`, `$` and `?` |
| Arguments.StripPrefixesOf | crates/musq/src/sqlite/arguments.rs:58-64 | any run of prefix characters in front of a key is dropped, so `:id`, `@id`, `$id` and `id` register the same name |
| Arguments.Register | crates/musq/src/sqlite/arguments.rs:65-72 | afterwards the key names a slot holding the new value; a registered key keeps its slot and the number of values, a new key gets a fresh slot at the end |
| Arguments.AddNamed | crates/musq/src/sqlite/arguments.rs:60-74 | `add_named` registers the value under the name with its prefix stripped; a failed encoding is `Error::Encode` |
| Arguments.AddNamedLastWins | crates/musq/src/sqlite/arguments.rs:65-66 | binding the same name twice keeps one slot and no new value, and the second value wins |
| Arguments.Atoi | crates/musq/src/sqlite/arguments.rs:98 | `atoi::<usize>`: None when the text starts with neither a sign nor a digit; after digits, the value of the leading digits when it fits and None otherwise; after `+`, 0 when no digit follows and otherwise as without the sign; after `-`, 0 when the digits are worth 0 and None otherwise |
| Arguments.LeadingDigits | crates/musq/src/sqlite/arguments.rs:98 | the run of ASCII digits at the front: all digits, and the next character is not one |
| Arguments.KindOf | crates/musq/src/sqlite/arguments.rs:93-130 | an unnamed parameter is anonymous; `?` goes through `parse_question_param`; `$` is numbered when digits follow and named otherwise; `:` and `@` are named; anything else is "unsupported SQL parameter format" |
| Arguments.SignedDollarParams | crates/musq/src/sqlite/arguments.rs:96-102 | `$+5` binds parameter 5, `$-0` binds parameter 0, and `$-5` is looked up as the name `-5`, because `atoi` accepts a leading sign |
| Arguments.Start | crates/musq/src/sqlite/arguments.rs:77-82 | `next_pos` starts at the offset raised to the largest registered index: at least both, and equal to one of them |
| Arguments.StartIsLeast | crates/musq/src/sqlite/arguments.rs:77-82 | that start is the least number at least the offset and every registered index |
| Arguments.OutOfBounds | crates/musq/src/sqlite/arguments.rs:136-141 | the out-of-bounds error is a protocol error whose message ends with "index is N" |
| Arguments.ResolveOne | crates/musq/src/sqlite/arguments.rs:93-134 | anonymous takes the next position; numbered its number; a registered name its index; an unregistered name its earlier position, or the next position on first use |
| Arguments.BindFrom | crates/musq/src/sqlite/arguments.rs:91-145 | the loop gives one index per parameter, each naming an existing value, and never moves the counter back |
| Arguments.Bind | crates/musq/src/sqlite/arguments.rs:76-148 | `bind` with `$0` rejected: on success one index per parameter, each naming an existing value, and `next_pos` never below its start; on failure the parameter it stopped at and at most one `sqlite3_bind_*` call past those before it, each with an existing value |
| Arguments.BindSucceedsExactly | crates/musq/src/sqlite/arguments.rs:91-145 | `bind` succeeds exactly when no parameter fails: none has an unsupported or invalid name, none resolves past the values, and the engine accepts every value bound |
| Arguments.BindReadsTargets | crates/musq/src/sqlite/arguments.rs:77-147 | on success parameter k reads the index defined for it over the whole list, and the count returned is the start plus the positions taken by all parameters, minus the offset |
| Arguments.BindPlacesParameters | crates/musq/src/sqlite/arguments.rs:83-134 | on success numbered parameters and registered names read their own index, the j-th parameter that takes a new position reads the start plus j, and all occurrences of an unregistered name read the same value |
| Arguments.BindStopsAtFirstError | crates/musq/src/sqlite/arguments.rs:91-145 | on failure the error is that of the first parameter that fails, every earlier parameter was bound from the index defined for it, and a value the engine refused was bound last |
| Arguments.BindStopsAtEngineError | crates/musq/src/sqlite/arguments.rs:143 | `SELECT ?1, ?2, ?3` over two values, with the engine refusing the second, fails with the engine's error after binding values 1 and 2, before the out-of-bounds third parameter is reached |
| Arguments.BindAsWritten | crates/musq/src/sqlite/arguments.rs:76-148 | the source's loop, which can panic; where it does not, it agrees with `Bind` |
| Arguments.AgreeUnlessZero | crates/musq/src/sqlite/arguments.rs:91-145 | the loop as written and the corrected loop give the same result on every input where the former does not panic |
| Arguments.DollarZeroPanics | crates/musq/src/sqlite/arguments.rs:96-99 | `$0` passes every check of the loop as written and reaches `values[n - 1]` with `n = 0`; the corrected loop rejects it |
| Arguments.AnonymousConsecutive | crates/musq/src/sqlite/arguments.rs:131-134 | a run of anonymous parameters takes consecutive positions after the counter |
| Arguments.BindAnonymous | crates/musq/src/sqlite/arguments.rs:76-148 | m anonymous parameters bind the m values after the start, and report m plus the start minus the offset |
| Arguments.BindOutOfBounds | crates/musq/src/sqlite/arguments.rs:136-141 | a numbered parameter past the last value fails with the out-of-bounds error |
| Arguments.RepeatedNamedArguments | crates/musq/src/sqlite/arguments.rs:314-315 | `add_named("a", 7)` on empty arguments gives one value, with `a` at index 1 |
| Arguments.AddAfterNamed | crates/musq/src/sqlite/arguments.rs:316 | then `add(9)` gives two values and leaves `a` at index 1 |
| Arguments.BindRepeatedNamed | crates/musq/src/sqlite/arguments.rs:310-323 | `SELECT :a, :a, ?2` over those arguments reads values 1, 1 and 2: 7, 7 and 9 |
| Arguments.BindPositionalAndNamed | crates/musq/src/sqlite/arguments.rs:259-273 | `SELECT ?1, :b, :a` reads 7, 8 and 9 when 7 was added and 8 and 9 bound as b and a |
| Arguments.BindMissingValue | crates/musq/src/sqlite/arguments.rs:275-293 | `select ?1, ?2` with one value fails naming index 2 |
| Arguments.BindSurplusIgnored | crates/musq/src/sqlite/arguments.rs:295-308 | `SELECT ?1` with two values binds the first and ignores the second |
| Step.Then | crates/musq/src/sqlite/statement/handle.rs:181-243 | one engine call in front of an outcome: it is recorded first, and the result is unchanged |
| Step.StepLoop | crates/musq/src/sqlite/statement/handle.rs:181-243 | the outer loop starts with a step, steps at most once per remaining retry plus one, and every step but the first follows a reset |
| Step.WaitThenReset | crates/musq/src/sqlite/statement/handle.rs:193-213 | a retry starts with an unlock wait, and any later step follows a successful reset |
| Step.ResetLoop | crates/musq/src/sqlite/statement/handle.rs:197-212 | the reset loop starts with a reset; a locked or busy reset waits and resets again; a step comes only after a reset |
| Step.Step | crates/musq/src/sqlite/statement/handle.rs:178-244 | ROW is Ok(true) and DONE is Ok(false) after one step; any other non-retryable code is the engine's error; at most `DEFAULT_MAX_RETRIES + 1` steps are made, each retry after a reset |
| Step.BusyGivesUp | crates/musq/src/sqlite/statement/handle.rs:187-221 | with the database busy or locked throughout, the loop gives up with UnlockNotify after exactly `DEFAULT_MAX_RETRIES + 1` steps |
| Step.BusyThenRow | crates/musq/src/sqlite/statement/handle.rs:215-240 | a busy answer followed by a row makes one wait, one reset and a second step, and reports the row |
| Step.ColumnName | crates/musq/src/sqlite/statement/handle.rs:57-66 | the engine's column name, or the handle's last error when the engine gives none |
| Compound.New | crates/musq/src/sqlite/statement/compound.rs:55-72 | the query is trimmed and accepted exactly when its UTF-8 length is at most `i32::MAX`; nothing is prepared yet and the tail decodes to the trimmed query |
| Compound.PrepareAll | crates/musq/src/sqlite/statement/compound.rs:154-202 | the tail left behind is a suffix of the query; a statement is found only by consuming input; None means the text ran out or the engine consumed nothing; an engine failure is returned as the engine's error |
| Compound.NameTable | crates/musq/src/sqlite/statement/compound.rs:96-106 | every column name is in the table, and a repeated name maps to its last position, as inserting in order into a hash map does |
| Compound.BuildColumns | crates/musq/src/sqlite/statement/compound.rs:91-110 | columns are built exactly when every column has a name, each from the declared type else the storage type else Null, with the name table over them; a missing name is the handle's last error |
| Compound.Current | crates/musq/src/sqlite/statement/compound.rs:122-130 | the statement at the index when the index points at a prepared statement, and None otherwise |
| Compound.NextIndex | crates/musq/src/sqlite/statement/compound.rs:79-82 | the index becomes 0 at first, then one further, never past the number of prepared statements |
| Compound.PrepareNext | crates/musq/src/sqlite/statement/compound.rs:74-120 | `prepare_next` moves the index to the next position and keeps the statement container consistent |
| Compound.PrepareNextCurrent | crates/musq/src/sqlite/statement/compound.rs:119 | a successful `prepare_next` reports the statement now current |
| Compound.PrepareNextKeeps | crates/musq/src/sqlite/statement/compound.rs:84-117 | statements already prepared are kept, and at most one is added, only when the index has run past them |
| Compound.PrepareNextReuses | crates/musq/src/sqlite/statement/compound.rs:84 | a statement already prepared is reused without compiling anything |
| Compound.PrepareNextTail | crates/musq/src/sqlite/statement/compound.rs:194 | the text left to compile only shrinks, from its front |
| Compound.FirstFailure | crates/musq/src/sqlite/statement/compound.rs:135-142 | the position of the first failed reset, with none failing before it; None when none failed |
| Compound.Reset | crates/musq/src/sqlite/statement/compound.rs:132-150 | `reset` clears the index, resets and clears the bindings of every handle in order, and reports the first reset failure, if any, after trying them all |
| Compound.ResetReusesStatements | crates/musq/src/sqlite/statement/compound.rs:79-84 | after a reset, the walk starts again at the first statement without compiling anything |
| Compound.WalkInOrder | crates/musq/src/sqlite/statement/compound.rs:74-120 | over a fully compiled query the walk returns the statements in order |
| Compound.WalkPastEnd | crates/musq/src/sqlite/statement/compound.rs:78-87 | past the last statement of a fully compiled query, `prepare_next` stays at the end and reports None |
| Compound.NothingToPrepare | crates/musq/src/sqlite/statement/compound.rs:84-87 | an empty query has no statements: the first `prepare_next` reports None |
| Execute.Start | crates/musq/src/sqlite/connection/execute.rs:26-48 | a new iteration has used no arguments and will prepare the first statement on its first step |
| Execute.BindArgs | crates/musq/src/sqlite/connection/execute.rs:50-62 | no arguments bind nothing and use none; otherwise `Arguments::bind` at the offset |
| Execute.CurrentRow | crates/musq/src/sqlite/connection/execute.rs:98-102 | a row built at the current position has the statement's columns, one value per column, and a name table listing exactly the statement's column names, so a name is found at its column's index and an unknown name is not found |
| Execute.StepCurrent | crates/musq/src/sqlite/connection/execute.rs:94-120 | one step of the current statement: a row is yielded and the iteration stays on the statement; DONE yields the summary with the engine's change count and last rowid and moves on; a step error is yielded as is |
| Execute.StepDone | crates/musq/src/sqlite/connection/execute.rs:104-118 | a finished statement yields its `QueryResult` and marks the iteration to move to the next statement |
| Execute.Enter | crates/musq/src/sqlite/connection/execute.rs:68-92 | entering a statement keeps the arguments and never decreases the count of arguments used; a summary moves on, a row stays |
| Execute.EnterResetFails | crates/musq/src/sqlite/connection/execute.rs:75-80 | a failed reset is yielded as the engine's error and nothing is bound; the statement stays current |
| Execute.EnterBindFails | crates/musq/src/sqlite/connection/execute.rs:82-87 | a failed bind is yielded after the reset, the clearing of bindings and the `sqlite3_bind_*` calls made before it stopped |
| Execute.EnterStopsAtRefusedValue | crates/musq/src/sqlite/connection/execute.rs:82-87 | when the engine refuses the second of three parameters, the iterator yields the engine's error after binding the first two values, and the third parameter, which has no value, is never resolved |
| Execute.EnterBinds | crates/musq/src/sqlite/connection/execute.rs:77-94 | a statement is reset, cleared and bound in that order before it is stepped, and the arguments it used are added to the count |
| Execute.Next | crates/musq/src/sqlite/connection/execute.rs:67-121 | the iterator keeps its arguments, never gives back arguments it used, moves on after a summary and stays after a row |
| Execute.NextWithinStatement | crates/musq/src/sqlite/connection/execute.rs:90-91 | inside a statement the iterator steps the current statement, and ends when there is none |
| Execute.NextRow | crates/musq/src/sqlite/connection/execute.rs:95-103 | a row is yielded and the iteration state is unchanged |
| Execute.NextDone | crates/musq/src/sqlite/connection/execute.rs:104-118 | DONE yields the summary and marks the iteration to move on |
| Execute.NextPrepareFails | crates/musq/src/sqlite/connection/execute.rs:69-73 | a prepare failure is yielded, and the next call tries to prepare again |
| Execute.NextNoMore | crates/musq/src/sqlite/connection/execute.rs:71 | with no statement left, the iterator ends |
| Execute.NextEnters | crates/musq/src/sqlite/connection/execute.rs:68-89 | a newly prepared statement is entered |
| Execute.Run | crates/musq/src/sqlite/connection/execute.rs:64-122 | driving the iterator yields at most one item per engine round, and keeps its state consistent |
| Execute.RunCons | crates/musq/src/sqlite/connection/execute.rs:64-122 | running is the first item followed by running the rest |
| Execute.Drop | crates/musq/src/sqlite/connection/execute.rs:124-128 | dropping the iterator resets every handle and clears its bindings, and clears the index |
| Execute.RowsThenSummary | crates/musq/src/sqlite/connection/execute.rs:94-120 | a statement that steps n rows then DONE yields exactly those n rows then its summary, and moves on |
| Execute.EmptyQueryYieldsNothing | crates/musq/src/sqlite/connection/execute.rs:67-73 | a blank query yields nothing at all |
| Execute.NextEntersSummary | crates/musq/src/sqlite/connection/execute.rs:68-118 | a statement with no rows: reset, clear, bind, step, and its summary |
| Execute.AnonymousFirstStatement | crates/musq/src/sqlite/connection/execute.rs:84-85 | an anonymous parameter of the first of two statements binds the first value, and one argument is used |
| Execute.AnonymousAcrossStatements | crates/musq/src/sqlite/connection/execute.rs:84-85 | an anonymous parameter of the second statement continues after the arguments the first used: it binds the second value |
| Execute.NumberedAcrossStatements | crates/musq/src/sqlite/connection/execute.rs:84-85 | a numbered `?1` in both statements binds the first value each time and uses no arguments |
| Transaction.SavepointName | crates/musq/src/transaction.rs:125-128 | the savepoint at each depth is `_musq_savepoint_` followed by the depth |
| Transaction.SavepointNamesDistinct | crates/musq/src/transaction.rs:125-128 | savepoints begun at different depths have different names |
| Transaction.Parse | crates/musq/src/transaction.rs:125-141 | reading a statement back: whatever it reads renders to the same text |
| Transaction.ParseRender | crates/musq/src/transaction.rs:125-141 | every statement the machinery writes reads back as that statement |
| Transaction.BeginSql | crates/musq/src/transaction.rs:125-128 | begin at depth d creates savepoint d, the first one acting as BEGIN |
| Transaction.CommitSql | crates/musq/src/transaction.rs:130-132 | commit at depth d releases the savepoint begun at depth d-1 |
| Transaction.RollbackSql | crates/musq/src/transaction.rs:134-141 | rollback at depth 1 is a plain ROLLBACK; deeper it rolls back to the savepoint begun at depth d-1 |
| Transaction.EndNamesItsBegin | crates/musq/src/transaction.rs:125-141 | commit and rollback name the savepoint of their own begin and no other |
| Transaction.Begin | crates/musq/src/transaction.rs:38-49 | a transaction exists, open, exactly when the begin succeeded; otherwise its error |
| Transaction.End | crates/musq/src/transaction.rs:52-63 | commit and rollback pass on the worker's result and close the transaction only on success |
| Transaction.DropRollback | crates/musq/src/transaction.rs:114-123 | dropping sends a rollback exactly when the transaction is still open |
| Transaction.DropAfterEnd | crates/musq/src/transaction.rs:52-63 | after a commit or rollback, a drop rolls back exactly when that end failed |
| SavepointEngine.LastNamed | crates/musq/src/transaction.rs:125-141 | the most recent savepoint with a name: a position holding that name with no later one; None when the name is absent |
| SavepointEngine.SqlError | crates/musq/src/sqlite/connection/worker.rs:143-148 | an engine refusal reaches the worker as an `Error::Sqlite` with primary code Error and the engine's message |
| SavepointEngine.Apply | crates/musq/src/transaction.rs:125-141 | SAVEPOINT pushes a frame saving the rows; RELEASE and ROLLBACK TO succeed exactly when the named savepoint exists; ROLLBACK exactly when a transaction is open |
| SavepointEngine.Insert | crates/musq/src/sqlite/connection/worker.rs:119-140 | a write adds its row and leaves the savepoints alone |
| SavepointEngine.RollbackToKeeps | crates/musq/src/transaction.rs:134-141 | ROLLBACK TO restores the rows saved by the named savepoint and keeps that savepoint open |
| Worker.HandleBegin | crates/musq/src/sqlite/connection/worker.rs:141-170 | Begin sends the depth's SAVEPOINT and replies with its result; on success the depth rises by one; when the reply is lost, the savepoint is rolled back at once and a failed undo stops the worker |
| Worker.End | crates/musq/src/sqlite/connection/worker.rs:171-208 | ending at depth 0 does nothing and succeeds; otherwise the statement's result decides, and success lowers the depth by one |
| Worker.HandleCommit | crates/musq/src/sqlite/connection/worker.rs:171-191 | Commit sends RELEASE for the current depth (nothing at depth 0), lowers the depth on success, keeps the state on failure, and sets the ignore flag exactly when a successful reply was lost |
| Worker.HandleRollback | crates/musq/src/sqlite/connection/worker.rs:192-219 | a drop-time rollback right after a lost reply is swallowed and clears the flag; otherwise the depth's rollback is sent, the depth falls on success, and a lost successful reply sets the flag |
| Worker.HandleExecute | crates/musq/src/sqlite/connection/worker.rs:119-140 | a write adds its row or replies with its error, and touches neither the depth nor the flag |
| Worker.Handle | crates/musq/src/sqlite/connection/worker.rs:108-232 | a stopped worker changes nothing, sends no SQL, and answers every command with a reply channel with WorkerCrashed |
| Worker.EndStatementsSucceed | crates/musq/src/transaction.rs:125-141 | when the savepoints match the depth, the commit and rollback statements of that depth always succeed |
| Worker.ConsistentAfterBegin | crates/musq/src/transaction.rs:125-128 | begin at the current depth keeps the savepoint stack in step with the depth |
| Worker.ConsistentPush | crates/musq/src/transaction.rs:125-128 | pushing the savepoint named for the current depth keeps the stack consistent with one level more |
| Worker.ConsistentAfterRelease | crates/musq/src/transaction.rs:130-132 | commit keeps the savepoint stack in step with the lowered depth |
| Worker.ConsistentAfterRollback | crates/musq/src/transaction.rs:134-141 | rollback keeps the savepoint stack in step with the lowered depth |
| Worker.HandlePreserves | crates/musq/src/sqlite/connection/worker.rs:108-232 | every command keeps the transaction depth equal to the savepoints open in the engine, while the worker runs |
| Worker.RunAllPreserves | crates/musq/src/sqlite/connection/worker.rs:108-232 | so does every sequence of commands |
| Worker.RunAllAppend | crates/musq/src/sqlite/connection/worker.rs:108 | commands are processed one after another |
| Worker.RunAllOne | crates/musq/src/sqlite/connection/worker.rs:108 | a single command is handled exactly once |
| Worker.ExecuteInserts | crates/musq/src/sqlite/connection/worker.rs:119-140 | a write without faults adds its row and changes nothing else |
| Worker.RunInserts | crates/musq/src/sqlite/connection/worker.rs:119-140 | a sequence of writes adds its rows in order |
| Worker.BeginPushes | crates/musq/src/sqlite/connection/worker.rs:141-148 | Begin without faults opens the savepoint named for the depth and raises the depth |
| Worker.BeginThenInserts | crates/musq/src/sqlite/connection/worker.rs:141-170 | Begin replies Ok and the writes that follow land inside the new savepoint |
| Worker.CommitBegun | crates/musq/src/sqlite/connection/worker.rs:171-191 | commit after begin and writes keeps the rows, closes the savepoint and restores the depth |
| Worker.CommitBegunFails | crates/musq/src/sqlite/connection/worker.rs:171-191 | a failed commit reports its error and changes nothing |
| Worker.RollbackBegun | crates/musq/src/sqlite/connection/worker.rs:192-219 | rollback after begin and writes discards the rows and restores the depth |
| Worker.RollbackRestores | crates/musq/src/sqlite/connection/worker.rs:141-219 | begin, writes, rollback leaves the rows as before; a nested rollback leaves its savepoint on the stack, since ROLLBACK TO does not release it |
| Worker.CommitKeeps | crates/musq/src/sqlite/connection/worker.rs:141-191 | begin, writes, commit leaves exactly those rows added and the savepoints as before |
| Worker.NestedRollbackKeepsOuterRows | crates/musq/tests/sqlite.rs:691-731 | outer begin and write 0; nested begin, write 1, rollback; nested begin, write 2, commit; outer commit: the table holds exactly 0 and 2, at depth 0 with no savepoint left |
| Worker.OuterBegin | crates/musq/src/sqlite/connection/worker.rs:141-148 | the first steps of that scenario: one savepoint, one row, depth 1 |
| Worker.LostCommitReplySkipsDropRollback | crates/musq/src/sqlite/connection/worker.rs:185-196 | after a commit whose reply was lost, the transaction's drop-time rollback is swallowed and sends no SQL |
| Worker.LostBeginReplyUndone | crates/musq/src/sqlite/connection/worker.rs:151-169 | a begin whose reply was lost is rolled back at once: the depth and the rows are as before |
| Connection.FilterMap | crates/musq/src/sqlite/connection/mod.rs:243-248 | `try_filter_map`: no more items than the stream, every error comes from the stream, and every value is kept from some item |
| Connection.FilterMapAppend | crates/musq/src/sqlite/connection/mod.rs:243-248 | filtering distributes over concatenation, so items are kept in stream order |
| Connection.Fetch | crates/musq/src/sqlite/connection/mod.rs:238-250 | `fetch` passes on rows and errors only, each from the stream |
| Connection.ExecuteMany | crates/musq/src/sqlite/connection/mod.rs:252-264 | `execute_many` passes on summaries and errors only, each from the stream |
| Connection.FirstError | crates/musq/src/sqlite/connection/mod.rs:173-189 | None exactly when every item is Ok; otherwise the error of the first failing item |
| Connection.FetchIsRows | crates/musq/src/sqlite/connection/mod.rs:238-250 | on a stream without errors, `fetch` yields exactly its rows in order |
| Connection.Collect | crates/musq/src/sqlite/connection/mod.rs:283 | `try_collect` gives all values in order when every item is Ok, and otherwise the first error |
| Connection.FetchAll | crates/musq/src/sqlite/connection/mod.rs:279-284 | `fetch_all` gives only rows from the stream |
| Connection.FetchAllMeaning | crates/musq/src/sqlite/connection/mod.rs:279-284 | `fetch_all` succeeds exactly when the stream has no error, then with all its rows in order; otherwise with the stream's first error |
| Connection.FetchCons | crates/musq/src/sqlite/connection/mod.rs:243-248 | `fetch` keeps an error, drops a summary and keeps a row, item by item |
| Connection.FetchFirstError | crates/musq/src/sqlite/connection/mod.rs:279-284 | collecting fetched rows stops at the stream's first error |
| Connection.Fold | crates/musq/src/sqlite/connection/mod.rs:271-275 | the fold never lowers the change count, and an error it returns is one the stream carries |
| Connection.ExecuteManyCons | crates/musq/src/sqlite/connection/mod.rs:257-262 | `execute_many` keeps an error, drops a row and keeps a summary, item by item |
| Connection.FoldOk | crates/musq/src/sqlite/connection/mod.rs:266-277 | without errors, `execute` adds up the change counts and takes the last statement's rowid, or keeps the start's when there is no summary |
| Connection.FoldErr | crates/musq/src/sqlite/connection/mod.rs:266-277 | with an error, `execute` fails with the stream's first error |
| Connection.ExecuteManyIsSummaries | crates/musq/src/sqlite/connection/mod.rs:257-262 | without errors, `execute_many` yields exactly the stream's summaries, in order |
| Connection.ExecuteManyFirstError | crates/musq/src/sqlite/connection/mod.rs:257-262 | `execute_many` passes on the stream's first error and no error before it |
| Connection.FoldFirstError | crates/musq/src/sqlite/connection/mod.rs:266-277 | the fold in `execute` stops at the first error item and returns it |
| Connection.FirstErrorCons | crates/musq/src/sqlite/connection/mod.rs:173-189 | an Ok item in front does not change the first error |
| Connection.ExecuteQueryMeaning | crates/musq/src/sqlite/connection/mod.rs:266-277 | `execute` succeeds exactly when the stream has no error, with the total of all statements' changes and the last statement's rowid (0 and 0 when none); otherwise with the first error |
| Connection.ExecuteQuery | crates/musq/src/sqlite/connection/mod.rs:266-277 | `execute` fails only with an error the stream carries, and an empty stream gives 0 changes and rowid 0 |
| Connection.FetchOptional | crates/musq/src/sqlite/connection/mod.rs:191-218 | `fetch_optional` returns a row or error from the stream |
| Connection.FetchOptionalIsFirst | crates/musq/src/sqlite/connection/mod.rs:210-216 | `fetch_optional` is the first fetched item: None when there is no row or error, the row, or the error |
| Connection.FetchOne | crates/musq/src/sqlite/connection/mod.rs:286-296 | `fetch_one` is `fetch_optional` with no row turned into RowNotFound |
| Connection.FetchOneFirstRow | crates/musq/src/sqlite/connection/mod.rs:286-296 | without errors, `fetch_one` gives the first row, or RowNotFound when there is none |
| Connection.StatementRowsAndSummary | crates/musq/src/sqlite/connection/execute.rs:94-120 | one statement's items have no error, are its rows, and end with its one summary |
| Connection.OneStatement | crates/musq/src/sqlite/connection/mod.rs:266-296 | over one statement, `fetch_all` gives its rows, `fetch_optional` its first row and `execute` its summary |
| Connection.EmptyStream | crates/musq/src/sqlite/connection/mod.rs:266-296 | an empty stream executes to 0 changes and rowid 0, fetches no rows, and `fetch_one` is RowNotFound |
| Connection.Reply | crates/musq/src/sqlite/connection/worker.rs:312-324 | a command's reply, or WorkerCrashed when the worker sent none |
| Connection.InTransaction | crates/musq/src/sqlite/connection/mod.rs:135-161 | `transaction` returns the callback's value only when the callback succeeded; a failed begin is returned at once, converted into the caller's error type |
| Connection.TransactionCommits | crates/musq/src/sqlite/connection/mod.rs:150-155 | a successful callback commits: its rows stay, the depth is restored and the value is returned |
| Connection.TransactionRollsBack | crates/musq/src/sqlite/connection/mod.rs:156-159 | a failing callback is rolled back: its rows are gone, the depth is restored and its error is returned |
| Connection.TransactionBeginFails | crates/musq/src/sqlite/connection/mod.rs:144 | a failed begin runs nothing and returns its error |
| Connection.FailedCommitRolledBackOnDrop | crates/musq/src/transaction.rs:114-123 | when the commit fails, its error is returned and the transaction's drop rolls the writes back |
| StatementCache.New | crates/musq/src/statement_cache.rs:16-20 | a new cache is empty with the given capacity |
| StatementCache.Find | crates/musq/src/statement_cache.rs:38-40 | the position of a key in recency order, or None when absent |
| StatementCache.FindUnique | crates/musq/src/statement_cache.rs:38-40 | with distinct keys, the position found is the key's only one |
| StatementCache.LenMeaning | crates/musq/src/statement_cache.rs:60-62 | the size is zero exactly when no query is cached, and a valid cache holds no more than its capacity |
| StatementCache.Peek | crates/musq/src/statement_cache.rs:75-77 | a statement is found exactly for a cached query |
| StatementCache.Without | crates/musq/src/statement_cache.rs:50-51 | removing one entry keeps the others in order |
| StatementCache.Remove | crates/musq/src/statement_cache.rs:50-51 | removing a key returns its statement and shrinks the cache by one; an absent key changes nothing |
| StatementCache.RemoveLru | crates/musq/src/statement_cache.rs:65-67 | `remove_lru` returns the least recently used statement and keeps the rest; an empty cache is unchanged |
| StatementCache.Trim | crates/musq/src/statement_cache.rs:45-57 | the cache never holds more than its capacity, dropping from the least recent end |
| StatementCache.Put | crates/musq/src/statement_cache.rs:54 | putting keeps the capacity |
| StatementCache.Insert | crates/musq/src/statement_cache.rs:45-57 | `insert` keeps the capacity |
| StatementCache.GetMut | crates/musq/src/statement_cache.rs:38-40 | `get_mut` finds what `contains_key` finds; a miss changes nothing |
| StatementCache.Clear | crates/musq/src/statement_cache.rs:70-72 | `clear` empties the cache and keeps its capacity |
| StatementCache.WithoutDistinct | crates/musq/src/statement_cache.rs:50-51 | removing an entry keeps the keys distinct and the removed key gone |
| StatementCache.PutValid | crates/musq/src/statement_cache.rs:54 | putting a new key keeps keys distinct and the size within capacity |
| StatementCache.InsertValid | crates/musq/src/statement_cache.rs:45-57 | `insert` keeps keys distinct and the size within capacity |
| StatementCache.InsertThenPeek | crates/musq/src/statement_cache.rs:45-57 | after `insert` the key is the most recently used, holding the new statement |
| StatementCache.InsertExisting | crates/musq/src/statement_cache.rs:50-51 | inserting a cached key returns the statement it replaces and keeps the size |
| StatementCache.InsertEvictsLru | crates/musq/src/statement_cache.rs:48-49 | inserting a new key into a full cache evicts and returns the least recently used statement |
| StatementCache.InsertAppends | crates/musq/src/statement_cache.rs:45-57 | inserting a new key into a cache with room appends it and returns nothing |
| StatementCache.InsertThenGetMut | crates/musq/src/statement_cache.rs:23-28 | a new key inserted into a cache with room for one is found by `get_mut`, most recently used and holding its value; the cache grows by one unless full |
| StatementCache.GetMutTouches | crates/musq/src/statement_cache.rs:38-40 | `get_mut` on a cached key makes it the most recently used and keeps the size |
| StatementCache.Rewound | crates/musq/src/sqlite/statement/compound.rs:132-134 | a reset statement has no index and keeps its compiled statements and tail |
| StatementCache.GetAsWritten | crates/musq/src/statement_cache.rs:22-34 | `get` as written keeps the cache's capacity |
| StatementCache.Get | crates/musq/src/statement_cache.rs:22-34 | `get` with the capacity-0 panic corrected always hands back a statement or an error, keeps the cache valid, and agrees with `get` as written wherever that does not panic |
| StatementCache.GetMiss | crates/musq/src/statement_cache.rs:23-28 | a new query is compiled and cached, growing the cache unless full; a query too long fails and changes nothing |
| StatementCache.GetHit | crates/musq/src/statement_cache.rs:28-33 | a cached query is returned reset, without compiling, and the size is unchanged; a reset failure is returned |
| StatementCache.GetTwiceSameStatement | crates/musq/src/statement_cache.rs:116-132 | asking twice for the same query returns the same statement, rewound, and does not grow the cache |
| StatementCache.GetAtCapacityZero | crates/musq/src/statement_cache.rs:25-28 | with capacity 0 the freshly inserted statement is evicted at once and `get_mut` finds nothing, so the source's `unwrap` panics on every query that parses |
| Query.New | crates/musq/src/query.rs:488-494 | `query` keeps the SQL, starts with empty arguments and is untainted |
| Query.With | crates/musq/src/query.rs:497-503 | `query_with` keeps the SQL and the given arguments and is untainted |
| Query.FromStatement | crates/musq/src/query.rs:470-485 | a query made from a prepared statement reads the statement's SQL, with the given or empty arguments |
| Query.Sql | crates/musq/src/query.rs:222-228 | the SQL executed is the query's own text, or the SQL of the prepared statement it holds |
| Query.TryBind | crates/musq/src/query.rs:252-258 | `try_bind` appends the encoded value to the arguments and changes nothing else; a failed encoding is `Error::Encode`; a query without arguments is unchanged |
| Query.TryBindNamed | crates/musq/src/query.rs:268-280 | `try_bind_named` on a query with arguments stores a value that encoded under the name stripped of its leading `:@$?`, and reports an encoding failure as `Error::Encode`; a query without arguments is unchanged |
| Query.BindAll | crates/musq/src/query.rs:252-258 | binding values one after another into a new query gives exactly those values in order, and keeps the SQL untainted |
| Query.Escape | crates/musq/src/query.rs:585 | every `"` is doubled; nothing is dropped |
| Query.QuoteIdentifier | crates/musq/src/query.rs:584-587 | the quoted identifier starts and ends with `"` |
| Query.UnescapeEscape | crates/musq/src/query.rs:585 | un-doubling the quotes gives back the original text |
| Query.EscapeUnescape | crates/musq/src/query.rs:585 | every text that un-doubles is the escape of what it un-doubles to |
| Query.UnquoteQuote | crates/musq/src/query.rs:584-587 | unquoting a quoted identifier gives back the identifier, so quoting is injective |
| Query.QuoteUnquote | crates/musq/src/query.rs:584-587 | every quoted text that reads back is the quoting of what it reads as |
| Query.EscapeAppend | crates/musq/src/query.rs:585 | escaping works character by character: it distributes over concatenation |
| Query.EscapeNoQuote | crates/musq/src/query.rs:585 | a text without `"` is left as is |
| Query.MapFetchOptional | crates/musq/src/query.rs:455-468 | a mapped `fetch_optional`: the fetch's error, None for no row, or the mapper's outcome on the row |
| Query.MapFetchOne | crates/musq/src/query.rs:444-452 | a mapped `fetch_one`: the mapped optional row, with no row turned into RowNotFound |
| Query.MapFetchOneNotFound | crates/musq/src/query.rs:444-468 | RowNotFound from a mapped `fetch_one` means no row, a RowNotFound from the fetch, or one from the mapper |
| Expr.Placeholders | crates/musq/src/expr.rs:69-80 | the number of anonymous `?` placeholders in a SQL text, at most its length |
| Expr.FromQuery | crates/musq/src/expr.rs:40-53 | an expression from a query keeps its SQL, its taint and its arguments (empty when it had none) |
| Expr.NowRfc3339Utc | crates/musq/src/expr.rs:58-64 | the current-time expression binds nothing and is untainted |
| Expr.Jsonb | crates/musq/src/expr.rs:69-80 | `jsonb` binds exactly the JSON text, untyped, and is untainted |
| Expr.JsonbText | crates/musq/src/expr.rs:85-87 | `jsonb_text` is `jsonb` |
| Expr.Raw | crates/musq/src/expr.rs:113-119 | `raw` keeps the SQL, binds nothing and is tainted |
| Expr.NowSelfContained | crates/musq/src/expr.rs:58-64 | the current-time SQL has no placeholder, matching its empty arguments |
| Expr.JsonbSelfContained | crates/musq/src/expr.rs:69-87 | `jsonb(?)` has one placeholder for its one bound value |
| Expr.PlaceholdersAppend | crates/musq/src/expr.rs:1-8 | placeholders of concatenated SQL add up, so embedding keeps the count |
| Expr.RawTaintedRegardless | crates/musq/src/expr.rs:125-128 | raw SQL is tainted even when it is self-contained |
| Expr.FromBoundQuery | crates/musq/src/expr.rs:40-53 | a query with values bound turns into the expression with the same SQL and those values, untainted |
| OrderedMap.Empty | crates/musq/src/values.rs:54-57 | a new collection is well formed, with no keys and no entries |
| OrderedMap.Put | crates/musq/src/values.rs:61-68 | inserting an existing key keeps its position, a new key is appended, the key now maps to the new entry and every other key is unchanged |
| OrderedMap.Extend | crates/musq/src/values.rs:104-115 | the extended collection is well formed, and the keys are the original keys followed by the other collection's keys not already present, in their order |
| OrderedMap.ExtendLookup | crates/musq/src/values.rs:104-115 | after extending, a key of the other collection maps to the other collection's entry and every other key keeps its old entry |
| OrderedMap.ExtendFromKeys | crates/musq/src/values.rs:109-115 | extending by a sequence of keys appends exactly the keys not yet present, once each, in order |
| OrderedMap.ExtendFromLookup | crates/musq/src/values.rs:109-115 | extending by a sequence of keys overwrites exactly those keys |
| OrderedMap.ExtendByEmpty | crates/musq/src/values.rs:174-188 | extending by an empty collection changes nothing |
| OrderedMap.ExtendEmpty | crates/musq/src/values.rs:191-205 | extending an empty collection yields the other collection itself |
| OrderedMap.SameEntries | crates/musq/src/values.rs:51 | two well-formed collections with the same keys in the same order and the same entries are equal |
| Values.EncodedEntry | crates/musq/src/values.rs:20-29 | an encodable value becomes a bound entry, and an encoding failure becomes an Encode error |
| Values.QueryEntry | crates/musq/src/values.rs:37-41 | a query becomes an expression fragment with the query's SQL and its taint |
| Values.Insert | crates/musq/src/values.rs:61-68 | a failed conversion leaves the collection unchanged and returns the error; otherwise the key maps to the entry, keeping its position (length unchanged) or appended (length plus one) |
| Values.Val | crates/musq/src/values.rs:72-79 | the chaining form succeeds exactly when the conversion does and returns the collection insert produces |
| Values.Extend | crates/musq/src/values.rs:106-115 | existing keys keep their places, the new keys of the other collection follow in its order, and every key of the other collection takes its entry from there |
| Values.ExtendOverwritesInPlace | crates/musq/src/values.rs:145-171 | extending keys id, name, status by status, email gives four keys id, name, status, email, with status holding the new entry |
| QueryBuilder.New | crates/musq/src/query_builder.rs:23-29 | a new builder is well formed, with no SQL, no arguments and no taint |
| QueryBuilder.FromQuery | crates/musq/src/query_builder.rs:32-37 | the builder takes the query's SQL, its taint, and its arguments or empty ones when it has none |
| QueryBuilder.IntoBuilder | crates/musq/src/query.rs:240-245 | turning a query into a builder is the same as building from the query |
| QueryBuilder.PushSql | crates/musq/src/query_builder.rs:40-42 | the fragment is appended and nothing else changes |
| QueryBuilder.PushRaw | crates/musq/src/query_builder.rs:45-48 | the fragment is appended and the builder is tainted |
| QueryBuilder.PushCharsEscapes | crates/musq/src/query_builder.rs:53-58 | the character loop appends the identifier with each double quote doubled |
| QueryBuilder.PushIdentifier | crates/musq/src/query_builder.rs:51-60 | the identifier is appended quoted as an SQLite identifier, arguments and taint unchanged |
| QueryBuilder.Quoted | crates/musq/src/query_builder.rs:63-75 | each identifier of the list is quoted, in order |
| QueryBuilder.PushIdents | crates/musq/src/query_builder.rs:63-75 | pushing a list of identifiers leaves arguments and taint unchanged |
| QueryBuilder.PushIdentsJoins | crates/musq/src/query_builder.rs:63-75 | the appended text is the quoted identifiers joined by a comma and a space |
| QueryBuilder.PushBind | crates/musq/src/query_builder.rs:78-81 | a `?` is appended; the value is bound when it encodes, and an encoding failure is dropped, leaving the arguments unchanged |
| QueryBuilder.PushBindNamed | crates/musq/src/query_builder.rs:84-88 | `:` and the name are appended; an encoded value is registered under the name stripped of its prefix, and a failure leaves the arguments unchanged |
| QueryBuilder.PushValues | crates/musq/src/query_builder.rs:91-103 | pushing values keeps the taint and the named table, and keeps the builder well formed |
| QueryBuilder.Marks | crates/musq/src/query_builder.rs:96-102 | one `?` per value |
| QueryBuilder.PushValuesSql | crates/musq/src/query_builder.rs:91-103 | the appended text is one `?` per value joined by a comma and a space |
| QueryBuilder.PushValuesArgs | crates/musq/src/query_builder.rs:91-103 | the values that encode are bound in order and the failures are skipped |
| QueryBuilder.Build | crates/musq/src/query_builder.rs:106-110 | the query has the builder's SQL, arguments and taint |
| QueryBuilder.FromQueryBuild | crates/musq/src/query_builder.rs:32-37 | building and then turning back into a builder returns the same builder |
| QueryBuilder.BuildFromQuery | crates/musq/src/query_builder.rs:106-110 | a query with SQL text and arguments survives the trip through a builder unchanged |
| QueryBuilder.Apply | crates/musq/src/query_builder.rs:40-103 | every builder call keeps the builder well formed and taints it exactly when it is `push_raw` or it was already tainted |
| QueryBuilder.RunTaint | crates/musq/src/query_builder.rs:45-48 | after a sequence of calls the builder is tainted exactly when it started tainted or one call was `push_raw` |
| QueryBuilder.BuiltTaint | crates/musq/src/query_builder.rs:106-110 | a query built from a fresh builder is tainted exactly when some call was `push_raw` |
| InsertBuilder.New | crates/musq/src/insert_builder.rs:16-22 | the builder holds the quoted table name, no columns and empty arguments |
| InsertBuilder.Value | crates/musq/src/insert_builder.rs:26-30 | the quoted column is appended; the value is bound when it encodes and an encoding failure is dropped |
| InsertBuilder.Build | crates/musq/src/insert_builder.rs:33-47 | with no columns the result is the Protocol error "Insert query has no values"; otherwise an untainted query carrying the collected arguments |
| InsertBuilder.ValuesColumns | crates/musq/src/insert_builder.rs:26-30 | a sequence of `value` calls collects the quoted columns in call order |
| InsertBuilder.ValuesArguments | crates/musq/src/insert_builder.rs:26-30 | a sequence of `value` calls binds the values that encode, in order, with no named parameters |
| InsertBuilder.InsertShape | crates/musq/src/insert_builder.rs:33-47 | the statement is `INSERT INTO` the quoted table, the quoted columns joined by `, `, and one `?` per column, with the encodable values as its arguments |
| InsertBuilder.MarksPlaceholders | crates/musq/src/insert_builder.rs:38-41 | the generated list holds exactly one placeholder per column |
| InsertBuilder.NoColumnsRefused | crates/musq/src/insert_builder.rs:34-36 | an insert with no values is refused |
| Config.LockingModeStr | crates/musq/src/musq.rs:17-26 | each locking mode renders as a non-empty upper-case keyword, usable unquoted as a pragma value |
| Config.JournalModeStr | crates/musq/src/musq.rs:28-41 | each journal mode renders as a non-empty upper-case keyword, usable unquoted as a pragma value |
| Config.AutoVacuumStr | crates/musq/src/musq.rs:43-50 | each auto-vacuum mode renders as a non-empty upper-case keyword, usable unquoted as a pragma value |
| Config.SynchronousStr | crates/musq/src/musq.rs:52-63 | each synchronous mode renders as a non-empty upper-case keyword, usable unquoted as a pragma value |
| Config.ModeStrings | crates/musq/src/musq.rs:17-63 | the locking, auto-vacuum and synchronous modes have distinct SQL names, and the defaults are NORMAL, NONE and FULL |
| Config.JournalModeStrings | crates/musq/src/musq.rs:28-41 | the journal modes have distinct SQL names and the default is WAL |
| Config.InitialPragmas | crates/musq/src/musq.rs:112-149 | the pragma map starts with page_size, locking_mode, journal_mode, foreign_keys, synchronous, auto_vacuum, analysis_limit in that order, all unset except foreign_keys = ON |
| Config.New | crates/musq/src/musq.rs:111-166 | the defaults: `:memory:`, every open flag off, a 5 second busy timeout, the default statement cache capacity, ten pooled connections, no VFS |
| Config.Pragma | crates/musq/src/musq.rs:303-306 | the key is set to the value, in place when present and appended otherwise; every other pragma and option is unchanged |
| Config.ForeignKeys | crates/musq/src/musq.rs:194-196 | foreign_keys is set to ON or OFF and nothing else changes |
| Config.WithJournalMode | crates/musq/src/musq.rs:229-231 | journal_mode is set to the mode's name and nothing else changes |
| Config.WithLockingMode | crates/musq/src/musq.rs:237-239 | locking_mode is set to the mode's name and nothing else changes |
| Config.WithSynchronous | crates/musq/src/musq.rs:274-276 | synchronous is set to the mode's name and nothing else changes |
| Config.WithAutoVacuum | crates/musq/src/musq.rs:285-287 | auto_vacuum is set to the mode's name and nothing else changes |
| Config.PageSize | crates/musq/src/musq.rs:297-299 | page_size is set to the size in decimal and nothing else changes |
| Config.AnalysisLimit | crates/musq/src/musq.rs:443-449 | a limit sets analysis_limit to its decimal form; no limit resets it to unset; nothing else changes |
| Config.OptimizeOnCloseSet | crates/musq/src/musq.rs:420-432 | optimize-on-close is enabled exactly when asked, keeping the limit only then, and nothing else changes |
| Config.InMemory | crates/musq/src/musq.rs:177-180 | the in-memory flag takes the given value and nothing else changes |
| Config.Filename | crates/musq/src/musq.rs:182-187 | the database file name is replaced and nothing else changes |
| Config.SetPairsMeaning | crates/musq/src/musq.rs:464-472 | a (key, value) pair is rendered exactly when the key is in the map and set to that value |
| Config.Rendered | crates/musq/src/musq.rs:464-472 | a pragma is rendered exactly when it is set, with its value |
| Config.PragmaString | crates/musq/src/musq.rs:464-472 | the rendered pragma statements are empty exactly when no pragma is set |
| Config.InitialShape | crates/musq/src/musq.rs:112-149 | the initial keys are three unset pragmas, foreign_keys = ON, then three unset pragmas |
| Config.NewRenders | crates/musq/src/musq.rs:464-472 | the default configuration renders as the single statement `PRAGMA foreign_keys = ON; ` |
| Config.SettersShape | crates/musq/src/musq.rs:117-136 | setting page size, locking mode and journal mode overwrites those entries in place and adds no key |
| Config.ApplySetter | crates/musq/src/musq.rs:229-299 | a page-size, locking-mode or journal-mode call sets its pragma to the call's value, keeps the key order when the pragma is already listed, and changes no other pragma or option |
| Config.ApplySettersMeaning | crates/musq/src/musq.rs:303-306 | after any sequence of such calls the keys stay where they were, and each pragma holds the value of the last call that set it, or its old entry when no call did |
| Config.SettersEntries | crates/musq/src/musq.rs:112-149 | after any sequence of such calls on the defaults, the keys are the initial ones, the three set pragmas hold their last calls' values, foreign_keys is ON and every other pragma keeps its default |
| Config.SettersRenderInOrder | crates/musq/src/musq.rs:112-149 | for every sequence of page-size, locking-mode and journal-mode calls on the defaults, in any order and with repeats, the three render in map order before foreign_keys, each with the value of its last call; a pragma no call set is left out |
| Config.AnalysisLimitNoneOmitted | crates/musq/src/musq.rs:443-449 | after resetting the analysis limit, no analysis_limit statement is rendered |
| Config.ForeignKeysRendered | crates/musq/src/musq.rs:194-196 | after setting foreign keys, the matching ON or OFF statement is rendered |
| Establish.Or9Bits | crates/musq/src/sqlite/connection/establish.rs:49-86 | each open flag's bit, at SQLite's constant value, is set in the combined integer exactly when that flag is chosen |
| Establish.BitsMembership | crates/musq/src/sqlite/connection/establish.rs:49-86 | a flag's bit is set in the integer exactly when the flag is in the chosen set |
| Establish.QueryParams | crates/musq/src/sqlite/connection/establish.rs:73-81 | at most two URI parameters, and none exactly when the database is neither immutable nor given a VFS |
| Establish.Flags | crates/musq/src/sqlite/connection/establish.rs:49-86 | FULLMUTEX when serialized else NOMUTEX; READONLY when read-only, else READWRITE, with CREATE when create-if-missing; MEMORY when in memory; SHAREDCACHE or PRIVATECACHE; URI exactly when there are query parameters |
| Establish.FlagsConsistent | crates/musq/src/sqlite/connection/establish.rs:49-71 | exactly one of the two mutex flags and one of the two cache flags is set, and CREATE comes only with READWRITE |
| Establish.UriFilename | crates/musq/src/sqlite/connection/establish.rs:83-86 | without parameters the name is kept; with parameters it becomes `file:` name `?` parameters |
| Establish.FromOptions | crates/musq/src/sqlite/connection/establish.rs:33-103 | a non-UTF-8 filename and a filename containing NUL are the two InvalidData errors; otherwise the parameters carry the filename, the flag integer, the busy timeout, cache capacity and command channel size |
| Establish.PlainPathKept | crates/musq/src/sqlite/connection/establish.rs:83-86 | a plain UTF-8 path without NUL, no immutable flag and no VFS is opened as given, without the URI flag |
| Establish.UriWithParams | crates/musq/src/sqlite/connection/establish.rs:83-86 | the URI flag is set exactly when the database is immutable or has a VFS, and then the name starts with `file:` |
| Establish.MutexBits | crates/musq/src/sqlite/connection/establish.rs:49-53 | the FULLMUTEX bit is set exactly when serialized, the NOMUTEX bit exactly when not |
| Establish.BusyTimeoutArg | crates/musq/src/sqlite/connection/establish.rs:141-144 | the timeout passed to SQLite is the configured one or `i32::MAX`, never more than either |
| Establish.BusyTimeoutClamp | crates/musq/src/sqlite/connection/establish.rs:141-144 | timeouts that fit are kept, larger ones clamp to `i32::MAX`, and the conversion is monotone |
| Establish.Establish | crates/musq/src/sqlite/connection/establish.rs:111-155 | a missing handle is the OutOfMemory error, then an open failure, then a busy-timeout failure; otherwise a fresh state at depth 0 with an empty cache of the configured capacity |
| Establish.OpenFromOptions | crates/musq/src/sqlite/connection/establish.rs:111-155 | parameters built from valid options open to a state with an empty statement cache and the clamped busy timeout |
| Establish.DefaultFlags | crates/musq/src/sqlite/connection/establish.rs:49-71 | the default configuration opens with NOMUTEX, READWRITE and PRIVATECACHE only |
| Pool.New | crates/musq/src/pool/inner.rs:50-60 | a maximum of 0 is refused, as `ArrayQueue::new` panics at capacity 0; any other maximum gives a pool with nothing open, no idle connection, every permit free, and open; the accounting holds |
| Pool.TakePermit | crates/musq/src/pool/inner.rs:124-134 | a permit is obtained exactly when one is free, and moves from the semaphore to the caller |
| Pool.DropPermit | crates/musq/src/pool/inner.rs:137-145 | a held permit dropped goes back to the semaphore and nothing else changes |
| Pool.DropGuard | crates/musq/src/pool/inner.rs:311-320 | a cancelled guard changes nothing; an uncancelled one lowers the size by one and returns its permit |
| Pool.PopIdle | crates/musq/src/pool/inner.rs:148-158 | with an idle connection, the front one is taken, the idle count drops and the permit passes to its guard; otherwise nothing changes |
| Pool.TryIncrementSize | crates/musq/src/pool/inner.rs:178-197 | the size grows by one exactly when the pool is open and below its maximum, the permit passing to the new guard; otherwise nothing changes |
| Pool.Release | crates/musq/src/pool/inner.rs:161-175 | the connection goes to the back of the idle queue, the idle count grows, the permit returns and the size is unchanged |
| Pool.TryAcquire | crates/musq/src/pool/inner.rs:137-145 | a connection is returned exactly when the pool is open, a permit is free and a connection is idle: the front one; otherwise nothing changes |
| Pool.PoolTryAcquire | crates/musq/src/pool/mod.rs:114-116 | the same condition, and the connection is then checked out with its permit |
| Pool.AcquireOpen | crates/musq/src/pool/inner.rs:200-203 | acquiring from a closed pool fails with PoolClosed |
| Pool.AcquireAttempt | crates/musq/src/pool/inner.rs:213-236 | with a permit: an idle connection when there is one; else a new connection slot when open and below the maximum; else the permit is returned for a retry |
| Pool.Connect | crates/musq/src/pool/inner.rs:245-263 | a closed pool refuses; a connection is made exactly when open and the engine connects; a failure drops the guard, lowering the size and returning the permit |
| Pool.Reattach | crates/musq/src/pool/connection.rs:141-151 | a floating connection becomes checked out; size, permits and idle queue are unchanged |
| Pool.Float | crates/musq/src/pool/connection.rs:106-111 | a checked-out connection becomes floating; size, permits and idle queue are unchanged |
| Pool.Close | crates/musq/src/pool/inner.rs:89-108 | after `close` the pool is closed with no idle connection, only the floating and checked-out connections still count towards its size, no permit is created, and with none of them close finishes without waiting |
| Pool.CloseAsWritten | crates/musq/src/pool/inner.rs:89-108 | as the code is written, closing the idle connections lowers the size by their number but adds one permit for each, and `num_idle` keeps its old value |
| Pool.ReturnToPool | crates/musq/src/pool/connection.rs:160-168 | on a closed pool the connection is closed (size down, permit back) and the answer is false; otherwise it is queued as idle and the answer is true |
| Pool.ReturnLive | crates/musq/src/pool/connection.rs:77-92 | nothing happens when no connection is held; otherwise it leaves the checked-out count and is closed or queued as above |
| Pool.MarkClosed | crates/musq/src/pool/inner.rs:83-86 | the pool is closed and every counter is unchanged |
| Pool.CloseIdleAsWritten | crates/musq/src/pool/inner.rs:93-95 | closing an idle connection as written lowers the size and adds a permit, but leaves the idle counter unchanged |
| Pool.CloseIdle | crates/musq/src/pool/inner.rs:93-95 | closing an idle connection with the accounting kept: one fewer open and idle connection, no new permit |
| Pool.DrainIdleAsWritten | crates/musq/src/pool/inner.rs:93-95 | draining as written adds one permit per idle connection closed |
| Pool.DrainIdle | crates/musq/src/pool/inner.rs:93-95 | draining with the accounting kept empties the queue, lowers the size by the queue length and keeps the permits |
| Pool.Rounds | crates/musq/src/pool/inner.rs:92-107 | the waiting rounds of `close` leave the state as it is |
| Pool.RoundsWait | crates/musq/src/pool/inner.rs:92-107 | with no idle connection and one checked out, some round waits for permits |
| Pool.RoundsFinish | crates/musq/src/pool/inner.rs:92-107 | with every permit free, all rounds finish without waiting |
| Pool.CloseWaitsForCheckedOut | crates/musq/src/pool/mod.rs:140-156 | with the accounting kept, `close` waits while any connection is checked out |
| Pool.CloseAsWrittenFinishesEarly | crates/musq/src/pool/inner.rs:89-108 | as written, a pool with at least as many idle as checked-out connections finishes closing while those connections are still open |
| Pool.RunKeepsAccounting | crates/musq/src/pool/inner.rs:29-60 | every sequence of transitions from a pool whose accounting holds, a new pool included, keeps the accounting, with the size and the idle queue never above the maximum |
| Pool.StepKeeps | crates/musq/src/pool/inner.rs:29-46 | every single transition keeps the accounting and the maximum |
| MacroFormat.EnsureNonEmpty | crates/musq-macros/src/sql.rs:11-22 | the check fails, with "empty list", exactly when the expression is an empty array or `vec![]`, seen through any number of references |
| MacroFormat.EnsureNonEmptyThroughReferences | crates/musq-macros/src/sql.rs:16 | wrapping an expression in references does not change the verdict |
| MacroFormat.Find | crates/musq-macros/src/sql.rs:216 | the position found is the first occurrence of the character, and there is none exactly when the character is absent |
| MacroFormat.Split | crates/musq-macros/src/sql.rs:216-221 | without a colon the placeholder is its trimmed text with no expression; with one there is an expression |
| MacroFormat.KindSegment | crates/musq-macros/src/sql.rs:235-271 | an expression that does not parse is a syntax error; `where` takes any expression; the list kinds refuse an empty literal list with "empty list" |
| MacroFormat.Placeholder | crates/musq-macros/src/sql.rs:216-272 | `{}` is positional; a bare kind keyword is "malformed placeholder"; any other bare name is named; an unknown kind before a colon is malformed; a known kind is handed to its parser; a placeholder never yields literal text |
| MacroFormat.Flush | crates/musq-macros/src/sql.rs:197-200 | pending literal text becomes a segment only when it is not empty |
| MacroFormat.OpenStep | crates/musq-macros/src/sql.rs:191-272 | an opening brace without a closing one is "unmatched `{`"; otherwise the pending text is flushed and one placeholder segment is added |
| MacroFormat.Step | crates/musq-macros/src/sql.rs:189-286 | each character either extends the pending literal text or completes one placeholder segment after the flushed text, and only errors stop the scan |
| MacroFormat.FlushCanonical | crates/musq-macros/src/sql.rs:288-291 | flushing at the end leaves no empty literal and no two literals in a row |
| MacroFormat.ScanCanonical | crates/musq-macros/src/sql.rs:185-292 | the scan produces segments with no empty literal and no two literals in a row |
| MacroFormat.ParseFmt | crates/musq-macros/src/sql.rs:185-292 | a successful parse has no empty literal and no two adjacent literals, and the empty format parses to no segments |
| MacroFormat.ScanEscaped | crates/musq-macros/src/sql.rs:191-285 | doubled braces are read as single literal braces |
| MacroFormat.ScanPlaceholder | crates/musq-macros/src/sql.rs:191-272 | a placeholder in braces flushes the pending text and adds the placeholder's segment |
| MacroFormat.PlaceholderReadsBack | crates/musq-macros/src/sql.rs:216-234 | the placeholder reader gives back `{}` as positional and `{name}`, for a plain name that is not a kind keyword, as that name |
| MacroFormat.ScanRender | crates/musq-macros/src/sql.rs:185-292 | scanning the text written from well-formed segments gives back those segments after the pending text |
| MacroFormat.ParseRendered | crates/musq-macros/src/sql.rs:185-292 | writing well-formed segments out as a format string and parsing it gives the same segments |
| MacroFormat.ParseEscaped | crates/musq-macros/src/sql.rs:185-292 | a text with its braces doubled parses to that text as one literal |
| MacroFormat.UnmatchedClose | crates/musq-macros/src/sql.rs:274-284 | a lone closing brace is "unmatched `}`" |
| MacroFormat.UnmatchedOpen | crates/musq-macros/src/sql.rs:201-215 | an opening brace never closed is "unmatched `{`" |
| MacroFormat.ColumnName | crates/musq-macros/src/sql.rs:96-158 | an excluded column is an identifier or one of the eighteen accepted keywords, nothing else |
| MacroFormat.ExcludeList | crates/musq-macros/src/sql.rs:95-170 | a non-empty exclude list names at least one column and consumes at least one token |
| MacroFormat.ParseUpsert | crates/musq-macros/src/sql.rs:82-182 | no tail keeps the values with no exclusions; an identifier other than `exclude` is "expected `exclude`"; `exclude:` with nothing after it is refused; a result always keeps the values expression |
| MacroFormat.ExcludeListOfTokens | crates/musq-macros/src/sql.rs:95-170 | a comma-separated list of column tokens, with or without a trailing comma, reads back as their names |
| MacroFormat.UpsertExcludeRoundTrip | crates/musq-macros/src/sql.rs:82-182 | `values, exclude: a, b, ...` parses to the values and exactly those column names |
| MacroExpand.Positionals | crates/musq-macros/src/sql.rs:299-308 | the positional arguments are collected from the argument list, never more than it holds |
| MacroExpand.NamedMapLastWins | crates/musq-macros/src/sql.rs:304-306 | a later named argument with the same name replaces an earlier one |
| MacroExpand.NamedMapIgnoresPositional | crates/musq-macros/src/sql.rs:303 | positional arguments do not enter the named table |
| MacroExpand.FixedCall | crates/musq-macros/src/sql.rs:333-346 | segments other than placeholders never bind a value |
| MacroExpand.Emit | crates/musq-macros/src/sql.rs:309-347 | emission fails with "missing positional argument" exactly when the segments need more positional arguments than remain; otherwise one call per segment, consuming one argument per positional placeholder |
| MacroExpand.EmitUnusedNamed | crates/musq-macros/src/sql.rs:323-331 | the named arguments left over are exactly those no named placeholder mentions |
| MacroExpand.EmitBinds | crates/musq-macros/src/sql.rs:314-322 | the positional arguments are bound in order, one per positional placeholder |
| MacroExpand.EmitCalls | crates/musq-macros/src/sql.rs:311-346 | call i binds the next positional argument for a positional placeholder, binds the named argument or the same-named variable for a named one, and is the segment's fixed call otherwise |
| MacroExpand.BuildSql | crates/musq-macros/src/sql.rs:294-374 | expansion succeeds exactly when the positional placeholders match the positional arguments in number and every named argument is used; otherwise missing positional, unused positional, then unused named, in that order |
| MacroExpand.Expand | crates/musq-macros/src/sql.rs:376-383 | a format-string error is reported as such; otherwise the result is the expansion of the parsed segments |
| MacroExpand.ExpandParsed | crates/musq-macros/src/sql.rs:376-383 | expanding a format string is expanding its parsed segments |
| MacroExpand.BuildPositional | crates/musq-macros/src/sql.rs:294-374 | with as many positional arguments as placeholders and no named ones, expansion succeeds and binds them in order |
| MacroExpand.ExpandPositional | crates/musq-macros/src/sql.rs:376-391 | a format string written from well-formed segments with only positional placeholders expands with the arguments bound in order, and `sql_as!` maps rows |
| MacroExpand.AllPositional | crates/musq-macros/src/sql.rs:299-308 | an argument list of only positional expressions yields those expressions and an empty named table |
| Derive.Rename | crates/musq-macros/src/core.rs:45-58 | `Verbatim` keeps the name; lower- and upper-casing keep its length and leave no letter of the other case; the other rules are the word-splitting conversions |
| Derive.CaseMapsAgree | crates/musq-macros/src/core.rs:47-50 | over ASCII, lower- and upper-casing are idempotent, and each applied after the other equals applying it alone |
| Derive.CheckRowFieldAttrs | crates/musq-macros/src/core.rs:99-115 | a field passes exactly when it is not flattened or carries none of skip, try_from, prefix and rename; the first conflict in that order is the error |
| Derive.CheckRowAttrs | crates/musq-macros/src/core.rs:117-124 | a struct passes exactly when every field does, and the error is the first failing field's |
| Derive.CheckReprEnumAttrs | crates/musq-macros/src/core.rs:157-162 | the check fails, with "repr attribute is required", exactly when no repr is given |
| Derive.StructShape | crates/musq-macros/src/core.rs:174-186 | zero fields, then more than one named field, then anything but one unnamed field are refused with their messages; otherwise the first field is used |
| Derive.ExpandTypeDerive | crates/musq-macros/src/core.rs:166-196 | a struct goes to the struct expander exactly when it passes the shape checks; an enum goes to the repr expander exactly when it has a repr, otherwise to the plain enum expander |
| Derive.UniformCounts | crates/musq-macros/src/core.rs:179-180 | in a struct whose fields are all named or all positional, one count is the number of fields and the other zero |
| Derive.StructShapeNewtype | crates/musq-macros/src/core.rs:174-186 | a struct passes the shape checks exactly when it has a single positional field |
| Derive.OneNamedField | crates/musq-macros/src/tests/decode.rs:31-36 | a struct with one named field is refused for lacking the unnamed field |

## Left out

- Threads, async tasks and channels: the worker and pool are modelled as sequential transitions. Waiting, wake-ups, fairness and cancellation are not modelled; the `acquire` timeout is the `PoolTimedOut` outcome of `Connect`.
- Every SQLite (FFI) call enters as its outcome: open, prepare, step, reset, bind, busy timeout, `changes` and `last_insert_rowid`.
- `changes` is an input of the execute iterator. Whether a read-only statement after a write reports 0 is therefore left open.
- Floating point (`Value::double`, `f32`/`f64` codecs), time types, JSON (serde) encoding and the logger are not modelled, because they are formatting or foreign code.
- The worker thread naming callback, the log settings and the channel buffer sizes are carried as plain data or omitted, because they do not affect the logic.
- `DEFAULT_MAX_RETRIES` is defined in a file that is not part of this model, so it is a parameter of `Step.Step`.
- The inner reset loop of `StatementHandle::step` has no bound in the source. It terminates in the model because the oracle of engine answers is finite, and running out of answers is an explicit outcome.
- The Shutdown and Prepare worker commands are not modelled; only Begin, Commit, Rollback and Execute are.
- The `hashlink` LRU cache is modelled as a recency list.
- StatementCache.ContainsKey: does not refresh the key's recency, whereas `hashlink`'s `contains_key` does. This cannot be seen through `get` or `insert`: in `get` the `get_mut` that follows refreshes the same key, and `insert` removes an existing key and appends it as the most recent.
- The engine database is a single table of integers, enough to observe what savepoints keep and discard.
- Pool: `Pool::new`'s initial connection check, `close_event` and the semaphore's waiting are not modelled. `close`'s waiting is represented by rounds that either find the permits they need or wait.
- Pool.Connect: a failed connection attempt is reported as `PoolTimedOut`. The engine's own error is not distinguished, because the pool accounting does not depend on it.
- The `heck` case conversions (snake, kebab, camel and so on) are a parameter of `Derive.Rename`.
- Derive.Rename: lower- and upper-casing are ASCII-only in the model, whereas Rust's `to_lowercase`/`to_uppercase` also map non-ASCII letters.
- Derive.CaseMapsAgree: holds for the ASCII case maps of the model only. Under Rust's full Unicode casing it fails: `"ß".to_uppercase()` is `"SS"`, whose lower case is `"ss"`, not `"ß"`.
- Rust syntax (`syn` parsing of expressions and tokens) is the `Syntax` parameter of `MacroFormat`. The code the macros and derive expanders emit is represented by the sequence of builder calls, or by the expander chosen.
- `syn::Ident::new` panicking on a placeholder name that is not a Rust identifier is not modelled.
- The `{where:...}`, `{set:...}`, `{insert:...}` and `{upsert:...}` renderings of `Values` into SQL happen in builder methods that are not part of this model. Only the segment and its expression are modelled.
- Plain option setters of `Musq` (`filename`, `read_only`, `busy_timeout` and the like) are record updates, and only `Config.Filename` and `Config.InMemory` are written out.
- Integer widths: `usize` is 64 bits. The u32 pool size check is written out; counters that cannot overflow in practice (`num_idle`, `args_used`, and the `u64` `QueryResult.changes` summed in `Connection.FoldOk` and `Connection.ExecuteQueryMeaning`) are unbounded.

## Findings

| source | as written | input that shows it | evidently intended | confidence | as-written member | corrected member |
|---|---|---|---|---|---|---|
| crates/musq/src/sqlite/arguments.rs:96-99, 136-144 | a `$NNN` parameter goes through `atoi` with no zero check, so `$0` yields index 0, passes the `n > values.len()` check and reaches `values[n - 1]`, an index underflow that panics | a statement with the parameter `$0`, with any arguments | reject index 0 with a Protocol error, as `parse_question_param` does for `?0` | medium, not executed | Arguments.DollarZeroPanics | Arguments.AgreeUnlessZero |
| crates/musq/src/pool/inner.rs:92-95, 311-319 | `close` floats each idle connection with a fresh `DecrementSizeGuard` that owns no permit. Dropping it adds a permit that the idle connection never held, and `num_idle` is not decremented, so the permit rounds can all succeed while connections are still checked out | a pool with a maximum of two, one idle connection and one checked-out connection, then `close` | `close` waits until every checked-out connection has been returned or closed, as its documentation says | medium, not executed | Pool.CloseAsWrittenFinishesEarly | Pool.CloseWaitsForCheckedOut |
| crates/musq/src/statement_cache.rs:23-28, crates/musq/src/musq.rs:385-388 | `get` inserts a new statement and then unwraps `get_mut`; with `statement_cache_capacity(0)` the LRU evicts the entry as soon as it is inserted, so the `unwrap` panics | a connection configured with statement cache capacity 0, then any query that parses | a cache of capacity 0 caches nothing and `get` hands out the freshly compiled statement | low, not executed | StatementCache.GetAtCapacityZero | StatementCache.Get |

=== FILE: arguments.dfy ===
/** `Arguments` (crates/musq/src/sqlite/arguments.rs): the values bound to a
    statement, the names registered for some of them, and the resolution of
    each host parameter of a prepared statement to a 1-based value index.

    The engine's parameter list (`bind_parameter_count` and
    `bind_parameter_name`) is a sequence whose entry is None for an anonymous
    `?` and the parameter's text otherwise. */
module Arguments {

  import opened Wrappers
  import opened Numeric
  import opened Text
  import opened SqlValue
  import opened CodecErrors
  import Errors
  import SqliteCodes

  type Error = Errors.Error

  /** The values in order, and the 1-based index of each registered name. */
  datatype Arguments = Arguments(values: seq<Value>, named: map<string, nat>)

  /** Every registered name points at a value: `add_named` only ever records
      the index of the value it has just stored. */
  predicate Valid(args: Arguments) {
    forall name :: name in args.named ==> 1 <= args.named[name] <= |args.values|
  }

  const EMPTY: Arguments := Arguments([], map[])

  /* ---------------------------------------------------------------------- */
  /* `parse_question_param`                                                  */

  const INVALID_NUMERIC_PREFIX: string := "invalid numeric SQL parameter: "

  function InvalidNumeric(name: string): (e: Error)
    ensures e.Protocol? && OccursAt(e.protocolMessage, name, |INVALID_NUMERIC_PREFIX|)
  {
    var m := INVALID_NUMERIC_PREFIX + name;
    assert m[|INVALID_NUMERIC_PREFIX|..|INVALID_NUMERIC_PREFIX| + |name|] == name;
    Errors.Protocol(m)
  }

  /** `parse_question_param`: exactly one `?`, then a decimal numeral with no
      leading zero that fits in a `usize`. */
  function ParseQuestionParam(name: string): (r: Result<Usize, Error>)
    ensures r.Ok? <==> |name| >= 2 && name[0] == '?' && AllDigits(name[1..]) && name[1] != '0'
                       && DigitsValue(name[1..]) <= USIZE_MAX
    ensures r.Ok? ==> r.value == DigitsValue(name[1..]) && r.value >= 1
    ensures r.Err? ==> r.error == InvalidNumeric(name)
  {
    if |name| == 0 || name[0] != '?' || (|name| > 1 && name[1] == '?') then Err(InvalidNumeric(name))
    else
      var rest := name[1..];
      if |rest| == 0 || rest[0] == '0' || !AllDigits(rest) then Err(InvalidNumeric(name))
      else if DigitsValue(rest) > USIZE_MAX then Err(InvalidNumeric(name))
      else
        DigitsValueBound(rest);
        Ok(DigitsValue(rest))
  }

  /** A numeral with no leading zero is the rendering of its own value. */
  lemma {:induction false} DecimalOfDigits(s: string)
    requires |s| >= 1 && AllDigits(s) && s[0] != '0'
    ensures Decimal(DigitsValue(s)) == s
    decreases |s|
  {
    var init := s[..|s| - 1];
    if |s| > 1 {
      assert AllDigits(init) && init[0] == s[0];
      DigitsValueBound(init);
      DecimalOfDigits(init);
      var v := DigitsValue(s);
      assert v / 10 == DigitsValue(init);
      assert v % 10 == DigitValue(s[|s| - 1]);
      assert s == init + [s[|s| - 1]];
    }
  }

  /** The parser accepts exactly the renderings "?N" of the numbers N in
      [1, usize::MAX]: every such name parses to N, a larger N overflows, and
      nothing else parses. */
  lemma {:induction false} ParseQuestionParamExactly(name: string, n: nat)
    ensures 1 <= n <= USIZE_MAX ==> ParseQuestionParam("?" + Decimal(n)) == Ok(n)
    ensures n > USIZE_MAX ==> ParseQuestionParam("?" + Decimal(n)) == Err(InvalidNumeric("?" + Decimal(n)))
    ensures ParseQuestionParam(name).Ok? ==> name == "?" + Decimal(ParseQuestionParam(name).value)
  {
    if n >= 1 {
      var s := "?" + Decimal(n);
      assert s[1..] == Decimal(n);
      DigitsValueOfDecimal(n);
    }
    if ParseQuestionParam(name).Ok? {
      DecimalOfDigits(name[1..]);
      assert name == "?" + name[1..];
    }
  }

  lemma {:induction false} Pow10Monotone(j: nat, k: nat)
    requires j <= k
    ensures Pow10(j) <= Pow10(k)
    decreases k
  {
    if j < k {
      Pow10Monotone(j, k - 1);
    }
  }

  lemma {:induction false} Pow10Add(a: nat, b: nat)
    ensures Pow10(a + b) == Pow10(a) * Pow10(b)
    decreases a
  {
    if a > 0 {
      Pow10Add(a - 1, b);
    }
  }

  /** 10^20 is past `usize::MAX`. */
  lemma Pow10Exceeds()
    ensures Pow10(20) > USIZE_MAX
  {
    assert Pow10(2) == 100;
    Pow10Add(2, 2);
    Pow10Add(4, 4);
    Pow10Add(8, 8);
    Pow10Add(16, 4);
  }

  /** Any numeral of more than twenty digits overflows a `usize` (the
      source's test uses 4096 ones). */
  lemma {:induction false} LongNumeralOverflows(digits: string)
    requires AllDigits(digits) && |digits| > 20 && digits[0] != '0'
    ensures ParseQuestionParam("?" + digits) == Err(InvalidNumeric("?" + digits))
  {
    var name := "?" + digits;
    assert name[1..] == digits;
    DigitsValueBound(digits);
    Pow10Monotone(20, |digits| - 1);
    Pow10Exceeds();
  }

  /** The rejections the source's unit tests list: each message names the
      parameter as given. */
  lemma ParseQuestionParamRejects()
    ensures ParseQuestionParam("?foo") == Err(InvalidNumeric("?foo"))
    ensures ParseQuestionParam("?0") == Err(InvalidNumeric("?0"))
    ensures ParseQuestionParam("?12a") == Err(InvalidNumeric("?12a"))
    ensures ParseQuestionParam("?01") == Err(InvalidNumeric("?01"))
    ensures ParseQuestionParam("??1") == Err(InvalidNumeric("??1"))
    ensures ParseQuestionParam(":1a") == Err(InvalidNumeric(":1a"))
    ensures ParseQuestionParam("@0") == Err(InvalidNumeric("@0"))
  {
    assert !IsAsciiDigit("?12a"[1..][2]);
  }

  /* ---------------------------------------------------------------------- */
  /* `add` and `add_named`                                                   */

  /** `Arguments::add`: the encoded value is appended; a failed encoding
      is reported and leaves the arguments as they were. */
  function Add(args: Arguments, encoded: Result<Value, EncodeError>): (r: Result<Arguments, Error>)
    ensures encoded.Err? ==> r == Err(Errors.Encode(encoded.error))
    ensures encoded.Ok? ==> r.Ok? && r.value.values == args.values + [encoded.value]
    ensures r.Ok? ==> r.value.named == args.named
    ensures Valid(args) && r.Ok? ==> Valid(r.value)
  {
    match encoded
    case Err(e) => Err(Errors.Encode(e))
    case Ok(v) => Ok(Arguments(args.values + [v], args.named))
  }

  /** Every character of `s` is one `add_named` strips: `:`, `@`, `$` or `?`. */
  predicate AllPrefixChars(s: string) {
    forall i :: 0 <= i < |s| ==> s[i] in ":@$?"
  }

  /** `str::trim_start_matches` with the characters `:`, `@`, `$` and `?`. */
  function StripPrefixes(name: string): (r: string)
    ensures |r| <= |name| && r == name[|name| - |r|..]
    ensures r == [] || r[0] !in ":@$?"
    ensures AllPrefixChars(name[..|name| - |r|])
  {
    if name != [] && name[0] in ":@$?" then StripPrefixes(name[1..]) else name
  }

  /** A name that does not start with a prefix character is kept whole. */
  lemma {:induction false} StripPrefixesKeeps(name: string)
    requires name != [] && name[0] !in ":@$?"
    ensures StripPrefixes(name) == name
  {
  }

  /** Storing `v` under `key`: a registered key has its value replaced in
      place; a new key gets a new value at the end. */
  function Register(args: Arguments, key: string, v: Value): (r: Arguments)
    requires Valid(args)
    ensures Valid(r) && key in r.named && r.values[r.named[key] - 1] == v
    ensures key in args.named ==>
      r.named == args.named && |r.values| == |args.values| &&
      forall j :: 0 <= j < |args.values| && j != args.named[key] - 1 ==> r.values[j] == args.values[j]
    ensures key !in args.named ==>
      r.values == args.values + [v] && r.named == args.named[key := |args.values| + 1]
  {
    if key in args.named then
      Arguments(args.values[args.named[key] - 1 := v], args.named)
    else
      Arguments(args.values + [v], args.named[key := |args.values| + 1])
  }

  /** `Arguments::add_named`: the name loses its leading prefix characters
      and the encoded value is registered under what remains; a failed
      encoding is reported and registers nothing. */
  function AddNamed(args: Arguments, name: string, encoded: Result<Value, EncodeError>): (r: Result<Arguments, Error>)
    requires Valid(args)
    ensures encoded.Err? ==> r == Err(Errors.Encode(encoded.error))
    ensures encoded.Ok? ==> r == Ok(Register(args, StripPrefixes(name), encoded.value))
  {
    match encoded
    case Err(e) => Err(Errors.Encode(e))
    case Ok(v) => Ok(Register(args, StripPrefixes(name), v))
  }

  /** Binding the same name twice keeps one slot, and the last value wins,
      whichever prefix each call used. */
  lemma {:induction false} AddNamedLastWins(args: Arguments, n1: string, n2: string, v1: Value, v2: Value)
    requires Valid(args) && StripPrefixes(n1) == StripPrefixes(n2)
    ensures var a1 := AddNamed(args, n1, Ok(v1)).value;
      var a2 := AddNamed(a1, n2, Ok(v2)).value;
      var key := StripPrefixes(n1);
      key in a2.named && a2.values[a2.named[key] - 1] == v2 &&
      |a2.values| == |a1.values| && a2.named == a1.named
  {
  }

  /** Any run of prefix characters in front of a name is dropped, so `:id`,
      `@id`, `$id` and `::id` all register `id`. */
  lemma {:induction false} StripPrefixesOf(prefix: string, key: string)
    requires AllPrefixChars(prefix)
    requires key == [] || key[0] !in ":@$?"
    ensures StripPrefixes(prefix + key) == key
    decreases |prefix|
  {
    if prefix != [] {
      assert (prefix + key)[1..] == prefix[1..] + key;
      StripPrefixesOf(prefix[1..], key);
    } else {
      assert prefix + key == key;
    }
  }

  /* ---------------------------------------------------------------------- */
  /* `bind`                                                                  */

  /** How one host parameter asks for its value. */
  datatype ParamKind =
    | Anonymous               // `?`
    | Numbered(n: nat)        // `?NNN`, or `$` followed by digits
    | Named(key: string)      // `:name`, `@name`, `$name`

  /** `atoi::<usize>`: an optional `+` or `-`, then the value of the leading
      decimal digits; anything after them is ignored. None when neither a
      sign nor a digit is consumed, or when the checked arithmetic fails: an
      overflow, or after `-` any non-zero digit, since the value is built by
      checked subtraction from zero. */
  function Atoi(s: string): (r: Option<nat>)
    ensures r.Some? ==> r.value <= USIZE_MAX
    ensures s == [] || (s[0] !in "+-" && !IsAsciiDigit(s[0])) ==> r.None?
    ensures |s| > 0 && IsAsciiDigit(s[0]) ==>
      (r.Some? <==> DigitsValue(s[..LeadingDigits(s)]) <= USIZE_MAX) &&
      (r.Some? ==> r.value == DigitsValue(s[..LeadingDigits(s)]))
    ensures |s| > 0 && s[0] == '+' ==>
      r == (if LeadingDigits(s[1..]) == 0 then Some(0) else Atoi(s[1..]))
    ensures |s| > 0 && s[0] == '-' ==>
      r == (if DigitsValue(s[1..][..LeadingDigits(s[1..])]) == 0 then Some(0) else None)
  {
    var offset := if |s| > 0 && s[0] in "+-" then 1 else 0;
    var t := s[offset..];
    var k := LeadingDigits(t);
    if offset + k == 0 then None
    else
      var v := DigitsValue(t[..k]);
      if offset == 1 && s[0] == '-' then (if v == 0 then Some(0) else None)
      else if v <= USIZE_MAX then Some(v) else None
  }

  /** The length of the run of ASCII digits at the front of `s`. */
  function LeadingDigits(s: string): (k: nat)
    ensures k <= |s| && AllDigits(s[..k])
    ensures k < |s| ==> !IsAsciiDigit(s[k])
    ensures k == 0 <==> (s == [] || !IsAsciiDigit(s[0]))
  {
    if s != [] && IsAsciiDigit(s[0]) then
      var k := 1 + LeadingDigits(s[1..]);
      assert s[..k] == [s[0]] + s[1..][..k - 1];
      k
    else 0
  }

  /** The classification of `bind`'s first `if` chain, with its two errors. */
  function KindOf(p: Option<string>): (r: Result<ParamKind, Error>)
    ensures p.None? ==> r == Ok(Anonymous)
    ensures r.Ok? && r.value.Anonymous? ==> p.None?
    ensures p.Some? && |p.value| > 0 && p.value[0] in ":@" ==> r == Ok(Named(p.value[1..]))
    ensures p.Some? && |p.value| > 0 && p.value[0] == '?' ==>
      (ParseQuestionParam(p.value).Ok? ==> r == Ok(Numbered(ParseQuestionParam(p.value).value))) &&
      (ParseQuestionParam(p.value).Err? ==> r == Err(ParseQuestionParam(p.value).error))
    ensures p.Some? && |p.value| > 0 && p.value[0] == '$' ==>
      r == Ok(if Atoi(p.value[1..]).Some? then Numbered(Atoi(p.value[1..]).value) else Named(p.value[1..]))
    ensures p.Some? && (|p.value| == 0 || p.value[0] !in "?$:@") ==>
      r == Err(Errors.Protocol("unsupported SQL parameter format: " + p.value))
  {
    match p
    case None => Ok(Anonymous)
    case Some(name) =>
      if |name| > 0 && name[0] == '?' then
        var n :- ParseQuestionParam(name);
        Ok(Numbered(n))
      else if |name| > 0 && name[0] == '$' then
        var rest := name[1..];
        match Atoi(rest)
        case Some(n) => Ok(Numbered(n))
        case None => Ok(Named(rest))
      else if |name| > 0 && (name[0] == ':' || name[0] == '@') then Ok(Named(name[1..]))
      else Err(Errors.Protocol("unsupported SQL parameter format: " + name))
  }

  /** `$` followed by a sign: `$+5` is parameter 5, `$-0` is parameter 0, and `$-5`
      is the name `-5`, as `atoi` reads the sign. */
  lemma SignedDollarParams()
    ensures KindOf(Some("$+5")) == Ok(Numbered(5))
    ensures KindOf(Some("$-0")) == Ok(Numbered(0))
    ensures KindOf(Some("$-5")) == Ok(Named("-5"))
  {
    assert "$+5"[1..] == "+5" && "+5"[1..] == "5";
    assert LeadingDigits("5") == 1;
    assert "5"[..1] == "5";
    assert DigitsValue("5") == 5;
    assert "$-0"[1..] == "-0" && "-0"[1..] == "0";
    assert LeadingDigits("0") == 1 && "0"[..1] == "0";
    assert DigitsValue("0") == 0;
    assert "$-5"[1..] == "-5" && "-5"[1..] == "5";
  }

  /** The largest number in a non-empty finite set. */
  function SetMax(s: set<nat>): (m: nat)
    requires s != {}
    ensures m in s && forall y :: y in s ==> y <= m
  {
    MaxExists(s);
    var m :| m in s && forall y :: y in s ==> y <= m;
    m
  }

  lemma {:induction false} MaxExists(s: set<nat>)
    requires s != {}
    ensures exists m :: m in s && forall y :: y in s ==> y <= m
    decreases |s|
  {
    var x :| x in s;
    var rest := s - {x};
    if rest != {} {
      MaxExists(rest);
      var m :| m in rest && forall y :: y in rest ==> y <= m;
      var top := if x > m then x else m;
      forall y | y in s
        ensures y <= top
      {
        if y != x {
          assert y in rest;
        }
      }
      assert top in s;
    } else {
      assert s == {x};
    }
  }

  /** The position anonymous parameters count from: the offset, raised to the
      largest registered index. */
  function Start(args: Arguments, offset: nat): (s: nat)
    ensures s >= offset
    ensures forall name :: name in args.named ==> args.named[name] <= s
    ensures s == offset || s in args.named.Values
  {
    var vals := args.named.Values;
    if vals == {} then offset
    else
      var m := SetMax(vals);
      assert forall name :: name in args.named ==> args.named[name] in vals;
      if m > offset then m else offset
  }

  /** The three properties above pin the start down: the largest of the
      offset and the registered indices. */
  lemma {:induction false} StartIsLeast(args: Arguments, offset: nat, s: nat)
    requires s >= offset && forall name :: name in args.named ==> args.named[name] <= s
    ensures Start(args, offset) <= s
  {
    var st := Start(args, offset);
    if st != offset {
      var name :| name in args.named && args.named[name] == st;
    }
  }

  /** The kinds of the parameters, in order. */
  function KindsOf(params: seq<Option<string>>): (kinds: seq<Result<ParamKind, Error>>)
    ensures |kinds| == |params| && forall k :: 0 <= k < |params| ==> kinds[k] == KindOf(params[k])
  {
    seq(|params|, k requires 0 <= k < |params| => KindOf(params[k]))
  }

  /** A named parameter whose name was not registered: all its occurrences
      in one statement share a single new position. */
  predicate IsFresh(args: Arguments, k: Result<ParamKind, Error>) {
    k.Ok? && k.value.Named? && k.value.key !in args.named
  }

  /** A numbered parameter takes its own number, and a registered name takes
      the index it was registered with. */
  predicate Pinned(args: Arguments, kind: Result<ParamKind, Error>, index: nat) {
    match kind
    case Ok(Numbered(n)) => index == n
    case Ok(Named(key)) => key in args.named ==> index == args.named[key]
    case _ => true
  }

  const OUT_OF_BOUNDS_PREFIX: string := "bind parameter index out of bounds: the len is "

  function OutOfBounds(len: nat, n: nat): (e: Error)
    ensures e.Protocol?
    ensures var tail := "index is " + Decimal(n); OccursAt(e.protocolMessage, tail, |e.protocolMessage| - |tail|)
  {
    var m := OUT_OF_BOUNDS_PREFIX + Decimal(len) + ", but the index is " + Decimal(n);
    var tail := "index is " + Decimal(n);
    assert m[|m| - |tail|..] == tail;
    Errors.Protocol(m)
  }

  /** What the engine answers when value `n` is bound to parameter `param`
      (numbered from 1, as SQLite numbers them): None when the
      `sqlite3_bind_*` call of `Value::bind` succeeds, otherwise the error
      code it reports. */
  type BindAnswer = (nat, nat) -> Option<SqliteCodes.SqliteError>

  /** What the parameter loop of `bind` gives from parameter `i` on: the
      value indices and the final value of the anonymous-position counter;
      or the error that stops it at parameter `at` (counted from 0 in the
      list), with the value indices of the `sqlite3_bind_*` calls made before
      it stopped, in parameter order, the last of them the refused one when
      the engine stopped it; or a panic at parameter `at`, indexing
      `values[n - 1]` with `n = 0`. */
  datatype Resolution =
    | Resolved(indices: seq<nat>, nextPos: nat)
    | Failed(error: Error, at: nat, calls: seq<nat>)
    | Panicked(at: nat)

  /** The index one parameter resolves to, and the counter and the table of
      new names afterwards. */
  function ResolveOne(args: Arguments, kind: ParamKind, nextPos: nat, seen: map<string, nat>): (r: (nat, nat, map<string, nat>))
    ensures kind.Anonymous? ==> r == (nextPos + 1, nextPos + 1, seen)
    ensures kind.Numbered? ==> r == (kind.n, nextPos, seen)
    ensures kind.Named? && kind.key in args.named ==> r == (args.named[kind.key], nextPos, seen)
    ensures kind.Named? && kind.key !in args.named && kind.key in seen ==> r == (seen[kind.key], nextPos, seen)
    ensures kind.Named? && kind.key !in args.named && kind.key !in seen ==>
      r == (nextPos + 1, nextPos + 1, seen[kind.key := nextPos + 1])
  {
    match kind
    case Anonymous => (nextPos + 1, nextPos + 1, seen)
    case Numbered(n) => (n, nextPos, seen)
    case Named(key) =>
      if key in args.named then (args.named[key], nextPos, seen)
      else if key in seen then (seen[key], nextPos, seen)
      else (nextPos + 1, nextPos + 1, seen[key := nextPos + 1])
  }

  /** The parameter loop of `bind` from parameter `i` on, over the
      parameters' names and kinds; classifying a parameter has no effect, so
      classifying them all first changes nothing. Each parameter is resolved
      and then bound before the next one is looked at. With `rejectZero` a
      resolved index of 0 is reported as an invalid parameter; without it the
      loop reaches `values[n - 1]` with `n = 0`, as the source does. */
  function BindFrom(args: Arguments, params: seq<Option<string>>, kinds: seq<Result<ParamKind, Error>>,
                    i: nat, nextPos: nat, seen: map<string, nat>, rejectZero: bool, engine: BindAnswer): (r: Resolution)
    requires |kinds| == |params| && i <= |params|
    ensures r.Resolved? ==> |r.indices| == |params| - i && r.nextPos >= nextPos
    ensures r.Resolved? ==> forall k :: 0 <= k < |r.indices| ==> 1 <= r.indices[k] <= |args.values|
    ensures r.Resolved? ==> forall k :: i <= k < |params| ==> kinds[k].Ok?
    ensures r.Failed? ==> i <= r.at < |params| && r.at - i <= |r.calls| <= r.at - i + 1
    ensures r.Failed? ==> forall k :: 0 <= k < |r.calls| ==> 1 <= r.calls[k] <= |args.values|
    ensures rejectZero ==> !r.Panicked?
    ensures r.Resolved? ==> r.nextPos == nextPos || r.nextPos <= |args.values|
    decreases |params| - i
  {
    if i == |params| then Resolved([], nextPos)
    else
      match kinds[i]
      case Err(e) => Failed(e, i, [])
      case Ok(kind) =>
        var (n, np, fr) := ResolveOne(args, kind, nextPos, seen);
        if n > |args.values| then Failed(OutOfBounds(|args.values|, n), i, [])
        else if n == 0 then
          if rejectZero then Failed(InvalidNumeric(params[i].GetOr("")), i, [])
          else Panicked(i)
        else if engine(i + 1, n).Some? then Failed(Errors.FromSqliteError(engine(i + 1, n).value), i, [n])
        else
          match BindFrom(args, params, kinds, i + 1, np, fr, rejectZero, engine)
          case Resolved(rest, last) => Resolved([n] + rest, last)
          case Failed(e, at, calls) => Failed(e, at, [n] + calls)
          case other => other
  }

  /* ---------------------------------------------------------------------- */
  /* What each parameter reads, defined over the whole list at once          */

  /** Parameter `k` takes a new position: it is anonymous, or the first
      occurrence of an unregistered name. */
  predicate TakesPosition(args: Arguments, kinds: seq<Result<ParamKind, Error>>, k: nat)
    requires k < |kinds|
  {
    kinds[k] == Ok(Anonymous) || (IsFresh(args, kinds[k]) && forall j :: 0 <= j < k ==> kinds[j] != kinds[k])
  }

  /** How many of the first `k` parameters take a new position. */
  function PositionsTaken(args: Arguments, kinds: seq<Result<ParamKind, Error>>, k: nat): (c: nat)
    requires k <= |kinds|
    ensures c <= k
    decreases k
  {
    if k == 0 then 0
    else PositionsTaken(args, kinds, k - 1) + (if TakesPosition(args, kinds, k - 1) then 1 else 0)
  }

  /** The first index from `i` on, and no later than `bound`, holding `x`. */
  function FirstFrom<T(==)>(s: seq<T>, x: T, i: nat, bound: nat): (j: nat)
    requires i <= bound < |s| && s[bound] == x
    ensures i <= j <= bound && s[j] == x
    ensures forall m :: i <= m < j ==> s[m] != x
    decreases bound - i
  {
    if s[i] == x then i else FirstFrom(s, x, i + 1, bound)
  }

  /** Where the entry at `k` occurs first. */
  function FirstOccurrence<T(==)>(s: seq<T>, k: nat): (j: nat)
    requires k < |s|
    ensures j <= k && s[j] == s[k]
    ensures forall m :: 0 <= m < j ==> s[m] != s[k]
  {
    FirstFrom(s, s[k], 0, k)
  }

  /** Equal entries occur first at the same place. */
  lemma {:induction false} FirstOccurrenceOfEqual<T>(s: seq<T>, j: nat, k: nat)
    requires j < |s| && k < |s| && s[j] == s[k]
    ensures FirstOccurrence(s, j) == FirstOccurrence(s, k)
  {
    FirstFromAnyBound(s, s[k], 0, j, k);
  }

  /** The first occurrence from `i` on does not depend on which later
      occurrence bounds the search. */
  lemma {:induction false} FirstFromAnyBound<T>(s: seq<T>, x: T, i: nat, b1: nat, b2: nat)
    requires i <= b1 < |s| && s[b1] == x && i <= b2 < |s| && s[b2] == x
    ensures FirstFrom(s, x, i, b1) == FirstFrom(s, x, i, b2)
    decreases b1 - i
  {
    if s[i] != x {
      FirstFromAnyBound(s, x, i + 1, b1, b2);
    }
  }

  /** The value index parameter `k` reads when the anonymous positions count
      from `start`: its own number, its registered index, or the position
      taken by the first parameter of its kind. */
  function Target(args: Arguments, kinds: seq<Result<ParamKind, Error>>, start: nat, k: nat): nat
    requires k < |kinds|
  {
    match kinds[k]
    case Err(_) => 0
    case Ok(Anonymous) => start + PositionsTaken(args, kinds, k) + 1
    case Ok(Numbered(n)) => n
    case Ok(Named(key)) =>
      if key in args.named then args.named[key]
      else start + PositionsTaken(args, kinds, FirstOccurrence(kinds, k)) + 1
  }

  /** The error with which the loop stops at parameter `k` if it gets there:
      an unsupported or invalid name, an index past the values, index 0, or
      the engine refusing the value. */
  function ParamError(args: Arguments, params: seq<Option<string>>, kinds: seq<Result<ParamKind, Error>>,
                      start: nat, engine: BindAnswer, k: nat): Option<Error>
    requires |kinds| == |params| && k < |kinds|
  {
    if kinds[k].Err? then Some(kinds[k].error)
    else
      var n := Target(args, kinds, start, k);
      if n > |args.values| then Some(OutOfBounds(|args.values|, n))
      else if n == 0 then Some(InvalidNumeric(params[k].GetOr("")))
      else if engine(k + 1, n).Some? then Some(Errors.FromSqliteError(engine(k + 1, n).value))
      else None
  }

  /** The engine refused the value of parameter `k`: the one failure that
      comes after a `sqlite3_bind_*` call for that parameter. */
  predicate EngineRefused(args: Arguments, kinds: seq<Result<ParamKind, Error>>, start: nat, engine: BindAnswer, k: nat)
    requires k < |kinds|
  {
    kinds[k].Ok? && 1 <= Target(args, kinds, start, k) <= |args.values| && engine(k + 1, Target(args, kinds, start, k)).Some?
  }

  /** A position-taking parameter reads the position after those taken
      before it. */
  lemma {:induction false} TargetOfTaker(args: Arguments, kinds: seq<Result<ParamKind, Error>>, start: nat, k: nat)
    requires k < |kinds| && TakesPosition(args, kinds, k)
    ensures Target(args, kinds, start, k) == start + PositionsTaken(args, kinds, k) + 1
  {
    if kinds[k] != Ok(Anonymous) {
      var f := FirstOccurrence(kinds, k);
      assert f == k by {
        assert kinds[f] == kinds[k];
      }
    }
  }

  /** Two occurrences of one unregistered name read the same value. */
  lemma {:induction false} TargetShared(args: Arguments, kinds: seq<Result<ParamKind, Error>>, start: nat, j: nat, k: nat)
    requires j < |kinds| && k < |kinds| && IsFresh(args, kinds[j]) && kinds[k] == kinds[j]
    ensures Target(args, kinds, start, j) == Target(args, kinds, start, k)
  {
    FirstOccurrenceOfEqual(kinds, j, k);
  }

  /** The loop's counter and table of new names after parameters `..i`: the
      counter is past the positions taken so far, and the table holds
      exactly the unregistered names met so far, each at the index its
      occurrences read. */
  ghost predicate LoopState(args: Arguments, kinds: seq<Result<ParamKind, Error>>, start: nat, i: nat,
                            nextPos: nat, seen: map<string, nat>)
    requires i <= |kinds|
  {
    nextPos == start + PositionsTaken(args, kinds, i) &&
    (forall key :: key in seen ==> key !in args.named && exists j :: 0 <= j < i && kinds[j] == Ok(Named(key))) &&
    (forall j :: 0 <= j < i ==> Recorded(args, kinds, start, seen, j))
  }

  /** The table holds parameter `j`'s name at the index it reads, when it is
      an unregistered name. */
  predicate Recorded(args: Arguments, kinds: seq<Result<ParamKind, Error>>, start: nat, seen: map<string, nat>, j: nat)
    requires j < |kinds|
  {
    IsFresh(args, kinds[j]) ==> kinds[j].value.key in seen && seen[kinds[j].value.key] == Target(args, kinds, start, j)
  }

  /** What the loop state records for one earlier unregistered name. */
  lemma {:induction false} LoopStateAt(args: Arguments, kinds: seq<Result<ParamKind, Error>>, start: nat, i: nat,
                    nextPos: nat, seen: map<string, nat>, j: nat)
    requires i <= |kinds| && LoopState(args, kinds, start, i, nextPos, seen)
    requires j < i && IsFresh(args, kinds[j])
    ensures kinds[j].value.key in seen && seen[kinds[j].value.key] == Target(args, kinds, start, j)
  {
    assert Recorded(args, kinds, start, seen, j);
  }

  /** A parameter that takes no position leaves the loop state as it was. */
  lemma {:induction false} LoopStepKeeps(args: Arguments, kinds: seq<Result<ParamKind, Error>>, start: nat, i: nat,
                      nextPos: nat, seen: map<string, nat>)
    requires i < |kinds| && kinds[i].Ok? && LoopState(args, kinds, start, i, nextPos, seen)
    requires !TakesPosition(args, kinds, i)
    ensures PositionsTaken(args, kinds, i + 1) == PositionsTaken(args, kinds, i)
    ensures IsFresh(args, kinds[i]) ==>
      kinds[i].value.key in seen && seen[kinds[i].value.key] == Target(args, kinds, start, i)
    ensures IsFresh(args, kinds[i]) ==> LoopState(args, kinds, start, i + 1, nextPos, seen)
    ensures !IsFresh(args, kinds[i]) ==> LoopState(args, kinds, start, i + 1, nextPos, seen)
  {
    var j: nat := i;
    if IsFresh(args, kinds[i]) {
      j :| 0 <= j < i && kinds[j] == kinds[i];
      TargetShared(args, kinds, start, j, i);
      LoopStateAt(args, kinds, start, i, nextPos, seen, j);
    }
    forall m | 0 <= m < i + 1
      ensures Recorded(args, kinds, start, seen, m)
    {
      if m < i && IsFresh(args, kinds[m]) {
        LoopStateAt(args, kinds, start, i, nextPos, seen, m);
      }
    }
  }

  /** A parameter that takes a position moves the counter on by one, and an
      unregistered name enters the table at that position. */
  lemma {:induction false} LoopStepTakes(args: Arguments, kinds: seq<Result<ParamKind, Error>>, start: nat, i: nat,
                      nextPos: nat, seen: map<string, nat>)
    requires i < |kinds| && kinds[i].Ok? && LoopState(args, kinds, start, i, nextPos, seen)
    requires TakesPosition(args, kinds, i)
    ensures PositionsTaken(args, kinds, i + 1) == PositionsTaken(args, kinds, i) + 1
    ensures Target(args, kinds, start, i) == nextPos + 1
    ensures kinds[i] == Ok(Anonymous) ==> LoopState(args, kinds, start, i + 1, nextPos + 1, seen)
    ensures IsFresh(args, kinds[i]) ==> kinds[i].value.key !in seen
    ensures IsFresh(args, kinds[i]) ==>
      LoopState(args, kinds, start, i + 1, nextPos + 1, seen[kinds[i].value.key := nextPos + 1])
  {
    TargetOfTaker(args, kinds, start, i);
    if IsFresh(args, kinds[i]) {
      LoopStepFresh(args, kinds, start, i, nextPos, seen);
    } else {
      LoopStepAnonymous(args, kinds, start, i, nextPos, seen);
    }
  }

  /** An anonymous parameter moves the counter on by one and leaves the
      table of new names as it was. */
  lemma {:induction false} LoopStepAnonymous(args: Arguments, kinds: seq<Result<ParamKind, Error>>, start: nat, i: nat,
                          nextPos: nat, seen: map<string, nat>)
    requires i < |kinds| && kinds[i] == Ok(Anonymous) && LoopState(args, kinds, start, i, nextPos, seen)
    ensures LoopState(args, kinds, start, i + 1, nextPos + 1, seen)
  {
    assert TakesPosition(args, kinds, i);
    assert nextPos + 1 == start + PositionsTaken(args, kinds, i + 1);
    forall key | key in seen
      ensures key !in args.named && exists j :: 0 <= j < i + 1 && kinds[j] == Ok(Named(key))
    {
      var j :| 0 <= j < i && kinds[j] == Ok(Named(key));
      assert 0 <= j < i + 1 && kinds[j] == Ok(Named(key));
    }
    forall j | 0 <= j < i + 1
      ensures Recorded(args, kinds, start, seen, j)
    {
      if j < i && IsFresh(args, kinds[j]) {
        LoopStateAt(args, kinds, start, i, nextPos, seen, j);
      }
    }
  }

  /** The first occurrence of an unregistered name is not yet in the table,
      and enters it at the next position. */
  lemma {:induction false} LoopStepFresh(args: Arguments, kinds: seq<Result<ParamKind, Error>>, start: nat, i: nat,
                      nextPos: nat, seen: map<string, nat>)
    requires i < |kinds| && LoopState(args, kinds, start, i, nextPos, seen)
    requires TakesPosition(args, kinds, i) && IsFresh(args, kinds[i])
    requires Target(args, kinds, start, i) == nextPos + 1
    ensures kinds[i].value.key !in seen
    ensures LoopState(args, kinds, start, i + 1, nextPos + 1, seen[kinds[i].value.key := nextPos + 1])
  {
    var key := kinds[i].value.key;
    assert key !in seen by {
      forall j | 0 <= j < i
        ensures kinds[j] != Ok(Named(key))
      {
        assert kinds[j] != kinds[i];
      }
    }
    var fr := seen[key := nextPos + 1];
    assert PositionsTaken(args, kinds, i + 1) == PositionsTaken(args, kinds, i) + 1;
    forall j | 0 <= j < i + 1
      ensures Recorded(args, kinds, start, fr, j)
    {
      if j < i && IsFresh(args, kinds[j]) {
        assert kinds[j] != kinds[i];
        LoopStateAt(args, kinds, start, i, nextPos, seen, j);
      }
    }
  }

  /** One step of the loop resolves parameter `i` to the index it reads and
      keeps the loop state. */
  lemma {:induction false} LoopStep(args: Arguments, kinds: seq<Result<ParamKind, Error>>, start: nat, i: nat,
                 nextPos: nat, seen: map<string, nat>)
    requires i < |kinds| && kinds[i].Ok? && LoopState(args, kinds, start, i, nextPos, seen)
    ensures var (n, np, fr) := ResolveOne(args, kinds[i].value, nextPos, seen);
      n == Target(args, kinds, start, i) && LoopState(args, kinds, start, i + 1, np, fr)
  {
    if TakesPosition(args, kinds, i) {
      LoopStepTakes(args, kinds, start, i, nextPos, seen);
    } else {
      LoopStepKeeps(args, kinds, start, i, nextPos, seen);
    }
  }

  /** The loop from parameter `i` on, from a faithful loop state, resolves
      exactly when no parameter from `i` on fails, and then ends with the
      counter past every position taken. */
  lemma {:induction false} BindFromResolves(args: Arguments, params: seq<Option<string>>, kinds: seq<Result<ParamKind, Error>>,
                                            start: nat, engine: BindAnswer, i: nat, nextPos: nat, seen: map<string, nat>)
    requires |kinds| == |params| && i <= |params| && LoopState(args, kinds, start, i, nextPos, seen)
    ensures BindFrom(args, params, kinds, i, nextPos, seen, true, engine).Resolved? <==>
      forall k :: i <= k < |params| ==> ParamError(args, params, kinds, start, engine, k).None?
    ensures var r := BindFrom(args, params, kinds, i, nextPos, seen, true, engine);
      r.Resolved? ==> r.nextPos == start + PositionsTaken(args, kinds, |params|)
    decreases |params| - i
  {
    if i < |params| && kinds[i].Ok? {
      var (n, np, fr) := ResolveOne(args, kinds[i].value, nextPos, seen);
      LoopStep(args, kinds, start, i, nextPos, seen);
      ParamErrorOf(args, params, kinds, start, engine, i, n);
      if 1 <= n <= |args.values| && engine(i + 1, n).None? {
        BindFromResolves(args, params, kinds, start, engine, i + 1, np, fr);
      }
    } else if i < |params| {
      assert ParamError(args, params, kinds, start, engine, i).Some?;
    }
  }

  /** Every parameter's Target, in order. */
  function Targets(args: Arguments, kinds: seq<Result<ParamKind, Error>>, start: nat): (t: seq<nat>)
    ensures |t| == |kinds| && forall k :: 0 <= k < |kinds| ==> t[k] == Target(args, kinds, start, k)
  {
    seq(|kinds|, k requires 0 <= k < |kinds| => Target(args, kinds, start, k))
  }

  /** When the loop from parameter `i` on resolves, the parameters from `i`
      on read their Targets. */
  lemma {:induction false} BindFromIndices(args: Arguments, params: seq<Option<string>>, kinds: seq<Result<ParamKind, Error>>,
                                           start: nat, engine: BindAnswer, i: nat, nextPos: nat, seen: map<string, nat>)
    requires |kinds| == |params| && i <= |params| && LoopState(args, kinds, start, i, nextPos, seen)
    ensures var r := BindFrom(args, params, kinds, i, nextPos, seen, true, engine);
      r.Resolved? ==> r.indices == Targets(args, kinds, start)[i..]
    decreases |params| - i
  {
    if i < |params| && kinds[i].Ok? {
      var (n, np, fr) := ResolveOne(args, kinds[i].value, nextPos, seen);
      LoopStep(args, kinds, start, i, nextPos, seen);
      if 1 <= n <= |args.values| && engine(i + 1, n).None? {
        BindFromIndices(args, params, kinds, start, engine, i + 1, np, fr);
        var t := Targets(args, kinds, start);
        assert t[i..] == [t[i]] + t[i + 1..];
      }
    }
  }

  /** When the loop from `i` on fails, it failed with the error of the
      parameter it stopped at, and no parameter before that one failed. */
  lemma {:induction false} BindFromStops(args: Arguments, params: seq<Option<string>>, kinds: seq<Result<ParamKind, Error>>,
                                         start: nat, engine: BindAnswer, i: nat, nextPos: nat, seen: map<string, nat>)
    requires |kinds| == |params| && i <= |params| && LoopState(args, kinds, start, i, nextPos, seen)
    ensures var r := BindFrom(args, params, kinds, i, nextPos, seen, true, engine);
      r.Failed? ==> ParamError(args, params, kinds, start, engine, r.at) == Some(r.error)
    ensures var r := BindFrom(args, params, kinds, i, nextPos, seen, true, engine);
      r.Failed? ==> forall k :: i <= k < r.at ==> ParamError(args, params, kinds, start, engine, k).None?
    decreases |params| - i
  {
    if i < |params| && kinds[i].Ok? {
      var (n, np, fr) := ResolveOne(args, kinds[i].value, nextPos, seen);
      LoopStep(args, kinds, start, i, nextPos, seen);
      ParamErrorOf(args, params, kinds, start, engine, i, n);
      if 1 <= n <= |args.values| && engine(i + 1, n).None? {
        BindFromStops(args, params, kinds, start, engine, i + 1, np, fr);
      }
    }
  }

  /** The error of a well-formed parameter, in terms of the index it reads. */
  lemma {:induction false} ParamErrorOf(args: Arguments, params: seq<Option<string>>, kinds: seq<Result<ParamKind, Error>>,
                     start: nat, engine: BindAnswer, k: nat, n: nat)
    requires |kinds| == |params| && k < |kinds| && kinds[k].Ok? && n == Target(args, kinds, start, k)
    ensures ParamError(args, params, kinds, start, engine, k) ==
      if n > |args.values| then Some(OutOfBounds(|args.values|, n))
      else if n == 0 then Some(InvalidNumeric(params[k].GetOr("")))
      else if engine(k + 1, n).Some? then Some(Errors.FromSqliteError(engine(k + 1, n).value))
      else None
  {
  }

  /** When the loop from `i` on fails, it made one bind call for each
      parameter before the one it stopped at, and one more for that one
      when it was the engine that refused it. */
  lemma {:induction false} BindFromCallCount(args: Arguments, params: seq<Option<string>>, kinds: seq<Result<ParamKind, Error>>,
                                             start: nat, engine: BindAnswer, i: nat, nextPos: nat, seen: map<string, nat>)
    requires |kinds| == |params| && i <= |params| && LoopState(args, kinds, start, i, nextPos, seen)
    ensures var r := BindFrom(args, params, kinds, i, nextPos, seen, true, engine);
      r.Failed? ==> |r.calls| == r.at - i + (if EngineRefused(args, kinds, start, engine, r.at) then 1 else 0)
    decreases |params| - i
  {
    if i < |params| && kinds[i].Ok? {
      var (n, np, fr) := ResolveOne(args, kinds[i].value, nextPos, seen);
      LoopStep(args, kinds, start, i, nextPos, seen);
      assert EngineRefused(args, kinds, start, engine, i) <==> 1 <= n <= |args.values| && engine(i + 1, n).Some?;
      if 1 <= n <= |args.values| && engine(i + 1, n).None? {
        BindFromCallCount(args, params, kinds, start, engine, i + 1, np, fr);
      }
    }
  }

  /** The bind calls the loop from `i` on made before it failed are, in
      order, the Targets of the parameters from `i` on. */
  lemma {:induction false} BindFromCalls(args: Arguments, params: seq<Option<string>>, kinds: seq<Result<ParamKind, Error>>,
                                         start: nat, engine: BindAnswer, i: nat, nextPos: nat, seen: map<string, nat>)
    requires |kinds| == |params| && i <= |params| && LoopState(args, kinds, start, i, nextPos, seen)
    ensures var r := BindFrom(args, params, kinds, i, nextPos, seen, true, engine);
      r.Failed? ==> i + |r.calls| <= |params| && r.calls == Targets(args, kinds, start)[i..i + |r.calls|]
    decreases |params| - i
  {
    if i < |params| && kinds[i].Ok? {
      var (n, np, fr) := ResolveOne(args, kinds[i].value, nextPos, seen);
      LoopStep(args, kinds, start, i, nextPos, seen);
      if 1 <= n <= |args.values| && engine(i + 1, n).None? {
        BindFromCalls(args, params, kinds, start, engine, i + 1, np, fr);
      }
      CallsExtend(args, params, kinds, Targets(args, kinds, start), engine, i, nextPos, seen);
    }
  }

  /** One step of BindFromCalls: the calls made from parameter `i` are its
      own index, when it gets bound, followed by the calls made after it. */
  lemma {:induction false} CallsExtend(args: Arguments, params: seq<Option<string>>, kinds: seq<Result<ParamKind, Error>>,
                    t: seq<nat>, engine: BindAnswer, i: nat, nextPos: nat, seen: map<string, nat>)
    requires |kinds| == |params| == |t| && i < |params| && kinds[i].Ok?
    requires ResolveOne(args, kinds[i].value, nextPos, seen).0 == t[i]
    requires var (n, np, fr) := ResolveOne(args, kinds[i].value, nextPos, seen);
      var rest := BindFrom(args, params, kinds, i + 1, np, fr, true, engine);
      1 <= n <= |args.values| && engine(i + 1, n).None? && rest.Failed? ==>
        i + 1 + |rest.calls| <= |params| && rest.calls == t[i + 1..i + 1 + |rest.calls|]
    ensures var r := BindFrom(args, params, kinds, i, nextPos, seen, true, engine);
      r.Failed? ==> i + |r.calls| <= |params| && r.calls == t[i..i + |r.calls|]
  {
    var (n, np, fr) := ResolveOne(args, kinds[i].value, nextPos, seen);
    if 1 <= n <= |args.values| && engine(i + 1, n).Some? {
      assert t[i..i + 1] == [t[i]];
    } else if 1 <= n <= |args.values| {
      var rest := BindFrom(args, params, kinds, i + 1, np, fr, true, engine);
      if rest.Failed? {
        SliceCons(t, i, rest.calls);
      }
    }
  }

  /** A slice of `t` from `i` is its element at `i` followed by the slice
      from `i + 1`. */
  lemma {:induction false} SliceCons(t: seq<nat>, i: nat, c: seq<nat>)
    requires i + 1 + |c| <= |t| && c == t[i + 1..i + 1 + |c|]
    ensures [t[i]] + c == t[i..i + 1 + |c|]
  {
    assert t[i..i + 1 + |c|] == [t[i]] + t[i + 1..i + 1 + |c|];
  }

  /** All occurrences of an unregistered name in a run share one index. */
  predicate NamesShared(args: Arguments, kinds: seq<Result<ParamKind, Error>>, indices: seq<nat>)
    requires |kinds| == |indices|
  {
    forall j, k :: 0 <= j < k < |kinds| && IsFresh(args, kinds[j]) && kinds[k] == kinds[j] ==> indices[j] == indices[k]
  }

  /** The indices `bind` gives the parameters, and `next_pos - offset`, the
      number of anonymous positions it consumed past the offset. */
  datatype Binding = Binding(indices: seq<nat>, used: nat)

  /** Why `bind` stopped: the error, the parameter it stopped at (counted
      from 0 in the list), and the value indices of the `sqlite3_bind_*`
      calls made on the statement, in parameter order. */
  datatype BindFailure = BindFailure(error: Error, at: nat, calls: seq<nat>)

  /** `Arguments::bind` with `$0` rejected like `?0`: each parameter in
      turn is resolved to a value index and bound, and the first failure
      stops the loop. What it resolves and where it stops are stated by
      BindSucceedsExactly, BindReadsTargets, BindPlacesParameters and
      BindStopsAtFirstError. */
  function Bind(args: Arguments, params: seq<Option<string>>, offset: Usize, engine: BindAnswer): (r: Result<Binding, BindFailure>)
    ensures r.Ok? ==> |r.value.indices| == |params|
    ensures r.Ok? ==> forall k :: 0 <= k < |params| ==> 1 <= r.value.indices[k] <= |args.values|
    ensures r.Ok? ==> offset + r.value.used >= Start(args, offset)
    ensures r.Ok? ==> offset + r.value.used == Start(args, offset) || offset + r.value.used <= |args.values|
    ensures r.Err? ==> r.error.at < |params| && r.error.at <= |r.error.calls| <= r.error.at + 1
    ensures r.Err? ==> forall k :: 0 <= k < |r.error.calls| ==> 1 <= r.error.calls[k] <= |args.values|
  {
    var start := Start(args, offset);
    match BindFrom(args, params, KindsOf(params), 0, start, map[], true, engine)
    case Resolved(indices, last) => Ok(Binding(indices, last - offset))
    case Failed(e, at, calls) => Err(BindFailure(e, at, calls))
  }

  /** The whole loop, from the first parameter, an empty table of new
      names and the counter at `start`. */
  lemma {:induction false} BindRunResolves(args: Arguments, params: seq<Option<string>>, kinds: seq<Result<ParamKind, Error>>,
                        start: nat, engine: BindAnswer)
    requires |kinds| == |params|
    ensures BindFrom(args, params, kinds, 0, start, map[], true, engine).Resolved? <==>
      forall k :: 0 <= k < |params| ==> ParamError(args, params, kinds, start, engine, k).None?
    ensures var r := BindFrom(args, params, kinds, 0, start, map[], true, engine);
      r.Resolved? ==> r.nextPos == start + PositionsTaken(args, kinds, |params|)
    ensures var r := BindFrom(args, params, kinds, 0, start, map[], true, engine);
      r.Resolved? ==> forall k :: 0 <= k < |params| ==> r.indices[k] == Target(args, kinds, start, k)
  {
    BindFromResolves(args, params, kinds, start, engine, 0, start, map[]);
    BindFromIndices(args, params, kinds, start, engine, 0, start, map[]);
  }

  /** The whole loop's failures, as BindFromStops, BindFromCallCount and
      BindFromCalls state them from the first parameter on. */
  lemma {:induction false} BindRunStops(args: Arguments, params: seq<Option<string>>, kinds: seq<Result<ParamKind, Error>>,
                     start: nat, engine: BindAnswer)
    requires |kinds| == |params|
    ensures var r := BindFrom(args, params, kinds, 0, start, map[], true, engine);
      r.Failed? ==> ParamError(args, params, kinds, start, engine, r.at) == Some(r.error)
    ensures var r := BindFrom(args, params, kinds, 0, start, map[], true, engine);
      r.Failed? ==> forall k :: 0 <= k < r.at ==> ParamError(args, params, kinds, start, engine, k).None?
    ensures var r := BindFrom(args, params, kinds, 0, start, map[], true, engine);
      r.Failed? ==> |r.calls| == r.at + (if EngineRefused(args, kinds, start, engine, r.at) then 1 else 0)
    ensures var r := BindFrom(args, params, kinds, 0, start, map[], true, engine);
      r.Failed? ==> forall k :: 0 <= k < |r.calls| ==> r.calls[k] == Target(args, kinds, start, k)
  {
    BindFromStops(args, params, kinds, start, engine, 0, start, map[]);
    BindFromCallCount(args, params, kinds, start, engine, 0, start, map[]);
    BindFromCalls(args, params, kinds, start, engine, 0, start, map[]);
  }

  /** `bind` succeeds exactly when no parameter fails: every name is
      supported, every index it reads is in range and not 0, and the engine
      accepts every value. */
  lemma {:induction false} BindSucceedsExactly(args: Arguments, params: seq<Option<string>>, offset: Usize, engine: BindAnswer)
    ensures Bind(args, params, offset, engine).Ok? <==>
      forall k :: 0 <= k < |params| ==> ParamError(args, params, KindsOf(params), Start(args, offset), engine, k).None?
  {
    BindRunResolves(args, params, KindsOf(params), Start(args, offset), engine);
  }

  /** On success every parameter reads its Target, and `next_pos - offset`
      is the start's distance from the offset plus the number of
      parameters that took a position. */
  lemma {:induction false} BindReadsTargets(args: Arguments, params: seq<Option<string>>, offset: Usize, engine: BindAnswer)
    ensures var r := Bind(args, params, offset, engine);
      r.Ok? ==> forall k :: 0 <= k < |params| ==> r.value.indices[k] == Target(args, KindsOf(params), Start(args, offset), k)
    ensures var r := Bind(args, params, offset, engine);
      r.Ok? ==> offset + r.value.used == Start(args, offset) + PositionsTaken(args, KindsOf(params), |params|)
  {
    BindRunResolves(args, params, KindsOf(params), Start(args, offset), engine);
  }

  /** On success numbered parameters and registered names read their own
      index, the j-th parameter that takes a position (anonymous, or the
      first occurrence of an unregistered name) reads the j-th position
      after the start, and every occurrence of an unregistered name reads
      the same index. */
  lemma {:induction false} BindPlacesParameters(args: Arguments, params: seq<Option<string>>, offset: Usize, engine: BindAnswer)
    ensures var r := Bind(args, params, offset, engine);
      r.Ok? ==> forall k :: 0 <= k < |params| ==> Pinned(args, KindsOf(params)[k], r.value.indices[k])
    ensures var r := Bind(args, params, offset, engine);
      r.Ok? ==> forall k :: 0 <= k < |params| && TakesPosition(args, KindsOf(params), k) ==>
        r.value.indices[k] == Start(args, offset) + PositionsTaken(args, KindsOf(params), k) + 1
    ensures var r := Bind(args, params, offset, engine);
      r.Ok? ==> NamesShared(args, KindsOf(params), r.value.indices)
  {
    var r := Bind(args, params, offset, engine);
    if r.Ok? {
      BindReadsTargets(args, params, offset, engine);
      BindPlaces(args, KindsOf(params), Start(args, offset), r.value.indices);
    }
  }

  /** On failure `bind` stopped at the first failing parameter, with that
      parameter's error, after binding every parameter before it, and
      after trying to bind that one too when it was the engine that refused
      the value. */
  lemma {:induction false} BindStopsAtFirstError(args: Arguments, params: seq<Option<string>>, offset: Usize, engine: BindAnswer)
    ensures var r := Bind(args, params, offset, engine);
      r.Err? ==> ParamError(args, params, KindsOf(params), Start(args, offset), engine, r.error.at) == Some(r.error.error)
    ensures var r := Bind(args, params, offset, engine);
      r.Err? ==> forall k :: 0 <= k < r.error.at ==> ParamError(args, params, KindsOf(params), Start(args, offset), engine, k).None?
    ensures var r := Bind(args, params, offset, engine);
      r.Err? ==> |r.error.calls| == r.error.at + (if EngineRefused(args, KindsOf(params), Start(args, offset), engine, r.error.at) then 1 else 0)
    ensures var r := Bind(args, params, offset, engine);
      r.Err? ==> forall k :: 0 <= k < |r.error.calls| ==> r.error.calls[k] == Target(args, KindsOf(params), Start(args, offset), k)
  {
    BindRunStops(args, params, KindsOf(params), Start(args, offset), engine);
  }

  /** Indices that are each parameter's Target pin numbered parameters and
      registered names, give position-takers consecutive positions, and
      share one index among the occurrences of an unregistered name. */
  lemma {:induction false} BindPlaces(args: Arguments, kinds: seq<Result<ParamKind, Error>>, start: nat, indices: seq<nat>)
    requires |indices| == |kinds| && forall k :: 0 <= k < |kinds| ==> indices[k] == Target(args, kinds, start, k)
    ensures forall k :: 0 <= k < |kinds| ==> Pinned(args, kinds[k], indices[k])
    ensures forall k :: 0 <= k < |kinds| && TakesPosition(args, kinds, k) ==>
      indices[k] == start + PositionsTaken(args, kinds, k) + 1
    ensures NamesShared(args, kinds, indices)
  {
    forall k | 0 <= k < |kinds| && TakesPosition(args, kinds, k)
      ensures indices[k] == start + PositionsTaken(args, kinds, k) + 1
    {
      TargetOfTaker(args, kinds, start, k);
    }
    forall j, k | 0 <= j < k < |kinds| && IsFresh(args, kinds[j]) && kinds[k] == kinds[j]
      ensures indices[j] == indices[k]
    {
      TargetShared(args, kinds, start, j, k);
    }
  }

  /** `Arguments::bind` as written: `$0` reaches `values[n - 1]` with `n = 0`. */
  function BindAsWritten(args: Arguments, params: seq<Option<string>>, offset: Usize, engine: BindAnswer): (r: Resolution)
    ensures r.Resolved? ==> r.nextPos >= offset && Bind(args, params, offset, engine) == Ok(Binding(r.indices, r.nextPos - offset))
    ensures r.Failed? ==> Bind(args, params, offset, engine) == Err(BindFailure(r.error, r.at, r.calls))
  {
    AgreeUnlessZero(args, params, KindsOf(params), 0, Start(args, offset), map[], engine);
    BindFrom(args, params, KindsOf(params), 0, Start(args, offset), map[], false, engine)
  }

  /** The two loops agree wherever the source does not panic. */
  lemma {:induction false} AgreeUnlessZero(args: Arguments, params: seq<Option<string>>, kinds: seq<Result<ParamKind, Error>>,
                                           i: nat, nextPos: nat, seen: map<string, nat>, engine: BindAnswer)
    requires |kinds| == |params| && i <= |params|
    ensures var w := BindFrom(args, params, kinds, i, nextPos, seen, false, engine);
      !w.Panicked? ==> w == BindFrom(args, params, kinds, i, nextPos, seen, true, engine)
    decreases |params| - i
  {
    if i < |params| && kinds[i].Ok? {
      var (n, np, fr) := ResolveOne(args, kinds[i].value, nextPos, seen);
      AgreeUnlessZero(args, params, kinds, i + 1, np, fr, engine);
    }
  }

  /** `$0` passes every check of the source's loop and reaches the
      out-of-range index `values[0 - 1]`, whatever the arguments; the
      corrected loop rejects it before any bind call. */
  lemma {:induction false} DollarZeroPanics(args: Arguments, engine: BindAnswer)
    ensures BindAsWritten(args, [Some("$0")], 0, engine) == Panicked(0)
    ensures Bind(args, [Some("$0")], 0, engine) == Err(BindFailure(InvalidNumeric("$0"), 0, []))
  {
    assert "$0"[1..] == "0";
    assert LeadingDigits("0") == 1;
    assert "0"[..1] == "0";
    assert DigitsValue("0") == 0;
    assert KindOf(Some("$0")) == Ok(Numbered(0));
  }

  /** Only anonymous parameters, and an engine that accepts every value: they take the
      consecutive positions after the counter. */
  lemma {:induction false} AnonymousConsecutive(args: Arguments, params: seq<Option<string>>, kinds: seq<Result<ParamKind, Error>>,
                                                i: nat, nextPos: nat, seen: map<string, nat>, engine: BindAnswer)
    requires |kinds| == |params| && i <= |params| && forall k :: i <= k < |params| ==> kinds[k] == Ok(Anonymous)
    requires nextPos + |params| - i <= |args.values|
    requires forall p, n :: engine(p, n).None?
    ensures BindFrom(args, params, kinds, i, nextPos, seen, true, engine) ==
      Resolved(seq(|params| - i, k => nextPos + k + 1), nextPos + |params| - i)
    decreases |params| - i
  {
    if i < |params| {
      AnonymousConsecutive(args, params, kinds, i + 1, nextPos + 1, seen, engine);
      var rest := seq(|params| - (i + 1), k => nextPos + 1 + k + 1);
      assert [nextPos + 1] + rest == seq(|params| - i, k => nextPos + k + 1);
    }
  }

  /** At the statement level, with an engine that accepts every value: m
      anonymous parameters bind the m values after the start, and that many
      positions are consumed. */
  lemma {:induction false} BindAnonymous(args: Arguments, m: nat, offset: Usize, engine: BindAnswer)
    requires Start(args, offset) + m <= |args.values|
    requires forall p, n :: engine(p, n).None?
    ensures Bind(args, seq(m, _ => None), offset, engine) ==
      Ok(Binding(seq(m, k => Start(args, offset) + k + 1), Start(args, offset) + m - offset))
  {
    var params: seq<Option<string>> := seq(m, _ => None);
    AnonymousConsecutive(args, params, KindsOf(params), 0, Start(args, offset), map[], engine);
  }

  /** A resolved index past the last value fails with a message that ends in
      "index is N", whatever values come before. */
  lemma {:induction false} BindOutOfBounds(args: Arguments, n: nat, engine: BindAnswer)
    requires n > |args.values| && 1 <= n <= USIZE_MAX
    ensures Bind(args, [Some("?" + Decimal(n))], 0, engine) == Err(BindFailure(OutOfBounds(|args.values|, n), 0, []))
  {
    ParseQuestionParamExactly("", n);
    assert ("?" + Decimal(n))[0] == '?';
  }

  /* Test cases of the source. */

  lemma {:induction false} ParsesAsNumber(name: string, n: nat)
    requires 1 <= n <= 9 && name == "?" + [DigitChar(n)]
    ensures KindOf(Some(name)) == Ok(Numbered(n))
  {
    var c := DigitChar(n);
    assert name[1..] == [c];
    assert [c][..0] == [];
    assert DigitsValue([c]) == n;
  }

  lemma {:induction false} ParsesAsName(name: string)
    requires |name| > 0 && name[0] == ':'
    ensures KindOf(Some(name)) == Ok(Named(name[1..]))
  {
  }

  /** A new name registered in empty arguments takes index 1. */
  lemma {:induction false} RegisterFirst(key: string, v: Value)
    ensures Register(EMPTY, key, v) == Arguments([v], map[key := 1])
  {
    assert [] + [v] == [v];
    assert map[][key := 1] == map[key := 1];
  }

  /** Binding 7 to `a` by name gives one value, with `a` at index 1. */
  lemma {:induction false} RepeatedNamedArguments(seven: Value)
    ensures AddNamed(EMPTY, "a", Ok(seven)).value == Arguments([seven], map["a" := 1])
  {
    assert "a"[0] == 'a';
    StripPrefixesKeeps("a");
    RegisterFirst("a", seven);
  }

  /** Adding 9 after that appends it as the second value and leaves `a` at
      index 1. */
  lemma {:induction false} AddAfterNamed(seven: Value, nine: Value)
    ensures Add(Arguments([seven], map["a" := 1]), Ok(nine)).value == Arguments([seven, nine], map["a" := 1])
  {
    assert [seven] + [nine] == [seven, nine];
  }

  /** `SELECT :a, :a, ?2` over those arguments reads 7, 7 and 9. */
  lemma {:induction false} BindRepeatedNamed(seven: Value, nine: Value, params: seq<Option<string>>, engine: BindAnswer)
    requires params == [Some(":a"), Some(":a"), Some("?2")]
    requires engine(1, 1).None? && engine(2, 1).None? && engine(3, 2).None?
    ensures Bind(Arguments([seven, nine], map["a" := 1]), params, 0, engine) == Ok(Binding([1, 1, 2], 1))
  {
    var args := Arguments([seven, nine], map["a" := 1]);
    ParsesAsName(":a");
    assert ":a"[1..] == "a";
    ParsesAsNumber("?2", 2);
    var kinds := KindsOf(params);
    assert kinds == [Ok(Named("a")), Ok(Named("a")), Ok(Numbered(2))];
    StartIsLeast(args, 0, 1);
    assert "a" in args.named && args.named["a"] == 1;
    assert BindFrom(args, params, kinds, 3, 1, map[], true, engine) == Resolved([], 1);
    assert BindFrom(args, params, kinds, 2, 1, map[], true, engine) == Resolved([2], 1);
    assert BindFrom(args, params, kinds, 1, 1, map[], true, engine) == Resolved([1, 2], 1);
    assert BindFrom(args, params, kinds, 0, 1, map[], true, engine) == Resolved([1, 1, 2], 1);
  }

  /** `SELECT ?1, :b, :a` reads 7, 8 and 9 when 7 was added and 8 and 9
      bound to `b` and `a` by name, which registers `b` at 2 and `a` at 3. */
  lemma {:induction false} BindPositionalAndNamed(seven: Value, eight: Value, nine: Value, params: seq<Option<string>>, engine: BindAnswer)
    requires params == [Some("?1"), Some(":b"), Some(":a")]
    requires engine(1, 1).None? && engine(2, 2).None? && engine(3, 3).None?
    ensures Bind(Arguments([seven, eight, nine], map["b" := 2, "a" := 3]), params, 0, engine) == Ok(Binding([1, 2, 3], 3))
  {
    var args := Arguments([seven, eight, nine], map["b" := 2, "a" := 3]);
    ParsesAsNumber("?1", 1);
    ParsesAsName(":a");
    ParsesAsName(":b");
    assert ":a"[1..] == "a" && ":b"[1..] == "b";
    var kinds := KindsOf(params);
    assert kinds == [Ok(Numbered(1)), Ok(Named("b")), Ok(Named("a"))];
    StartIsLeast(args, 0, 3);
    assert "a" in args.named && args.named["a"] == 3;
    assert BindFrom(args, params, kinds, 3, 3, map[], true, engine) == Resolved([], 3);
    assert BindFrom(args, params, kinds, 2, 3, map[], true, engine) == Resolved([3], 3);
    assert BindFrom(args, params, kinds, 1, 3, map[], true, engine) == Resolved([2, 3], 3);
    assert BindFrom(args, params, kinds, 0, 3, map[], true, engine) == Resolved([1, 2, 3], 3);
  }

  /** `select ?1, ?2` with one value fails naming index 2. */
  lemma {:induction false} BindMissingValue(five: Value, params: seq<Option<string>>, engine: BindAnswer)
    requires params == [Some("?1"), Some("?2")] && engine(1, 1).None?
    ensures Bind(Arguments([five], map[]), params, 0, engine) == Err(BindFailure(OutOfBounds(1, 2), 1, [1]))
  {
    var args := Arguments([five], map[]);
    ParsesAsNumber("?1", 1);
    ParsesAsNumber("?2", 2);
    var kinds := KindsOf(params);
    assert kinds == [Ok(Numbered(1)), Ok(Numbered(2))];
    StartIsLeast(args, 0, 0);
    assert BindFrom(args, params, kinds, 1, 0, map[], true, engine) == Failed(OutOfBounds(1, 2), 1, []);
    assert BindFrom(args, params, kinds, 0, 0, map[], true, engine) == Failed(OutOfBounds(1, 2), 1, [1]);
  }

  /** `SELECT ?1` with two values binds the first and ignores the second. */
  lemma {:induction false} BindSurplusIgnored(five: Value, fifteen: Value, params: seq<Option<string>>, engine: BindAnswer)
    requires params == [Some("?1")] && engine(1, 1).None?
    ensures Bind(Arguments([five, fifteen], map[]), params, 0, engine) == Ok(Binding([1], 0))
  {
    var args := Arguments([five, fifteen], map[]);
    ParsesAsNumber("?1", 1);
    var kinds := KindsOf(params);
    assert kinds == [Ok(Numbered(1))];
    StartIsLeast(args, 0, 0);
    assert BindFrom(args, params, kinds, 1, 0, map[], true, engine) == Resolved([], 0);
    assert BindFrom(args, params, kinds, 0, 0, map[], true, engine) == Resolved([1], 0);
  }

  /** `SELECT ?1, ?2, ?3` with two values, where the engine refuses the
      second: the loop stops there with the engine's error, after binding
      parameters 1 and 2, and never reaches the out-of-range third. */
  lemma {:induction false} BindStopsAtEngineError(one: Value, two: Value, params: seq<Option<string>>, engine: BindAnswer,
                               code: SqliteCodes.SqliteError)
    requires params == [Some("?1"), Some("?2"), Some("?3")]
    requires engine(1, 1).None? && engine(2, 2) == Some(code)
    ensures Bind(Arguments([one, two], map[]), params, 0, engine) ==
      Err(BindFailure(Errors.FromSqliteError(code), 1, [1, 2]))
  {
    var args := Arguments([one, two], map[]);
    ParsesAsNumber("?1", 1);
    ParsesAsNumber("?2", 2);
    ParsesAsNumber("?3", 3);
    var kinds := KindsOf(params);
    assert kinds == [Ok(Numbered(1)), Ok(Numbered(2)), Ok(Numbered(3))];
    StartIsLeast(args, 0, 0);
    assert BindFrom(args, params, kinds, 1, 0, map[], true, engine) == Failed(Errors.FromSqliteError(code), 1, [2]);
    assert BindFrom(args, params, kinds, 0, 0, map[], true, engine) == Failed(Errors.FromSqliteError(code), 1, [1, 2]);
  }
}

=== FILE: codec.dfy ===
/** The value codecs of crates/musq/src/types: the `compatible!` data-type gate
    (types/mod.rs), and the encoders and decoders of the signed integers
    (int.rs), unsigned integers (uint.rs), strings (str.rs) and byte strings
    (bytes.rs). */
module Codec {

  import opened Wrappers
  import opened Numeric
  import TypeInfo
  import opened SqlValue
  import opened CodecErrors
  import Utf8

  type SqliteDataType = TypeInfo.SqliteDataType

  /** What an encoder hands to the statement: a 32-bit or 64-bit integer, a
      text or a blob. `Arc<String>` and `Arc<Vec<u8>>` carry plain contents here. */
  datatype ArgumentValue =
    | ArgInt(int32: I32)
    | ArgInt64(int64: I64)
    | ArgText(text: string)
    | ArgBlob(bytes: seq<Byte>)

  /** The value an argument becomes once bound: integers of both widths are
      stored as SQLite's 64-bit INTEGER, with no declared type. */
  function ToValue(a: ArgumentValue): (v: Value)
    ensures v.typeInfo.None?
    ensures a.ArgInt? ==> v == Integer(a.int32, None)
    ensures a.ArgInt64? ==> v == Integer(a.int64, None)
    ensures a.ArgText? ==> v == Text(a.text, None)
    ensures a.ArgBlob? ==> v == Blob(a.bytes, None)
  {
    match a
    case ArgInt(x) => Integer(x, None)
    case ArgInt64(x) => Integer(x, None)
    case ArgText(s) => Text(s, None)
    case ArgBlob(b) => Blob(b, None)
  }

  /** The value read back from a column declared `declared` after storing `a`. */
  function Stored(a: ArgumentValue, declared: Option<SqliteDataType>): (v: Value)
    ensures v.typeInfo == declared
  {
    match a
    case ArgInt(x) => Integer(x, declared)
    case ArgInt64(x) => Integer(x, declared)
    case ArgText(s) => Text(s, declared)
    case ArgBlob(b) => Blob(b, declared)
  }

  /** `compatible!(value, allowed)`: None lets the decoder go on, Some is the
      error it returns at once. */
  function Gate(v: Value, allowed: set<SqliteDataType>): (r: Option<DecodeError>)
    ensures r.None? <==> TypeInfoOf(v) == TypeInfo.Null || TypeInfoOf(v) in allowed
    ensures r.Some? ==> r.value == IncompatibleDataType(TypeInfoOf(v))
  {
    var t := TypeInfoOf(v);
    if !TypeInfo.IsNull(t) && t !in allowed then Some(IncompatibleDataType(t)) else None
  }

  const INTEGER_TYPES: set<SqliteDataType> := {TypeInfo.Int, TypeInfo.Int64}
  const TEXT_TYPES: set<SqliteDataType> := {TypeInfo.Text}
  const BYTES_TYPES: set<SqliteDataType> := {TypeInfo.Blob, TypeInfo.Text}

  /** `let v: i32 = value.int()?; Ok(v.try_into()?)`, into the range [lo, hi]. */
  function NarrowInt(v: Value, lo: int, hi: int): (r: Result<int, DecodeError>)
    requires I32_MIN <= lo <= hi <= I32_MAX
    ensures r.Ok? <==> v.Integer? && lo <= v.int64 <= hi
    ensures r.Ok? ==> r.value == v.int64
  {
    var x :- AsInt(v);
    if lo <= x <= hi then Ok(x) else Err(DecodeErrorFromTryFromInt())
  }

  /** `<i8 as Decode>::decode`. */
  function DecodeI8(v: Value): (r: Result<I8, DecodeError>)
    ensures r.Ok? <==> Gate(v, INTEGER_TYPES).None? && v.Integer? && I8_MIN <= v.int64 <= I8_MAX
    ensures r.Ok? ==> r.value == v.int64
    ensures Gate(v, INTEGER_TYPES).Some? ==> r == Err(Gate(v, INTEGER_TYPES).value)
  {
    match Gate(v, INTEGER_TYPES)
    case Some(e) => Err(e)
    case None =>
      match NarrowInt(v, I8_MIN, I8_MAX)
      case Ok(x) => Ok(x)
      case Err(e) => Err(e)
  }

  /** `<i16 as Decode>::decode`. */
  function DecodeI16(v: Value): (r: Result<I16, DecodeError>)
    ensures r.Ok? <==> Gate(v, INTEGER_TYPES).None? && v.Integer? && I16_MIN <= v.int64 <= I16_MAX
    ensures r.Ok? ==> r.value == v.int64
    ensures Gate(v, INTEGER_TYPES).Some? ==> r == Err(Gate(v, INTEGER_TYPES).value)
  {
    match Gate(v, INTEGER_TYPES)
    case Some(e) => Err(e)
    case None =>
      match NarrowInt(v, I16_MIN, I16_MAX)
      case Ok(x) => Ok(x)
      case Err(e) => Err(e)
  }

  /** `<i32 as Decode>::decode`: the gate, then `Value::int`. */
  function DecodeI32(v: Value): (r: Result<I32, DecodeError>)
    ensures r.Ok? <==> Gate(v, INTEGER_TYPES).None? && v.Integer? && I32_MIN <= v.int64 <= I32_MAX
    ensures r.Ok? ==> r.value == v.int64
    ensures Gate(v, INTEGER_TYPES).Some? ==> r == Err(Gate(v, INTEGER_TYPES).value)
    ensures Gate(v, INTEGER_TYPES).None? ==> r == AsInt(v)
  {
    match Gate(v, INTEGER_TYPES)
    case Some(e) => Err(e)
    case None => AsInt(v)
  }

  /** `<i64 as Decode>::decode`: the gate, then `Value::int64`. The source wraps
      the accessor's `Result` in a further `Ok`; the accessor's outcome is taken
      as the decoder's. */
  function DecodeI64(v: Value): (r: Result<I64, DecodeError>)
    ensures r.Ok? <==> Gate(v, INTEGER_TYPES).None? && v.Integer?
    ensures r.Ok? ==> r.value == v.int64
    ensures Gate(v, INTEGER_TYPES).Some? ==> r == Err(Gate(v, INTEGER_TYPES).value)
    ensures Gate(v, INTEGER_TYPES).None? ==> r == AsInt64(v)
  {
    match Gate(v, INTEGER_TYPES)
    case Some(e) => Err(e)
    case None => AsInt64(v)
  }

  /** `<u8 as Decode>::decode`: through `Value::int`, then `try_into`. */
  function DecodeU8(v: Value): (r: Result<U8, DecodeError>)
    ensures r.Ok? <==> Gate(v, INTEGER_TYPES).None? && v.Integer? && 0 <= v.int64 <= U8_MAX
    ensures r.Ok? ==> r.value == v.int64
    ensures Gate(v, INTEGER_TYPES).Some? ==> r == Err(Gate(v, INTEGER_TYPES).value)
  {
    match Gate(v, INTEGER_TYPES)
    case Some(e) => Err(e)
    case None =>
      match NarrowInt(v, 0, U8_MAX)
      case Ok(x) => Ok(x)
      case Err(e) => Err(e)
  }

  /** `<u16 as Decode>::decode`: through `Value::int`, then `try_into`. */
  function DecodeU16(v: Value): (r: Result<U16, DecodeError>)
    ensures r.Ok? <==> Gate(v, INTEGER_TYPES).None? && v.Integer? && 0 <= v.int64 <= U16_MAX
    ensures r.Ok? ==> r.value == v.int64
    ensures Gate(v, INTEGER_TYPES).Some? ==> r == Err(Gate(v, INTEGER_TYPES).value)
  {
    match Gate(v, INTEGER_TYPES)
    case Some(e) => Err(e)
    case None =>
      match NarrowInt(v, 0, U16_MAX)
      case Ok(x) => Ok(x)
      case Err(e) => Err(e)
  }

  /** `<u32 as Decode>::decode`: through `Value::int64`, then `try_into`. */
  function DecodeU32(v: Value): (r: Result<U32, DecodeError>)
    ensures r.Ok? <==> Gate(v, INTEGER_TYPES).None? && v.Integer? && 0 <= v.int64 <= U32_MAX
    ensures r.Ok? ==> r.value == v.int64
    ensures Gate(v, INTEGER_TYPES).Some? ==> r == Err(Gate(v, INTEGER_TYPES).value)
    ensures Gate(v, INTEGER_TYPES).None? && v.Integer? && !(0 <= v.int64 <= U32_MAX) ==>
      r == Err(DecodeErrorFromTryFromInt())
  {
    match Gate(v, INTEGER_TYPES)
    case Some(e) => Err(e)
    case None =>
      match AsInt64(v)
      case Err(e) => Err(e)
      case Ok(x) => if 0 <= x <= U32_MAX then Ok(x) else Err(DecodeErrorFromTryFromInt())
  }

  /** `<String as Decode>::decode` (also `&str` and `Arc<String>`). */
  function DecodeText(v: Value): (r: Result<string, DecodeError>)
    ensures r.Ok? <==> Gate(v, TEXT_TYPES).None? && v.Text?
    ensures r.Ok? ==> r.value == v.text
    ensures Gate(v, TEXT_TYPES).Some? ==> r == Err(Gate(v, TEXT_TYPES).value)
    ensures Gate(v, TEXT_TYPES).None? ==> r == AsText(v)
  {
    match Gate(v, TEXT_TYPES)
    case Some(e) => Err(e)
    case None => AsText(v)
  }

  /** `<Vec<u8> as Decode>::decode` (also `&[u8]` and `Arc<Vec<u8>>`). The
      source wraps the accessor's `Result` in a further `Ok`; the accessor's
      outcome is taken as the decoder's. */
  function DecodeBytes(v: Value): (r: Result<seq<Byte>, DecodeError>)
    ensures r.Ok? <==> Gate(v, BYTES_TYPES).None? && (v.Blob? || v.Text?)
    ensures r.Ok? && v.Blob? ==> r.value == v.bytes
    ensures r.Ok? && v.Text? ==> r.value == Utf8.Encode(v.text)
    ensures Gate(v, BYTES_TYPES).Some? ==> r == Err(Gate(v, BYTES_TYPES).value)
    ensures Gate(v, BYTES_TYPES).None? ==> r == AsBlob(v)
  {
    match Gate(v, BYTES_TYPES)
    case Some(e) => Err(e)
    case None => AsBlob(v)
  }

  /* Encoders. Each writes its value without loss into the argument variant
     the source chooses. */

  function EncodeI8(x: I8): (a: ArgumentValue)
    ensures a.ArgInt? && a.int32 == x
  {
    ArgInt(x)
  }

  function EncodeI16(x: I16): (a: ArgumentValue)
    ensures a.ArgInt? && a.int32 == x
  {
    ArgInt(x)
  }

  function EncodeI32(x: I32): (a: ArgumentValue)
    ensures a.ArgInt? && a.int32 == x
  {
    ArgInt(x)
  }

  function EncodeI64(x: I64): (a: ArgumentValue)
    ensures a.ArgInt64? && a.int64 == x
  {
    ArgInt64(x)
  }

  function EncodeU8(x: U8): (a: ArgumentValue)
    ensures a.ArgInt? && a.int32 == x
  {
    ArgInt(x)
  }

  function EncodeU16(x: U16): (a: ArgumentValue)
    ensures a.ArgInt? && a.int32 == x
  {
    ArgInt(x)
  }

  /** `u32` is widened to `i64`, the next larger signed type. */
  function EncodeU32(x: U32): (a: ArgumentValue)
    ensures a.ArgInt64? && a.int64 == x
  {
    ArgInt64(x)
  }

  function EncodeText(s: string): (a: ArgumentValue)
    ensures a.ArgText? && a.text == s
  {
    ArgText(s)
  }

  function EncodeBytes(b: seq<Byte>): (a: ArgumentValue)
    ensures a.ArgBlob? && a.bytes == b
  {
    ArgBlob(b)
  }

  /** A column declared with no type, or with one of the integer types. */
  predicate IntegerColumn(declared: Option<SqliteDataType>) {
    declared.None? || declared.value in INTEGER_TYPES || declared.value == TypeInfo.Null
  }

  /** Encoding, storing in an integer column and decoding gives back every
      signed value at every width. */
  lemma {:induction false} SignedRoundTrip(declared: Option<SqliteDataType>, a: I8, b: I16, c: I32, d: I64)
    requires IntegerColumn(declared)
    ensures DecodeI8(Stored(EncodeI8(a), declared)) == Ok(a)
    ensures DecodeI16(Stored(EncodeI16(b), declared)) == Ok(b)
    ensures DecodeI32(Stored(EncodeI32(c), declared)) == Ok(c)
    ensures DecodeI64(Stored(EncodeI64(d), declared)) == Ok(d)
  {
  }

  /** The same for every unsigned width; `u32` survives the trip through `i64`. */
  lemma {:induction false} UnsignedRoundTrip(declared: Option<SqliteDataType>, a: U8, b: U16, c: U32)
    requires IntegerColumn(declared)
    ensures DecodeU8(Stored(EncodeU8(a), declared)) == Ok(a)
    ensures DecodeU16(Stored(EncodeU16(b), declared)) == Ok(b)
    ensures DecodeU32(Stored(EncodeU32(c), declared)) == Ok(c)
  {
  }

  /** Strings and byte strings come back unchanged from a column whose declared
      type the decoder accepts. */
  lemma {:induction false} TextAndBytesRoundTrip(s: string, b: seq<Byte>, declared: Option<SqliteDataType>)
    requires declared.None? || declared.value in {TypeInfo.Text, TypeInfo.Null}
    ensures DecodeText(Stored(EncodeText(s), declared)) == Ok(s)
    ensures DecodeBytes(Stored(EncodeBytes(b), declared)) == Ok(b)
  {
  }

  /** An unsigned decoder never yields a value from a negative stored integer. */
  lemma {:induction false} UnsignedRejectsNegative(v: Value)
    requires v.Integer? && v.int64 < 0
    ensures DecodeU8(v).Err? && DecodeU16(v).Err? && DecodeU32(v).Err?
  {
  }

  /** A NULL read from a column declared outside the decoder's set fails with
      the data-type error naming that type, not with "unexpected NULL"; from a
      column with no declared type it fails with "unexpected NULL". */
  lemma {:induction false} NullDecodeErrors(declared: SqliteDataType)
    ensures declared !in INTEGER_TYPES && declared != TypeInfo.Null ==>
      DecodeI32(Null(Some(declared))) == Err(IncompatibleDataType(declared))
    ensures declared !in TEXT_TYPES && declared != TypeInfo.Null ==>
      DecodeText(Null(Some(declared))) == Err(IncompatibleDataType(declared))
    ensures DecodeI32(Null(None)) == Err(Conversion(UNEXPECTED_NULL))
    ensures DecodeI64(Null(None)) == Err(Conversion(UNEXPECTED_NULL))
    ensures DecodeText(Null(None)) == Err(Conversion(UNEXPECTED_NULL))
    ensures DecodeBytes(Null(None)) == Err(Conversion(UNEXPECTED_NULL))
  {
  }

  /** A Blob-typed value is rejected by the text decoders whatever its bytes;
      a Text value read as bytes is its UTF-8 encoding, which decodes back. */
  lemma {:induction false} TextDecoderRejectsBlob(b: seq<Byte>, s: string)
    ensures DecodeText(Blob(b, None)) == Err(IncompatibleDataType(TypeInfo.Blob))
    ensures DecodeBytes(Text(s, None)).Ok?
    ensures Utf8.Decode(DecodeBytes(Text(s, None)).value) == Some(s)
  {
    Utf8.DecodeEncode(s);
  }

  /** The narrow decoders agree with the wide one wherever they succeed, and
      succeed exactly where the value fits their width. */
  lemma {:induction false} DecodersAgree(v: Value)
    ensures DecodeI8(v).Ok? <==> DecodeI64(v).Ok? && I8_MIN <= DecodeI64(v).value <= I8_MAX
    ensures DecodeI16(v).Ok? <==> DecodeI64(v).Ok? && I16_MIN <= DecodeI64(v).value <= I16_MAX
    ensures DecodeI32(v).Ok? <==> DecodeI64(v).Ok? && I32_MIN <= DecodeI64(v).value <= I32_MAX
    ensures DecodeU8(v).Ok? <==> DecodeI64(v).Ok? && 0 <= DecodeI64(v).value <= U8_MAX
    ensures DecodeU16(v).Ok? <==> DecodeI64(v).Ok? && 0 <= DecodeI64(v).value <= U16_MAX
    ensures DecodeU32(v).Ok? <==> DecodeI64(v).Ok? && 0 <= DecodeI64(v).value <= U32_MAX
  {
  }
}

=== FILE: codec_errors.dfy ===
/** `DecodeError` and `EncodeError` (crates/musq/src/error.rs:16-45): the two
    failure kinds of the value codecs, and their conversions from Rust's
    integer-conversion error and from plain strings. */
module CodecErrors {

  import opened TypeInfo

  /** The data-type gate's rejection carries the offending type. The gate builds
      it as `DecodeError::DataType` in crates/musq/src/types/mod.rs while
      crates/musq/src/error.rs declares the variant `IncompatibleDataType`; one
      variant stands for both. */
  datatype DecodeError =
    | IncompatibleDataType(dataType: SqliteDataType)
    | Conversion(message: string)

  datatype EncodeError = EncodeConversion(message: string)

  /** The text of Rust's `TryFromIntError`. */
  const TRY_FROM_INT_MESSAGE: string := "out of range integral type conversion attempted"

  /** `impl From<TryFromIntError> for DecodeError`. */
  function DecodeErrorFromTryFromInt(): (e: DecodeError)
    ensures e.Conversion? && e.message == TRY_FROM_INT_MESSAGE
  {
    Conversion(TRY_FROM_INT_MESSAGE)
  }

  /** `impl From<String> for DecodeError`. */
  function DecodeErrorFromString(message: string): (e: DecodeError)
    ensures e.Conversion? && e.message == message
  {
    Conversion(message)
  }

  /** `impl From<String> for EncodeError`. */
  function EncodeErrorFromString(message: string): (e: EncodeError)
    ensures e.message == message
  {
    EncodeConversion(message)
  }
}

=== FILE: compound.dfy ===
/** `CompoundStatement` (crates/musq/src/sqlite/statement/compound.rs): a
    query of zero or more SQL statements, prepared one at a time as the
    caller walks through them.

    The engine's compiler is an oracle `engine`: given the remaining query
    bytes it answers with an error, or with the number of bytes it consumed
    and the statement it compiled (none for a comment or blank). Statement
    handles are identified by number. */
module Compound {

  import opened Wrappers
  import opened Numeric
  import TypeInfo
  import SqliteCodes
  import Errors
  import Rows
  import Text
  import Utf8

  type Error = Errors.Error
  type SqliteDataType = TypeInfo.SqliteDataType

  /** What the engine reports about one column of a compiled statement: its
      name (null when the engine gives none), its declared type if the
      declaration parses, and the storage class of its current value. */
  datatype ColumnMeta = ColumnMeta(name: Option<string>, declType: Option<SqliteDataType>, storage: Option<SqliteDataType>)

  datatype Compiled = Compiled(handle: nat, meta: seq<ColumnMeta>)

  /** One answer of `sqlite3_prepare_v3`, after its lock retries. */
  datatype PrepareAnswer =
    | PrepareFailed(error: SqliteCodes.SqliteError)
    | PrepareOk(consumed: nat, stmt: Option<Compiled>)

  /** The engine never consumes more than it is given. */
  ghost predicate Sane(engine: seq<Byte> -> PrepareAnswer) {
    forall q :: engine(q).PrepareOk? ==> engine(q).consumed <= |q|
  }

  /** A prepared statement: handle, columns and the name lookup table. */
  datatype Statement = Statement(handle: nat, columns: seq<Rows.Column>, columnNames: map<string, nat>)

  /** `index`: None before the first `prepare_next`; otherwise the position
      of the statement being executed, `|statements|` once past the last.
      `tail`: the bytes not yet compiled. */
  datatype Compound = Compound(index: Option<nat>, tail: seq<Byte>, statements: seq<Statement>)

  predicate Valid(c: Compound) {
    c.index.Some? ==> c.index.value <= |c.statements|
  }

  const QUERY_TOO_LONG: string := "query string must be smaller than 2147483647 bytes"

  /** `CompoundStatement::new`: the trimmed query, nothing prepared yet. */
  function New(query: string): (r: Result<Compound, Error>)
    ensures r.Err? <==> |Utf8.Encode(Text.Trim(query))| > I32_MAX
    ensures r.Err? ==> r.error == Errors.Protocol(QUERY_TOO_LONG)
    ensures r.Ok? ==> r.value.index.None? && r.value.statements == [] && Valid(r.value)
    ensures r.Ok? ==> Utf8.Decode(r.value.tail) == Some(Text.Trim(query))
  {
    var trimmed := Text.Trim(query);
    var bytes := Utf8.Encode(trimmed);
    if |bytes| > I32_MAX then Err(Errors.Protocol(QUERY_TOO_LONG))
    else
      Utf8.DecodeEncode(trimmed);
      Ok(Compound(None, bytes, []))
  }

  /** What `prepare_all` leaves behind: its result and the remaining tail,
      which it advances even when it then fails. */
  datatype PrepareAllResult = PrepareAllResult(outcome: Result<Option<Compiled>, Error>, tail: seq<Byte>)

  predicate IsSuffix(t: seq<Byte>, q: seq<Byte>) {
    |t| <= |q| && t == q[|q| - |t|..]
  }

  /** `prepare_all`: compile the next statement of `q`, skipping stretches
      that compile to nothing, and stopping when the engine consumes nothing. */
  function PrepareAll(engine: seq<Byte> -> PrepareAnswer, q: seq<Byte>): (r: PrepareAllResult)
    requires Sane(engine)
    ensures IsSuffix(r.tail, q)
    ensures r.outcome == Ok(None) ==> r.tail == [] || (engine(r.tail).PrepareOk? && engine(r.tail).consumed == 0)
    ensures r.outcome.Ok? && r.outcome.value.Some? ==> |r.tail| < |q|
    ensures r.outcome.Err? ==> r.tail != [] && engine(r.tail).PrepareFailed?
    ensures r.outcome.Err? ==> r.outcome.error == Errors.FromSqliteError(engine(r.tail).error)
    decreases |q|
  {
    if q == [] then PrepareAllResult(Ok(None), q)
    else
      match engine(q)
      case PrepareFailed(e) => PrepareAllResult(Err(Errors.FromSqliteError(e)), q)
      case PrepareOk(n, stmt) =>
        if n == 0 then PrepareAllResult(Ok(None), q)
        else if stmt.Some? then PrepareAllResult(Ok(stmt), q[n..])
        else
          var r := PrepareAll(engine, q[n..]);
          assert q[n..][|q[n..]| - |r.tail|..] == q[|q| - |r.tail|..];
          r
  }

  /** The type recorded for a column: the declared type, else the storage
      class, else Null. */
  function ColumnType(m: ColumnMeta): SqliteDataType {
    match m.declType
    case Some(t) => t
    case None => m.storage.GetOr(TypeInfo.Null)
  }

  /** `i` is the last position at which `n` occurs in `names`. */
  predicate LastAt(names: seq<string>, n: string, i: int) {
    0 <= i < |names| && names[i] == n && forall j :: i < j < |names| ==> names[j] != n
  }

  /** Names `0 .. |names|` inserted in order into a hash map: a repeated name
      keeps its last index. */
  function NameTable(names: seq<string>): (m: map<string, nat>)
    ensures forall i :: 0 <= i < |names| ==> names[i] in m
    ensures forall n :: n in m ==> LastAt(names, n, m[n])
  {
    if names == [] then map[]
    else
      var k := |names| - 1;
      var prefix := names[..k];
      var m := NameTable(prefix);
      var m' := m[names[k] := k];
      forall n | n in m'
        ensures LastAt(names, n, m'[n])
      {
        if n != names[k] {
          assert LastAt(prefix, n, m[n]);
          assert names[m[n]] == prefix[m[n]];
        }
      }
      forall i | 0 <= i < |names|
        ensures names[i] in m'
      {
        if i < k {
          assert names[i] == prefix[i];
        }
      }
      m'
  }

  /** The columns and name table of a freshly compiled statement; a null
      column name fails with the connection's last error. */
  function BuildColumns(meta: seq<ColumnMeta>, lastError: SqliteCodes.SqliteError): (r: Result<(seq<Rows.Column>, map<string, nat>), Error>)
    ensures r.Ok? <==> forall i :: 0 <= i < |meta| ==> meta[i].name.Some?
    ensures r.Err? ==> r.error == Errors.FromSqliteError(lastError)
    ensures r.Ok? ==> |r.value.0| == |meta|
    ensures r.Ok? ==> forall i :: 0 <= i < |meta| ==> r.value.0[i] == Rows.Column(meta[i].name.value, ColumnType(meta[i]))
    ensures r.Ok? ==> r.value.1 == NameTable(seq(|meta|, i requires 0 <= i < |meta| => r.value.0[i].name))
  {
    if exists i :: 0 <= i < |meta| && meta[i].name.None? then Err(Errors.FromSqliteError(lastError))
    else
      var columns := seq(|meta|, i requires 0 <= i < |meta| => Rows.Column(meta[i].name.value, ColumnType(meta[i])));
      Ok((columns, NameTable(seq(|meta|, i requires 0 <= i < |meta| => columns[i].name))))
  }

  /** `CompoundStatement::current`: the statement at `index`, if any. */
  function Current(c: Compound): (r: Option<Statement>)
    ensures r.Some? <==> c.index.Some? && c.index.value < |c.statements|
    ensures r.Some? ==> r.value == c.statements[c.index.value]
  {
    match c.index
    case Some(i) => if i < |c.statements| then Some(c.statements[i]) else None
    case None => None
  }

  /** The index `prepare_next` moves to: 0 at first, then one further, up to
      the number of statements. */
  function NextIndex(c: Compound): (i: nat)
    requires Valid(c)
    ensures i <= |c.statements|
    ensures c.index.None? ==> i == 0
    ensures c.index.Some? && c.index.value < |c.statements| ==> i == c.index.value + 1
    ensures c.index.Some? && c.index.value == |c.statements| ==> i == |c.statements|
  {
    match c.index
    case None => 0
    case Some(i) => if i + 1 < |c.statements| then i + 1 else |c.statements|
  }

  /** `CompoundStatement::prepare_next`: move to the next statement,
      compiling it first when the walk has gone past the ones already
      prepared. */
  function PrepareNext(c: Compound, engine: seq<Byte> -> PrepareAnswer, lastError: SqliteCodes.SqliteError): (r: (Compound, Result<Option<Statement>, Error>))
    requires Valid(c) && Sane(engine)
    ensures Valid(r.0)
    ensures r.0.index == Some(NextIndex(c))
  {
    var idx := NextIndex(c);
    var c1 := c.(index := Some(idx));
    if idx < |c.statements| then (c1, Ok(Current(c1)))
    else if c.tail == [] then (c1, Ok(None))
    else
      var p := PrepareAll(engine, c.tail);
      var c2 := c1.(tail := p.tail);
      match p.outcome
      case Err(e) => (c2, Err(e))
      case Ok(None) => (c2, Ok(None))
      case Ok(Some(stmt)) =>
        match BuildColumns(stmt.meta, lastError)
        case Err(e) => (c2, Err(e))
        case Ok(built) =>
          var c3 := c2.(statements := c.statements + [Statement(stmt.handle, built.0, built.1)]);
          (c3, Ok(Current(c3)))
  }

  /** A successful `prepare_next` reports the statement now current. */
  lemma {:induction false} PrepareNextCurrent(c: Compound, engine: seq<Byte> -> PrepareAnswer, lastError: SqliteCodes.SqliteError)
    requires Valid(c) && Sane(engine)
    ensures PrepareNext(c, engine, lastError).1.Ok? ==>
      PrepareNext(c, engine, lastError).1.value == Current(PrepareNext(c, engine, lastError).0)
  {
  }

  /** Statements already prepared are kept, and at most one is added, only
      when the walk has reached the end of them. */
  lemma {:induction false} PrepareNextKeeps(c: Compound, engine: seq<Byte> -> PrepareAnswer, lastError: SqliteCodes.SqliteError)
    requires Valid(c) && Sane(engine)
    ensures var s := PrepareNext(c, engine, lastError).0.statements;
      |c.statements| <= |s| <= |c.statements| + 1 && s[..|c.statements|] == c.statements
    ensures |PrepareNext(c, engine, lastError).0.statements| > |c.statements| ==> NextIndex(c) == |c.statements|
  {
    var s := PrepareNext(c, engine, lastError).0.statements;
    if |s| > |c.statements| {
      assert s[..|c.statements|] == c.statements;
    }
  }

  /** A statement already prepared is reused without compiling anything. */
  lemma {:induction false} PrepareNextReuses(c: Compound, engine: seq<Byte> -> PrepareAnswer, lastError: SqliteCodes.SqliteError)
    requires Valid(c) && Sane(engine) && NextIndex(c) < |c.statements|
    ensures PrepareNext(c, engine, lastError).0 == Compound(Some(NextIndex(c)), c.tail, c.statements)
    ensures PrepareNext(c, engine, lastError).1 == Ok(Some(c.statements[NextIndex(c)]))
  {
  }

  /** The text left to compile only shrinks, from its front. */
  lemma {:induction false} PrepareNextTail(c: Compound, engine: seq<Byte> -> PrepareAnswer, lastError: SqliteCodes.SqliteError)
    requires Valid(c) && Sane(engine)
    ensures IsSuffix(PrepareNext(c, engine, lastError).0.tail, c.tail)
  {
  }

  /** The engine calls `reset` makes on a handle. */
  datatype HandleCall = ResetHandle(handle: nat) | ClearBindings(handle: nat)

  /** The first failure among the reset answers, if any. */
  function FirstFailure(results: seq<Option<SqliteCodes.SqliteError>>): (r: Option<nat>)
    ensures r.Some? ==> r.value < |results| && results[r.value].Some?
    ensures r.Some? ==> forall j :: 0 <= j < r.value ==> results[j].None?
    ensures r.None? ==> forall j :: 0 <= j < |results| ==> results[j].None?
  {
    if results == [] then None
    else if results[0].Some? then Some(0)
    else
      match FirstFailure(results[1..])
      case None => None
      case Some(k) => Some(k + 1)
  }

  /** `CompoundStatement::reset`: every handle is reset and has its bindings
      cleared, even after a failure; the first failure is returned and the
      walk starts over. `results[k]` is the answer of resetting handle `k`. */
  method Reset(c: Compound, results: seq<Option<SqliteCodes.SqliteError>>) returns (c': Compound, r: Result<(), Error>, calls: seq<HandleCall>)
    requires |results| == |c.statements|
    ensures c' == c.(index := None) && Valid(c')
    ensures |calls| == 2 * |c.statements|
    ensures forall k :: 0 <= k < |c.statements| ==>
      calls[2 * k] == ResetHandle(c.statements[k].handle) && calls[2 * k + 1] == ClearBindings(c.statements[k].handle)
    ensures r.Ok? <==> FirstFailure(results).None?
    ensures r.Err? ==> r.error == Errors.FromSqliteError(results[FirstFailure(results).value].value)
  {
    c' := c.(index := None);
    var firstErr: Option<Error> := None;
    calls := [];
    var k := 0;
    while k < |c.statements|
      invariant 0 <= k <= |c.statements|
      invariant |calls| == 2 * k
      invariant forall j :: 0 <= j < k ==>
        calls[2 * j] == ResetHandle(c.statements[j].handle) && calls[2 * j + 1] == ClearBindings(c.statements[j].handle)
      invariant firstErr.None? <==> FirstFailure(results[..k]).None?
      invariant firstErr.Some? ==> firstErr.value == Errors.FromSqliteError(results[FirstFailure(results[..k]).value].value)
    {
      assert results[..k + 1] == results[..k] + [results[k]];
      FirstFailureSnoc(results[..k], results[k]);
      if results[k].Some? && firstErr.None? {
        firstErr := Some(Errors.FromSqliteError(results[k].value));
      }
      calls := calls + [ResetHandle(c.statements[k].handle), ClearBindings(c.statements[k].handle)];
      k := k + 1;
    }
    assert results[..k] == results;
    r := if firstErr.Some? then Err(firstErr.value) else Ok(());
  }

  /** Appending one answer keeps an earlier first failure, and otherwise
      the new answer is the first failure exactly when it is one. */
  lemma {:induction false} FirstFailureSnoc(a: seq<Option<SqliteCodes.SqliteError>>, x: Option<SqliteCodes.SqliteError>)
    ensures FirstFailure(a + [x]) ==
      if FirstFailure(a).Some? then FirstFailure(a) else if x.Some? then Some(|a|) else None
  {
    if a != [] {
      assert (a + [x])[1..] == a[1..] + [x];
      FirstFailureSnoc(a[1..], x);
    } else {
      assert a + [x] == [x];
    }
  }

  /** After a reset, the walk reuses the statements already prepared without
      asking the engine for anything: whatever the engine would answer, the
      first `prepare_next` returns the first statement again. */
  lemma {:induction false} ResetReusesStatements(c: Compound, engine: seq<Byte> -> PrepareAnswer, lastError: SqliteCodes.SqliteError)
    requires Sane(engine) && |c.statements| > 0
    ensures PrepareNext(Compound(None, c.tail, c.statements), engine, lastError).0 == Compound(Some(0), c.tail, c.statements)
    ensures PrepareNext(Compound(None, c.tail, c.statements), engine, lastError).1 == Ok(Some(c.statements[0]))
  {
  }

  /** The walk over a fully compiled query returns the statements in order. */
  lemma {:induction false} WalkInOrder(c: Compound, engine: seq<Byte> -> PrepareAnswer, lastError: SqliteCodes.SqliteError, i: nat)
    requires Sane(engine) && c.tail == [] && i + 1 < |c.statements|
    ensures PrepareNext(Compound(Some(i), [], c.statements), engine, lastError).0 == Compound(Some(i + 1), [], c.statements)
    ensures PrepareNext(Compound(Some(i), [], c.statements), engine, lastError).1 == Ok(Some(c.statements[i + 1]))
  {
    assert NextIndex(Compound(Some(i), [], c.statements)) == i + 1;
  }

  /** Once past the last statement of a fully compiled query, `prepare_next`
      returns None and leaves the index at the end. */
  lemma {:induction false} WalkPastEnd(c: Compound, engine: seq<Byte> -> PrepareAnswer, lastError: SqliteCodes.SqliteError, i: nat)
    requires Sane(engine) && c.tail == [] && i <= |c.statements| <= i + 1
    ensures PrepareNext(Compound(Some(i), [], c.statements), engine, lastError).0 == Compound(Some(|c.statements|), [], c.statements)
    ensures PrepareNext(Compound(Some(i), [], c.statements), engine, lastError).1 == Ok(None)
  {
    assert NextIndex(Compound(Some(i), [], c.statements)) == |c.statements|;
  }

  /** A query with nothing left to compile and nothing compiled has no
      statement to walk. */
  lemma {:induction false} NothingToPrepare(engine: seq<Byte> -> PrepareAnswer, lastError: SqliteCodes.SqliteError)
    requires Sane(engine)
    ensures PrepareNext(Compound(None, [], []), engine, lastError).0 == Compound(Some(0), [], [])
    ensures PrepareNext(Compound(None, [], []), engine, lastError).1 == Ok(None)
  {
  }
}

=== FILE: config.dfy ===
/** The connection options `Musq` (crates/musq/src/musq.rs): the mode enums,
    the ordered map of initial pragmas and its rendering into the statement
    run on every new connection. */
module Config {

  import opened Wrappers
  import opened Numeric
  import OrderedMap
  import Text
  import StatementCache

  /* ---------------------------------------------------------------------- */
  /* Mode enums                                                              */

  /** A pragma value the modes render to: a non-empty run of upper-case
      ASCII letters, a bare SQL keyword that needs no quoting. */
  predicate IsKeyword(s: string) {
    s != [] && forall i :: 0 <= i < |s| ==> 'A' <= s[i] <= 'Z'
  }

  datatype LockingMode = LockingNormal | LockingExclusive

  function LockingModeStr(m: LockingMode): (r: string)
    ensures IsKeyword(r)
  {
    match m
    case LockingNormal => "NORMAL"
    case LockingExclusive => "EXCLUSIVE"
  }

  datatype JournalMode = JournalDelete | JournalTruncate | JournalPersist | JournalMemory | JournalWal | JournalOff

  function JournalModeStr(m: JournalMode): (r: string)
    ensures IsKeyword(r)
  {
    match m
    case JournalDelete => "DELETE"
    case JournalTruncate => "TRUNCATE"
    case JournalPersist => "PERSIST"
    case JournalMemory => "MEMORY"
    case JournalWal => "WAL"
    case JournalOff => "OFF"
  }

  datatype AutoVacuum = VacuumNone | VacuumFull | VacuumIncremental

  function AutoVacuumStr(m: AutoVacuum): (r: string)
    ensures IsKeyword(r)
  {
    match m
    case VacuumNone => "NONE"
    case VacuumFull => "FULL"
    case VacuumIncremental => "INCREMENTAL"
  }

  datatype Synchronous = SyncOff | SyncNormal | SyncFull | SyncExtra

  function SynchronousStr(m: Synchronous): (r: string)
    ensures IsKeyword(r)
  {
    match m
    case SyncOff => "OFF"
    case SyncNormal => "NORMAL"
    case SyncFull => "FULL"
    case SyncExtra => "EXTRA"
  }

  const DEFAULT_LOCKING_MODE: LockingMode := LockingNormal
  const DEFAULT_JOURNAL_MODE: JournalMode := JournalWal
  const DEFAULT_AUTO_VACUUM: AutoVacuum := VacuumNone
  const DEFAULT_SYNCHRONOUS: Synchronous := SyncFull

  /** Each mode renders as its own keyword, so distinct modes give distinct
      pragma values, and the defaults render as NORMAL, WAL, NONE and FULL. */
  lemma ModeStrings()
    ensures forall a, b :: LockingModeStr(a) == LockingModeStr(b) ==> a == b
    ensures forall a, b :: AutoVacuumStr(a) == AutoVacuumStr(b) ==> a == b
    ensures forall a, b :: SynchronousStr(a) == SynchronousStr(b) ==> a == b
    ensures LockingModeStr(DEFAULT_LOCKING_MODE) == "NORMAL" && AutoVacuumStr(DEFAULT_AUTO_VACUUM) == "NONE"
    ensures SynchronousStr(DEFAULT_SYNCHRONOUS) == "FULL"
  {
  }

  lemma JournalModeStrings()
    ensures forall a, b :: JournalModeStr(a) == JournalModeStr(b) ==> a == b
    ensures JournalModeStr(DEFAULT_JOURNAL_MODE) == "WAL"
  {
  }

  /* ---------------------------------------------------------------------- */
  /* Options                                                                 */

  datatype OptimizeOnClose = OptimizeEnabled(analysisLimit: Option<U32>) | OptimizeDisabled

  /** The options the connection logic reads. Durations are in milliseconds;
      the worker thread naming callback and the log settings are omitted. */
  datatype Musq = Musq(
    filename: seq<Byte>,
    inMemory: bool,
    readOnly: bool,
    createIfMissing: bool,
    sharedCache: bool,
    busyTimeoutMs: nat,
    immutable: bool,
    vfs: Option<string>,
    pragmas: OrderedMap.IndexMap<Option<string>>,
    commandChannelSize: nat,
    rowChannelSize: nat,
    statementCacheCapacity: nat,
    serialized: bool,
    poolMaxConnections: U32,
    poolAcquireTimeoutMs: nat,
    optimizeOnClose: OptimizeOnClose)

  predicate Valid(m: Musq) {
    OrderedMap.Valid(m.pragmas)
  }

  /** The default filename `:memory:`, as the bytes of the path. */
  const MEMORY_FILENAME: seq<Byte> := [0x3A, 0x6D, 0x65, 0x6D, 0x6F, 0x72, 0x79, 0x3A]

  const PAGE_SIZE: string := "page_size"
  const LOCKING_MODE: string := "locking_mode"
  const JOURNAL_MODE: string := "journal_mode"
  const FOREIGN_KEYS: string := "foreign_keys"
  const SYNCHRONOUS: string := "synchronous"
  const AUTO_VACUUM: string := "auto_vacuum"
  const ANALYSIS_LIMIT: string := "analysis_limit"

  /** The pragmas `new` inserts, in order, into an empty map: all unset
      except `foreign_keys = ON`. */
  function InitialPragmas(): (p: OrderedMap.IndexMap<Option<string>>)
    ensures OrderedMap.Valid(p)
    ensures p.keys == [PAGE_SIZE, LOCKING_MODE, JOURNAL_MODE, FOREIGN_KEYS, SYNCHRONOUS, AUTO_VACUUM, ANALYSIS_LIMIT]
    ensures forall k :: k in p.entries ==> p.entries[k] == if k == FOREIGN_KEYS then Some("ON") else None
  {
    var keys := [PAGE_SIZE, LOCKING_MODE, JOURNAL_MODE, FOREIGN_KEYS, SYNCHRONOUS, AUTO_VACUUM, ANALYSIS_LIMIT];
    OrderedMap.IndexMap(keys, map k | k in keys :: if k == FOREIGN_KEYS then Some("ON") else None)
  }

  /** `Musq::new`: the defaults. */
  function New(): (m: Musq)
    ensures Valid(m) && m.filename == MEMORY_FILENAME && !m.inMemory && !m.readOnly && !m.createIfMissing && !m.sharedCache && !m.immutable && !m.serialized
    ensures m.statementCacheCapacity == StatementCache.DEFAULT_CAPACITY && m.busyTimeoutMs == 5000
    ensures m.poolMaxConnections == 10 && m.vfs.None?
  {
    Musq(MEMORY_FILENAME, false, false, false, false, 5000, false, None, InitialPragmas(),
         50, 50, StatementCache.DEFAULT_CAPACITY, false, 10, 30000, OptimizeDisabled)
  }

  /** `Musq::filename`: the path, as bytes; nothing else changes. */
  function Filename(m: Musq, path: seq<Byte>): (r: Musq)
    ensures r.filename == path && r == m.(filename := path)
  {
    m.(filename := path)
  }

  /** `Musq::in_memory`. */
  function InMemory(m: Musq, on: bool): (r: Musq)
    ensures r.inMemory == on && r == m.(inMemory := on)
  {
    m.(inMemory := on)
  }

  /** `Musq::pragma`: the key set to the value, in place when it is already
      present, otherwise at the end. */
  function Pragma(m: Musq, key: string, value: string): (r: Musq)
    requires Valid(m)
    ensures Valid(r) && r == m.(pragmas := r.pragmas)
    ensures key in m.pragmas.keys ==> r.pragmas.keys == m.pragmas.keys
    ensures key !in m.pragmas.keys ==> r.pragmas.keys == m.pragmas.keys + [key]
    ensures OrderedMap.Lookup(r.pragmas, key) == Some(Some(value))
    ensures forall k :: k != key ==> OrderedMap.Lookup(r.pragmas, k) == OrderedMap.Lookup(m.pragmas, k)
  {
    m.(pragmas := OrderedMap.Put(m.pragmas, key, Some(value)))
  }

  function ForeignKeys(m: Musq, on: bool): (r: Musq)
    requires Valid(m)
    ensures Valid(r) && r == m.(pragmas := r.pragmas)
    ensures OrderedMap.Lookup(r.pragmas, FOREIGN_KEYS) == Some(Some(if on then "ON" else "OFF"))
    ensures forall k :: k != FOREIGN_KEYS ==> OrderedMap.Lookup(r.pragmas, k) == OrderedMap.Lookup(m.pragmas, k)
  {
    Pragma(m, FOREIGN_KEYS, if on then "ON" else "OFF")
  }

  function WithJournalMode(m: Musq, mode: JournalMode): (r: Musq)
    requires Valid(m)
    ensures Valid(r) && r == m.(pragmas := r.pragmas)
    ensures OrderedMap.Lookup(r.pragmas, JOURNAL_MODE) == Some(Some(JournalModeStr(mode)))
    ensures forall k :: k != JOURNAL_MODE ==> OrderedMap.Lookup(r.pragmas, k) == OrderedMap.Lookup(m.pragmas, k)
  {
    Pragma(m, JOURNAL_MODE, JournalModeStr(mode))
  }

  function WithLockingMode(m: Musq, mode: LockingMode): (r: Musq)
    requires Valid(m)
    ensures Valid(r) && r == m.(pragmas := r.pragmas)
    ensures OrderedMap.Lookup(r.pragmas, LOCKING_MODE) == Some(Some(LockingModeStr(mode)))
    ensures forall k :: k != LOCKING_MODE ==> OrderedMap.Lookup(r.pragmas, k) == OrderedMap.Lookup(m.pragmas, k)
  {
    Pragma(m, LOCKING_MODE, LockingModeStr(mode))
  }

  function WithSynchronous(m: Musq, mode: Synchronous): (r: Musq)
    requires Valid(m)
    ensures Valid(r) && r == m.(pragmas := r.pragmas)
    ensures OrderedMap.Lookup(r.pragmas, SYNCHRONOUS) == Some(Some(SynchronousStr(mode)))
    ensures forall k :: k != SYNCHRONOUS ==> OrderedMap.Lookup(r.pragmas, k) == OrderedMap.Lookup(m.pragmas, k)
  {
    Pragma(m, SYNCHRONOUS, SynchronousStr(mode))
  }

  function WithAutoVacuum(m: Musq, mode: AutoVacuum): (r: Musq)
    requires Valid(m)
    ensures Valid(r) && r == m.(pragmas := r.pragmas)
    ensures OrderedMap.Lookup(r.pragmas, AUTO_VACUUM) == Some(Some(AutoVacuumStr(mode)))
    ensures forall k :: k != AUTO_VACUUM ==> OrderedMap.Lookup(r.pragmas, k) == OrderedMap.Lookup(m.pragmas, k)
  {
    Pragma(m, AUTO_VACUUM, AutoVacuumStr(mode))
  }

  function PageSize(m: Musq, size: U32): (r: Musq)
    requires Valid(m)
    ensures Valid(r) && r == m.(pragmas := r.pragmas)
    ensures OrderedMap.Lookup(r.pragmas, PAGE_SIZE) == Some(Some(Text.Decimal(size)))
    ensures forall k :: k != PAGE_SIZE ==> OrderedMap.Lookup(r.pragmas, k) == OrderedMap.Lookup(m.pragmas, k)
  {
    Pragma(m, PAGE_SIZE, Text.Decimal(size))
  }

  /** `analysis_limit`: a limit sets the pragma; none resets it to unset. */
  function AnalysisLimit(m: Musq, limit: Option<U32>): (r: Musq)
    requires Valid(m)
    ensures Valid(r) && r == m.(pragmas := r.pragmas)
    ensures limit.Some? ==> OrderedMap.Lookup(r.pragmas, ANALYSIS_LIMIT) == Some(Some(Text.Decimal(limit.value)))
    ensures limit.None? ==> OrderedMap.Lookup(r.pragmas, ANALYSIS_LIMIT) == Some(None)
    ensures forall k :: k != ANALYSIS_LIMIT ==> OrderedMap.Lookup(r.pragmas, k) == OrderedMap.Lookup(m.pragmas, k)
  {
    match limit
    case Some(n) => Pragma(m, ANALYSIS_LIMIT, Text.Decimal(n))
    case None => m.(pragmas := OrderedMap.Put(m.pragmas, ANALYSIS_LIMIT, None))
  }

  /** `optimize_on_close`: the limit is kept only when enabled. */
  function OptimizeOnCloseSet(m: Musq, enabled: bool, limit: Option<U32>): (r: Musq)
    ensures r == m.(optimizeOnClose := r.optimizeOnClose)
    ensures enabled <==> r.optimizeOnClose.OptimizeEnabled?
    ensures enabled ==> r.optimizeOnClose.analysisLimit == limit
  {
    m.(optimizeOnClose := if enabled then OptimizeEnabled(limit) else OptimizeDisabled)
  }

  /* ---------------------------------------------------------------------- */
  /* Rendering                                                               */

  /** The set pragmas as (key, value) pairs, in map order. */
  function SetPairs(keys: seq<string>, entries: map<string, Option<string>>): (ps: seq<(string, string)>)
    requires forall i :: 0 <= i < |keys| ==> keys[i] in entries
    decreases |keys|
  {
    if keys == [] then []
    else
      match entries[keys[0]]
      case Some(v) => [(keys[0], v)] + SetPairs(keys[1..], entries)
      case None => SetPairs(keys[1..], entries)
  }

  /** `PRAGMA k = v; ` for each pair. */
  function Render(ps: seq<(string, string)>): string
    decreases |ps|
  {
    if ps == [] then "" else "PRAGMA " + ps[0].0 + " = " + ps[0].1 + "; " + Render(ps[1..])
  }

  /** `pragma_string`: every set pragma in map order; unset ones are skipped,
      so the string is empty exactly when no pragma is set. */
  function PragmaString(m: Musq): (r: string)
    requires Valid(m)
    ensures r == "" <==> forall i :: 0 <= i < |m.pragmas.keys| ==> m.pragmas.entries[m.pragmas.keys[i]].None?
  {
    SetPairsEmpty(m.pragmas.keys, m.pragmas.entries);
    Render(SetPairs(m.pragmas.keys, m.pragmas.entries))
  }

  /** No pair is produced exactly when every key is unset. */
  lemma {:induction false} SetPairsEmpty(keys: seq<string>, entries: map<string, Option<string>>)
    requires forall i :: 0 <= i < |keys| ==> keys[i] in entries
    ensures SetPairs(keys, entries) == [] <==> forall i :: 0 <= i < |keys| ==> entries[keys[i]].None?
    decreases |keys|
  {
    if keys != [] {
      SetPairsEmpty(keys[1..], entries);
      assert forall i :: 1 <= i < |keys| ==> keys[i] == keys[1..][i - 1];
    }
  }

  /** A pair is rendered exactly when its key is in the map with that value
      set. */
  lemma {:induction false} SetPairsMeaning(keys: seq<string>, entries: map<string, Option<string>>, k: string, v: string)
    requires forall i :: 0 <= i < |keys| ==> keys[i] in entries
    ensures (k, v) in SetPairs(keys, entries) <==> k in keys && entries[k] == Some(v)
    decreases |keys|
  {
    if keys != [] {
      SetPairsMeaning(keys[1..], entries, k, v);
      assert keys == [keys[0]] + keys[1..];
    }
  }

  /** The rendered statement carries `PRAGMA k = v; ` exactly for the keys set
      to a value. */
  lemma {:induction false} Rendered(m: Musq, k: string, v: string)
    requires Valid(m)
    ensures (k, v) in SetPairs(m.pragmas.keys, m.pragmas.entries) <==> OrderedMap.Lookup(m.pragmas, k) == Some(Some(v))
  {
    SetPairsMeaning(m.pragmas.keys, m.pragmas.entries, k, v);
  }

  lemma {:induction false} SetPairsAllUnset(keys: seq<string>, entries: map<string, Option<string>>)
    requires forall i :: 0 <= i < |keys| ==> keys[i] in entries && entries[keys[i]] == None
    ensures SetPairs(keys, entries) == []
    decreases |keys|
  {
    if keys != [] {
      SetPairsAllUnset(keys[1..], entries);
    }
  }

  lemma {:induction false} SetPairsAppend(a: seq<string>, b: seq<string>, entries: map<string, Option<string>>)
    requires forall i :: 0 <= i < |a| ==> a[i] in entries
    requires forall i :: 0 <= i < |b| ==> b[i] in entries
    ensures SetPairs(a + b, entries) == SetPairs(a, entries) + SetPairs(b, entries)
    decreases |a|
  {
    if a == [] {
      assert a + b == b;
    } else {
      assert (a + b)[1..] == a[1..] + b;
      SetPairsAppend(a[1..], b, entries);
    }
  }

  /** A map with a single set key renders only that key. */
  lemma {:induction false} SingleSet(front: seq<string>, k: string, back: seq<string>, entries: map<string, Option<string>>, v: string)
    requires forall i :: 0 <= i < |front| ==> front[i] in entries && entries[front[i]] == None
    requires forall i :: 0 <= i < |back| ==> back[i] in entries && entries[back[i]] == None
    requires k in entries && entries[k] == Some(v)
    ensures SetPairs(front + [k] + back, entries) == [(k, v)]
  {
    assert SetPairs(back, entries) == [] by {
      SetPairsAllUnset(back, entries);
    }
    assert SetPairs([k] + back, entries) == [(k, v)] by {
      SetPairsFront(k, back, entries);
    }
    assert SetPairs(front, entries) == [] by {
      SetPairsAllUnset(front, entries);
    }
    assert front + [k] + back == front + ([k] + back);
    SetPairsAppend(front, [k] + back, entries);
  }

  /** The initial map: three unset keys, foreign keys on, three unset keys
      distinct from the first three. */
  lemma InitialShape()
    ensures var p := InitialPragmas();
      var front := [PAGE_SIZE, LOCKING_MODE, JOURNAL_MODE];
      var back := [SYNCHRONOUS, AUTO_VACUUM, ANALYSIS_LIMIT];
      p.keys == front + [FOREIGN_KEYS] + back &&
      p.keys == [PAGE_SIZE, LOCKING_MODE, JOURNAL_MODE, FOREIGN_KEYS] + back &&
      (forall i :: 0 <= i < |front| ==> front[i] in p.entries && p.entries[front[i]] == None) &&
      (forall i :: 0 <= i < |back| ==> back[i] in p.entries && p.entries[back[i]] == None) &&
      (forall i :: 0 <= i < |back| ==> back[i] != PAGE_SIZE && back[i] != LOCKING_MODE && back[i] != JOURNAL_MODE) &&
      FOREIGN_KEYS in p.entries && p.entries[FOREIGN_KEYS] == Some("ON")
  {
    InitialKeys();
    InitialEntries();
    BackKeysDiffer();
  }

  lemma InitialKeys()
    ensures var back := [SYNCHRONOUS, AUTO_VACUUM, ANALYSIS_LIMIT];
      InitialPragmas().keys == [PAGE_SIZE, LOCKING_MODE, JOURNAL_MODE] + [FOREIGN_KEYS] + back &&
      InitialPragmas().keys == [PAGE_SIZE, LOCKING_MODE, JOURNAL_MODE, FOREIGN_KEYS] + back
  {
  }

  lemma InitialEntries()
    ensures var p := InitialPragmas();
      var front := [PAGE_SIZE, LOCKING_MODE, JOURNAL_MODE];
      var back := [SYNCHRONOUS, AUTO_VACUUM, ANALYSIS_LIMIT];
      (forall i :: 0 <= i < |front| ==> front[i] in p.entries && p.entries[front[i]] == None) &&
      (forall i :: 0 <= i < |back| ==> back[i] in p.entries && p.entries[back[i]] == None) &&
      FOREIGN_KEYS in p.entries && p.entries[FOREIGN_KEYS] == Some("ON")
  {
  }

  lemma BackKeysDiffer()
    ensures var back := [SYNCHRONOUS, AUTO_VACUUM, ANALYSIS_LIMIT];
      forall i :: 0 <= i < |back| ==> back[i] != PAGE_SIZE && back[i] != LOCKING_MODE && back[i] != JOURNAL_MODE
  {
  }

  /** The defaults set nothing but foreign keys. */
  lemma NewRenders()
    ensures PragmaString(New()) == "PRAGMA " + FOREIGN_KEYS + " = " + "ON" + "; "
  {
    InitialShape();
    SingleSet([PAGE_SIZE, LOCKING_MODE, JOURNAL_MODE], FOREIGN_KEYS, [SYNCHRONOUS, AUTO_VACUUM, ANALYSIS_LIMIT], InitialPragmas().entries, "ON");
  }

  /** The pragmas after setting page size, locking mode and journal mode on
      the defaults: same keys, the three values set, the rest as before. */
  lemma {:induction false} SettersShape(size: U32, l: LockingMode, j: JournalMode)
    ensures var p := WithJournalMode(WithLockingMode(PageSize(New(), size), l), j).pragmas;
      p.keys == InitialPragmas().keys &&
      p.entries == InitialPragmas().entries[PAGE_SIZE := Some(Text.Decimal(size))]
        [LOCKING_MODE := Some(LockingModeStr(l))][JOURNAL_MODE := Some(JournalModeStr(j))]
  {
    InitialShape();
  }

  /* ---------------------------------------------------------------------- */
  /* Setter calls in any order                                               */

  /** A call of one of the three setters whose pragmas come first in the
      map. */
  datatype Setter = SetPageSize(size: U32) | SetLockingMode(locking: LockingMode) | SetJournalMode(journal: JournalMode)

  function SetterKey(s: Setter): string {
    match s
    case SetPageSize(_) => PAGE_SIZE
    case SetLockingMode(_) => LOCKING_MODE
    case SetJournalMode(_) => JOURNAL_MODE
  }

  function SetterValue(s: Setter): string {
    match s
    case SetPageSize(n) => Text.Decimal(n)
    case SetLockingMode(l) => LockingModeStr(l)
    case SetJournalMode(j) => JournalModeStr(j)
  }

  /** One setter call, through the setter itself. */
  function ApplySetter(m: Musq, s: Setter): (r: Musq)
    requires Valid(m)
    ensures Valid(r) && r == m.(pragmas := r.pragmas)
    ensures SetterKey(s) in m.pragmas.keys ==> r.pragmas.keys == m.pragmas.keys
    ensures OrderedMap.Lookup(r.pragmas, SetterKey(s)) == Some(Some(SetterValue(s)))
    ensures forall k :: k != SetterKey(s) ==> OrderedMap.Lookup(r.pragmas, k) == OrderedMap.Lookup(m.pragmas, k)
  {
    match s
    case SetPageSize(n) => PageSize(m, n)
    case SetLockingMode(l) => WithLockingMode(m, l)
    case SetJournalMode(j) => WithJournalMode(m, j)
  }

  /** The calls `ss`, first to last, chained on `m`. */
  function ApplySetters(m: Musq, ss: seq<Setter>): (r: Musq)
    requires Valid(m)
    ensures Valid(r) && r == m.(pragmas := r.pragmas)
    decreases |ss|
  {
    if ss == [] then m else ApplySetter(ApplySetters(m, ss[..|ss| - 1]), ss[|ss| - 1])
  }

  /** The value the last call in `ss` that sets `k` gives it; None when no
      call sets `k`. */
  function LastValue(ss: seq<Setter>, k: string): Option<string>
    decreases |ss|
  {
    if ss == [] then None
    else if SetterKey(ss[|ss| - 1]) == k then Some(SetterValue(ss[|ss| - 1]))
    else LastValue(ss[..|ss| - 1], k)
  }

  /** The keys stay where they are, and each pragma holds the value of the
      last call that set it, or its old entry when no call did. */
  lemma {:induction false} ApplySettersMeaning(m: Musq, ss: seq<Setter>)
    requires Valid(m) && PAGE_SIZE in m.pragmas.keys && LOCKING_MODE in m.pragmas.keys && JOURNAL_MODE in m.pragmas.keys
    ensures ApplySetters(m, ss).pragmas.keys == m.pragmas.keys
    ensures forall k :: OrderedMap.Lookup(ApplySetters(m, ss).pragmas, k) ==
                        if LastValue(ss, k).Some? then Some(LastValue(ss, k)) else OrderedMap.Lookup(m.pragmas, k)
    decreases |ss|
  {
    if ss != [] {
      ApplySettersMeaning(m, ss[..|ss| - 1]);
    }
  }

  /** The pair a key renders as, if it is set. */
  function PairOf(k: string, e: Option<string>): seq<(string, string)> {
    match e
    case Some(v) => [(k, v)]
    case None => []
  }

  lemma {:induction false} SetPairsFront(h: string, t: seq<string>, entries: map<string, Option<string>>)
    requires h in entries && forall i :: 0 <= i < |t| ==> t[i] in entries
    ensures SetPairs([h] + t, entries) == PairOf(h, entries[h]) + SetPairs(t, entries)
  {
    assert ([h] + t)[1..] == t;
  }

  /** Four keys, then unset ones: each of the four renders as its pair, in
      key order. */
  lemma {:induction false} RenderFour(a: string, b: string, c: string, k: string, back: seq<string>, e: map<string, Option<string>>)
    requires a in e && b in e && c in e && k in e
    requires forall i :: 0 <= i < |back| ==> back[i] in e && e[back[i]] == None
    ensures SetPairs([a, b, c, k] + back, e) == PairOf(a, e[a]) + PairOf(b, e[b]) + PairOf(c, e[c]) + PairOf(k, e[k])
  {
    var pa, pb, pc, pk := PairOf(a, e[a]), PairOf(b, e[b]), PairOf(c, e[c]), PairOf(k, e[k]);
    assert SetPairs([k], e) == pk by {
      assert [k] == [k] + [];
      SetPairsFront(k, [], e);
    }
    assert SetPairs([c, k], e) == pc + pk by {
      assert [c, k] == [c] + [k];
      SetPairsFront(c, [k], e);
    }
    assert SetPairs([b, c, k], e) == pb + (pc + pk) by {
      assert [b, c, k] == [b] + [c, k];
      SetPairsFront(b, [c, k], e);
    }
    assert SetPairs([a, b, c, k], e) == pa + (pb + (pc + pk)) by {
      assert [a, b, c, k] == [a] + [b, c, k];
      SetPairsFront(a, [b, c, k], e);
    }
    assert pa + (pb + (pc + pk)) == pa + pb + pc + pk;
    SetPairsAppend([a, b, c, k], back, e);
    SetPairsAllUnset(back, e);
  }

  /** After setter calls on the defaults, the three set keys hold their last
      values and every other key its default. */
  lemma {:induction false} SettersEntries(ss: seq<Setter>)
    ensures var m := ApplySetters(New(), ss);
      var e := m.pragmas.entries;
      && m.pragmas.keys == InitialPragmas().keys
      && PAGE_SIZE in e && e[PAGE_SIZE] == LastValue(ss, PAGE_SIZE)
      && LOCKING_MODE in e && e[LOCKING_MODE] == LastValue(ss, LOCKING_MODE)
      && JOURNAL_MODE in e && e[JOURNAL_MODE] == LastValue(ss, JOURNAL_MODE)
      && FOREIGN_KEYS in e && e[FOREIGN_KEYS] == Some("ON")
      && forall k :: k in e && k != PAGE_SIZE && k != LOCKING_MODE && k != JOURNAL_MODE ==> e[k] == InitialPragmas().entries[k]
  {
    var m := ApplySetters(New(), ss);
    InitialShape();
    ApplySettersMeaning(New(), ss);
    var e := m.pragmas.entries;
    assert OrderedMap.Lookup(m.pragmas, PAGE_SIZE) == Some(e[PAGE_SIZE]);
    assert OrderedMap.Lookup(m.pragmas, LOCKING_MODE) == Some(e[LOCKING_MODE]);
    assert OrderedMap.Lookup(m.pragmas, JOURNAL_MODE) == Some(e[JOURNAL_MODE]);
    LastValueOther(ss, FOREIGN_KEYS);
    assert OrderedMap.Lookup(m.pragmas, FOREIGN_KEYS) == Some(e[FOREIGN_KEYS]);
    forall k | k in e && k != PAGE_SIZE && k != LOCKING_MODE && k != JOURNAL_MODE
      ensures e[k] == InitialPragmas().entries[k]
    {
      LastValueOther(ss, k);
      assert OrderedMap.Lookup(m.pragmas, k) == Some(e[k]);
    }
  }

  /** Page size, locking mode and journal mode set through their setters
      render in that order, before foreign keys, whatever order the setter
      calls came in and however often each was repeated: each shows the
      value of its last call, and a pragma no call set is left out. */
  lemma {:induction false} SettersRenderInOrder(ss: seq<Setter>)
    ensures var m := ApplySetters(New(), ss);
      SetPairs(m.pragmas.keys, m.pragmas.entries) ==
        PairOf(PAGE_SIZE, LastValue(ss, PAGE_SIZE)) + PairOf(LOCKING_MODE, LastValue(ss, LOCKING_MODE))
          + PairOf(JOURNAL_MODE, LastValue(ss, JOURNAL_MODE)) + [(FOREIGN_KEYS, "ON")]
  {
    var m := ApplySetters(New(), ss);
    var e := m.pragmas.entries;
    var back := [SYNCHRONOUS, AUTO_VACUUM, ANALYSIS_LIMIT];
    SettersEntries(ss);
    InitialShape();
    forall i | 0 <= i < |back|
      ensures back[i] in e && e[back[i]] == None
    {
    }
    RenderFour(PAGE_SIZE, LOCKING_MODE, JOURNAL_MODE, FOREIGN_KEYS, back, e);
  }

  /** No setter call sets a key other than the three. */
  lemma {:induction false} LastValueOther(ss: seq<Setter>, k: string)
    requires k != PAGE_SIZE && k != LOCKING_MODE && k != JOURNAL_MODE
    ensures LastValue(ss, k) == None
    decreases |ss|
  {
    if ss != [] {
      LastValueOther(ss[..|ss| - 1], k);
    }
  }

  /** `analysis_limit(None)` leaves no `analysis_limit` line, whatever was
      set before; `foreign_keys(b)` renders ON or OFF. */
  lemma {:induction false} AnalysisLimitNoneOmitted(m: Musq, v: string)
    requires Valid(m)
    ensures (ANALYSIS_LIMIT, v) !in SetPairs(AnalysisLimit(m, None).pragmas.keys, AnalysisLimit(m, None).pragmas.entries)
  {
    Rendered(AnalysisLimit(m, None), ANALYSIS_LIMIT, v);
  }

  lemma {:induction false} ForeignKeysRendered(m: Musq, on: bool)
    requires Valid(m)
    ensures var r := ForeignKeys(m, on);
      (FOREIGN_KEYS, if on then "ON" else "OFF") in SetPairs(r.pragmas.keys, r.pragmas.entries)
  {
    Rendered(ForeignKeys(m, on), FOREIGN_KEYS, if on then "ON" else "OFF");
  }
}

=== FILE: connection.dfy ===
/** The result-stream combinators of `Connection`
    (crates/musq/src/sqlite/connection/mod.rs:172-297) and its `transaction`
    helper (mod.rs:131-160).

    The stream `fetch_many` returns is what the worker sends for one query:
    the items of the execute iterator, in order, each a row (Right), a
    statement's summary (Left) or an error. The `try_*` combinators stop at
    the first error; `fetch` and `execute_many` pass errors through. */
module Connection {

  import opened Wrappers
  import Errors
  import Rows
  import Execute
  import Worker
  import Transaction

  type Error = Errors.Error
  type Item = Execute.Item
  type QueryResult = Execute.QueryResult
  type Stream = seq<Result<Item, Error>>

  /** `try_filter_map`: keep what `keep` maps to Some, pass errors through,
      preserve the order. */
  function FilterMap<T>(items: Stream, keep: Item -> Option<T>): (r: seq<Result<T, Error>>)
    ensures |r| <= |items|
    ensures forall x :: x in r && x.Err? ==> Err(x.error) in items
    ensures forall x :: x in r && x.Ok? ==> exists y :: Ok(y) in items && keep(y) == Some(x.value)
  {
    if items == [] then []
    else
      var head: seq<Result<T, Error>> :=
        match items[0]
        case Err(e) => [Err(e)]
        case Ok(y) => if keep(y).Some? then [Ok(keep(y).value)] else [];
      var rest := FilterMap(items[1..], keep);
      head + rest
  }

  /** Filtering a concatenation filters each part. */
  lemma {:induction false} FilterMapAppend<T>(a: Stream, b: Stream, keep: Item -> Option<T>)
    ensures FilterMap(a + b, keep) == FilterMap(a, keep) + FilterMap(b, keep)
    decreases |a|
  {
    if a == [] {
      assert a + b == b;
    } else {
      assert (a + b)[0] == a[0] && (a + b)[1..] == a[1..] + b;
      FilterMapAppend(a[1..], b, keep);
    }
  }

  function RowOf(y: Item): Option<Rows.Row> {
    match y
    case Right(row) => Some(row)
    case Left(_) => None
  }

  function SummaryOf(y: Item): Option<QueryResult> {
    match y
    case Left(q) => Some(q)
    case Right(_) => None
  }

  /** `fetch`: the rows, with errors passed through. */
  function Fetch(items: Stream): (r: seq<Result<Rows.Row, Error>>)
    ensures |r| <= |items|
    ensures forall x :: x in r && x.Ok? ==> Ok(Right(x.value)) in items
    ensures forall x :: x in r && x.Err? ==> Err(x.error) in items
  {
    var r := FilterMap(items, RowOf);
    assert forall x :: x in r && x.Ok? ==> Ok(Right(x.value)) in items by {
      forall x | x in r && x.Ok?
        ensures Ok(Right(x.value)) in items
      {
        var y :| Ok(y) in items && RowOf(y) == Some(x.value);
      }
    }
    r
  }

  /** `execute_many`: the statement summaries, with errors passed through. */
  function ExecuteMany(items: Stream): (r: seq<Result<QueryResult, Error>>)
    ensures |r| <= |items|
    ensures forall x :: x in r && x.Ok? ==> Ok(Left(x.value)) in items
    ensures forall x :: x in r && x.Err? ==> Err(x.error) in items
  {
    var r := FilterMap(items, SummaryOf);
    assert forall x :: x in r && x.Ok? ==> Ok(Left(x.value)) in items by {
      forall x | x in r && x.Ok?
        ensures Ok(Left(x.value)) in items
      {
        var y :| Ok(y) in items && SummaryOf(y) == Some(x.value);
      }
    }
    r
  }

  /** A stream with no errors: its rows in order (the reference for `fetch`
      and `fetch_all`). */
  function RowsIn(items: Stream): seq<Rows.Row> {
    if items == [] then []
    else
      match items[0]
      case Ok(Right(row)) => [row] + RowsIn(items[1..])
      case _ => RowsIn(items[1..])
  }

  /** The first error of a stream, if any. */
  function FirstError<T>(items: seq<Result<T, Error>>): (r: Option<Error>)
    ensures r.None? <==> forall i :: 0 <= i < |items| ==> items[i].Ok?
    ensures r.Some? ==> exists k :: (0 <= k < |items| && items[k] == Err(r.value) &&
      forall j :: 0 <= j < k ==> items[j].Ok?)
  {
    if items == [] then None
    else if items[0].Err? then Some(items[0].error)
    else
      var rest := FirstError(items[1..]);
      assert forall i :: 1 <= i < |items| ==> items[i] == items[1..][i - 1];
      if rest.Some? then
        var k :| 0 <= k < |items[1..]| && items[1..][k] == Err(rest.value) &&
          (forall j :: 0 <= j < k ==> items[1..][j].Ok?);
        assert items[k + 1] == Err(rest.value);
        rest
      else rest
  }

  /** Without errors, `fetch` yields exactly the stream's rows, in order. */
  lemma {:induction false} FetchIsRows(items: Stream)
    requires FirstError(items).None?
    ensures |Fetch(items)| == |RowsIn(items)|
    ensures forall i :: 0 <= i < |Fetch(items)| ==> Fetch(items)[i] == Ok(RowsIn(items)[i])
    decreases |items|
  {
    if items != [] {
      assert FirstError(items[1..]).None? by {
        assert forall i :: 0 <= i < |items[1..]| ==> items[1..][i] == items[i + 1];
      }
      FetchIsRows(items[1..]);
      var rest := FilterMap(items[1..], RowOf);
      assert FilterMap(items, RowOf) == (if RowOf(items[0].value).Some? then [Ok(RowOf(items[0].value).value)] else []) + rest;
    }
  }

  /** `try_collect`: all values when every element is Ok, else the first
      error. */
  function Collect<T>(xs: seq<Result<T, Error>>): (r: Result<seq<T>, Error>)
    ensures r.Ok? <==> forall i :: 0 <= i < |xs| ==> xs[i].Ok?
    ensures r.Ok? ==> |r.value| == |xs| && forall i :: 0 <= i < |xs| ==> xs[i] == Ok(r.value[i])
    ensures r.Err? ==> exists k :: 0 <= k < |xs| && xs[k] == Err(r.error) && forall j :: 0 <= j < k ==> xs[j].Ok?
  {
    if xs == [] then Ok([])
    else
      match xs[0]
      case Err(e) => Err(e)
      case Ok(x) =>
        var rest := Collect(xs[1..]);
        assert forall i :: 1 <= i < |xs| ==> xs[i] == xs[1..][i - 1];
        match rest
        case Err(e) =>
          var k :| 0 <= k < |xs[1..]| && xs[1..][k] == Err(e) && forall j :: 0 <= j < k ==> xs[1..][j].Ok?;
          assert xs[k + 1] == Err(e);
          Err(e)
        case Ok(vs) => Ok([x] + vs)
  }

  /** `fetch_all`: every row, or the first error. */
  function FetchAll(items: Stream): (r: Result<seq<Rows.Row>, Error>)
    ensures r.Ok? ==> forall i :: 0 <= i < |r.value| ==> Ok(Right(r.value[i])) in items
  {
    var r := Collect(Fetch(items));
    assert r.Ok? ==> forall i :: 0 <= i < |r.value| ==> Fetch(items)[i] in Fetch(items);
    r
  }

  /** `fetch_all` fails exactly when the stream holds an error, with the
      first one; otherwise it returns the stream's rows in order. */
  lemma {:induction false} FetchAllMeaning(items: Stream)
    ensures FetchAll(items).Ok? <==> FirstError(items).None?
    ensures FetchAll(items).Ok? ==> FetchAll(items).value == RowsIn(items)
    ensures FetchAll(items).Err? ==> FetchAll(items).error == FirstError(items).value
  {
    if FirstError(items).None? {
      FetchIsRows(items);
      var r := FetchAll(items);
      assert |r.value| == |RowsIn(items)|;
      assert forall i :: 0 <= i < |r.value| ==> r.value[i] == RowsIn(items)[i];
    } else {
      FetchFirstError(items);
    }
  }

  /** `fetch` on a non-empty stream: the head's contribution, then the rest. */
  lemma {:induction false} FetchCons(items: Stream)
    requires items != []
    ensures items[0].Err? ==> Fetch(items) == [Err(items[0].error)] + Fetch(items[1..])
    ensures items[0].Ok? && items[0].value.Left? ==> Fetch(items) == Fetch(items[1..])
    ensures items[0].Ok? && items[0].value.Right? ==>
      Fetch(items) == [Ok(items[0].value.right)] + Fetch(items[1..])
  {
  }

  /** `fetch_all` on a stream with an error returns the first one. */
  lemma {:induction false} FetchFirstError(items: Stream)
    requires FirstError(items).Some?
    ensures Collect(Fetch(items)) == Err(FirstError(items).value)
    decreases |items|
  {
    FetchCons(items);
    var rest := Fetch(items[1..]);
    if items[0].Err? {
      assert Fetch(items)[0] == Err(items[0].error);
    } else {
      assert FirstError(items[1..]) == FirstError(items);
      FetchFirstError(items[1..]);
      if items[0].value.Right? {
        var f := Fetch(items);
        assert f[0].Ok? && f[1..] == rest;
      }
    }
  }

  /** The statement summaries of an error-free stream, in order. */
  function SummariesIn(items: Stream): seq<QueryResult> {
    if items == [] then []
    else
      match items[0]
      case Ok(Left(q)) => [q] + SummariesIn(items[1..])
      case _ => SummariesIn(items[1..])
  }

  /** The rows changed by all statements together. */
  function TotalChanges(qs: seq<QueryResult>): nat {
    if qs == [] then 0 else qs[0].changes + TotalChanges(qs[1..])
  }

  /** `try_fold` of `execute`: add the changes, keep the latest rowid, stop
      at the first error. */
  function Fold(acc: QueryResult, xs: seq<Result<QueryResult, Error>>): (r: Result<QueryResult, Error>)
    ensures r.Ok? ==> r.value.changes >= acc.changes
    ensures r.Err? ==> Err(r.error) in xs
    decreases |xs|
  {
    if xs == [] then Ok(acc)
    else
      match xs[0]
      case Err(e) => Err(e)
      case Ok(q) => Fold(Execute.QueryResult(acc.changes + q.changes, q.lastInsertRowid), xs[1..])
  }

  /** `execute`: the summaries of every statement folded into one, starting
      from the default of no changes and rowid 0. */
  function ExecuteQuery(items: Stream): (r: Result<QueryResult, Error>)
    ensures r.Err? ==> Err(r.error) in items
    ensures items == [] ==> r == Ok(Execute.QueryResult(0, 0))
  {
    Fold(Execute.QueryResult(0, 0), ExecuteMany(items))
  }

  /** `execute_many` on a non-empty stream: the head's contribution, then the
      rest. */
  lemma {:induction false} ExecuteManyCons(items: Stream)
    requires items != []
    ensures items[0].Err? ==> ExecuteMany(items) == [Err(items[0].error)] + ExecuteMany(items[1..])
    ensures items[0].Ok? && items[0].value.Right? ==> ExecuteMany(items) == ExecuteMany(items[1..])
    ensures items[0].Ok? && items[0].value.Left? ==>
      ExecuteMany(items) == [Ok(items[0].value.left)] + ExecuteMany(items[1..])
  {
  }

  /** Each summary as an Ok item. */
  function Oks(qs: seq<QueryResult>): (r: seq<Result<QueryResult, Error>>)
    ensures |r| == |qs|
  {
    if qs == [] then [] else [Ok(qs[0])] + Oks(qs[1..])
  }

  /** Without errors, `execute_many` yields exactly the stream's summaries. */
  lemma {:induction false} ExecuteManyIsSummaries(items: Stream)
    requires FirstError(items).None?
    ensures ExecuteMany(items) == Oks(SummariesIn(items))
    decreases |items|
  {
    if items != [] {
      ExecuteManyCons(items);
      FirstErrorCons(items);
      ExecuteManyIsSummaries(items[1..]);
      match items[0].value
      case Left(q) =>
        var rest := SummariesIn(items[1..]);
        assert SummariesIn(items) == [q] + rest;
        assert ([q] + rest)[1..] == rest;
      case Right(_) =>
    }
  }

  /** Folding summaries adds up their changes and ends with the last one's
      rowid, or the start's when there is none. */
  lemma {:induction false} FoldOks(acc: QueryResult, qs: seq<QueryResult>)
    ensures Fold(acc, Oks(qs)) == Ok(Execute.QueryResult(acc.changes + TotalChanges(qs),
      if qs == [] then acc.lastInsertRowid else qs[|qs| - 1].lastInsertRowid))
    decreases |qs|
  {
    if qs != [] {
      var xs := Oks(qs);
      var next := Execute.QueryResult(acc.changes + qs[0].changes, qs[0].lastInsertRowid);
      assert xs[0] == Ok(qs[0]) && xs[1..] == Oks(qs[1..]);
      assert Fold(acc, xs) == Fold(next, xs[1..]);
      FoldOks(next, qs[1..]);
      assert TotalChanges(qs) == qs[0].changes + TotalChanges(qs[1..]);
      assert qs[1..] != [] ==> qs[1..][|qs[1..]| - 1] == qs[|qs| - 1];
    }
  }

  /** Folding an error-free stream from any start adds its total changes and
      ends with the last statement's rowid, or the start's when it has no
      statement. */
  lemma {:induction false} FoldOk(acc: QueryResult, items: Stream)
    requires FirstError(items).None?
    ensures Fold(acc, ExecuteMany(items)).Ok?
    ensures Fold(acc, ExecuteMany(items)).value.changes == acc.changes + TotalChanges(SummariesIn(items))
    ensures Fold(acc, ExecuteMany(items)).value.lastInsertRowid ==
      if SummariesIn(items) == [] then acc.lastInsertRowid else SummariesIn(items)[|SummariesIn(items)| - 1].lastInsertRowid
  {
    ExecuteManyIsSummaries(items);
    FoldOks(acc, SummariesIn(items));
  }

  /** `execute_many` passes on the stream's first error, and no other
      before it. */
  lemma {:induction false} ExecuteManyFirstError(items: Stream)
    ensures FirstError(ExecuteMany(items)) == FirstError(items)
    decreases |items|
  {
    if items != [] {
      ExecuteManyCons(items);
      ExecuteManyFirstError(items[1..]);
      if items[0].Ok? {
        FirstErrorCons(items);
        if items[0].value.Left? {
          FirstErrorCons(ExecuteMany(items));
        }
      }
    }
  }

  /** The fold stops at the first error. */
  lemma {:induction false} FoldFirstError(acc: QueryResult, xs: seq<Result<QueryResult, Error>>)
    requires FirstError(xs).Some?
    ensures Fold(acc, xs) == Err(FirstError(xs).value)
    decreases |xs|
  {
    if xs[0].Ok? {
      FirstErrorCons(xs);
      FoldFirstError(Execute.QueryResult(acc.changes + xs[0].value.changes, xs[0].value.lastInsertRowid), xs[1..]);
    }
  }

  /** Folding a stream with an error fails with the first one. */
  lemma {:induction false} FoldErr(acc: QueryResult, items: Stream)
    requires FirstError(items).Some?
    ensures Fold(acc, ExecuteMany(items)) == Err(FirstError(items).value)
  {
    ExecuteManyFirstError(items);
    FoldFirstError(acc, ExecuteMany(items));
  }

  /** Past an Ok head, the first error is the rest's. */
  lemma {:induction false} FirstErrorCons<T>(items: seq<Result<T, Error>>)
    requires items != [] && items[0].Ok?
    ensures FirstError(items) == FirstError(items[1..])
  {
  }

  /** `execute` succeeds exactly when the stream holds no error; it then
      reports the changes of all statements and the last statement's rowid,
      and otherwise the first error. */
  lemma {:induction false} ExecuteQueryMeaning(items: Stream)
    ensures ExecuteQuery(items).Ok? <==> FirstError(items).None?
    ensures ExecuteQuery(items).Ok? ==> ExecuteQuery(items).value.changes == TotalChanges(SummariesIn(items))
    ensures ExecuteQuery(items).Ok? && SummariesIn(items) != [] ==>
      ExecuteQuery(items).value.lastInsertRowid == SummariesIn(items)[|SummariesIn(items)| - 1].lastInsertRowid
    ensures ExecuteQuery(items).Ok? && SummariesIn(items) == [] ==> ExecuteQuery(items).value == Execute.QueryResult(0, 0)
    ensures ExecuteQuery(items).Err? ==> ExecuteQuery(items).error == FirstError(items).value
  {
    if FirstError(items).None? {
      FoldOk(Execute.QueryResult(0, 0), items);
    } else {
      FoldErr(Execute.QueryResult(0, 0), items);
    }
  }

  /** `fetch_optional`: the first row, unless an error comes before it; Ok(None)
      when the stream ends without a row. Summaries are skipped. */
  function FetchOptional(items: Stream): (r: Result<Option<Rows.Row>, Error>)
    ensures r.Ok? && r.value.Some? ==> Ok(Right(r.value.value)) in items
    ensures r.Err? ==> Err(r.error) in items
  {
    if items == [] then Ok(None)
    else
      match items[0]
      case Err(e) => Err(e)
      case Ok(Right(row)) => Ok(Some(row))
      case Ok(Left(_)) =>
        var r := FetchOptional(items[1..]);
        assert forall x :: x in items[1..] ==> x in items;
        r
  }

  /** `fetch_optional` is the first element of `fetch`, if there is one. */
  lemma {:induction false} FetchOptionalIsFirst(items: Stream)
    ensures Fetch(items) == [] <==> FetchOptional(items) == Ok(None)
    ensures Fetch(items) != [] && Fetch(items)[0].Ok? ==> FetchOptional(items) == Ok(Some(Fetch(items)[0].value))
    ensures Fetch(items) != [] && Fetch(items)[0].Err? ==> FetchOptional(items) == Err(Fetch(items)[0].error)
    decreases |items|
  {
    if items != [] {
      FetchCons(items);
      if items[0].Ok? && items[0].value.Left? {
        FetchOptionalIsFirst(items[1..]);
      }
    }
  }

  /** `fetch_one`: the row of `fetch_optional`, with a missing row turned into
      RowNotFound. */
  function FetchOne(items: Stream): (r: Result<Rows.Row, Error>)
    ensures r.Ok? <==> FetchOptional(items).Ok? && FetchOptional(items).value.Some?
    ensures r.Ok? ==> FetchOptional(items) == Ok(Some(r.value))
    ensures r.Err? ==> ((FetchOptional(items) == Ok(None) && r.error == Errors.RowNotFound) ||
      FetchOptional(items) == Err(r.error))
  {
    match FetchOptional(items)
    case Ok(Some(row)) => Ok(row)
    case Ok(None) => Err(Errors.RowNotFound)
    case Err(e) => Err(e)
  }

  /** Without errors, `fetch_one` is the stream's first row, or RowNotFound
      when it has none. */
  lemma {:induction false} FetchOneFirstRow(items: Stream)
    requires FirstError(items).None?
    ensures RowsIn(items) == [] ==> FetchOne(items) == Err(Errors.RowNotFound)
    ensures RowsIn(items) != [] ==> FetchOne(items) == Ok(RowsIn(items)[0])
  {
    FetchIsRows(items);
    FetchOptionalIsFirst(items);
  }

  /** The stream of a single statement that steps to `rows` and then reports
      done, as the execute iterator yields it. */
  lemma {:induction false} StatementRowsAndSummary(rows: seq<Rows.Row>, done: Execute.Answers)
    ensures var items := Execute.StatementItems(rows, done);
      FirstError(items).None? && RowsIn(items) == rows &&
      SummariesIn(items) == [Execute.QueryResult(done.changes, done.lastInsertRowid)]
    decreases |rows|
  {
    var items := Execute.StatementItems(rows, done);
    if rows != [] {
      StatementRowsAndSummary(rows[1..], done);
      var rest := Execute.StatementItems(rows[1..], done);
      assert items == [Ok(Right(rows[0]))] + rest;
      assert items[1..] == rest;
      assert forall i :: 1 <= i < |items| ==> items[i] == rest[i - 1];
    }
  }

  /** What each combinator returns for one statement: `fetch_all` its rows,
      `fetch_optional` the first of them, `execute` its changes and rowid. */
  lemma {:induction false} OneStatement(rows: seq<Rows.Row>, done: Execute.Answers)
    ensures FetchAll(Execute.StatementItems(rows, done)) == Ok(rows)
    ensures FetchOptional(Execute.StatementItems(rows, done)) == Ok(if rows == [] then None else Some(rows[0]))
    ensures ExecuteQuery(Execute.StatementItems(rows, done)) == Ok(Execute.QueryResult(done.changes, done.lastInsertRowid))
  {
    var items := Execute.StatementItems(rows, done);
    StatementRowsAndSummary(rows, done);
    FetchAllMeaning(items);
    ExecuteQueryMeaning(items);
    FetchIsRows(items);
    FetchOptionalIsFirst(items);
  }

  /** An empty query: no item at all, so `execute` reports the default of no
      changes and rowid 0 and `fetch_one` fails with RowNotFound. */
  lemma EmptyStream()
    ensures ExecuteQuery([]) == Ok(Execute.QueryResult(0, 0))
    ensures FetchAll([]) == Ok([])
    ensures FetchOne([]) == Err(Errors.RowNotFound)
  {
  }

  /** What the connection's `transaction` helper ends with: the worker's state
      and the result handed to the caller. */
  datatype TxRun<R, E> = TxRun(s: Worker.State, result: Result<R, E>)

  /** The reply the connection gets: a worker that dropped the reply channel
      is reported as crashed. */
  function Reply(h: Worker.Handled): (r: Result<(), Error>)
    ensures h.reply.Some? ==> r == h.reply.value
    ensures h.reply.None? ==> r == Err(Errors.WorkerCrashed)
  {
    if h.reply.Some? then h.reply.value else Err(Errors.WorkerCrashed)
  }

  /** After the end of a transaction: the `Transaction` is dropped, sending a
      reply-less rollback when it is still open. */
  function DropTx(s: Worker.State, tx: Transaction.Tx, dropEnv: Worker.Env): Worker.State {
    if Transaction.DropRollback(tx) then Worker.Handle(s, Worker.Rollback(false), dropEnv).s else s
  }

  /** `Connection::transaction`: begin; let the callback send `work` and
      produce `outcome`; commit on Ok, roll back on Err. A failed begin,
      commit or rollback is lifted into the callback's error type with `lift`
      (the `From<Error>` conversion); the callback's own error is returned
      after a successful rollback. */
  function InTransaction<R, E>(s: Worker.State, beginEnv: Worker.Env, work: seq<(Worker.Command, Worker.Env)>,
                               outcome: Result<R, E>, endEnv: Worker.Env, dropEnv: Worker.Env,
                               lift: Error -> E): (r: TxRun<R, E>)
    ensures r.result.Ok? ==> outcome.Ok? && r.result.value == outcome.value
    ensures Reply(Worker.Handle(s, Worker.Begin, beginEnv)).Err? ==>
      r == TxRun(Worker.Handle(s, Worker.Begin, beginEnv).s, Err(lift(Reply(Worker.Handle(s, Worker.Begin, beginEnv)).error)))
  {
    var b := Worker.Handle(s, Worker.Begin, beginEnv);
    match Transaction.Begin(Reply(b))
    case Err(e) => TxRun(b.s, Err(lift(e)))
    case Ok(tx) =>
      var s1 := Worker.RunAll(b.s, work);
      var end := Worker.Handle(s1, if outcome.Ok? then Worker.Commit else Worker.Rollback(true), endEnv);
      var (tx', ended) := Transaction.End(tx, Reply(end));
      var s2 := DropTx(end.s, tx', dropEnv);
      if ended.Err? then TxRun(s2, Err(lift(ended.error)))
      else if outcome.Ok? then TxRun(s2, Ok(outcome.value))
      else TxRun(s2, Err(outcome.error))
  }

  /** A callback that inserts `vs` and returns Ok: the transaction commits,
      the rows stay, the depth is back where it was and the callback's value
      is returned. */
  lemma {:induction false} TransactionCommits<R, E>(s: Worker.State, vs: seq<int>, v: R, lift: Error -> E)
    requires s.running && Worker.Consistent(s.depth, s.engine.stack)
    ensures var r := InTransaction(s, Worker.FINE, Worker.Inserts(vs), Ok(v), Worker.FINE, Worker.FINE, lift);
      r.result == Ok(v) && r.s.running && r.s.depth == s.depth &&
      r.s.engine.rows == s.engine.rows + vs && r.s.engine.stack == s.engine.stack
  {
    Worker.BeginThenInserts(s, vs);
    Worker.CommitBegun(s, vs);
  }

  /** A callback that inserts `vs` and returns Err: the transaction is rolled
      back, the rows are as before and the callback's own error is returned. */
  lemma {:induction false} TransactionRollsBack<R, E>(s: Worker.State, vs: seq<int>, err: E, lift: Error -> E)
    requires s.running && Worker.Consistent(s.depth, s.engine.stack)
    ensures var r := InTransaction<R, E>(s, Worker.FINE, Worker.Inserts(vs), Err(err), Worker.FINE, Worker.FINE, lift);
      r.result == Err(err) && r.s.running && r.s.depth == s.depth && r.s.engine.rows == s.engine.rows
  {
    Worker.BeginThenInserts(s, vs);
    Worker.RollbackBegun(s, vs, true);
  }

  /** A begin the engine refuses: the callback never runs, nothing changes,
      and the error is lifted into the callback's error type. */
  lemma {:induction false} TransactionBeginFails<R, E>(s: Worker.State, work: seq<(Worker.Command, Worker.Env)>, outcome: Result<R, E>,
                                    e: Error, endEnv: Worker.Env, dropEnv: Worker.Env, lift: Error -> E)
    requires s.running
    ensures InTransaction(s, Worker.Env(Some(e), None, true), work, outcome, endEnv, dropEnv, lift) == TxRun(s, Err(lift(e)))
  {
  }

  /** A commit the engine refuses: the error is lifted and returned, and the
      `Transaction`, still open, rolls the level back when it is dropped, so
      the callback's inserts are gone and the depth is restored. */
  lemma {:induction false} FailedCommitRolledBackOnDrop<R, E>(s: Worker.State, vs: seq<int>, v: R, e: Error, lift: Error -> E)
    requires s.running && Worker.Consistent(s.depth, s.engine.stack) && !s.ignoreNextStartRollback
    ensures var r := InTransaction(s, Worker.FINE, Worker.Inserts(vs), Ok(v), Worker.Env(Some(e), None, true), Worker.FINE, lift);
      r.result == Err(lift(e)) && r.s.running && r.s.depth == s.depth && r.s.engine.rows == s.engine.rows
  {
    Worker.BeginThenInserts(s, vs);
    Worker.CommitBegunFails(s, vs, e);
    Worker.RollbackBegun(s, vs, false);
  }
}

=== FILE: declared_type.dfy ===
/** `impl FromStr for SqliteDataType` (crates/musq/src/sqlite/type_info.rs:71-107):
    classification of a column's declared SQL type, compared against the column
    affinity rules of section 3.1 ("Determination Of Column Affinity") of
    SQLite's "Datatypes In SQLite" document. */
module DeclaredType {

  import opened Wrappers
  import opened Text
  import opened TypeInfo
  import Errors

  /** Names matched exactly (after lower-casing) before any substring rule. */
  function ExactName(lower: string): Option<SqliteDataType> {
    if lower == "int4" then Some(Int)
    else if lower == "int8" then Some(Int64)
    else if lower == "boolean" || lower == "bool" then Some(Bool)
    else if lower == "date" then Some(Date)
    else if lower == "time" then Some(Time)
    else if lower == "datetime" || lower == "timestamp" then Some(Datetime)
    else None
  }

  /** `SqliteDataType::from_str`: exact names first, then the substring rules in
      order; no match is `TypeNotFound` carrying the name as given. */
  function FromStr(s: string): (r: Result<SqliteDataType, Errors.Error>)
    ensures r.Err? ==> r.error == Errors.TypeNotFound(s)
  {
    match Classify(AsciiLower(s))
    case Some(t) => Ok(t)
    case None => Err(Errors.TypeNotFound(s))
  }

  /** The match on the lower-cased name. */
  function Classify(lower: string): Option<SqliteDataType> {
    match ExactName(lower)
    case Some(t) => Some(t)
    case None =>
      if Contains(lower, "int") then Some(Int64)
      else if Contains(lower, "char") || Contains(lower, "clob") || Contains(lower, "text") then Some(Text)
      else if Contains(lower, "blob") then Some(Blob)
      else if Contains(lower, "real") || Contains(lower, "floa") || Contains(lower, "doub") then Some(Float)
      else if Contains(lower, "num") || Contains(lower, "dec") then Some(Numeric)
      else None
  }

  /** SQLite's five column affinities. */
  datatype Affinity = IntegerAffinity | TextAffinity | BlobAffinity | RealAffinity | NumericAffinity

  /** Rules 1 to 5 of the affinity determination, matched case-insensitively. */
  function AffinityOf(declared: string): Affinity {
    var lower := AsciiLower(declared);
    if Contains(lower, "int") then IntegerAffinity
    else if Contains(lower, "char") || Contains(lower, "clob") || Contains(lower, "text") then TextAffinity
    else if Contains(lower, "blob") || declared == "" then BlobAffinity
    else if Contains(lower, "real") || Contains(lower, "floa") || Contains(lower, "doub") then RealAffinity
    else NumericAffinity
  }

  /** Outside the exact names, `from_str` follows the affinity rules, except that
      an empty name (BLOB affinity) and a NUMERIC-affinity name without "num" or
      "dec" are not types at all. */
  lemma {:induction false} FromStrFollowsAffinity(s: string)
    requires ExactName(AsciiLower(s)).None?
    ensures AffinityOf(s) == IntegerAffinity ==> FromStr(s) == Ok(Int64)
    ensures AffinityOf(s) == TextAffinity ==> FromStr(s) == Ok(Text)
    ensures AffinityOf(s) == RealAffinity ==> FromStr(s) == Ok(Float)
    ensures AffinityOf(s) == BlobAffinity ==>
      FromStr(s) == (if s == "" then Err(Errors.TypeNotFound(s)) else Ok(Blob))
    ensures AffinityOf(s) == NumericAffinity ==>
      FromStr(s) == (if Contains(AsciiLower(s), "num") || Contains(AsciiLower(s), "dec")
                     then Ok(Numeric) else Err(Errors.TypeNotFound(s)))
  {
    if s == "" {
      assert AsciiLower(s) == "";
    }
  }

  /** The exact names take precedence over every substring rule. */
  lemma {:induction false} ExactNamesFirst(s: string)
    requires ExactName(AsciiLower(s)).Some?
    ensures FromStr(s) == Ok(ExactName(AsciiLower(s)).value)
  {
  }

  /** Only the letters' case is ignored: names equal up to ASCII case get the
      same type, or both fail. */
  lemma {:induction false} FromStrIgnoresCase(s: string, t: string)
    requires AsciiLower(s) == AsciiLower(t)
    ensures FromStr(s).Ok? <==> FromStr(t).Ok?
    ensures FromStr(s).Ok? ==> FromStr(s).value == FromStr(t).value
  {
  }

  /** One name of the source's test table: lower-casing, then classification. */
  lemma {:induction false} Example(s: string, lower: string, t: SqliteDataType)
    requires AsciiLower(s) == lower && Classify(lower) == Some(t)
    ensures FromStr(s) == Ok(t)
  {
  }

  /* Some of the declared names tabulated by the source's own tests; the
     general lemmas above cover the rest. */

  lemma FromStrExampleInt4()
    ensures FromStr("INT4") == Ok(Int)
  {
    Example("INT4", "int4", Int);
  }

  lemma FromStrExampleIntegerNames()
    ensures FromStr("INT") == Ok(Int64)
    ensures FromStr("INTEGER") == Ok(Int64)
    ensures FromStr("INTBIG") == Ok(Int64)
  {
    Example("INT", "int", Int64);
    Example("INTEGER", "integer", Int64);
    Example("INTBIG", "intbig", Int64);
  }

  lemma FromStrExampleUnsignedBigInt()
    ensures FromStr("UNSIGNED BIG INT") == Ok(Int64)
  {
    assert ContainsFrom("unsigned big int", "int", 8);
    Example("UNSIGNED BIG INT", "unsigned big int", Int64);
  }

  lemma FromStrExampleInt8()
    ensures FromStr("INT8") == Ok(Int64)
  {
    Example("INT8", "int8", Int64);
  }

  lemma FromStrExampleBlob()
    ensures FromStr("BLOB") == Ok(Blob)
  {
    Example("BLOB", "blob", Blob);
  }

  lemma FromStrExampleBoolNames()
    ensures FromStr("BOOLEAN") == Ok(Bool)
    ensures FromStr("BOOL") == Ok(Bool)
  {
    Example("BOOLEAN", "boolean", Bool);
    Example("BOOL", "bool", Bool);
  }

  lemma FromStrExampleTimeNames()
    ensures FromStr("DATETIME") == Ok(Datetime)
    ensures FromStr("TIME") == Ok(Time)
    ensures FromStr("DATE") == Ok(Date)
  {
    Example("DATETIME", "datetime", Datetime);
    Example("TIME", "time", Time);
    Example("DATE", "date", Date);
  }
}

=== FILE: derive.dfy ===
/** The attribute checks shared by the derive macros
    (crates/musq-macros/src/core.rs): `RenameAll`, the checks on
    `#[musq(...)]` field attributes of a `FromRow` derive, and the shape
    checks and dispatch of the `Encode`/`Decode` type derives. Reading the
    attributes from Rust syntax, and the code each expander emits, are
    outside the model. */
module Derive {

  import opened Wrappers
  import Text

  /* ---------------------------------------------------------------------- */
  /* RenameAll                                                               */

  datatype RenameAll = SnakeCase | LowerCase | UpperCase | ScreamingSnakeCase | KebabCase | CamelCase | PascalCase | Verbatim

  /** The rule when `rename_all` is not given. */
  const DEFAULT_RENAME_ALL: RenameAll := SnakeCase

  /** The word-splitting case conversions of the `heck` library. */
  datatype CaseConversions = CaseConversions(
    snake: string -> string,
    shoutySnake: string -> string,
    kebab: string -> string,
    lowerCamel: string -> string,
    upperCamel: string -> string)

  /** `RenameAll::rename`. */
  function Rename(rule: RenameAll, s: string, heck: CaseConversions): (r: string)
    ensures rule == Verbatim ==> r == s
    ensures rule == LowerCase || rule == UpperCase ==> |r| == |s|
    ensures rule == LowerCase ==> forall i :: 0 <= i < |r| ==> !('A' <= r[i] <= 'Z')
    ensures rule == UpperCase ==> forall i :: 0 <= i < |r| ==> !('a' <= r[i] <= 'z')
  {
    match rule
    case LowerCase => Text.AsciiLower(s)
    case SnakeCase => heck.snake(s)
    case UpperCase => Text.AsciiUpper(s)
    case ScreamingSnakeCase => heck.shoutySnake(s)
    case KebabCase => heck.kebab(s)
    case CamelCase => heck.lowerCamel(s)
    case PascalCase => heck.upperCamel(s)
    case Verbatim => s
  }

  /** Lower-casing and upper-casing are idempotent, and each undoes the
      other's effect on letters: lower-casing an upper-cased name is the
      same as lower-casing the name. */
  lemma {:induction false} CaseMapsAgree(s: string, heck: CaseConversions)
    ensures Rename(LowerCase, Rename(LowerCase, s, heck), heck) == Rename(LowerCase, s, heck)
    ensures Rename(UpperCase, Rename(UpperCase, s, heck), heck) == Rename(UpperCase, s, heck)
    ensures Rename(LowerCase, Rename(UpperCase, s, heck), heck) == Rename(LowerCase, s, heck)
    ensures Rename(UpperCase, Rename(LowerCase, s, heck), heck) == Rename(UpperCase, s, heck)
  {
    var lo := Text.AsciiLower(s);
    var up := Text.AsciiUpper(s);
    assert Text.AsciiLower(lo) == lo;
    assert Text.AsciiUpper(up) == up;
    assert Text.AsciiLower(up) == lo;
    assert Text.AsciiUpper(lo) == up;
  }

  /** Only the five word-splitting rules depend on the case conversions. */
  lemma {:induction false} RenameWithoutHeck(rule: RenameAll, s: string, a: CaseConversions, b: CaseConversions)
    requires rule in {LowerCase, UpperCase, Verbatim}
    ensures Rename(rule, s, a) == Rename(rule, s, b)
  {
  }

  /* ---------------------------------------------------------------------- */
  /* FromRow field attributes                                                */

  /** A field of a `FromRow` struct and its `#[musq(...)]` attributes. */
  datatype RowField = RowField(
    named: bool,
    rename: Option<string>,
    default: bool,
    flatten: bool,
    prefix: string,
    tryFrom: bool,
    skip: bool)

  const FLATTEN_SKIP: string := "`flatten` cannot be combined with `skip`"
  const FLATTEN_TRY_FROM: string := "`flatten` cannot be combined with `try_from`"
  const FLATTEN_PREFIX: string := "`flatten` cannot be combined with `prefix`"
  const FLATTEN_RENAME: string := "`flatten` cannot be combined with `rename`"

  /** A flattened field takes none of the attributes that name its own
      column. */
  predicate FlattenCompatible(f: RowField) {
    f.flatten ==> !f.skip && !f.tryFrom && f.prefix == [] && f.rename.None?
  }

  /** `check_row_field_attrs`: the first conflict found, in the order skip,
      try_from, prefix, rename. */
  function CheckRowFieldAttrs(f: RowField): (r: Result<(), string>)
    ensures r.Ok? <==> FlattenCompatible(f)
    ensures !f.flatten ==> r.Ok?
    ensures f.flatten && f.skip ==> r == Err(FLATTEN_SKIP)
    ensures f.flatten && !f.skip && f.tryFrom ==> r == Err(FLATTEN_TRY_FROM)
    ensures f.flatten && !f.skip && !f.tryFrom && f.prefix != [] ==> r == Err(FLATTEN_PREFIX)
    ensures f.flatten && !f.skip && !f.tryFrom && f.prefix == [] && f.rename.Some? ==> r == Err(FLATTEN_RENAME)
  {
    if !f.flatten then Ok(())
    else if f.skip then Err(FLATTEN_SKIP)
    else if f.tryFrom then Err(FLATTEN_TRY_FROM)
    else if f.prefix != [] then Err(FLATTEN_PREFIX)
    else if f.rename.Some? then Err(FLATTEN_RENAME)
    else Ok(())
  }

  /** `check_row_attrs`: every field in order, stopping at the first
      error. */
  function CheckRowAttrs(fields: seq<RowField>): (r: Result<(), string>)
    ensures r.Ok? <==> forall i :: 0 <= i < |fields| ==> FlattenCompatible(fields[i])
    ensures r.Err? ==> exists i :: (0 <= i < |fields| && r == CheckRowFieldAttrs(fields[i])
                                    && forall j :: 0 <= j < i ==> FlattenCompatible(fields[j]))
  {
    if fields == [] then Ok(())
    else
      match CheckRowFieldAttrs(fields[0])
      case Err(e) => Err(e)
      case Ok(_) =>
        var r := CheckRowAttrs(fields[1..]);
        if r.Err? then
          var i :| 0 <= i < |fields[1..]| && r == CheckRowFieldAttrs(fields[1..][i])
            && forall j :: 0 <= j < i ==> FlattenCompatible(fields[1..][j]);
          assert forall j :: 0 <= j < i + 1 ==> FlattenCompatible(fields[j]) by {
            forall j | 0 <= j < i + 1 ensures FlattenCompatible(fields[j]) {
              if j > 0 {
                assert fields[j] == fields[1..][j - 1];
              }
            }
          }
          assert r == CheckRowFieldAttrs(fields[i + 1]);
          r
        else
          assert forall i :: 0 <= i < |fields| ==> FlattenCompatible(fields[i]) by {
            forall i | 0 <= i < |fields| ensures FlattenCompatible(fields[i]) {
              if i > 0 {
                assert fields[i] == fields[1..][i - 1];
              }
            }
          }
          r
  }

  /* ---------------------------------------------------------------------- */
  /* Encode / Decode type derives                                            */

  /** A field of the deriving struct: named or positional. */
  datatype TypeField = TypeField(named: bool, ty: string)

  /** A variant of the deriving enum and its `rename`. */
  datatype TypeVariant = TypeVariant(name: string, rename: Option<string>)

  datatype TypeData = StructData(fields: seq<TypeField>) | EnumData(variants: seq<TypeVariant>)

  /** `TypeContainer`: the parsed derive input. */
  datatype TypeContainer = TypeContainer(data: TypeData, renameAll: RenameAll, repr: Option<string>)

  /** The expander `expand_type_derive` hands the input to. */
  datatype Expander =
    | ExpandStruct(field: TypeField)
    | ExpandReprEnum(variants: seq<TypeVariant>, repr: string)
    | ExpandEnum(variants: seq<TypeVariant>)

  const ZERO_FIELDS: string := "structs with zero fields are not supported"
  const NAMED_FIELDS: string := "structs with named fields are not supported"
  const ONE_UNNAMED: string := "structs must have exactly one unnamed field"
  const REPR_REQUIRED: string := "repr attribute is required"

  function CountNamed(fields: seq<TypeField>): (n: nat)
    ensures n <= |fields|
  {
    if fields == [] then 0 else (if fields[0].named then 1 else 0) + CountNamed(fields[1..])
  }

  function CountUnnamed(fields: seq<TypeField>): (n: nat)
    ensures n <= |fields|
  {
    if fields == [] then 0 else (if fields[0].named then 0 else 1) + CountUnnamed(fields[1..])
  }

  /** `check_repr_enum_attrs`. */
  function CheckReprEnumAttrs(c: TypeContainer): (r: Result<(), string>)
    ensures r.Ok? <==> c.repr.Some?
    ensures r.Err? ==> r.error == REPR_REQUIRED
  {
    if c.repr.None? then Err(REPR_REQUIRED) else Ok(())
  }

  /** The struct shape checks, in order: zero fields, more than one named
      field, anything but exactly one unnamed field. */
  function StructShape(fields: seq<TypeField>): (r: Result<TypeField, string>)
    ensures fields == [] ==> r == Err(ZERO_FIELDS)
    ensures fields != [] && CountNamed(fields) > 1 ==> r == Err(NAMED_FIELDS)
    ensures fields != [] && CountNamed(fields) <= 1 && CountUnnamed(fields) != 1 ==> r == Err(ONE_UNNAMED)
    ensures r.Ok? ==> r.value == fields[0]
  {
    if fields == [] then Err(ZERO_FIELDS)
    else if CountNamed(fields) > 1 then Err(NAMED_FIELDS)
    else if CountUnnamed(fields) != 1 then Err(ONE_UNNAMED)
    else Ok(fields[0])
  }

  /** `expand_type_derive`: which expander runs, or the shape error. */
  function ExpandTypeDerive(c: TypeContainer): (r: Result<Expander, string>)
    ensures c.data.StructData? ==> (r.Ok? <==> StructShape(c.data.fields).Ok?)
    ensures c.data.StructData? && r.Ok? ==> r.value == ExpandStruct(c.data.fields[0])
    ensures c.data.EnumData? ==> r.Ok? && (r.value.ExpandReprEnum? <==> c.repr.Some?)
    ensures c.data.EnumData? && c.repr.Some? ==> r.value == ExpandReprEnum(c.data.variants, c.repr.value)
    ensures c.data.EnumData? && c.repr.None? ==> r.value == ExpandEnum(c.data.variants)
  {
    match c.data
    case StructData(fields) =>
      (match StructShape(fields)
       case Err(e) => Err(e)
       case Ok(f) => Ok(ExpandStruct(f)))
    case EnumData(variants) =>
      match c.repr
      case Some(t) =>
        (match CheckReprEnumAttrs(c)
         case Err(e) => assert false; Err(e)
         case Ok(_) => Ok(ExpandReprEnum(variants, t)))
      case None => Ok(ExpandEnum(variants))
  }

  /** Rust structs have only named or only positional fields. */
  predicate Uniform(fields: seq<TypeField>) {
    forall i :: 0 <= i < |fields| ==> fields[i].named == fields[0].named
  }

  lemma {:induction false} UniformCounts(fields: seq<TypeField>)
    requires Uniform(fields) && fields != []
    ensures fields[0].named ==> CountNamed(fields) == |fields| && CountUnnamed(fields) == 0
    ensures !fields[0].named ==> CountNamed(fields) == 0 && CountUnnamed(fields) == |fields|
    decreases |fields|
  {
    if |fields| > 1 {
      assert fields[1..][0] == fields[1];
      UniformCounts(fields[1..]);
    }
  }

  /** A struct passes the shape checks exactly when it has a single
      positional field: a newtype. */
  lemma {:induction false} StructShapeNewtype(fields: seq<TypeField>)
    requires Uniform(fields)
    ensures StructShape(fields).Ok? <==> |fields| == 1 && !fields[0].named
  {
    if fields != [] {
      UniformCounts(fields);
    }
  }

  /** A struct with one named field reaches the third check: the error is
      about the missing unnamed field, not about named fields. */
  lemma {:induction false} OneNamedField(f: TypeField)
    requires f.named
    ensures StructShape([f]) == Err(ONE_UNNAMED)
  {
    assert [f][1..] == [];
  }
}

=== FILE: errors.dfy ===
/** `Error` (crates/musq/src/error.rs:47-174): every way an operation of the
    library can fail, and the conversions into and out of it. */
module Errors {

  import opened Wrappers
  import opened Numeric
  import opened CodecErrors
  import SqlValue
  import SqliteCodes

  /** The two `io::ErrorKind`s the library constructs itself. */
  datatype IoKind = InvalidData | OutOfMemory | OtherIo

  datatype Error =
    | Sqlite(primary: SqliteCodes.PrimaryErrCode, extended: SqliteCodes.ExtendedErrCode, message: string)
    | Io(kind: IoKind, ioMessage: string)
    | Protocol(protocolMessage: string)
    | RowNotFound
    | TypeNotFound(typeName: string)
    | ColumnIndexOutOfBounds(index: Usize, len: Usize)
    | ColumnNotFound(column: string)
    | UnknownColumnType(code: I32)
    | ColumnDecode(columnIndex: string, columnName: string, value: SqlValue.Value, source: DecodeError)
    | Decode(decodeError: DecodeError)
    | Encode(encodeError: EncodeError)
    | PoolTimedOut
    | PoolClosed
    | WorkerCrashed
    | UnlockNotify

  /** `impl From<SqliteError> for Error`. */
  function FromSqliteError(e: SqliteCodes.SqliteError): (r: Error)
    ensures r.Sqlite?
  {
    Sqlite(e.primary, e.extended, e.message)
  }

  /** `Error::into_sqlite_error`. */
  function IntoSqliteError(e: Error): (r: Option<SqliteCodes.SqliteError>)
    ensures r.Some? <==> e.Sqlite?
  {
    match e
    case Sqlite(p, x, m) => Some(SqliteCodes.SqliteError(p, x, m))
    case _ => None
  }

  /** `impl From<PoisonError<T>> for Error` and `impl From<TryLockError> for
      Error`: a lock that cannot be taken means the worker died. Neither
      conversion looks at the error it is given, so it is not a parameter. */
  function FromLockError(): (r: Error)
    ensures r == WorkerCrashed
  {
    WorkerCrashed
  }

  /** Converting an engine error into `Error` and back loses nothing. */
  lemma {:induction false} SqliteErrorRoundTrip(e: SqliteCodes.SqliteError)
    ensures IntoSqliteError(FromSqliteError(e)) == Some(e)
  {
  }

  /** An `Error::Sqlite` is exactly the image of its own extraction. */
  lemma {:induction false} IntoSqliteErrorInverse(e: Error)
    requires e.Sqlite?
    ensures FromSqliteError(IntoSqliteError(e).value) == e
  {
  }
}

=== FILE: establish.dfy ===
/** `EstablishParams` (crates/musq/src/sqlite/connection/establish.rs): the
    open flags and filename computed from the options, and the state of a
    freshly opened connection. The engine calls themselves (`open_v2`,
    `busy_timeout`) enter as their outcomes. */
module Establish {

  import opened Wrappers
  import opened Numeric
  import Utf8
  import Text
  import Errors
  import SqliteCodes
  import Config
  import StatementCache
  import Compound

  type Error = Errors.Error

  /* ---------------------------------------------------------------------- */
  /* Open flags                                                              */

  /** The `SQLITE_OPEN_*` flags the library chooses between. */
  datatype OpenFlag =
    | ReadOnly | ReadWrite | Create | Uri | Memory
    | NoMutex | FullMutex | SharedCache | PrivateCache

  /** The flag values of SQLite's C interface ("Flags For File Open
      Operations"). */
  function Bit(f: OpenFlag): bv32 {
    match f
    case ReadOnly => 0x1
    case ReadWrite => 0x2
    case Create => 0x4
    case Uri => 0x40
    case Memory => 0x80
    case NoMutex => 0x8000
    case FullMutex => 0x1_0000
    case SharedCache => 0x2_0000
    case PrivateCache => 0x4_0000
  }

  /** The bitwise or of the nine flag values, each present or not. */
  function Or9(ro: bool, rw: bool, cr: bool, uri: bool, mem: bool, nm: bool, fm: bool, sc: bool, pc: bool): bv32 {
    (if ro then 0x1 else 0) | (if rw then 0x2 else 0) | (if cr then 0x4 else 0) | (if uri then 0x40 else 0)
    | (if mem then 0x80 else 0) | (if nm then 0x8000 else 0) | (if fm then 0x1_0000 else 0)
    | (if sc then 0x2_0000 else 0) | (if pc then 0x4_0000 else 0)
  }

  /** Each flag value is one bit of its own. */
  lemma {:induction false} Or9Bits(ro: bool, rw: bool, cr: bool, uri: bool, mem: bool, nm: bool, fm: bool, sc: bool, pc: bool)
    ensures var x := Or9(ro, rw, cr, uri, mem, nm, fm, sc, pc);
      (x & 0x1 != 0 <==> ro) && (x & 0x2 != 0 <==> rw) && (x & 0x4 != 0 <==> cr) && (x & 0x40 != 0 <==> uri)
      && (x & 0x80 != 0 <==> mem) && (x & 0x8000 != 0 <==> nm) && (x & 0x1_0000 != 0 <==> fm)
      && (x & 0x2_0000 != 0 <==> sc) && (x & 0x4_0000 != 0 <==> pc)
  {
  }

  /** The `open_flags` integer: the bitwise or of the chosen flags. */
  function Bits(fs: set<OpenFlag>): bv32 {
    Or9(ReadOnly in fs, ReadWrite in fs, Create in fs, Uri in fs, Memory in fs,
        NoMutex in fs, FullMutex in fs, SharedCache in fs, PrivateCache in fs)
  }

  /** The integer carries a flag's bit exactly when the flag was chosen, so
      the engine reads back the set that was built. */
  lemma {:induction false} BitsMembership(fs: set<OpenFlag>, f: OpenFlag)
    ensures Bits(fs) & Bit(f) != 0 <==> f in fs
  {
    Or9Bits(ReadOnly in fs, ReadWrite in fs, Create in fs, Uri in fs, Memory in fs,
            NoMutex in fs, FullMutex in fs, SharedCache in fs, PrivateCache in fs);
  }

  /** The extra URI parameters: `immutable=true`, then `vfs=<name>`. */
  function QueryParams(m: Config.Musq): (ps: seq<string>)
    ensures |ps| <= 2
    ensures ps == [] <==> !m.immutable && m.vfs.None?
  {
    (if m.immutable then ["immutable=true"] else [])
    + (if m.vfs.Some? then ["vfs=" + m.vfs.value] else [])
  }

  /** The flags `from_options` chooses: the mutex mode, the access mode,
      memory, the cache mode, and URI when there are query parameters. */
  function Flags(m: Config.Musq): (fs: set<OpenFlag>)
    ensures FullMutex in fs <==> m.serialized
    ensures NoMutex in fs <==> !m.serialized
    ensures ReadOnly in fs <==> m.readOnly
    ensures ReadWrite in fs <==> !m.readOnly
    ensures Create in fs <==> !m.readOnly && m.createIfMissing
    ensures Memory in fs <==> m.inMemory
    ensures SharedCache in fs <==> m.sharedCache
    ensures PrivateCache in fs <==> !m.sharedCache
    ensures Uri in fs <==> QueryParams(m) != []
  {
    var mutex := if m.serialized then {FullMutex} else {NoMutex};
    var access := if m.readOnly then {ReadOnly} else if m.createIfMissing then {Create, ReadWrite} else {ReadWrite};
    var memory := if m.inMemory then {Memory} else {};
    var cache := if m.sharedCache then {SharedCache} else {PrivateCache};
    var uri := if QueryParams(m) != [] then {Uri} else {};
    mutex + access + memory + cache + uri
  }

  /** Exactly one mutex mode and exactly one cache mode; read-only never
      asks to create or to write. */
  lemma {:induction false} FlagsConsistent(m: Config.Musq)
    ensures (FullMutex in Flags(m)) != (NoMutex in Flags(m))
    ensures (SharedCache in Flags(m)) != (PrivateCache in Flags(m))
    ensures ReadOnly in Flags(m) ==> Create !in Flags(m) && ReadWrite !in Flags(m)
    ensures Create in Flags(m) ==> ReadWrite in Flags(m)
  {
  }

  /* ---------------------------------------------------------------------- */
  /* Parameters                                                              */

  const UTF8_MESSAGE: string := "filename passed to SQLite must be valid UTF-8"
  const NUL_MESSAGE: string := "filename passed to SQLite must not contain nul bytes"

  /** The parameters a connection is opened with. The worker's thread name
      and the log settings are not modelled. */
  datatype Params = Params(filename: string, openFlags: bv32, busyTimeoutMs: nat,
                           statementCacheCapacity: nat, commandChannelSize: nat)

  /** The filename given to SQLite: unchanged without query parameters,
      otherwise a `file:` URI carrying them joined by `&`. */
  function UriFilename(name: string, ps: seq<string>): (r: string)
    ensures ps == [] ==> r == name
    ensures ps != [] ==> |r| > 5 + |name|
    ensures ps != [] ==> r[..5] == "file:" && r[5..5 + |name|] == name && r[5 + |name|] == '?'
  {
    if ps == [] then name else "file:" + name + "?" + Text.Join(ps, "&")
  }

  /** `EstablishParams::from_options`: a path that is not UTF-8, or a final
      filename with a NUL, is an InvalidData I/O error; otherwise the
      filename, the flags and the options carried over. */
  function FromOptions(m: Config.Musq): (r: Result<Params, Error>)
    ensures Utf8.Decode(m.filename).None? ==> r == Err(Errors.Io(Errors.InvalidData, UTF8_MESSAGE))
    ensures Utf8.Decode(m.filename).Some? ==>
      var name := UriFilename(Utf8.Decode(m.filename).value, QueryParams(m));
      (r.Err? <==> '\0' in name) &&
      (r.Err? ==> r.error == Errors.Io(Errors.InvalidData, NUL_MESSAGE)) &&
      (r.Ok? ==> r.value.filename == name && r.value.openFlags == Bits(Flags(m)))
    ensures r.Ok? ==> (r.value.busyTimeoutMs == m.busyTimeoutMs
      && r.value.statementCacheCapacity == m.statementCacheCapacity
      && r.value.commandChannelSize == m.commandChannelSize)
  {
    match Utf8.Decode(m.filename)
    case None => Err(Errors.Io(Errors.InvalidData, UTF8_MESSAGE))
    case Some(name) =>
      var filename := UriFilename(name, QueryParams(m));
      if '\0' in filename then Err(Errors.Io(Errors.InvalidData, NUL_MESSAGE))
      else Ok(Params(filename, Bits(Flags(m)), m.busyTimeoutMs, m.statementCacheCapacity, m.commandChannelSize))
  }

  /** A plain path that is the UTF-8 of a NUL-free name reaches SQLite as
      that name, without the URI flag. */
  lemma {:induction false} PlainPathKept(m: Config.Musq, name: string)
    requires m.filename == Utf8.Encode(name) && '\0' !in name
    requires !m.immutable && m.vfs.None?
    ensures FromOptions(m).Ok?
    ensures FromOptions(m).value.filename == name
    ensures FromOptions(m).value.openFlags & Bit(Uri) == 0
  {
    Utf8.DecodeEncode(name);
    BitsMembership(Flags(m), Uri);
  }

  /** With query parameters the URI flag is set and the name is a `file:`
      URI; the flag is set exactly when the name was rewritten. */
  lemma {:induction false} UriWithParams(m: Config.Musq)
    requires FromOptions(m).Ok?
    ensures FromOptions(m).value.openFlags & Bit(Uri) != 0 <==> m.immutable || m.vfs.Some?
    ensures m.immutable || m.vfs.Some? ==> FromOptions(m).value.filename[..5] == "file:"
  {
    BitsMembership(Flags(m), Uri);
  }

  /** The mutex flag in the integer follows `serialized`, whatever else is
      set. */
  lemma {:induction false} MutexBits(m: Config.Musq)
    requires FromOptions(m).Ok?
    ensures FromOptions(m).value.openFlags & Bit(FullMutex) != 0 <==> m.serialized
    ensures FromOptions(m).value.openFlags & Bit(NoMutex) != 0 <==> !m.serialized
  {
    BitsMembership(Flags(m), FullMutex);
    BitsMembership(Flags(m), NoMutex);
  }

  /* ---------------------------------------------------------------------- */
  /* Establishing                                                            */

  /** The busy timeout handed to `sqlite3_busy_timeout`: the milliseconds,
      clamped to `i32::MAX`. */
  function BusyTimeoutArg(ms: nat): (r: I32)
    ensures 0 <= r <= ms && r <= I32_MAX
    ensures r == ms || r == I32_MAX
  {
    if ms <= I32_MAX then ms else I32_MAX
  }

  /** The clamp is the identity in range and saturates above it. */
  lemma {:induction false} BusyTimeoutClamp(ms: nat, ms': nat)
    ensures ms <= I32_MAX ==> BusyTimeoutArg(ms) == ms
    ensures ms > I32_MAX ==> BusyTimeoutArg(ms) == I32_MAX
    ensures ms <= ms' ==> BusyTimeoutArg(ms) <= BusyTimeoutArg(ms')
  {
  }

  /** `ConnectionState`: the statement cache and the transaction depth. */
  datatype ConnectionState = ConnectionState(statements: StatementCache.Cache<Compound.Compound>, transactionDepth: nat)

  datatype Established = Established(state: ConnectionState, busyTimeout: I32)

  const OOM_MESSAGE: string := "SQLite is unable to allocate memory to hold the sqlite3 object"

  /** `EstablishParams::establish`, given what the engine did: whether it
      allocated a handle, how opening went, and how setting the busy timeout
      went. */
  function Establish(p: Params, handleAllocated: bool, openResult: Option<SqliteCodes.SqliteError>,
                     busy: Option<SqliteCodes.SqliteError>): (r: Result<Established, Error>)
    ensures r.Ok? <==> handleAllocated && openResult.None? && busy.None?
    ensures !handleAllocated ==> r == Err(Errors.Io(Errors.OutOfMemory, OOM_MESSAGE))
    ensures handleAllocated && openResult.Some? ==> r == Err(Errors.FromSqliteError(openResult.value))
    ensures handleAllocated && openResult.None? && busy.Some? ==> r == Err(Errors.FromSqliteError(busy.value))
    ensures r.Ok? ==> (r.value.state.transactionDepth == 0
      && StatementCache.Valid(r.value.state.statements)
      && StatementCache.Len(r.value.state.statements) == 0
      && r.value.state.statements.capacity == p.statementCacheCapacity
      && r.value.busyTimeout == BusyTimeoutArg(p.busyTimeoutMs))
  {
    if !handleAllocated then Err(Errors.Io(Errors.OutOfMemory, OOM_MESSAGE))
    else if openResult.Some? then Err(Errors.FromSqliteError(openResult.value))
    else if busy.Some? then Err(Errors.FromSqliteError(busy.value))
    else Ok(Established(ConnectionState(StatementCache.New(p.statementCacheCapacity), 0), BusyTimeoutArg(p.busyTimeoutMs)))
  }

  /** From the options to an open connection: the cache has the configured
      capacity and is empty, no transaction is open, and the busy timeout is
      the configured one clamped to `i32::MAX`. */
  lemma {:induction false} OpenFromOptions(m: Config.Musq, busy: Option<SqliteCodes.SqliteError>)
    requires FromOptions(m).Ok?
    requires busy.None?
    ensures var r := Establish(FromOptions(m).value, true, None, busy);
      r.Ok? && r.value.state.transactionDepth == 0
      && r.value.state.statements == StatementCache.New(m.statementCacheCapacity)
      && (m.busyTimeoutMs <= I32_MAX ==> r.value.busyTimeout == m.busyTimeoutMs)
      && (m.busyTimeoutMs > I32_MAX ==> r.value.busyTimeout == I32_MAX)
  {
    BusyTimeoutClamp(m.busyTimeoutMs, m.busyTimeoutMs);
  }

  /** The defaults: an in-memory-named plain file, no mutex, read-write
      without create, a private cache, a five-second busy timeout. */
  lemma DefaultFlags()
    ensures Flags(Config.New()) == {NoMutex, ReadWrite, PrivateCache}
  {
  }
}

=== FILE: execute.dfy ===
/** `ExecuteIter` (crates/musq/src/sqlite/connection/execute.rs): walking the
    statements of a compound query, binding each one's parameters with the
    offset threaded from statement to statement, and producing its rows and
    then one result summary.

    Everything the engine answers during one call of `next` is an input
    `Answers`; `step` is the outcome `StatementHandle::step` reports (modelled
    in Step). */
module Execute {

  import opened Wrappers
  import opened Numeric
  import SqliteCodes
  import Errors
  import Arguments
  import SqlValue
  import Compound
  import Rows
  import Text
  import Utf8

  type Error = Errors.Error

  /** `QueryResult`: rows changed and the last inserted rowid. */
  datatype QueryResult = QueryResult(changes: nat, lastInsertRowid: I64)

  /** What the iterator yields: a row (Right) or a statement's summary (Left). */
  type Item = Either<QueryResult, Rows.Row>

  /** The iterator: the compound statement, the arguments, how many argument
      positions earlier statements consumed, and whether the next call moves
      to the next statement. */
  datatype Iter = Iter(statement: Compound.Compound, args: Option<Arguments.Arguments>, argsUsed: nat, gotoNext: bool)

  /** Argument positions fit in `usize`, and every registered name points at
      a value. */
  predicate Valid(it: Iter) {
    Compound.Valid(it.statement) && it.argsUsed <= USIZE_MAX &&
    (it.args.Some? ==> Arguments.Valid(it.args.value) && |it.args.value.values| <= USIZE_MAX)
  }

  /** `iter`: a fresh walk over a (cached) compound statement. */
  function Start(statement: Compound.Compound, args: Option<Arguments.Arguments>): (it: Iter)
    ensures it.argsUsed == 0 && it.gotoNext && it.statement == statement && it.args == args
  {
    Iter(statement, args, 0, true)
  }

  /** What the engine answers during one call of `next`. `bindParam` is
      what each `sqlite3_bind_*` call answers, `read(i)` is what it reports
      for column `i` of the current row, and `enumerate` lists a statement's
      name table in its iteration order. */
  datatype Answers = Answers(
    engine: seq<Byte> -> Compound.PrepareAnswer,
    lastError: SqliteCodes.SqliteError,
    reset: Option<SqliteCodes.SqliteError>,
    params: seq<Option<string>>,
    bindParam: Arguments.BindAnswer,
    step: Result<bool, Error>,
    read: nat -> Rows.ColumnRead,
    enumerate: map<string, nat> -> seq<(string, nat)>,
    changes: nat,
    lastInsertRowid: I64)

  /** The calls `next` makes on a statement handle. `BindStmt(h, indices)`
      stands for the `sqlite3_bind_*` calls `bind` made, in order: parameter
      `k + 1` was given value `indices[k]`. */
  datatype Event =
    | ResetStmt(handle: nat)
    | ClearStmt(handle: nat)
    | BindStmt(handle: nat, indices: seq<nat>)
    | StepStmt(handle: nat)

  /** One call of `next`: the iterator after it, what it yields (None once
      the iteration is over), and the calls it made on statement handles. */
  datatype Yield = Yield(it: Iter, item: Option<Result<Item, Error>>, events: seq<Event>)

  /** Successive calls of `next`: the iterator after them, what they
      yielded, and whether one of them reported the end. */
  datatype Walk = Walk(it: Iter, items: seq<Result<Item, Error>>, ended: bool)

  /** The `bind` helper: without arguments nothing is bound and no position
      is used. */
  function BindArgs(args: Option<Arguments.Arguments>, params: seq<Option<string>>, offset: Usize,
                    engine: Arguments.BindAnswer): (r: Result<Arguments.Binding, Arguments.BindFailure>)
    ensures args.None? ==> r == Ok(Arguments.Binding([], 0))
    ensures args.Some? ==> r == Arguments.Bind(args.value, params, offset, engine)
  {
    match args
    case None => Ok(Arguments.Binding([], 0))
    case Some(a) => Arguments.Bind(a, params, offset, engine)
  }

  /** A registered index never exceeds the number of values, so neither does
      the start of the anonymous positions unless the offset already does. */
  lemma {:induction false} StartBound(args: Arguments.Arguments, offset: nat)
    requires Arguments.Valid(args)
    ensures Arguments.Start(args, offset) == offset || Arguments.Start(args, offset) <= |args.values|
  {
    var s := Arguments.Start(args, offset);
    if s != offset {
      var name :| name in args.named && args.named[name] == s;
    }
  }

  /** Binding never moves the position counter past `usize`. */
  lemma {:induction false} BindArgsFits(args: Option<Arguments.Arguments>, params: seq<Option<string>>, offset: Usize, engine: Arguments.BindAnswer)
    requires args.Some? ==> Arguments.Valid(args.value) && |args.value.values| <= USIZE_MAX
    ensures BindArgs(args, params, offset, engine).Ok? ==> offset + BindArgs(args, params, offset, engine).value.used <= USIZE_MAX
  {
    if args.Some? {
      StartBound(args.value, offset);
    }
  }

  /** `enumerate` lists every name table in some iteration order. */
  ghost predicate ListsNames(a: Answers) {
    forall m :: Rows.ListsExactly(a.enumerate(m), m)
  }

  /** The answers of one call of `next` are those of a working engine: its
      compiler stays within the text it is given, and a name table's
      iteration visits every entry once. */
  ghost predicate Sane(a: Answers) {
    Compound.Sane(a.engine) && ListsNames(a)
  }

  /** The row at the statement's current position: the row shares the
      statement's columns and its name table, so looking a name up in the
      row finds the index the statement's table holds for it. */
  function CurrentRow(stmt: Compound.Statement, a: Answers): (r: Result<Rows.Row, Error>)
    requires ListsNames(a)
    ensures r.Ok? ==> r.value.columns == stmt.columns && |r.value.values| == |stmt.columns|
    ensures r.Ok? ==> Rows.ListsExactly(r.value.columnNames, stmt.columnNames)
    ensures r.Ok? ==> forall name :: (Rows.IndexOfName(r.value.columnNames, name) ==
                                      if name in stmt.columnNames then Some(stmt.columnNames[name]) else None)
  {
    var reported := seq(|stmt.columns|, i requires 0 <= i < |stmt.columns| => a.read(i));
    var names := a.enumerate(stmt.columnNames);
    assert Rows.ListsExactly(names, stmt.columnNames);
    forall name
      ensures Rows.IndexOfName(names, name) == (if name in stmt.columnNames then Some(stmt.columnNames[name]) else None)
    {
      Rows.LookupAgreesWithMap(names, stmt.columnNames, name);
    }
    Rows.Current(reported, stmt.columns, names)
  }

  /** Step the statement: a row, or the summary once it is done, after which
      the next call moves on. */
  function StepCurrent(it: Iter, stmt: Compound.Statement, a: Answers, events: seq<Event>): (r: Yield)
    requires ListsNames(a)
    ensures r.events == events + [StepStmt(stmt.handle)]
    ensures r.item.Some?
    ensures a.step.Err? ==> r.it == it && r.item == Some(Err(a.step.error))
    ensures a.step == Ok(true) ==> r.it == it
    ensures a.step == Ok(true) && CurrentRow(stmt, a).Ok? ==> r.item == Some(Ok(Right(CurrentRow(stmt, a).value)))
    ensures a.step == Ok(true) && CurrentRow(stmt, a).Err? ==> r.item == Some(Err(CurrentRow(stmt, a).error))
    ensures a.step == Ok(false) ==> r.it == Iter(it.statement, it.args, it.argsUsed, true)
    ensures a.step == Ok(false) ==> r.item == Some(Ok(Left(QueryResult(a.changes, a.lastInsertRowid))))
  {
    var events' := events + [StepStmt(stmt.handle)];
    match a.step
    case Err(e) => Yield(it, Some(Err(e)), events')
    case Ok(hasRow) =>
      if hasRow then
        match CurrentRow(stmt, a)
        case Ok(row) => Yield(it, Some(Ok(Right(row))), events')
        case Err(e) => Yield(it, Some(Err(e)), events')
      else Yield(Iter(it.statement, it.args, it.argsUsed, true), Some(Ok(Left(QueryResult(a.changes, a.lastInsertRowid)))), events')
  }

  /** A step that reports done yields the statement's summary and leaves
      the walk ready to move on. */
  lemma {:induction false} StepDone(statement: Compound.Compound, args: Option<Arguments.Arguments>, used: nat,
                 stmt: Compound.Statement, a: Answers, events: seq<Event>)
    requires ListsNames(a) && a.step == Ok(false)
    ensures StepCurrent(Iter(statement, args, used, false), stmt, a, events) ==
      Yield(Iter(statement, args, used, true), Some(Ok(Left(QueryResult(a.changes, a.lastInsertRowid)))), events + [StepStmt(stmt.handle)])
  {
  }

  /** Entering a newly prepared statement: reset it, clear its bindings,
      bind the arguments from the positions used so far, then step it. */
  function Enter(it: Iter, stmt: Compound.Statement, a: Answers): (r: Yield)
    requires Valid(it) && !it.gotoNext && ListsNames(a)
    ensures Valid(r.it) && r.it.args == it.args && r.it.statement == it.statement
    ensures r.it.argsUsed >= it.argsUsed && r.item.Some?
    ensures r.item.value.Ok? && r.item.value.value.Left? ==> r.it.gotoNext
    ensures r.item.value.Ok? && r.item.value.value.Right? ==> !r.it.gotoNext
  {
    var h := stmt.handle;
    if a.reset.Some? then Yield(it, Some(Err(Errors.FromSqliteError(a.reset.value))), [ResetStmt(h)])
    else
      match BindArgs(it.args, a.params, it.argsUsed, a.bindParam)
      case Err(f) => Yield(it, Some(Err(f.error)), [ResetStmt(h), ClearStmt(h), BindStmt(h, f.calls)])
      case Ok(b) =>
        BindArgsFits(it.args, a.params, it.argsUsed, a.bindParam);
        StepCurrent(Iter(it.statement, it.args, it.argsUsed + b.used, it.gotoNext), stmt, a, [ResetStmt(h), ClearStmt(h), BindStmt(h, b.indices)])
  }

  /** A statement whose reset fails is neither cleared, bound nor stepped. */
  lemma {:induction false} EnterResetFails(it: Iter, stmt: Compound.Statement, a: Answers)
    requires Valid(it) && !it.gotoNext && ListsNames(a) && a.reset.Some?
    ensures Enter(it, stmt, a) == Yield(it, Some(Err(Errors.FromSqliteError(a.reset.value))), [ResetStmt(stmt.handle)])
  {
  }

  /** A statement whose binding fails is reset, cleared and given the
      values `bind` bound before it stopped, but not stepped, and uses no
      positions. */
  lemma {:induction false} EnterBindFails(it: Iter, stmt: Compound.Statement, a: Answers, f: Arguments.BindFailure)
    requires Valid(it) && !it.gotoNext && ListsNames(a) && a.reset.None?
    requires BindArgs(it.args, a.params, it.argsUsed, a.bindParam) == Err(f)
    ensures Enter(it, stmt, a) ==
      Yield(it, Some(Err(f.error)), [ResetStmt(stmt.handle), ClearStmt(stmt.handle), BindStmt(stmt.handle, f.calls)])
  {
  }

  /** `?1, ?2, ?3` over two values, where the engine refuses the second:
      the statement is given value 1, then value 2, and the engine's error
      is reported; the third parameter, which has no value, is never looked
      at. */
  lemma {:induction false} EnterStopsAtRefusedValue(it: Iter, stmt: Compound.Statement, a: Answers, one: SqlValue.Value, two: SqlValue.Value,
                                 code: SqliteCodes.SqliteError)
    requires Valid(it) && !it.gotoNext && ListsNames(a) && a.reset.None?
    requires it.args == Some(Arguments.Arguments([one, two], map[])) && it.argsUsed == 0
    requires a.params == [Some("?1"), Some("?2"), Some("?3")]
    requires a.bindParam(1, 1).None? && a.bindParam(2, 2) == Some(code)
    ensures Enter(it, stmt, a) ==
      Yield(it, Some(Err(Errors.FromSqliteError(code))), [ResetStmt(stmt.handle), ClearStmt(stmt.handle), BindStmt(stmt.handle, [1, 2])])
  {
    Arguments.BindStopsAtEngineError(one, two, a.params, a.bindParam, code);
    EnterBindFails(it, stmt, a, Arguments.BindFailure(Errors.FromSqliteError(code), 1, [1, 2]));
  }

  /** A statement that is reset and bound is then stepped, and the positions
      its binding used are added to those earlier statements used. */
  lemma {:induction false} EnterBinds(statement: Compound.Compound, args: Option<Arguments.Arguments>, used: nat,
                    stmt: Compound.Statement, a: Answers, b: Arguments.Binding)
    requires Valid(Iter(statement, args, used, false)) && ListsNames(a) && a.reset.None?
    requires BindArgs(args, a.params, used, a.bindParam) == Ok(b)
    ensures used + b.used <= USIZE_MAX
    ensures Enter(Iter(statement, args, used, false), stmt, a) ==
      StepCurrent(Iter(statement, args, used + b.used, false), stmt, a,
                  [ResetStmt(stmt.handle), ClearStmt(stmt.handle), BindStmt(stmt.handle, b.indices)])
  {
    BindArgsFits(args, a.params, used, a.bindParam);
  }

  /** `ExecuteIter::next`. After a summary the next call moves on to the
      next statement; after a row it stays on the current one. */
  function Next(it: Iter, a: Answers): (r: Yield)
    requires Valid(it) && Sane(a)
    ensures Valid(r.it) && r.it.args == it.args
    ensures r.it.argsUsed >= it.argsUsed
    ensures r.item.Some? && r.item.value.Ok? && r.item.value.value.Left? ==> r.it.gotoNext
    ensures r.item.Some? && r.item.value.Ok? && r.item.value.value.Right? ==> !r.it.gotoNext
  {
    if it.gotoNext then
      var (c1, prepared) := Compound.PrepareNext(it.statement, a.engine, a.lastError);
      var it1 := Iter(c1, it.args, it.argsUsed, false);
      match prepared
      case Err(e) => Yield(Iter(c1, it.args, it.argsUsed, true), Some(Err(e)), [])
      case Ok(None) => Yield(Iter(c1, it.args, it.argsUsed, true), None, [])
      case Ok(Some(stmt)) => Enter(it1, stmt, a)
    else
      match Compound.Current(it.statement)
      case None => Yield(it, None, [])
      case Some(stmt) => StepCurrent(it, stmt, a, [])
  }

  /** Inside a statement, `next` steps it again with nothing else done, and
      returns None once the walk is past the last statement. */
  lemma {:induction false} NextWithinStatement(it: Iter, a: Answers)
    requires Valid(it) && Sane(a) && !it.gotoNext
    ensures Compound.Current(it.statement).None? ==> Next(it, a) == Yield(it, None, [])
    ensures Compound.Current(it.statement).Some? ==>
      Next(it, a) == StepCurrent(it, Compound.Current(it.statement).value, a, [])
  {
  }

  /** Inside a statement, a step that finds a row yields it and stays. */
  lemma {:induction false} NextRow(it: Iter, a: Answers, stmt: Compound.Statement, row: Rows.Row)
    requires Valid(it) && Sane(a) && !it.gotoNext && Compound.Current(it.statement) == Some(stmt)
    requires a.step == Ok(true) && CurrentRow(stmt, a) == Ok(row)
    ensures Next(it, a).it == it && Next(it, a).item == Some(Ok(Right(row)))
  {
    NextWithinStatement(it, a);
  }

  /** Inside a statement, a step that reports done yields the summary and
      makes the next call move on. */
  lemma {:induction false} NextDone(it: Iter, a: Answers, stmt: Compound.Statement)
    requires Valid(it) && Sane(a) && !it.gotoNext && Compound.Current(it.statement) == Some(stmt)
    requires a.step == Ok(false)
    ensures Next(it, a).it == Iter(it.statement, it.args, it.argsUsed, true)
    ensures Next(it, a).item == Some(Ok(Left(QueryResult(a.changes, a.lastInsertRowid))))
  {
    NextWithinStatement(it, a);
  }

  /** Moving on when preparing the next statement fails: the error is
      reported and the walk stays ready to move on. */
  lemma {:induction false} NextPrepareFails(it: Iter, a: Answers, c1: Compound.Compound, e: Error)
    requires Valid(it) && Sane(a) && it.gotoNext
    requires Compound.PrepareNext(it.statement, a.engine, a.lastError).0 == c1
    requires Compound.PrepareNext(it.statement, a.engine, a.lastError).1 == Err(e)
    ensures Next(it, a) == Yield(Iter(c1, it.args, it.argsUsed, true), Some(Err(e)), [])
  {
  }

  /** Moving on past the last statement ends the iteration. */
  lemma {:induction false} NextNoMore(it: Iter, a: Answers, c1: Compound.Compound)
    requires Valid(it) && Sane(a) && it.gotoNext
    requires Compound.PrepareNext(it.statement, a.engine, a.lastError).0 == c1
    requires Compound.PrepareNext(it.statement, a.engine, a.lastError).1 == Ok(None)
    ensures Next(it, a) == Yield(Iter(c1, it.args, it.argsUsed, true), None, [])
  {
  }

  /** Moving on to a statement enters it. */
  lemma {:induction false} NextEnters(it: Iter, a: Answers, c1: Compound.Compound, stmt: Compound.Statement)
    requires Valid(it) && Sane(a) && it.gotoNext
    requires Compound.PrepareNext(it.statement, a.engine, a.lastError).0 == c1
    requires Compound.PrepareNext(it.statement, a.engine, a.lastError).1 == Ok(Some(stmt))
    ensures Valid(Iter(c1, it.args, it.argsUsed, false))
    ensures Next(it, a) == Enter(Iter(c1, it.args, it.argsUsed, false), stmt, a)
  {
  }

  /** Every answer in a run is Sane. */
  ghost predicate AllSane(answers: seq<Answers>)
    decreases answers
  {
    answers == [] || (Sane(answers[0]) && AllSane(answers[1..]))
  }

  /** Calling `next` once per answer until it returns None: the items
      produced, and whether the walk ended. */
  function Run(it: Iter, answers: seq<Answers>): (r: Walk)
    requires Valid(it) && AllSane(answers)
    ensures Valid(r.it) && |r.items| <= |answers|
    decreases |answers|
  {
    if answers == [] then Walk(it, [], false)
    else
      var first := Next(it, answers[0]);
      if first.item.None? then Walk(first.it, [], true)
      else
        var rest := Run(first.it, answers[1..]);
        Walk(rest.it, [first.item.value] + rest.items, rest.ended)
  }

  /** Dropping the iterator resets the compound statement, ignoring its
      result; `results[k]` is what resetting handle `k` answers. */
  method Drop(it: Iter, results: seq<Option<SqliteCodes.SqliteError>>) returns (c: Compound.Compound, calls: seq<Compound.HandleCall>)
    requires |results| == |it.statement.statements|
    ensures c == it.statement.(index := None)
    ensures |calls| == 2 * |it.statement.statements|
    ensures forall k :: 0 <= k < |it.statement.statements| ==>
      calls[2 * k] == Compound.ResetHandle(it.statement.statements[k].handle) &&
      calls[2 * k + 1] == Compound.ClearBindings(it.statement.statements[k].handle)
  {
    var ignored;
    c, ignored, calls := Compound.Reset(it.statement, results);
  }

  /** One call of `next` that yields an item, followed by the rest of the run. */
  lemma {:induction false} RunCons(it: Iter, answers: seq<Answers>)
    requires Valid(it) && AllSane(answers)
    requires answers != [] && Next(it, answers[0]).item.Some?
    ensures var first := Next(it, answers[0]);
      var rest := Run(first.it, answers[1..]);
      Run(it, answers).it == rest.it && Run(it, answers).items == [first.item.value] + rest.items && Run(it, answers).ended == rest.ended
  {
  }

  /** The answers step to `rows` in order, then report done. */
  ghost predicate RowsThenDone(stmt: Compound.Statement, answers: seq<Answers>, rows: seq<Rows.Row>)
    decreases rows
  {
    |answers| == |rows| + 1 &&
    if rows == [] then
      answers[0].step == Ok(false)
    else
      answers[0].step == Ok(true) && ListsNames(answers[0]) && CurrentRow(stmt, answers[0]) == Ok(rows[0]) &&
      RowsThenDone(stmt, answers[1..], rows[1..])
  }

  /** The items one statement yields: its rows, then its summary. */
  function StatementItems(rows: seq<Rows.Row>, done: Answers): (r: seq<Result<Item, Error>>)
    decreases rows
  {
    if rows == [] then [Ok(Left(QueryResult(done.changes, done.lastInsertRowid)))]
    else [Ok(Right(rows[0]))] + StatementItems(rows[1..], done)
  }

  /** A statement's items are its rows in order as Right, then exactly one
      Left summary at the end. */
  lemma {:induction false} StatementItemsShape(rows: seq<Rows.Row>, done: Answers)
    ensures |StatementItems(rows, done)| == |rows| + 1
    ensures forall j :: 0 <= j < |rows| ==> StatementItems(rows, done)[j] == Ok(Right(rows[j]))
    ensures StatementItems(rows, done)[|rows|] == Ok(Left(QueryResult(done.changes, done.lastInsertRowid)))
    decreases rows
  {
    if rows != [] {
      StatementItemsShape(rows[1..], done);
      var rest := StatementItems(rows[1..], done);
      assert StatementItems(rows, done) == [Ok(Right(rows[0]))] + rest;
      forall j | 1 <= j < |rows|
        ensures StatementItems(rows, done)[j] == Ok(Right(rows[j]))
      {
        assert rows[1..][j - 1] == rows[j];
      }
    }
  }

  /** Once inside a statement, its rows come out as Right in step order, and
      the step that reports done ends them with exactly one Left summary
      (StatementItemsShape); the call after it moves to the next statement. */
  lemma {:induction false} RowsThenSummary(it: Iter, answers: seq<Answers>, rows: seq<Rows.Row>, stmt: Compound.Statement)
    requires Valid(it) && !it.gotoNext && Compound.Current(it.statement) == Some(stmt)
    requires AllSane(answers)
    requires RowsThenDone(stmt, answers, rows)
    ensures Run(it, answers).it == Iter(it.statement, it.args, it.argsUsed, true)
    ensures Run(it, answers).items == StatementItems(rows, answers[|rows|])
    ensures !Run(it, answers).ended
    decreases rows
  {
    var a := answers[0];
    var tail := answers[1..];
    if rows == [] {
      NextDone(it, a, stmt);
      RunCons(it, answers);
      var done := Iter(it.statement, it.args, it.argsUsed, true);
      assert tail == [];
      assert Run(done, tail).it == done && Run(done, tail).items == [];
    } else {
      NextRow(it, a, stmt, rows[0]);
      RunCons(it, answers);
      RowsThenSummary(it, tail, rows[1..], stmt);
      assert tail[|rows| - 1] == answers[|rows|];
    }
  }

  /** A query that is empty once trimmed yields nothing at all: the first
      `next` finds no statement. */
  lemma {:induction false} EmptyQueryYieldsNothing(query: string, args: Option<Arguments.Arguments>, a: Answers)
    requires Text.Trim(query) == [] && Sane(a)
    requires args.Some? ==> Arguments.Valid(args.value) && |args.value.values| <= USIZE_MAX
    ensures Compound.New(query).Ok?
    ensures Next(Start(Compound.New(query).value, args), a).item.None?
  {
    assert Utf8.Encode([]) == [];
    var c := Compound.New(query).value;
    assert c == Compound.Compound(None, [], []);
    Compound.NothingToPrepare(a.engine, a.lastError);
  }

  /** The parameters of one `select ?`. */
  ghost predicate OneAnonymous(a: Answers) {
    a.params == [None] && a.reset.None? && a.step == Ok(false) && Sane(a) && forall p, n :: a.bindParam(p, n).None?
  }

  /** Entering a statement whose reset and binding succeed and whose first
      step reports done: the four handle calls in order, the positions the
      binding used added to the offset, and the summary. */
  lemma {:induction false} NextEntersSummary(it: Iter, a: Answers, c1: Compound.Compound, stmt: Compound.Statement, b: Arguments.Binding)
    requires Valid(it) && it.gotoNext && Sane(a)
    requires Compound.PrepareNext(it.statement, a.engine, a.lastError).0 == c1
    requires Compound.PrepareNext(it.statement, a.engine, a.lastError).1 == Ok(Some(stmt))
    requires a.reset.None? && a.step == Ok(false) && BindArgs(it.args, a.params, it.argsUsed, a.bindParam) == Ok(b)
    ensures Next(it, a).it == Iter(c1, it.args, it.argsUsed + b.used, true)
    ensures Next(it, a).item == Some(Ok(Left(QueryResult(a.changes, a.lastInsertRowid))))
    ensures Next(it, a).events == [ResetStmt(stmt.handle), ClearStmt(stmt.handle), BindStmt(stmt.handle, b.indices), StepStmt(stmt.handle)]
  {
    NextEnters(it, a, c1, stmt);
    EnterBinds(c1, it.args, it.argsUsed, stmt, a, b);
    var h := stmt.handle;
    var events := [ResetStmt(h), ClearStmt(h), BindStmt(h, b.indices)];
    StepDone(c1, it.args, it.argsUsed + b.used, stmt, a, events);
    assert events + [StepStmt(h)] == [ResetStmt(h), ClearStmt(h), BindStmt(h, b.indices), StepStmt(h)];
  }

  /** One anonymous parameter with no named arguments binds the value right
      after the offset and uses one position. */
  lemma {:induction false} BindOneAnonymous(args: Arguments.Arguments, offset: Usize, engine: Arguments.BindAnswer)
    requires args.named == map[] && offset < |args.values| && forall p, n :: engine(p, n).None?
    ensures BindArgs(Some(args), [None], offset, engine) == Ok(Arguments.Binding([offset + 1], 1))
  {
    assert args.named.Values == {};
    assert Arguments.Start(args, offset) == offset;
    Arguments.BindAnonymous(args, 1, offset, engine);
    var one: seq<Option<string>> := seq(1, _ => None);
    assert one == [None];
    assert seq(1, k => offset + k + 1) == [offset + 1];
  }

  /** One anonymous parameter over values without names, entered with
      fewer positions used than there are values, reads the next value. */
  lemma {:induction false} AnonymousBindsAt(it: Iter, a: Answers, args: Arguments.Arguments)
    requires OneAnonymous(a) && it.args == Some(args) && args.named == map[] && it.argsUsed < |args.values|
    requires it.argsUsed <= USIZE_MAX
    ensures BindArgs(it.args, a.params, it.argsUsed, a.bindParam) == Ok(Arguments.Binding([it.argsUsed + 1], 1))
  {
    var params := a.params;
    assert params == [None];
    BindOneAnonymous(args, it.argsUsed, a.bindParam);
  }

  /** A query that compiled to the statements `s0; s1`, not yet walked. */
  function Compiled2(s0: Compound.Statement, s1: Compound.Statement, index: Option<nat>): Compound.Compound {
    Compound.Compound(index, [], [s0, s1])
  }

  /** `select ?; select ?` with two values, first statement: it binds
      value 1 and uses one anonymous position. */
  lemma {:induction false} AnonymousFirstStatement(s0: Compound.Statement, s1: Compound.Statement, args: Arguments.Arguments, a1: Answers)
    requires args.named == map[] && |args.values| == 2
    requires OneAnonymous(a1)
    ensures var y := Next(Start(Compiled2(s0, s1, None), Some(args)), a1);
      y.events == [ResetStmt(s0.handle), ClearStmt(s0.handle), BindStmt(s0.handle, [1]), StepStmt(s0.handle)] &&
      y.it == Iter(Compiled2(s0, s1, Some(0)), Some(args), 1, true)
  {
    var c := Compiled2(s0, s1, None);
    var it := Start(c, Some(args));
    AnonymousBindsAt(it, a1, args);
    Compound.ResetReusesStatements(c, a1.engine, a1.lastError);
    NextEntersSummary(it, a1, Compiled2(s0, s1, Some(0)), s0, Arguments.Binding([it.argsUsed + 1], 1));
  }

  /** `select ?; select ?` with two values, second statement: it binds value
      2, because the position the first used is passed on as its offset. */
  lemma {:induction false} AnonymousAcrossStatements(s0: Compound.Statement, s1: Compound.Statement, args: Arguments.Arguments, a2: Answers)
    requires args.named == map[] && |args.values| == 2
    requires OneAnonymous(a2)
    ensures Next(Iter(Compiled2(s0, s1, Some(0)), Some(args), 1, true), a2).events ==
      [ResetStmt(s1.handle), ClearStmt(s1.handle), BindStmt(s1.handle, [2]), StepStmt(s1.handle)]
    ensures Next(Iter(Compiled2(s0, s1, Some(0)), Some(args), 1, true), a2).it.argsUsed == 2
  {
    var c := Compiled2(s0, s1, None);
    var it := Iter(Compiled2(s0, s1, Some(0)), Some(args), 1, true);
    AnonymousBindsAt(it, a2, args);
    Compound.WalkInOrder(c, a2.engine, a2.lastError, 0);
    NextEntersSummary(it, a2, Compiled2(s0, s1, Some(1)), s1, Arguments.Binding([it.argsUsed + 1], 1));
  }

  /** The parameters of one `select ?1`. */
  ghost predicate OneNumbered(a: Answers) {
    a.params == [Some("?1")] && a.reset.None? && a.step == Ok(false) && Sane(a) && forall p, n :: a.bindParam(p, n).None?
  }

  /** `?1` binds value 1 and uses no anonymous position. */
  lemma {:induction false} BindFirstNumbered(args: Arguments.Arguments, params: seq<Option<string>>, engine: Arguments.BindAnswer)
    requires args.named == map[] && |args.values| >= 1 && params == [Some("?1")] && engine(1, 1).None?
    ensures Arguments.Bind(args, params, 0, engine) == Ok(Arguments.Binding([1], 0))
  {
    Arguments.ParsesAsNumber("?1", 1);
    var kinds := Arguments.KindsOf(params);
    assert kinds == [Ok(Arguments.Numbered(1))];
    assert args.named.Values == {};
    assert Arguments.Start(args, 0) == 0;
    assert Arguments.BindFrom(args, params, kinds, 1, 0, map[], true, engine) == Arguments.Resolved([], 0);
    assert Arguments.BindFrom(args, params, kinds, 0, 0, map[], true, engine) == Arguments.Resolved([1], 0);
  }

  /** `select ?1; select ?1`: both statements bind value 1, and the offset
      stays 0 because neither uses an anonymous position. */
  lemma {:induction false} NumberedAcrossStatements(s0: Compound.Statement, s1: Compound.Statement, args: Arguments.Arguments, a1: Answers, a2: Answers)
    requires args.named == map[] && |args.values| == 1
    requires OneNumbered(a1) && OneNumbered(a2)
    ensures Next(Start(Compiled2(s0, s1, None), Some(args)), a1).events ==
      [ResetStmt(s0.handle), ClearStmt(s0.handle), BindStmt(s0.handle, [1]), StepStmt(s0.handle)]
    ensures Next(Start(Compiled2(s0, s1, None), Some(args)), a1).it == Iter(Compiled2(s0, s1, Some(0)), Some(args), 0, true)
    ensures Next(Iter(Compiled2(s0, s1, Some(0)), Some(args), 0, true), a2).events ==
      [ResetStmt(s1.handle), ClearStmt(s1.handle), BindStmt(s1.handle, [1]), StepStmt(s1.handle)]
    ensures Next(Iter(Compiled2(s0, s1, Some(0)), Some(args), 0, true), a2).it.argsUsed == 0
  {
    var c := Compiled2(s0, s1, None);
    BindFirstNumbered(args, a1.params, a1.bindParam);
    Compound.ResetReusesStatements(c, a1.engine, a1.lastError);
    NextEntersSummary(Start(c, Some(args)), a1, Compiled2(s0, s1, Some(0)), s0, Arguments.Binding([1], 0));
    BindFirstNumbered(args, a2.params, a2.bindParam);
    Compound.WalkInOrder(c, a2.engine, a2.lastError, 0);
    NextEntersSummary(Iter(Compiled2(s0, s1, Some(0)), Some(args), 0, true), a2, Compiled2(s0, s1, Some(1)), s1, Arguments.Binding([1], 0));
  }
}

=== FILE: expr.dfy ===
/** `Expr` (crates/musq/src/expr.rs): a SQL fragment with its own bound
    arguments, embedded into composed SQL rather than bound as one value. */
module Expr {

  import opened Wrappers
  import Arguments
  import SqlValue
  import Query

  datatype Expr = Expr(sql: string, arguments: Arguments.Arguments, tainted: bool)

  /** The number of anonymous `?` placeholders in a SQL text. */
  function Placeholders(sql: string): (n: nat)
    ensures n <= |sql|
  {
    if sql == [] then 0 else (if sql[0] == '?' then 1 else 0) + Placeholders(sql[1..])
  }

  lemma {:induction false} NoPlaceholders(sql: string)
    requires forall i :: 0 <= i < |sql| ==> sql[i] != '?'
    ensures Placeholders(sql) == 0
    decreases |sql|
  {
    if sql != [] {
      NoPlaceholders(sql[1..]);
    }
  }

  /** An expression is self-contained when it binds exactly as many values as
      its SQL has anonymous placeholders. */
  predicate SelfContained(e: Expr) {
    Placeholders(e.sql) == |e.arguments.values| && e.arguments.named == map[]
  }

  /** `From<Query> for Expr`: the query's SQL (the prepared statement's when
      there is one), its arguments or none, and its taint flag. */
  function FromQuery(q: Query.Query): (e: Expr)
    ensures e.sql == Query.Sql(q) && e.tainted == q.tainted
    ensures q.arguments.Some? ==> e.arguments == q.arguments.value
    ensures q.arguments.None? ==> e.arguments == Arguments.EMPTY
  {
    match q.statement
    case Left(sql) => Expr(sql, q.arguments.GetOr(Arguments.EMPTY), q.tainted)
    case Right(st) => Expr(st.sql, q.arguments.GetOr(Arguments.EMPTY), q.tainted)
  }

  const NOW_SQL: string := "STRFTIME('%Y-%m-%dT%H:%M:%fZ', 'now')"

  /** `now_rfc3339_utc`: a curated fragment with no arguments. */
  function NowRfc3339Utc(): (e: Expr)
    ensures !e.tainted && e.arguments == Arguments.EMPTY
  {
    Expr(NOW_SQL, Arguments.EMPTY, false)
  }

  const JSONB_SQL: string := "jsonb(?)"

  /** `jsonb`: the JSON text bound as one untyped TEXT argument. */
  function Jsonb(json: string): (e: Expr)
    ensures !e.tainted && e.arguments.named == map[]
    ensures e.arguments.values == [SqlValue.Text(json, None)]
  {
    Expr(JSONB_SQL, Arguments.Arguments([SqlValue.Text(json, None)], map[]), false)
  }

  /** `jsonb_text`, an alias of `jsonb`. */
  function JsonbText(json: string): (e: Expr)
    ensures e == Jsonb(json)
  {
    Jsonb(json)
  }

  /** `raw`: arbitrary SQL, always tainted. */
  function Raw(sql: string): (e: Expr)
    ensures e.tainted && e.sql == sql && e.arguments == Arguments.EMPTY
  {
    Expr(sql, Arguments.EMPTY, true)
  }

  /** The curated helpers never taint, and bind exactly the values their
      placeholders ask for. */
  lemma NowSelfContained()
    ensures SelfContained(NowRfc3339Utc()) && !NowRfc3339Utc().tainted
  {
    NoPlaceholders(NOW_SQL);
  }

  lemma {:induction false} JsonbSelfContained(json: string)
    ensures SelfContained(Jsonb(json)) && SelfContained(JsonbText(json)) && !Jsonb(json).tainted
  {
    PlaceholdersAppend(JSONB_SQL[..6], JSONB_SQL[6..]);
    NoPlaceholders(JSONB_SQL[..6]);
    NoPlaceholders(JSONB_SQL[7..]);
  }

  lemma {:induction false} PlaceholdersAppend(a: string, b: string)
    ensures Placeholders(a + b) == Placeholders(a) + Placeholders(b)
    decreases |a|
  {
    if a == [] {
      assert a + b == b;
    } else {
      assert (a + b)[1..] == a[1..] + b;
      PlaceholdersAppend(a[1..], b);
    }
  }

  /** A raw fragment with no placeholders is self-contained yet still
      tainted: the taint records where the SQL came from, not its shape. */
  lemma {:induction false} RawTaintedRegardless(sql: string)
    requires forall i :: 0 <= i < |sql| ==> sql[i] != '?'
    ensures SelfContained(Raw(sql)) && Raw(sql).tainted
  {
    NoPlaceholders(sql);
  }

  /** Turning `query(sql)` with bound values into an expression keeps the
      values in order and leaves it untainted. */
  lemma {:induction false} FromBoundQuery(sql: string, vs: seq<SqlValue.Value>)
    ensures Query.BindEach(Query.New(sql), vs).Ok?
    ensures FromQuery(Query.BindEach(Query.New(sql), vs).value) == Expr(sql, Arguments.Arguments(vs, map[]), false)
  {
    Query.BindAll(sql, vs);
  }
}

=== FILE: from_row.dfy ===
/** `FromRow` and `AllNull` (crates/musq/src/from_row.rs): building a record
    from a row. The element decoders of a tuple and the record-level
    `from_row`/`all_null` of a nested type are parameters. */
module FromRow {

  import opened Wrappers
  import opened Numeric
  import opened SqlValue
  import opened CodecErrors
  import Errors
  import Rows

  type Error = Errors.Error
  type Row = Rows.Row

  /** `<Option<T> as FromRow>::from_row`: None when every column of `T` is
      NULL, else `T`'s record; errors of either step propagate. `allNull` is
      `T::all_null`, which is also what `<Option<T> as AllNull>::all_null`
      returns. */
  function OptionFromRow<T>(allNull: (string, Row) -> Result<bool, Error>,
                            fromRow: (string, Row) -> Result<T, Error>,
                            prefix: string, row: Row): (r: Result<Option<T>, Error>)
    ensures allNull(prefix, row).Err? ==> r == Err(allNull(prefix, row).error)
    ensures allNull(prefix, row) == Ok(true) ==> r == Ok(None)
    ensures allNull(prefix, row) == Ok(false) ==>
      (fromRow(prefix, row).Ok? ==> r == Ok(Some(fromRow(prefix, row).value))) &&
      (fromRow(prefix, row).Err? ==> r == Err(fromRow(prefix, row).error))
  {
    var isNull :- allNull(prefix, row);
    if isNull then Ok(None)
    else
      var t :- fromRow(prefix, row);
      Ok(Some(t))
  }

  /** The largest tuple the source implements `FromRow` for. */
  const MAX_TUPLE: nat := 16

  /** Elements `from` onwards of a tuple: element `i` is column `i` decoded by
      `decoders[i]`. */
  function TupleFrom<T>(row: Row, decoders: seq<Value -> Result<T, DecodeError>>, from: nat): (r: Result<seq<T>, Error>)
    requires |row.values| <= USIZE_MAX && from <= |decoders| <= MAX_TUPLE
    ensures r.Ok? ==> |r.value| == |decoders| - from
    ensures r.Ok? ==> forall k :: from <= k < |decoders| ==> Rows.GetValueIdx(row, k, decoders[k]) == Ok(r.value[k - from])
    ensures r.Ok? <==> forall k :: from <= k < |decoders| ==> Rows.GetValueIdx(row, k, decoders[k]).Ok?
    ensures r.Err? ==> exists k :: (from <= k < |decoders| && Rows.GetValueIdx(row, k, decoders[k]) == Err(r.error) &&
      forall j :: from <= j < k ==> Rows.GetValueIdx(row, j, decoders[j]).Ok?)
    decreases |decoders| - from
  {
    if from == |decoders| then Ok([])
    else
      var x :- Rows.GetValueIdx(row, from, decoders[from]);
      var rest :- TupleFrom(row, decoders, from + 1);
      Ok([x] + rest)
  }

  /** The tuple `from_row`: the prefix is ignored and the first failing
      element decides the error. */
  function TupleFromRow<T>(prefix: string, row: Row, decoders: seq<Value -> Result<T, DecodeError>>): (r: Result<seq<T>, Error>)
    requires |row.values| <= USIZE_MAX && 1 <= |decoders| <= MAX_TUPLE
    ensures r.Ok? ==> |r.value| == |decoders|
    ensures r.Ok? <==> forall k :: 0 <= k < |decoders| ==> Rows.GetValueIdx(row, k, decoders[k]).Ok?
    ensures r.Ok? ==> forall k :: 0 <= k < |decoders| ==> Rows.GetValueIdx(row, k, decoders[k]) == Ok(r.value[k])
  {
    TupleFrom(row, decoders, 0)
  }

  /** A tuple wider than the row fails with the out-of-bounds error of its
      first missing column when every column before it decodes. */
  lemma {:induction false} TupleTooWide<T>(row: Row, decoders: seq<Value -> Result<T, DecodeError>>, from: nat)
    requires |row.values| <= USIZE_MAX && from <= |row.values| < |decoders| <= MAX_TUPLE
    requires forall j :: from <= j < |row.values| ==> decoders[j](row.values[j]).Ok?
    ensures TupleFrom(row, decoders, from) == Err(Errors.ColumnIndexOutOfBounds(|row.values|, |row.values|))
    decreases |row.values| - from
  {
    if from < |row.values| {
      TupleTooWide(row, decoders, from + 1);
    }
  }
}

=== FILE: insert_builder.dfy ===
/** `InsertInto` (crates/musq/src/insert_builder.rs): an `INSERT` statement
    assembled from a table and column/value pairs, one placeholder per
    column. */
module InsertBuilder {

  import opened Wrappers
  import Errors
  import Arguments
  import Query
  import QueryBuilder
  import Expr
  import Text

  type Error = Errors.Error
  type Encoded = QueryBuilder.Encoded

  /** The quoted table, the quoted columns in order, and the arguments. */
  datatype InsertInto = InsertInto(table: string, columns: seq<string>, arguments: Arguments.Arguments)

  const NO_VALUES: string := "Insert query has no values"

  /** `insert_into`: the table name quoted, nothing else yet. */
  function New(table: string): (ins: InsertInto)
    ensures ins.table == Query.QuoteIdentifier(table) && ins.columns == [] && ins.arguments == Arguments.EMPTY
  {
    InsertInto(Query.QuoteIdentifier(table), [], Arguments.EMPTY)
  }

  /** `InsertInto::value`: one quoted column, and the value added; a failed
      encoding is dropped, so that column has no value of its own. */
  function Value(ins: InsertInto, column: string, encoded: Encoded): (r: InsertInto)
    ensures r.table == ins.table && r.columns == ins.columns + [Query.QuoteIdentifier(column)]
    ensures r.arguments.named == ins.arguments.named
    ensures encoded.Ok? ==> r.arguments.values == ins.arguments.values + [encoded.value]
    ensures encoded.Err? ==> r.arguments == ins.arguments
  {
    var args := match Arguments.Add(ins.arguments, encoded)
      case Ok(a) => a
      case Err(_) => ins.arguments;
    InsertInto(ins.table, ins.columns + [Query.QuoteIdentifier(column)], args)
  }

  /** The text `query` formats for a non-empty column list. */
  function Sql(ins: InsertInto): string {
    "INSERT INTO " + ins.table + " (" + Text.Join(ins.columns, ", ") + ") VALUES ("
      + Text.Join(QueryBuilder.Marks(|ins.columns|), ", ") + ")"
  }

  /** `InsertInto::query`: a Protocol error without columns, otherwise
      `query_with` over the formatted text and the arguments. */
  function Build(ins: InsertInto): (r: Result<Query.Query, Error>)
    ensures r.Err? <==> ins.columns == []
    ensures r.Err? ==> r.error == Errors.Protocol(NO_VALUES)
    ensures r.Ok? ==> r.value.arguments == Some(ins.arguments) && !r.value.tainted
  {
    if ins.columns == [] then Err(Errors.Protocol(NO_VALUES))
    else Ok(Query.With(Sql(ins), ins.arguments))
  }

  /** Column/value pairs applied in order. */
  function Values(ins: InsertInto, columns: seq<string>, vs: seq<Encoded>): (r: InsertInto)
    requires |columns| == |vs|
    ensures r.table == ins.table
    decreases |columns|
  {
    if columns == [] then ins
    else Values(Value(ins, columns[0], vs[0]), columns[1..], vs[1..])
  }

  /** The columns accumulate quoted, in order... */
  lemma {:induction false} ValuesColumns(ins: InsertInto, columns: seq<string>, vs: seq<Encoded>)
    requires |columns| == |vs|
    ensures Values(ins, columns, vs).columns == ins.columns + QueryBuilder.Quoted(columns)
    decreases |columns|
  {
    if columns == [] {
      assert QueryBuilder.Quoted(columns) == [];
      assert ins.columns + [] == ins.columns;
    } else {
      var q := Query.QuoteIdentifier(columns[0]);
      var ins' := Value(ins, columns[0], vs[0]);
      assert ins'.columns == ins.columns + [q];
      assert Values(ins, columns, vs) == Values(ins', columns[1..], vs[1..]);
      ValuesColumns(ins', columns[1..], vs[1..]);
      QuotedCons(columns);
      Associative(ins.columns, [q], QueryBuilder.Quoted(columns[1..]));
    }
  }

  /* The two steps below are stated apart so that ValuesColumns uses each
     as a single fact, instead of searching for it among the sequence axioms. */

  lemma {:induction false} Associative(a: seq<string>, b: seq<string>, c: seq<string>)
    ensures a + b + c == a + (b + c)
  {
  }

  lemma {:induction false} QuotedCons(columns: seq<string>)
    requires columns != []
    ensures QueryBuilder.Quoted(columns) == [Query.QuoteIdentifier(columns[0])] + QueryBuilder.Quoted(columns[1..])
  {
  }

  /** ... and so do the values that encoded. */
  lemma {:induction false} ValuesArguments(ins: InsertInto, columns: seq<string>, vs: seq<Encoded>)
    requires |columns| == |vs|
    ensures Values(ins, columns, vs).arguments.values == ins.arguments.values + QueryBuilder.Encodable(vs)
    ensures Values(ins, columns, vs).arguments.named == ins.arguments.named
    decreases |columns|
  {
    if columns == [] {
      assert QueryBuilder.Encodable(vs) == [];
    } else {
      var ins' := Value(ins, columns[0], vs[0]);
      ValuesArguments(ins', columns[1..], vs[1..]);
      var head := if vs[0].Ok? then [vs[0].value] else [];
      assert QueryBuilder.Encodable(vs) == head + QueryBuilder.Encodable(vs[1..]);
      assert ins'.arguments.values == ins.arguments.values + head;
      assert ins.arguments.values + head + QueryBuilder.Encodable(vs[1..]) == ins.arguments.values + (head + QueryBuilder.Encodable(vs[1..]));
    }
  }

  /** `insert_into(t)` with n column/value pairs builds
      `INSERT INTO "t" ("c1", …, "cn") VALUES (?, …, ?)` with the values that
      encoded bound in order, or fails when n is 0. */
  lemma {:induction false} InsertShape(table: string, columns: seq<string>, vs: seq<Encoded>)
    requires |columns| == |vs|
    ensures var r := Build(Values(New(table), columns, vs));
      (r.Err? <==> columns == []) &&
      (r.Ok? ==>
        Query.Sql(r.value) == "INSERT INTO " + Query.QuoteIdentifier(table) + " (" + Text.Join(QueryBuilder.Quoted(columns), ", ")
          + ") VALUES (" + Text.Join(QueryBuilder.Marks(|columns|), ", ") + ")" &&
        r.value.arguments == Some(Arguments.Arguments(QueryBuilder.Encodable(vs), map[])))
  {
    var ins := Values(New(table), columns, vs);
    ValuesColumns(New(table), columns, vs);
    ValuesArguments(New(table), columns, vs);
    assert ins.columns == QueryBuilder.Quoted(columns) by {
      assert [] + QueryBuilder.Quoted(columns) == QueryBuilder.Quoted(columns);
    }
    assert ins.arguments == Arguments.Arguments(QueryBuilder.Encodable(vs), map[]) by {
      assert [] + QueryBuilder.Encodable(vs) == QueryBuilder.Encodable(vs);
    }
    if columns != [] {
      BuiltSql(ins);
    }
  }

  lemma {:induction false} BuiltSql(ins: InsertInto)
    requires ins.columns != []
    ensures Build(ins).Ok? && Query.Sql(Build(ins).value) == Sql(ins)
  {
  }

  /** The placeholder list has exactly n `?`. */
  lemma {:induction false} MarksPlaceholders(n: nat)
    ensures Expr.Placeholders(Text.Join(QueryBuilder.Marks(n), ", ")) == n
  {
    if n > 1 {
      MarksPlaceholders(n - 1);
      var tail := Text.Join(QueryBuilder.Marks(n - 1), ", ");
      assert QueryBuilder.Marks(n)[1..] == QueryBuilder.Marks(n - 1);
      assert Text.Join(QueryBuilder.Marks(n), ", ") == "?" + (", " + tail);
      Expr.PlaceholdersAppend("?", ", " + tail);
      Expr.PlaceholdersAppend(", ", tail);
    } else if n == 1 {
      assert Text.Join(QueryBuilder.Marks(1), ", ") == "?";
    } else {
      assert Text.Join(QueryBuilder.Marks(0), ", ") == "";
    }
  }

  /** An insert without columns is refused whatever the table. */
  lemma {:induction false} NoColumnsRefused(table: string)
    ensures Build(New(table)) == Err(Errors.Protocol(NO_VALUES))
  {
  }
}

=== FILE: macro_expand.dfy ===
/** The code the `sql!` and `sql_as!` macros generate
    (crates/musq-macros/src/sql.rs, `build_sql` and `expand_sql`): one
    builder call per segment of the format string, with the macro's
    positional and named arguments matched to the placeholders. The
    generated code is represented by the sequence of builder calls it
    makes. */
module MacroExpand {

  import opened Wrappers
  import opened MacroFormat

  /** An argument after the format string: `expr` or `name = expr`. */
  datatype MacroArg = PositionalArg(expr: RustExpr) | NamedArg(name: string, expr: RustExpr)

  /** What a named placeholder binds: the named argument, or a variable of
      the same name in scope. */
  datatype BindSource = Argument(expr: RustExpr) | Variable(name: string)

  /** The calls on `QueryBuilder` in the generated code. */
  datatype Call =
    | PushSql(text: string)
    | PushBind(expr: RustExpr)
    | PushBindNamed(name: string, source: BindSource)
    | PushQuotedIdent(expr: RustExpr)
    | PushValues(expr: RustExpr)
    | PushIdents(expr: RustExpr)
    | PushInsert(expr: RustExpr)
    | PushSet(expr: RustExpr)
    | PushWhere(expr: RustExpr)
    | PushUpsert(expr: RustExpr, exclude: seq<string>)
    | PushRaw(expr: RustExpr)

  /** The generated code: the builder calls, then `build()`, mapped
      through `FromRow` for `sql_as!`. */
  datatype Expansion = Expansion(calls: seq<Call>, mapsRows: bool)

  const MISSING_POSITIONAL: string := "missing positional argument"
  const UNUSED_POSITIONAL: string := "unused positional arguments"
  const UNUSED_NAMED: string := "unused named arguments"

  /** The positional arguments in order. */
  function Positionals(args: seq<MacroArg>): (r: seq<RustExpr>)
    ensures |r| <= |args|
  {
    if args == [] then []
    else (if args[0].PositionalArg? then [args[0].expr] else []) + Positionals(args[1..])
  }

  /** The named arguments as a map; a later argument with the same name
      replaces an earlier one. */
  function NamedMap(args: seq<MacroArg>): map<string, RustExpr> {
    if args == [] then map[]
    else (if args[0].NamedArg? then map[args[0].name := args[0].expr] else map[]) + NamedMap(args[1..])
  }

  /** Adding a named argument at the end overrides that name and nothing
      else. */
  lemma {:induction false} NamedMapLastWins(args: seq<MacroArg>, n: string, e: RustExpr)
    ensures NamedMap(args + [NamedArg(n, e)]) == NamedMap(args)[n := e]
    decreases |args|
  {
    if args == [] {
      assert args + [NamedArg(n, e)] == [NamedArg(n, e)];
      assert NamedMap([NamedArg(n, e)][1..]) == map[];
    } else {
      assert (args + [NamedArg(n, e)])[1..] == args[1..] + [NamedArg(n, e)];
      NamedMapLastWins(args[1..], n, e);
    }
  }

  /** A positional argument at the end changes no name. */
  lemma {:induction false} NamedMapIgnoresPositional(args: seq<MacroArg>, e: RustExpr)
    ensures NamedMap(args + [PositionalArg(e)]) == NamedMap(args)
    decreases |args|
  {
    if args == [] {
      assert args + [PositionalArg(e)] == [PositionalArg(e)];
      assert NamedMap([PositionalArg(e)][1..]) == map[];
    } else {
      assert (args + [PositionalArg(e)])[1..] == args[1..] + [PositionalArg(e)];
      NamedMapIgnoresPositional(args[1..], e);
    }
  }

  /** The number of positional placeholders. */
  function CountPositional(segs: seq<Segment>): nat {
    if segs == [] then 0 else (if segs[0].Positional? then 1 else 0) + CountPositional(segs[1..])
  }

  /** The names of the named placeholders. */
  function NamesIn(segs: seq<Segment>): set<string> {
    if segs == [] then {} else (if segs[0].Named? then {segs[0].name} else {}) + NamesIn(segs[1..])
  }

  /** The expressions bound by `push_bind`, in order. */
  function BoundPositional(calls: seq<Call>): seq<RustExpr> {
    if calls == [] then [] else (if calls[0].PushBind? then [calls[0].expr] else []) + BoundPositional(calls[1..])
  }

  /** The call for a segment that takes no argument. */
  function FixedCall(seg: Segment): (r: Call)
    requires !seg.Positional? && !seg.Named?
    ensures !r.PushBind? && !r.PushBindNamed?
  {
    match seg
    case Lit(l) => PushSql(l)
    case Ident(e) => PushQuotedIdent(e)
    case Values(e) => PushValues(e)
    case Idents(e) => PushIdents(e)
    case Insert(e) => PushInsert(e)
    case Set(e) => PushSet(e)
    case Where(e) => PushWhere(e)
    case Upsert(e, exclude) => PushUpsert(e, exclude)
    case Raw(e) => PushRaw(e)
  }

  /** The calls made so far with the positional arguments used and the
      named arguments not yet used. */
  datatype Emitted = Emitted(calls: seq<Call>, used: nat, unusedNamed: map<string, RustExpr>)

  /** The loop over the segments: a positional placeholder takes the next
      positional argument or fails, a named one takes and removes its
      named argument or binds the variable of that name. */
  function Emit(segs: seq<Segment>, positional: seq<RustExpr>, used: nat, named: map<string, RustExpr>): (r: Result<Emitted, MacroError>)
    requires used <= |positional|
    ensures r.Err? <==> used + CountPositional(segs) > |positional|
    ensures r.Err? ==> r.error == Message(MISSING_POSITIONAL)
    ensures r.Ok? ==> r.value.used == used + CountPositional(segs) && |r.value.calls| == |segs|
    decreases |segs|
  {
    if segs == [] then Ok(Emitted([], used, named))
    else
      var seg := segs[0];
      if seg.Positional? && used >= |positional| then Err(Message(MISSING_POSITIONAL))
      else
        var used' := if seg.Positional? then used + 1 else used;
        var named' := if seg.Named? then named - {seg.name} else named;
        match Emit(segs[1..], positional, used', named')
        case Err(e) => Err(e)
        case Ok(rest) => Ok(rest.(calls := [SegmentCall(seg, positional, used, named)] + rest.calls))
  }

  /** The call for one segment, with the positional arguments used so far
      and the named arguments not yet used. */
  function SegmentCall(seg: Segment, positional: seq<RustExpr>, used: nat, named: map<string, RustExpr>): Call
    requires seg.Positional? ==> used < |positional|
  {
    if seg.Positional? then PushBind(positional[used])
    else if seg.Named? then PushBindNamed(seg.name, if seg.name in named then Argument(named[seg.name]) else Variable(seg.name))
    else FixedCall(seg)
  }

  /** The named arguments left over are those whose name no placeholder
      uses. */
  lemma {:induction false} EmitUnusedNamed(segs: seq<Segment>, positional: seq<RustExpr>, used: nat, named: map<string, RustExpr>)
    requires used <= |positional| && Emit(segs, positional, used, named).Ok?
    ensures Emit(segs, positional, used, named).value.unusedNamed == named - NamesIn(segs)
    decreases |segs|
  {
    if segs != [] {
      var seg := segs[0];
      var used' := if seg.Positional? then used + 1 else used;
      var named' := if seg.Named? then named - {seg.name} else named;
      EmitUnusedNamed(segs[1..], positional, used', named');
      assert named' - NamesIn(segs[1..]) == named - NamesIn(segs);
    }
  }

  /** The positional arguments are bound in order, each once. */
  lemma {:induction false} EmitBinds(segs: seq<Segment>, positional: seq<RustExpr>, used: nat, named: map<string, RustExpr>)
    requires used <= |positional| && Emit(segs, positional, used, named).Ok?
    ensures BoundPositional(Emit(segs, positional, used, named).value.calls) == positional[used..used + CountPositional(segs)]
    decreases |segs|
  {
    if segs != [] {
      var seg := segs[0];
      var used' := if seg.Positional? then used + 1 else used;
      var named' := if seg.Named? then named - {seg.name} else named;
      EmitBinds(segs[1..], positional, used', named');
      var calls := Emit(segs, positional, used, named).value.calls;
      assert calls[1..] == Emit(segs[1..], positional, used', named').value.calls;
      if seg.Positional? {
        SliceHead(positional, used, used + CountPositional(segs));
      }
    }
  }

  /** A non-empty slice is its first element followed by the rest. */
  lemma {:induction false} SliceHead<T>(s: seq<T>, a: nat, b: nat)
    requires a < b <= |s|
    ensures s[a..b] == [s[a]] + s[a + 1..b]
  {
    assert s[a..b] == [s[a]] + s[a + 1..b];
  }

  /** `build_sql`: all positional arguments must be used, and so must all
      named arguments. */
  function BuildSql(segs: seq<Segment>, args: seq<MacroArg>, asQueryAs: bool): (r: Result<Expansion, MacroError>)
    ensures r.Ok? <==> CountPositional(segs) == |Positionals(args)| && NamedMap(args).Keys <= NamesIn(segs)
    ensures CountPositional(segs) > |Positionals(args)| ==> r == Err(Message(MISSING_POSITIONAL))
    ensures CountPositional(segs) < |Positionals(args)| ==> r == Err(Message(UNUSED_POSITIONAL))
    ensures CountPositional(segs) == |Positionals(args)| && !(NamedMap(args).Keys <= NamesIn(segs)) ==> r == Err(Message(UNUSED_NAMED))
    ensures r.Ok? ==> BoundPositional(r.value.calls) == Positionals(args) && r.value.mapsRows == asQueryAs && |r.value.calls| == |segs|
  {
    var positional := Positionals(args);
    var named := NamedMap(args);
    match Emit(segs, positional, 0, named)
    case Err(e) => Err(e)
    case Ok(em) =>
      EmitUnusedNamed(segs, positional, 0, named);
      EmitBinds(segs, positional, 0, named);
      if em.used != |positional| then Err(Message(UNUSED_POSITIONAL))
      else if em.unusedNamed != map[] then
        assert exists k :: k in named && k !in NamesIn(segs) by {
          var k :| k in em.unusedNamed;
        }
        Err(Message(UNUSED_NAMED))
      else
        assert named.Keys <= NamesIn(segs) by {
          forall k | k in named ensures k in NamesIn(segs) {
            assert k !in em.unusedNamed;
          }
        }
        assert positional[0..|positional|] == positional;
        Ok(Expansion(em.calls, asQueryAs))
  }

  /** The bind source of a named placeholder at position `i`: the named
      argument the first time its name appears, the variable after that. */
  function NamedSource(segs: seq<Segment>, i: nat, named: map<string, RustExpr>): BindSource
    requires i < |segs| && segs[i].Named?
  {
    var n := segs[i].name;
    if n in named && n !in NamesIn(segs[..i]) then Argument(named[n]) else Variable(n)
  }

  lemma {:induction false} NamesInCons(segs: seq<Segment>, i: nat)
    requires 0 < i <= |segs|
    ensures NamesIn(segs[..i]) == (if segs[0].Named? then {segs[0].name} else {}) + NamesIn(segs[1..][..i - 1])
  {
    assert segs[..i][1..] == segs[1..][..i - 1];
  }

  /** Every call matches its segment: fixed calls for literals and list
      placeholders, the positional arguments in turn, and for a name its
      argument on first use and the variable of that name afterwards. */
  lemma {:induction false} EmitCalls(segs: seq<Segment>, positional: seq<RustExpr>, used: nat, named: map<string, RustExpr>, i: nat)
    requires used <= |positional| && Emit(segs, positional, used, named).Ok?
    requires i < |segs|
    ensures var calls := Emit(segs, positional, used, named).value.calls;
      && (segs[i].Positional? ==>
            used + CountPositional(segs[..i]) < |positional| && calls[i] == PushBind(positional[used + CountPositional(segs[..i])]))
      && (segs[i].Named? ==> calls[i] == PushBindNamed(segs[i].name, NamedSource(segs, i, named)))
      && (!segs[i].Positional? && !segs[i].Named? ==> calls[i] == FixedCall(segs[i]))
  {
    if segs[i].Positional? {
      EmitCallsPositional(segs, positional, used, named, i);
    } else if segs[i].Named? {
      EmitCallsNamed(segs, positional, used, named, i);
    } else {
      EmitCallsFixed(segs, positional, used, named, i);
    }
  }

  /** The call for a positional placeholder binds the next positional
      argument. */
  lemma {:induction false} EmitCallsPositional(segs: seq<Segment>, positional: seq<RustExpr>, used: nat, named: map<string, RustExpr>, i: nat)
    requires used <= |positional| && Emit(segs, positional, used, named).Ok?
    requires i < |segs| && segs[i].Positional?
    ensures used + CountPositional(segs[..i]) < |positional|
    ensures Emit(segs, positional, used, named).value.calls[i] == PushBind(positional[used + CountPositional(segs[..i])])
    decreases |segs|
  {
    var seg := segs[0];
    var used' := if seg.Positional? then used + 1 else used;
    var named' := if seg.Named? then named - {seg.name} else named;
    if i == 0 {
      assert segs[..0] == [];
    } else {
      EmitCallsPositional(segs[1..], positional, used', named', i - 1);
      assert segs[1..][i - 1] == segs[i];
      CountCons(segs, i);
    }
  }

  /** The call for a named placeholder binds the named argument on its first
      use and the variable of that name afterwards. */
  lemma {:induction false} EmitCallsNamed(segs: seq<Segment>, positional: seq<RustExpr>, used: nat, named: map<string, RustExpr>, i: nat)
    requires used <= |positional| && Emit(segs, positional, used, named).Ok?
    requires i < |segs| && segs[i].Named?
    ensures Emit(segs, positional, used, named).value.calls[i] == PushBindNamed(segs[i].name, NamedSource(segs, i, named))
    decreases |segs|
  {
    var seg := segs[0];
    var used' := if seg.Positional? then used + 1 else used;
    var named' := if seg.Named? then named - {seg.name} else named;
    if i == 0 {
      assert segs[..0] == [];
    } else {
      EmitCallsNamed(segs[1..], positional, used', named', i - 1);
      assert segs[1..][i - 1] == segs[i];
      NamesInCons(segs, i);
    }
  }

  /** Literals and list placeholders get their fixed call. */
  lemma {:induction false} EmitCallsFixed(segs: seq<Segment>, positional: seq<RustExpr>, used: nat, named: map<string, RustExpr>, i: nat)
    requires used <= |positional| && Emit(segs, positional, used, named).Ok?
    requires i < |segs| && !segs[i].Positional? && !segs[i].Named?
    ensures Emit(segs, positional, used, named).value.calls[i] == FixedCall(segs[i])
    decreases |segs|
  {
    var seg := segs[0];
    var used' := if seg.Positional? then used + 1 else used;
    var named' := if seg.Named? then named - {seg.name} else named;
    if i > 0 {
      EmitCallsFixed(segs[1..], positional, used', named', i - 1);
      assert segs[1..][i - 1] == segs[i];
    }
  }

  lemma {:induction false} CountCons(segs: seq<Segment>, i: nat)
    requires 0 < i <= |segs|
    ensures CountPositional(segs[..i]) == (if segs[0].Positional? then 1 else 0) + CountPositional(segs[1..][..i - 1])
  {
    assert segs[..i][1..] == segs[1..][..i - 1];
  }

  /** `expand_sql`: parse the format string, then build the calls. */
  function Expand(fmt: string, args: seq<MacroArg>, syntax: Syntax, asQueryAs: bool): (r: Result<Expansion, MacroError>)
    ensures ParseFmt(fmt, syntax).Err? ==> r == Err(ParseFmt(fmt, syntax).error)
    ensures ParseFmt(fmt, syntax).Ok? ==> r == BuildSql(ParseFmt(fmt, syntax).value, args, asQueryAs)
  {
    match ParseFmt(fmt, syntax)
    case Err(e) => Err(e)
    case Ok(segs) => BuildSql(segs, args, asQueryAs)
  }

  /** A format string written from literals and `{}` placeholders, given
      one positional argument per placeholder, binds the arguments in
      order, one call per segment. */
  lemma {:induction false} ExpandPositional(segs: seq<Segment>, args: seq<MacroArg>, exprs: seq<RustExpr>, syntax: Syntax, asQueryAs: bool)
    requires Renderable(segs) && NamesIn(segs) == {} && CountPositional(segs) == |exprs|
    requires |args| == |exprs| && forall i :: 0 <= i < |args| ==> args[i] == PositionalArg(exprs[i])
    ensures var r := Expand(Render(segs), args, syntax, asQueryAs);
      r.Ok? && BoundPositional(r.value.calls) == exprs && |r.value.calls| == |segs| && r.value.mapsRows == asQueryAs
  {
    var fmt := Render(segs);
    assert ParseFmt(fmt, syntax) == Ok(segs) by {
      ParseRendered(segs, syntax);
    }
    assert Positionals(args) == exprs && NamedMap(args) == map[] by {
      AllPositional(args, exprs);
    }
    ExpandParsed(fmt, segs, args, syntax, asQueryAs);
    BuildPositional(segs, args, exprs, asQueryAs);
  }

  /** Expanding a format string whose segments are known. */
  lemma {:induction false} ExpandParsed(fmt: string, segs: seq<Segment>, args: seq<MacroArg>, syntax: Syntax, asQueryAs: bool)
    requires ParseFmt(fmt, syntax) == Ok(segs)
    ensures Expand(fmt, args, syntax, asQueryAs) == BuildSql(segs, args, asQueryAs)
  {
  }

  lemma {:induction false} BuildPositional(segs: seq<Segment>, args: seq<MacroArg>, exprs: seq<RustExpr>, asQueryAs: bool)
    requires CountPositional(segs) == |exprs| && Positionals(args) == exprs && NamedMap(args) == map[]
    ensures BuildSql(segs, args, asQueryAs).Ok?
    ensures BoundPositional(BuildSql(segs, args, asQueryAs).value.calls) == exprs
    ensures BuildSql(segs, args, asQueryAs).value.mapsRows == asQueryAs
  {
    assert NamedMap(args).Keys == {};
  }

  lemma {:induction false} AllPositional(args: seq<MacroArg>, exprs: seq<RustExpr>)
    requires |args| == |exprs| && forall i :: 0 <= i < |args| ==> args[i] == PositionalArg(exprs[i])
    ensures Positionals(args) == exprs && NamedMap(args) == map[]
    decreases |args|
  {
    if args != [] {
      AllPositional(args[1..], exprs[1..]);
      assert exprs == [exprs[0]] + exprs[1..];
    }
  }
}

=== FILE: macro_format.dfy ===
/** The format-string side of the `sql!` and `sql_as!` macros
    (crates/musq-macros/src/sql.rs): `parse_fmt` splits a format string
    into literal text and placeholders, `ensure_non_empty` refuses literal
    empty lists, and `UpsertArgs::parse` reads the exclude list of an
    upsert placeholder.

    Rust's own syntax is outside the model: parsing an expression, and
    tokenising the argument of an upsert placeholder, are done by the
    `Syntax` given to the parser, and the expressions it yields are the
    abstract `RustExpr`. */
module MacroFormat {

  import opened Wrappers
  import Text

  /** The shapes of expression `ensure_non_empty` looks at. */
  datatype RustExpr =
    | ArrayLit(elements: nat)
    | Reference(inner: RustExpr)
    | MacroCall(path: string, noTokens: bool)
    | OtherExpr(text: string)

  /** The tokens of an upsert argument after its values expression. */
  datatype Token = IdentTok(name: string) | KeywordTok(keyword: string) | CommaTok | ColonTok | OtherTok

  /** What the syntax library does with a piece of placeholder text: an
      expression, or the values expression of an upsert and the tokens
      after it; None when the text does not parse. */
  datatype Syntax = Syntax(expr: string -> Option<RustExpr>, upsert: string -> Option<(RustExpr, seq<Token>)>)

  /** A compile error: one of the macro's own messages, or one reported by
      the syntax library. */
  datatype MacroError = Message(text: string) | SyntaxError

  const EMPTY_LIST: string := "empty list"
  /** The format string's opening and closing braces. */
  const LBRACE: char := '\U{007B}'
  const RBRACE: char := '\U{007D}'

  const UNMATCHED_OPEN: string := "unmatched `" + [LBRACE] + "`"
  const UNMATCHED_CLOSE: string := "unmatched `" + [RBRACE] + "`"
  const MALFORMED: string := "malformed placeholder"
  const EXPECTED_EXCLUDE: string := "expected `exclude`"
  const EXCLUDE: string := "exclude"
  const NO_EXCLUDED: string := "expected at least one column identifier after 'exclude:'"

  /* ---------------------------------------------------------------------- */
  /* ensure_non_empty                                                        */

  /** A literal empty array or `vec![]`, possibly behind references. */
  predicate LiteralEmpty(e: RustExpr) {
    match e
    case ArrayLit(n) => n == 0
    case Reference(inner) => LiteralEmpty(inner)
    case MacroCall(path, noTokens) => path == "vec" && noTokens
    case OtherExpr(_) => false
  }

  /** `ensure_non_empty`. */
  function EnsureNonEmpty(e: RustExpr): (r: Result<(), MacroError>)
    ensures r.Err? <==> LiteralEmpty(e)
    ensures r.Err? ==> r.error == Message(EMPTY_LIST)
  {
    match e
    case ArrayLit(n) => if n == 0 then Err(Message(EMPTY_LIST)) else Ok(())
    case Reference(inner) => EnsureNonEmpty(inner)
    case MacroCall(path, noTokens) => if path == "vec" && noTokens then Err(Message(EMPTY_LIST)) else Ok(())
    case OtherExpr(_) => Ok(())
  }

  /** Any number of references in front change nothing. */
  lemma {:induction false} EnsureNonEmptyThroughReferences(e: RustExpr, depth: nat)
    ensures EnsureNonEmpty(Wrap(e, depth)) == EnsureNonEmpty(e)
  {
    if depth > 0 {
      EnsureNonEmptyThroughReferences(e, depth - 1);
    }
  }

  function Wrap(e: RustExpr, depth: nat): RustExpr {
    if depth == 0 then e else Reference(Wrap(e, depth - 1))
  }

  /* ---------------------------------------------------------------------- */
  /* Placeholders                                                            */

  /** The placeholder kinds that take an expression after ':'. */
  datatype Kind = IdentKind | ValuesKind | IdentsKind | InsertKind | SetKind | WhereKind | UpsertKind | RawKind

  /** The placeholder keywords, each with the kind it names. */
  const KINDS: seq<(string, Kind)> := [("ident", IdentKind), ("values", ValuesKind), ("idents", IdentsKind),
    ("insert", InsertKind), ("set", SetKind), ("where", WhereKind), ("upsert", UpsertKind), ("raw", RawKind)]

  /** The kind a keyword of the table names, if any. */
  function KindIn(k: string, table: seq<(string, Kind)>): Option<Kind>
    decreases |table|
  {
    if table == [] then None
    else if table[0].0 == k then Some(table[0].1)
    else KindIn(k, table[1..])
  }

  function KindOf(k: string): Option<Kind> {
    KindIn(k, KINDS)
  }

  /** The kinds whose expression must not be a literal empty list. */
  predicate ListKind(k: Kind) {
    k in {ValuesKind, IdentsKind, InsertKind, SetKind, UpsertKind}
  }

  datatype Segment =
    | Lit(text: string)
    | Positional
    | Named(name: string)
    | Ident(expr: RustExpr)
    | Values(expr: RustExpr)
    | Idents(expr: RustExpr)
    | Insert(expr: RustExpr)
    | Set(expr: RustExpr)
    | Where(expr: RustExpr)
    | Upsert(expr: RustExpr, exclude: seq<string>)
    | Raw(expr: RustExpr)

  /** The position of the first `c` in `s`. */
  function Find(s: string, c: char): (r: Option<nat>)
    ensures r.None? <==> c !in s
    ensures r.Some? ==> r.value < |s| && s[r.value] == c && c !in s[..r.value]
  {
    if s == [] then None
    else if s[0] == c then Some(0)
    else match Find(s[1..], c)
      case None => None
      case Some(i) =>
        assert s[..i + 1] == [s[0]] + s[1..][..i];
        Some(i + 1)
  }

  /** A placeholder's text split at its first ':' into a trimmed kind and a
      trimmed expression. */
  function Split(ph: string): (r: (string, Option<string>))
    ensures ':' !in ph ==> r == (Text.Trim(ph), None)
    ensures ':' in ph ==> r.1.Some?
  {
    match Find(ph, ':')
    case None => (Text.Trim(ph), None)
    case Some(i) => (Text.Trim(ph[..i]), Some(Text.Trim(ph[i + 1..])))
  }

  /** The segment for a placeholder of a given kind, from the expression. */
  function KindSegment(k: Kind, e: string, syntax: Syntax): (r: Result<Segment, MacroError>)
    ensures r.Ok? ==> !r.value.Lit?
    ensures k != UpsertKind && syntax.expr(e).None? ==> r == Err(SyntaxError)
    ensures k == UpsertKind && syntax.upsert(e).None? ==> r == Err(SyntaxError)
    ensures k == WhereKind && syntax.expr(e).Some? ==> r == Ok(Where(syntax.expr(e).value))
    ensures ListKind(k) && k != UpsertKind && syntax.expr(e).Some? ==>
      (r.Err? <==> LiteralEmpty(syntax.expr(e).value)) && (r.Err? ==> r.error == Message(EMPTY_LIST))
  {
    if k == UpsertKind then
      match syntax.upsert(e)
      case None => Err(SyntaxError)
      case Some((values, rest)) =>
        match ParseUpsert(values, rest)
        case Err(err) => Err(err)
        case Ok((v, exclude)) =>
          match EnsureNonEmpty(v)
          case Err(err) => Err(err)
          case Ok(_) => Ok(Upsert(v, exclude))
    else
      match syntax.expr(e)
      case None => Err(SyntaxError)
      case Some(x) =>
        match k
        case IdentKind => Ok(Ident(x))
        case WhereKind => Ok(Where(x))
        case RawKind => Ok(Raw(x))
        case _ =>
          match EnsureNonEmpty(x)
          case Err(err) => Err(err)
          case Ok(_) =>
            match k
            case ValuesKind => Ok(Values(x))
            case IdentsKind => Ok(Idents(x))
            case InsertKind => Ok(Insert(x))
            case SetKind => Ok(Set(x))
  }

  /** The segment for the text between a `{` and its `}`: no ':' and an
      empty kind is positional, no ':' and a keyword kind is malformed, any
      other word without ':' is a name; with ':' the kind must be a
      keyword. */
  function Placeholder(ph: string, syntax: Syntax): (r: Result<Segment, MacroError>)
    ensures r.Ok? ==> !r.value.Lit?
    ensures ':' !in ph && Text.Trim(ph) == [] ==> r == Ok(Positional)
    ensures ':' !in ph && KindOf(Text.Trim(ph)).Some? ==> r == Err(Message(MALFORMED))
    ensures ':' !in ph && Text.Trim(ph) != [] && KindOf(Text.Trim(ph)).None? ==> r == Ok(Named(Text.Trim(ph)))
    ensures ':' in ph && KindOf(Split(ph).0).None? ==> r == Err(Message(MALFORMED))
    ensures ':' in ph && KindOf(Split(ph).0).Some? ==> r == KindSegment(KindOf(Split(ph).0).value, Split(ph).1.value, syntax)
  {
    var (kind, expr) := Split(ph);
    match expr
    case None =>
      if kind == [] then Ok(Positional)
      else if KindOf(kind).Some? then Err(Message(MALFORMED))
      else Ok(Named(kind))
    case Some(e) =>
      match KindOf(kind)
      case None => Err(Message(MALFORMED))
      case Some(k) => KindSegment(k, e, syntax)
  }

  /* ---------------------------------------------------------------------- */
  /* parse_fmt                                                               */

  /** How the scanner reads the text between a `{` and its `}`. `parse_fmt`
      reads it with `Placeholder`; the scanner is stated over any reading
      that, like `Placeholder`, never yields literal text. */
  type Reader = string -> Result<Segment, MacroError>

  ghost predicate NoLit(read: Reader) {
    forall ph :: read(ph).Ok? ==> !read(ph).value.Lit?
  }

  /** The reading `parse_fmt` uses. */
  function Reading(syntax: Syntax): (read: Reader)
    ensures NoLit(read)
  {
    ph => Placeholder(ph, syntax)
  }

  /** The pending literal flushed as a segment, unless it is empty. */
  function Flush(out: seq<Segment>, cur: string): (r: seq<Segment>)
    ensures cur == [] ==> r == out
    ensures cur != [] ==> r == out + [Lit(cur)]
  {
    if cur == [] then out else out + [Lit(cur)]
  }

  /** What one step of the scanner leaves: a final outcome, or the rest of
      the format string with the pending literal and the segments so far. */
  datatype Next = Done(result: Result<seq<Segment>, MacroError>) | Continue(rest: string, cur: string, out: seq<Segment>)

  /** A `{` that is not doubled: the placeholder runs to the next `}`. */
  function OpenStep(s: string, cur: string, out: seq<Segment>, read: Reader): (r: Next)
    requires s != [] && NoLit(read)
    ensures r.Done? ==> r.result.Err?
    ensures r.Continue? ==> |r.rest| < |s| && r.cur == [] && |r.out| == |Flush(out, cur)| + 1
    ensures r.Continue? ==> r.out[..|r.out| - 1] == Flush(out, cur) && !r.out[|r.out| - 1].Lit?
    ensures RBRACE !in s[1..] ==> r == Done(Err(Message(UNMATCHED_OPEN)))
  {
    match Find(s[1..], RBRACE)
    case None => Done(Err(Message(UNMATCHED_OPEN)))
    case Some(j) =>
      match read(s[1..][..j])
      case Err(e) => Done(Err(e))
      case Ok(seg) =>
        assert (Flush(out, cur) + [seg])[..|Flush(out, cur)|] == Flush(out, cur);
        Continue(s[1..][j + 1..], [], Flush(out, cur) + [seg])
  }

  /** One step of the scanner: `{{` and `}}` add a brace to the pending
      literal, `{` starts a placeholder, a lone `}` is an error, and
      anything else is literal text. */
  function Step(s: string, cur: string, out: seq<Segment>, read: Reader): (r: Next)
    requires s != [] && NoLit(read)
    ensures r.Done? ==> r.result.Err?
    ensures r.Continue? ==> |r.rest| < |s|
    ensures r.Continue? && r.cur != [] ==> r.out == out && |r.cur| == |cur| + 1 && r.cur[..|cur|] == cur
    ensures r.Continue? && r.cur == [] ==>
      (|r.out| == |Flush(out, cur)| + 1 && r.out[..|r.out| - 1] == Flush(out, cur) && !r.out[|r.out| - 1].Lit?)
  {
    if s[0] == LBRACE then
      if |s| > 1 && s[1] == LBRACE then Continue(s[2..], cur + [LBRACE], out)
      else OpenStep(s, cur, out, read)
    else if s[0] == RBRACE then
      if |s| > 1 && s[1] == RBRACE then Continue(s[2..], cur + [RBRACE], out)
      else Done(Err(Message(UNMATCHED_CLOSE)))
    else Continue(s[1..], cur + [s[0]], out)
  }

  /** The scanner over what is left of the format string. */
  function Scan(s: string, cur: string, out: seq<Segment>, read: Reader): Result<seq<Segment>, MacroError>
    requires NoLit(read)
    decreases |s|
  {
    if s == [] then Ok(Flush(out, cur))
    else
      match Step(s, cur, out, read)
      case Done(r) => r
      case Continue(rest, cur', out') => Scan(rest, cur', out', read)
  }

  /** `parse_fmt`: a successful parse is canonical, and the empty format
      has no segments. */
  function ParseFmt(s: string, syntax: Syntax): (r: Result<seq<Segment>, MacroError>)
    ensures r.Ok? ==> Canonical(r.value)
    ensures s == [] ==> r == Ok([])
  {
    ScanCanonical(s, [], [], Reading(syntax));
    Scan(s, [], [], Reading(syntax))
  }

  /** Segments as `parse_fmt` produces them: literal segments are never
      empty and never next to each other. */
  predicate Canonical(segs: seq<Segment>) {
    && (forall i :: 0 <= i < |segs| && segs[i].Lit? ==> segs[i].text != [])
    && (forall i :: 0 <= i < |segs| - 1 ==> !(segs[i].Lit? && segs[i + 1].Lit?))
  }

  /** The scanner's invariant on the segments so far. */
  predicate Settled(out: seq<Segment>) {
    Canonical(out) && (out == [] || !out[|out| - 1].Lit?)
  }

  lemma {:induction false} FlushCanonical(out: seq<Segment>, cur: string)
    requires Settled(out)
    ensures Canonical(Flush(out, cur))
  {
  }

  lemma {:induction false} AppendSettled(front: seq<Segment>, seg: Segment)
    requires Canonical(front) && !seg.Lit?
    ensures Settled(front + [seg])
  {
  }

  /** While scanning, the segments so far are settled; so the result is
      canonical. */
  lemma {:induction false} ScanCanonical(s: string, cur: string, out: seq<Segment>, read: Reader)
    requires Settled(out) && NoLit(read)
    ensures Scan(s, cur, out, read).Ok? ==> Canonical(Scan(s, cur, out, read).value)
    decreases |s|
  {
    if s == [] {
      FlushCanonical(out, cur);
    } else {
      match Step(s, cur, out, read)
      case Done(_) =>
      case Continue(rest, cur', out') =>
        if cur' == [] {
          FlushCanonical(out, cur);
          var n := |out'| - 1;
          assert out' == out'[..n] + [out'[n]];
          AppendSettled(out'[..n], out'[n]);
        }
        ScanCanonical(rest, cur', out', read);
    }
  }

  /* ---------------------------------------------------------------------- */
  /* Writing formats                                                         */

  /** One character of literal text written into a format string. */
  function EscapeChar(c: char): (r: string)
    ensures 1 <= |r| <= 2 && r[0] == c
  {
    if c == LBRACE then [LBRACE, LBRACE] else if c == RBRACE then [RBRACE, RBRACE] else [c]
  }

  /** Literal text written into a format string: every brace doubled. */
  function EscapeBraces(t: string): (r: string)
    ensures |r| >= |t|
  {
    if t == [] then [] else EscapeChar(t[0]) + EscapeBraces(t[1..])
  }

  /** One escaped character scans back to itself. */
  lemma {:induction false} ScanEscapedChar(c: char, rest: string, cur: string, out: seq<Segment>, read: Reader)
    requires NoLit(read)
    ensures Scan(EscapeChar(c) + rest, cur, out, read) == Scan(rest, cur + [c], out, read)
  {
    var s := EscapeChar(c) + rest;
    assert s[|EscapeChar(c)|..] == rest;
    if c == LBRACE || c == RBRACE {
      assert s[1] == c;
    }
    assert Step(s, cur, out, read) == Continue(rest, cur + [c], out);
  }

  /** Escaped text scans back to itself, appended to the pending literal,
      whatever follows it. */
  lemma {:induction false} ScanEscaped(t: string, rest: string, cur: string, out: seq<Segment>, read: Reader)
    requires NoLit(read)
    ensures Scan(EscapeBraces(t) + rest, cur, out, read) == Scan(rest, cur + t, out, read)
    decreases |t|
  {
    if t == [] {
      assert EscapeBraces(t) + rest == rest;
      assert cur + t == cur;
    } else {
      assert EscapeBraces(t) + rest == EscapeChar(t[0]) + (EscapeBraces(t[1..]) + rest);
      ScanEscapedChar(t[0], EscapeBraces(t[1..]) + rest, cur, out, read);
      ScanEscaped(t[1..], rest, cur + [t[0]], out, read);
      assert cur + [t[0]] + t[1..] == cur + t;
    }
  }

  /** A name that a placeholder `{name}` reads back as itself. */
  predicate PlainName(n: string) {
    n != [] && Text.Trim(n) == n && ':' !in n && LBRACE !in n && RBRACE !in n && KindOf(n).None?
  }

  /** A placeholder that can be written back: positional, or named plainly. */
  predicate Writable(seg: Segment) {
    seg.Positional? || (seg.Named? && PlainName(seg.name))
  }

  /** The text between the braces of a positional or named placeholder. */
  function PlaceholderName(seg: Segment): string {
    if seg.Named? then seg.name else []
  }

  /** A positional or named placeholder written into a format string. */
  function PlaceholderText(seg: Segment): string {
    [LBRACE] + PlaceholderName(seg) + [RBRACE]
  }

  /** The format text for positional, named and literal segments. */
  function Render(segs: seq<Segment>): string {
    if segs == [] then []
    else (if segs[0].Lit? then EscapeBraces(segs[0].text) else PlaceholderText(segs[0])) + Render(segs[1..])
  }

  /** Segments made only of literals, positional and named placeholders
      with plain names, in canonical form. */
  predicate Renderable(segs: seq<Segment>) {
    && (forall i :: 0 <= i < |segs| ==> segs[i].Lit? || segs[i].Positional? || segs[i].Named?)
    && (forall i :: 0 <= i < |segs| && segs[i].Named? ==> PlainName(segs[i].name))
    && Canonical(segs)
  }

  /** A reading that gives back what `PlaceholderText` writes. */
  ghost predicate ReadsBack(read: Reader) {
    && NoLit(read)
    && read([]) == Ok(Positional)
    && forall n :: PlainName(n) ==> read(n) == Ok(Named(n))
  }

  /** `Placeholder` reads `{}` as positional and `{name}` as that name. */
  lemma {:induction false} PlaceholderReadsBack(syntax: Syntax)
    ensures ReadsBack(Reading(syntax))
  {
    assert Text.Trim([]) == [];
    forall n | PlainName(n)
      ensures Placeholder(n, syntax) == Ok(Named(n))
    {
    }
  }

  /** The first `c` found at a position is the one there. */
  lemma {:induction false} FindFirst(s: string, c: char, i: nat)
    requires i < |s| && s[i] == c && c !in s[..i]
    ensures Find(s, c) == Some(i)
    decreases i
  {
    if i > 0 {
      assert s[1..][..i - 1] == s[1..i];
      FindFirst(s[1..], c, i - 1);
    }
  }

  /** A `{` followed by a placeholder `ph` and its `}`: the step appends
      the placeholder's segment. */
  lemma {:induction false} OpenStepAt(s: string, ph: string, rest: string, cur: string, out: seq<Segment>, read: Reader)
    requires s == [LBRACE] + ph + [RBRACE] + rest
    requires RBRACE !in ph
    requires NoLit(read) && read(ph).Ok?
    ensures OpenStep(s, cur, out, read) == Continue(rest, [], Flush(out, cur) + [read(ph).value])
  {
    var t := s[1..];
    assert t == ph + [RBRACE] + rest;
    assert t[..|ph|] == ph;
    FindFirst(t, RBRACE, |ph|);
    assert t[|ph| + 1..] == rest;
  }

  /** A placeholder `{ph}` at the front: the scan continues after it with
      the placeholder's segment appended. */
  lemma {:induction false} ScanPlaceholder(ph: string, rest: string, cur: string, out: seq<Segment>, read: Reader)
    requires RBRACE !in ph && (ph == [] || ph[0] != LBRACE)
    requires NoLit(read) && read(ph).Ok?
    ensures Scan([LBRACE] + ph + [RBRACE] + rest, cur, out, read)
      == Scan(rest, [], Flush(out, cur) + [read(ph).value], read)
  {
    var s := [LBRACE] + ph + [RBRACE] + rest;
    OpenStepAt(s, ph, rest, cur, out, read);
    assert s[0] == LBRACE && s[1] != LBRACE;
    assert Step(s, cur, out, read) == OpenStep(s, cur, out, read);
  }

  /** The text of a literal followed by more segments scans the literal
      into the pending text. */
  lemma {:induction false} RenderLit(segs: seq<Segment>, out: seq<Segment>, read: Reader)
    requires segs != [] && segs[0].Lit? && NoLit(read)
    ensures Scan(Render(segs), [], out, read) == Scan(Render(segs[1..]), segs[0].text, out, read)
  {
    assert Render(segs) == EscapeBraces(segs[0].text) + Render(segs[1..]);
    ScanEscaped(segs[0].text, Render(segs[1..]), [], out, read);
    assert [] + segs[0].text == segs[0].text;
  }

  lemma {:induction false} RenderHead(segs: seq<Segment>)
    requires segs != [] && !segs[0].Lit?
    ensures Render(segs) == [LBRACE] + PlaceholderName(segs[0]) + [RBRACE] + Render(segs[1..])
  {
  }

  lemma {:induction false} ReadBackHead(seg: Segment, read: Reader)
    requires Writable(seg) && ReadsBack(read)
    ensures read(PlaceholderName(seg)) == Ok(seg)
    ensures RBRACE !in PlaceholderName(seg) && (PlaceholderName(seg) == [] || PlaceholderName(seg)[0] != LBRACE)
  {
  }

  /** The text of a positional or plainly named placeholder followed by
      more segments appends the placeholder. */
  lemma {:induction false} RenderPlaceholder(segs: seq<Segment>, cur: string, out: seq<Segment>, read: Reader)
    requires segs != [] && Writable(segs[0]) && ReadsBack(read)
    ensures Scan(Render(segs), cur, out, read) == Scan(Render(segs[1..]), [], Flush(out, cur) + [segs[0]], read)
  {
    RenderHead(segs);
    ReadBackHead(segs[0], read);
    ScanPlaceholder(PlaceholderName(segs[0]), Render(segs[1..]), cur, out, read);
  }

  /** What `Renderable` says about the head and the tail. */
  lemma {:induction false} RenderableParts(segs: seq<Segment>)
    requires Renderable(segs) && segs != []
    ensures Renderable(segs[1..])
    ensures segs[0].Lit? ==> segs[0].text != [] && (|segs| == 1 || !segs[1].Lit?)
    ensures !segs[0].Lit? ==> Writable(segs[0])
  {
    assert |segs| > 1 ==> segs[1..][0] == segs[1];
  }

  lemma {:induction false} AppendHead(front: seq<Segment>, segs: seq<Segment>)
    requires segs != []
    ensures front + [segs[0]] + segs[1..] == front + segs
  {
    assert segs == [segs[0]] + segs[1..];
  }

  /** A literal at the front, given the result for the segments after it. */
  lemma {:induction false} RenderLitCase(segs: seq<Segment>, out: seq<Segment>, read: Reader)
    requires segs != [] && segs[0].Lit? && segs[0].text != [] && NoLit(read)
    requires Scan(Render(segs[1..]), segs[0].text, out, read) == Ok(out + [segs[0]] + segs[1..])
    ensures Scan(Render(segs), [], out, read) == Ok(out + segs)
  {
    RenderLit(segs, out, read);
    AppendHead(out, segs);
  }

  /** A placeholder at the front, given the result for the segments after
      it. */
  lemma {:induction false} RenderPlaceholderCase(segs: seq<Segment>, cur: string, out: seq<Segment>, read: Reader)
    requires segs != [] && Writable(segs[0]) && ReadsBack(read)
    requires Scan(Render(segs[1..]), [], Flush(out, cur) + [segs[0]], read) == Ok(Flush(out, cur) + [segs[0]] + segs[1..])
    ensures Scan(Render(segs), cur, out, read) == Ok(Flush(out, cur) + segs)
  {
    RenderPlaceholder(segs, cur, out, read);
    AppendHead(Flush(out, cur), segs);
  }

  /** Writing canonical segments and parsing the text gives them back. */
  lemma {:induction false} ScanRender(segs: seq<Segment>, cur: string, out: seq<Segment>, read: Reader)
    requires Renderable(segs) && ReadsBack(read)
    requires cur != [] ==> segs == [] || !segs[0].Lit?
    ensures Scan(Render(segs), cur, out, read) == Ok(Flush(out, cur) + segs)
    decreases |segs|
  {
    if segs == [] {
      assert Render(segs) == [];
      assert Flush(out, cur) + segs == Flush(out, cur);
    } else {
      RenderableParts(segs);
      if segs[0].Lit? {
        ScanRender(segs[1..], segs[0].text, out, read);
        RenderLitCase(segs, out, read);
      } else {
        ScanRender(segs[1..], [], Flush(out, cur) + [segs[0]], read);
        RenderPlaceholderCase(segs, cur, out, read);
      }
    }
  }

  /** The round trip: writing literal, positional and named segments as a
      format string and parsing it gives the same segments. */
  lemma {:induction false} ParseRendered(segs: seq<Segment>, syntax: Syntax)
    requires Renderable(segs)
    ensures ParseFmt(Render(segs), syntax) == Ok(segs)
  {
    PlaceholderReadsBack(syntax);
    ScanRender(segs, [], [], Reading(syntax));
    assert [] + segs == segs;
  }

  /** Plain text with its braces doubled is one literal (none when empty). */
  lemma {:induction false} ParseEscaped(t: string, syntax: Syntax)
    ensures ParseFmt(EscapeBraces(t), syntax) == Ok(if t == [] then [] else [Lit(t)])
  {
    ScanEscaped(t, [], [], [], Reading(syntax));
    assert EscapeBraces(t) + [] == EscapeBraces(t);
    assert [] + t == t;
    assert [] + [Lit(t)] == [Lit(t)];
  }

  /** A closing brace that is not doubled is an error. */
  lemma {:induction false} UnmatchedClose(t: string, rest: string, syntax: Syntax)
    requires rest == [] || rest[0] != RBRACE
    ensures ParseFmt(EscapeBraces(t) + [RBRACE] + rest, syntax) == Err(Message(UNMATCHED_CLOSE))
  {
    var read := Reading(syntax);
    var tail := [RBRACE] + rest;
    assert EscapeBraces(t) + [RBRACE] + rest == EscapeBraces(t) + tail;
    ScanEscaped(t, tail, [], [], read);
    assert |tail| > 1 ==> tail[1] == rest[0];
    assert Step(tail, [] + t, [], read) == Done(Err(Message(UNMATCHED_CLOSE)));
  }

  /** An opening brace that is not doubled and never closed is an error. */
  lemma {:induction false} UnmatchedOpen(t: string, rest: string, syntax: Syntax)
    requires RBRACE !in rest && (rest == [] || rest[0] != LBRACE)
    ensures ParseFmt(EscapeBraces(t) + [LBRACE] + rest, syntax) == Err(Message(UNMATCHED_OPEN))
  {
    var read := Reading(syntax);
    var tail := [LBRACE] + rest;
    assert EscapeBraces(t) + [LBRACE] + rest == EscapeBraces(t) + tail;
    ScanEscaped(t, tail, [], [], read);
    assert tail[1..] == rest;
    assert |tail| > 1 ==> tail[1] == rest[0];
    assert Step(tail, [] + t, [], read) == OpenStep(tail, [] + t, [], read);
  }

  /* ---------------------------------------------------------------------- */
  /* UpsertArgs                                                              */

  /** The Rust keywords accepted as excluded column names. */
  const EXCLUDE_KEYWORDS: set<string> := {"type", "ref", "let", "mut", "const", "static", "fn", "struct",
    "enum", "impl", "trait", "mod", "use", "pub", "crate", "super", "self", "Self"}

  /** One excluded column: an identifier, or an accepted keyword. */
  function ColumnName(t: Token): (r: Option<string>)
    ensures t.IdentTok? ==> r == Some(t.name)
    ensures t.KeywordTok? ==> (r.Some? <==> t.keyword in EXCLUDE_KEYWORDS)
    ensures !t.IdentTok? && !t.KeywordTok? ==> r.None?
  {
    match t
    case IdentTok(n) => Some(n)
    case KeywordTok(k) => if k in EXCLUDE_KEYWORDS then Some(k) else None
    case _ => None
  }

  /** The exclude list: names separated by commas, a trailing comma
      allowed; what remains after the last name without a comma is left
      over. */
  function ExcludeList(ts: seq<Token>): (r: Result<(seq<string>, seq<Token>), MacroError>)
    ensures r.Ok? && ts != [] ==> |r.value.0| >= 1
    ensures r.Ok? ==> |r.value.1| < |ts| || ts == []
    decreases |ts|
  {
    if ts == [] then Ok(([], []))
    else
      match ColumnName(ts[0])
      case None => Err(SyntaxError)
      case Some(n) =>
        if |ts| > 1 && ts[1] == CommaTok then
          if |ts| == 2 then Ok(([n], []))
          else
            match ExcludeList(ts[2..])
            case Err(e) => Err(e)
            case Ok((ns, left)) => Ok(([n] + ns, left))
        else Ok(([n], ts[1..]))
  }

  /** `UpsertArgs::parse` after the values expression: nothing, or
      `, exclude:` and at least one column; the whole text must be used. */
  function ParseUpsert(values: RustExpr, rest: seq<Token>): (r: Result<(RustExpr, seq<string>), MacroError>)
    ensures rest == [] ==> r == Ok((values, []))
    ensures r.Ok? ==> r.value.0 == values
    ensures r.Ok? && rest != [] ==> |r.value.1| >= 1
    ensures |rest| >= 2 && rest[0] == CommaTok && rest[1].IdentTok? && rest[1].name != EXCLUDE ==> r == Err(Message(EXPECTED_EXCLUDE))
    ensures rest == [CommaTok, IdentTok(EXCLUDE), ColonTok] ==> r == Err(Message(NO_EXCLUDED))
  {
    if rest == [] then Ok((values, []))
    else if rest[0] != CommaTok || |rest| < 2 then Err(SyntaxError)
    else if !rest[1].IdentTok? then Err(SyntaxError)
    else if rest[1].name != EXCLUDE then Err(Message(EXPECTED_EXCLUDE))
    else if |rest| < 3 || rest[2] != ColonTok then Err(SyntaxError)
    else if |rest| == 3 then Err(Message(NO_EXCLUDED))
    else
      match ExcludeList(rest[3..])
      case Err(e) => Err(e)
      case Ok((ns, left)) => if left != [] then Err(SyntaxError) else Ok((values, ns))
  }

  /** The tokens of an exclude list written out, with or without a
      trailing comma. */
  function ExcludeTokens(cols: seq<Token>, trailing: bool): seq<Token> {
    if cols == [] then []
    else if |cols| == 1 then [cols[0]] + (if trailing then [CommaTok] else [])
    else [cols[0], CommaTok] + ExcludeTokens(cols[1..], trailing)
  }

  /** The names a list of column tokens stands for. */
  function ColumnNames(cols: seq<Token>): seq<string>
    requires forall i :: 0 <= i < |cols| ==> ColumnName(cols[i]).Some?
  {
    if cols == [] then [] else [ColumnName(cols[0]).value] + ColumnNames(cols[1..])
  }

  lemma {:induction false} ExcludeListOfTokens(cols: seq<Token>, trailing: bool)
    requires cols != []
    requires forall i :: 0 <= i < |cols| ==> ColumnName(cols[i]).Some?
    ensures ExcludeList(ExcludeTokens(cols, trailing)) == Ok((ColumnNames(cols), []))
    decreases |cols|
  {
    var ts := ExcludeTokens(cols, trailing);
    var n := ColumnName(cols[0]).value;
    assert ts[0] == cols[0];
    if |cols| == 1 {
      assert ColumnNames(cols) == [n] + ColumnNames(cols[1..]);
      assert ColumnNames(cols[1..]) == [];
      assert ColumnNames(cols) == [n];
      if trailing {
        assert ts == [cols[0], CommaTok];
        assert ts[1] == CommaTok && |ts| == 2;
        assert ExcludeList(ts) == Ok(([n], []));
      } else {
        assert ts == [cols[0]];
        assert ExcludeList(ts) == Ok(([n], ts[1..]));
        assert ts[1..] == [];
        assert ExcludeList(ts) == Ok((ColumnNames(cols), []));
      }
    } else {
      assert ts == [cols[0], CommaTok] + ExcludeTokens(cols[1..], trailing);
      assert ts[2..] == ExcludeTokens(cols[1..], trailing);
      ExcludeListOfTokens(cols[1..], trailing);
      assert |ts| > 2 && ts[1] == CommaTok;
    }
  }

  /** `, exclude:` followed by a list that reads back completely. */
  lemma {:induction false} ParseUpsertExclude(values: RustExpr, rest: seq<Token>, names: seq<string>)
    requires |rest| > 3 && rest[0] == CommaTok && rest[1] == IdentTok(EXCLUDE) && rest[2] == ColonTok
    requires ExcludeList(rest[3..]) == Ok((names, []))
    ensures ParseUpsert(values, rest) == Ok((values, names))
  {
  }

  /** Identifiers and accepted keywords, separated by commas, with or
      without a trailing comma, are read back as the excluded columns. */
  lemma {:induction false} UpsertExcludeRoundTrip(values: RustExpr, cols: seq<Token>, trailing: bool)
    requires cols != []
    requires forall i :: 0 <= i < |cols| ==> ColumnName(cols[i]).Some?
    ensures ParseUpsert(values, [CommaTok, IdentTok(EXCLUDE), ColonTok] + ExcludeTokens(cols, trailing))
      == Ok((values, ColumnNames(cols)))
  {
    var toks := ExcludeTokens(cols, trailing);
    var rest := [CommaTok, IdentTok(EXCLUDE), ColonTok] + toks;
    assert toks[0] == cols[0];
    assert rest[0] == CommaTok && rest[1] == IdentTok(EXCLUDE) && rest[2] == ColonTok;
    assert rest[3..] == toks;
    ExcludeListOfTokens(cols, trailing);
    ParseUpsertExclude(values, rest, ColumnNames(cols));
  }
}

=== FILE: numeric.dfy ===
/** Fixed-width integer types of the Rust source, written as ranges over Dafny's
    unbounded `int`. `usize` is taken to be 64 bits wide. */
module Numeric {

  const I8_MIN: int := -0x80
  const I8_MAX: int := 0x7F
  const I16_MIN: int := -0x8000
  const I16_MAX: int := 0x7FFF
  const I32_MIN: int := -0x8000_0000
  const I32_MAX: int := 0x7FFF_FFFF
  const I64_MIN: int := -0x8000_0000_0000_0000
  const I64_MAX: int := 0x7FFF_FFFF_FFFF_FFFF
  const U8_MAX: int := 0xFF
  const U16_MAX: int := 0xFFFF
  const U32_MAX: int := 0xFFFF_FFFF
  const USIZE_MAX: int := 0xFFFF_FFFF_FFFF_FFFF

  type I8 = x: int | I8_MIN <= x <= I8_MAX
  type I16 = x: int | I16_MIN <= x <= I16_MAX
  type I32 = x: int | I32_MIN <= x <= I32_MAX
  type I64 = x: int | I64_MIN <= x <= I64_MAX
  type U8 = x: int | 0 <= x <= U8_MAX
  type U16 = x: int | 0 <= x <= U16_MAX
  type U32 = x: int | 0 <= x <= U32_MAX
  type Usize = x: int | 0 <= x <= USIZE_MAX

  /** A byte, Rust's `u8` when it is used as raw data. */
  type Byte = U8
}

=== FILE: ordered_map.dfy ===
/** An insertion-ordered map keyed by strings, as the `indexmap` crate's
    `IndexMap` behaves for the operations the library uses: `insert` keeps an
    existing key's position, and `extend` inserts pair by pair. */
module OrderedMap {

  import opened Wrappers

  /** The keys in insertion order and the entry of each. */
  datatype IndexMap<V> = IndexMap(keys: seq<string>, entries: map<string, V>)

  function Empty<V>(): (m: IndexMap<V>)
    ensures Valid(m) && m.keys == [] && m.entries == map[]
  {
    IndexMap([], map[])
  }

  predicate Distinct(ks: seq<string>) {
    forall i, j :: 0 <= i < j < |ks| ==> ks[i] != ks[j]
  }

  /** An `IndexMap` holds each key once, with one entry per key. */
  predicate Valid<V>(v: IndexMap<V>) {
    Distinct(v.keys) &&
    (forall k :: k in v.entries ==> k in v.keys) &&
    (forall i :: 0 <= i < |v.keys| ==> v.keys[i] in v.entries)
  }

  function Len<V>(v: IndexMap<V>): nat {
    |v.keys|
  }

  predicate IsEmpty<V>(v: IndexMap<V>) {
    v.keys == []
  }

  function Lookup<V>(v: IndexMap<V>, k: string): Option<V> {
    if k in v.entries then Some(v.entries[k]) else None
  }

  /** `IndexMap::insert`: an existing key keeps its position and takes the new
      entry; a new key goes at the end. */
  function Put<V>(v: IndexMap<V>, k: string, e: V): (r: IndexMap<V>)
    requires Valid(v)
    ensures Valid(r)
    ensures k in v.keys ==> r.keys == v.keys
    ensures k !in v.keys ==> r.keys == v.keys + [k]
    ensures Lookup(r, k) == Some(e)
    ensures forall k' :: k' != k ==> Lookup(r, k') == Lookup(v, k')
  {
    if k in v.entries then IndexMap(v.keys, v.entries[k := e])
    else IndexMap(v.keys + [k], v.entries[k := e])
  }

  /** `IndexMap::extend`: the pairs of `other`, in its order, each inserted.
      The existing keys keep their places and the new ones follow in
      `other`'s order. */
  function Extend<V>(v: IndexMap<V>, other: IndexMap<V>): (r: IndexMap<V>)
    requires Valid(v) && Valid(other)
    ensures Valid(r)
    ensures r.keys == v.keys + Fresh(v.entries.Keys, other.keys)
  {
    ExtendFromKeys(v, other.keys, other.entries);
    ExtendFrom(v, other.keys, other.entries)
  }

  /** Inserting the keys `ks` with their entries from `src`, in order. */
  function ExtendFrom<V>(v: IndexMap<V>, ks: seq<string>, src: map<string, V>): (r: IndexMap<V>)
    requires Valid(v) && forall i :: 0 <= i < |ks| ==> ks[i] in src
    ensures Valid(r)
    decreases |ks|
  {
    if ks == [] then v
    else ExtendFrom(Put(v, ks[0], src[ks[0]]), ks[1..], src)
  }

  /** The keys of `ks` not already seen, in order, each once. */
  function Fresh(seen: set<string>, ks: seq<string>): seq<string>
    decreases |ks|
  {
    if ks == [] then []
    else if ks[0] in seen then Fresh(seen, ks[1..])
    else [ks[0]] + Fresh(seen + {ks[0]}, ks[1..])
  }

  /** Distinct keys none of which were seen are all fresh. */
  lemma {:induction false} FreshAll(seen: set<string>, ks: seq<string>)
    requires Distinct(ks) && forall i :: 0 <= i < |ks| ==> ks[i] !in seen
    ensures Fresh(seen, ks) == ks
    decreases |ks|
  {
    if ks != [] {
      assert ks[0] !in ks[1..];
      FreshAll(seen + {ks[0]}, ks[1..]);
    }
  }

  lemma {:induction false} ExtendFromKeys<V>(v: IndexMap<V>, ks: seq<string>, src: map<string, V>)
    requires Valid(v) && forall i :: 0 <= i < |ks| ==> ks[i] in src
    ensures ExtendFrom(v, ks, src).keys == v.keys + Fresh(v.entries.Keys, ks)
    decreases |ks|
  {
    if ks != [] {
      var k, rest := ks[0], ks[1..];
      var v' := Put(v, k, src[k]);
      ExtendFromKeys(v', rest, src);
      assert ks == [k] + rest;
      KeysStep(v, k, src[k], rest, ExtendFrom(v', rest, src).keys);
    }
  }

  /** One insertion's effect on the keys of an extension. */
  lemma {:induction false} KeysStep<V>(v: IndexMap<V>, k: string, e: V, rest: seq<string>, tail: seq<string>)
    requires Valid(v)
    requires tail == Put(v, k, e).keys + Fresh(Put(v, k, e).entries.Keys, rest)
    ensures tail == v.keys + Fresh(v.entries.Keys, [k] + rest)
  {
    var ks := [k] + rest;
    assert ks[0] == k && ks[1..] == rest;
    if k in v.entries {
      assert Put(v, k, e).entries.Keys == v.entries.Keys;
    } else {
      assert Put(v, k, e).entries.Keys == v.entries.Keys + {k};
      assert Fresh(v.entries.Keys, ks) == [k] + Fresh(v.entries.Keys + {k}, rest);
    }
  }

  lemma {:induction false} ExtendFromLookup<V>(v: IndexMap<V>, ks: seq<string>, src: map<string, V>, k: string)
    requires Valid(v) && forall i :: 0 <= i < |ks| ==> ks[i] in src
    ensures k in ks ==> Lookup(ExtendFrom(v, ks, src), k) == Some(src[k])
    ensures k !in ks ==> Lookup(ExtendFrom(v, ks, src), k) == Lookup(v, k)
    decreases |ks|
  {
    if ks != [] {
      var v' := Put(v, ks[0], src[ks[0]]);
      ExtendFromLookup(v', ks[1..], src, k);
      assert ks == [ks[0]] + ks[1..];
    }
  }

  /** After extending, a key of `other` maps to `other`'s entry; any other
      key keeps its entry. */
  lemma {:induction false} ExtendLookup<V>(v: IndexMap<V>, other: IndexMap<V>, k: string)
    requires Valid(v) && Valid(other)
    ensures k in other.keys ==> Lookup(Extend(v, other), k) == Lookup(other, k)
    ensures k !in other.keys ==> Lookup(Extend(v, other), k) == Lookup(v, k)
  {
    ExtendFromLookup(v, other.keys, other.entries, k);
  }

  /** Extending by an empty map changes nothing; extending the empty map
      gives `other` itself. */
  lemma {:induction false} ExtendByEmpty<V>(v: IndexMap<V>)
    requires Valid(v)
    ensures Extend(v, Empty<V>()) == v
  {
  }

  lemma {:induction false} ExtendEmpty<V>(other: IndexMap<V>)
    requires Valid(other)
    ensures Extend(Empty<V>(), other) == other
  {
    var r := Extend(Empty<V>(), other);
    assert Empty<V>().entries.Keys == {};
    FreshAll({}, other.keys);
    assert r.keys == other.keys;
    forall k | k in other.keys
      ensures Lookup(r, k) == Lookup(other, k)
    {
      ExtendLookup(Empty<V>(), other, k);
    }
    SameEntries(r, other);
  }

  /** Two valid maps with the same keys in the same order and the same
      entries are equal. */
  lemma {:induction false} SameEntries<V>(a: IndexMap<V>, b: IndexMap<V>)
    requires Valid(a) && Valid(b) && a.keys == b.keys
    requires forall k :: k in b.keys ==> Lookup(a, k) == Lookup(b, k)
    ensures a == b
  {
    assert a.entries.Keys == b.entries.Keys;
    assert forall k :: k in a.entries ==> a.entries[k] == b.entries[k];
  }
}

=== FILE: pool.dfy ===
/** The connection pool's bookkeeping (crates/musq/src/pool/inner.rs and
    crates/musq/src/pool/connection.rs), as sequential transitions.

    The pool keeps a size counter, an idle counter, a FIFO queue of idle
    connections with room for `pool_max_connections`, a semaphore with that
    many permits, and a closed flag. Outside the pool live the permits
    callers hold, the floating connections (each owning an uncancelled
    `DecrementSizeGuard`), and the connections checked out to callers. The
    world records all of them, so the accounting between them can be
    stated: every open connection is idle, floating or checked out, and every
    permit is free, held, owned by a guard, or leaked by a checked-out
    connection. */
module Pool {

  import opened Wrappers
  import opened Numeric
  import Errors

  /** A connection, by identity. */
  type Conn = nat

  datatype World = World(
    max: U32,
    size: nat,
    numIdle: nat,
    permits: nat,
    idle: seq<Conn>,
    closed: bool,
    held: nat,
    floating: nat,
    checkedOut: nat)

  /** The accounting the pool keeps. */
  predicate Valid(w: World) {
    && w.size == |w.idle| + w.floating + w.checkedOut
    && w.permits + w.held + w.floating + w.checkedOut == w.max
    && w.numIdle == |w.idle|
    && w.size <= w.max
  }

  /** `PoolInner::new_arc`: nothing open, every permit free. The idle queue
      is an `ArrayQueue` with room for `max` connections, and `ArrayQueue::new`
      panics at capacity 0; None stands for that panic. */
  function New(max: U32): (r: Option<World>)
    ensures r.None? <==> max == 0
    ensures r.Some? ==> Valid(r.value) && r.value.max == max
    ensures r.Some? ==> var w := r.value;
      w.size == 0 && w.numIdle == 0 && w.permits == max && w.idle == [] && !w.closed
  {
    if max == 0 then None else Some(World(max, 0, 0, max, [], false, 0, 0, 0))
  }

  /* ---------------------------------------------------------------------- */
  /* Permits                                                                 */

  /** A semaphore permit taken without waiting, when one is free. */
  function TakePermit(w: World): (r: Option<World>)
    requires Valid(w)
    ensures r.Some? <==> w.permits > 0
    ensures r.Some? ==> Valid(r.value) && r.value.permits == w.permits - 1 && r.value.held == w.held + 1
    ensures r.Some? ==> r.value.size == w.size && r.value.idle == w.idle
  {
    if w.permits > 0 then Some(w.(permits := w.permits - 1, held := w.held + 1)) else None
  }

  /** A held permit dropped: back to the semaphore. */
  function DropPermit(w: World): (r: World)
    requires Valid(w) && w.held > 0
    ensures Valid(r) && r.permits == w.permits + 1 && r.held == w.held - 1
    ensures r.size == w.size && r.idle == w.idle && r.closed == w.closed
  {
    w.(permits := w.permits + 1, held := w.held - 1)
  }

  /* ---------------------------------------------------------------------- */
  /* Guards                                                                  */

  /** Dropping a `DecrementSizeGuard`: unless cancelled, one fewer open
      connection and the guard's permit back to the semaphore. */
  function DropGuard(w: World, cancelled: bool): (r: World)
    requires Valid(w) && (!cancelled ==> w.floating > 0)
    ensures Valid(r)
    ensures cancelled ==> r == w
    ensures !cancelled ==> r.size == w.size - 1 && r.permits == w.permits + 1 && r.floating == w.floating - 1
    ensures r.idle == w.idle && r.numIdle == w.numIdle && r.closed == w.closed
  {
    if cancelled then w
    else w.(size := w.size - 1, permits := w.permits + 1, floating := w.floating - 1)
  }

  /* ---------------------------------------------------------------------- */
  /* Inner transitions                                                       */

  /** `pop_idle` with a held permit: the front idle connection, the permit
      now owned by its guard; otherwise the permit stays with the caller. */
  function PopIdle(w: World): (r: (World, Option<Conn>))
    requires Valid(w) && w.held > 0
    ensures Valid(r.0)
    ensures r.1.Some? <==> w.idle != []
    ensures r.1.Some? ==> (r.1.value == w.idle[0] && r.0.idle == w.idle[1..]
      && r.0.numIdle == w.numIdle - 1 && r.0.held == w.held - 1 && r.0.floating == w.floating + 1)
    ensures r.1.None? ==> r.0 == w
    ensures r.0.size == w.size && r.0.permits == w.permits
  {
    if w.idle != [] then
      (w.(idle := w.idle[1..], numIdle := w.numIdle - 1, held := w.held - 1, floating := w.floating + 1), Some(w.idle[0]))
    else (w, None)
  }

  /** `try_increment_size` with a held permit: succeeds only while the pool
      is open and one more connection fits under the maximum (and in a u32);
      the permit then belongs to the new guard. */
  function TryIncrementSize(w: World): (r: (World, bool))
    requires Valid(w) && w.held > 0
    ensures Valid(r.0)
    ensures r.1 <==> !w.closed && w.size + 1 <= w.max
    ensures r.1 ==> r.0.size == w.size + 1 && r.0.held == w.held - 1 && r.0.floating == w.floating + 1
    ensures !r.1 ==> r.0 == w
    ensures r.0.permits == w.permits && r.0.idle == w.idle
  {
    if !w.closed && w.size + 1 <= U32_MAX && w.size + 1 <= w.max then
      (w.(size := w.size + 1, held := w.held - 1, floating := w.floating + 1), true)
    else (w, false)
  }

  /** What pushing onto the bounded idle queue gives: the new world, or the
      overflow `release` panics on. */
  datatype Released = Released(w: World) | Overflow

  /** `release`: the floating connection pushed to the back of the idle
      queue, its guard's permit returned, one more idle connection, the size
      unchanged. */
  function Release(w: World, c: Conn): (r: Released)
    requires Valid(w) && w.floating > 0
    ensures r.Released?
    ensures Valid(r.w)
    ensures r.w.idle == w.idle + [c] && r.w.numIdle == w.numIdle + 1
    ensures r.w.size == w.size && r.w.permits == w.permits + 1 && r.w.floating == w.floating - 1
  {
    if |w.idle| >= w.max then Overflow
    else Released(w.(idle := w.idle + [c], permits := w.permits + 1, floating := w.floating - 1, numIdle := w.numIdle + 1))
  }

  /** `try_acquire`: nothing when closed or when no permit is free;
      otherwise the front idle connection, or nothing (and the permit back)
      when the queue is empty. */
  function TryAcquire(w: World): (r: (World, Option<Conn>))
    requires Valid(w)
    ensures Valid(r.0)
    ensures r.1.Some? <==> !w.closed && w.permits > 0 && w.idle != []
    ensures r.1.None? ==> r.0 == w
    ensures r.1.Some? ==> (r.1.value == w.idle[0] && r.0.idle == w.idle[1..] && r.0.size == w.size
      && r.0.permits == w.permits - 1 && r.0.floating == w.floating + 1 && r.0.held == w.held)
  {
    if w.closed then (w, None)
    else
      match TakePermit(w)
      case None => (w, None)
      case Some(w1) =>
        var (w2, c) := PopIdle(w1);
        if c.Some? then (w2, c) else (DropPermit(w2), None)
  }

  /** `Pool::try_acquire`: the idle connection made live and handed to the
      caller, its permit leaked with it. */
  function PoolTryAcquire(w: World): (r: (World, Option<Conn>))
    requires Valid(w)
    ensures Valid(r.0)
    ensures r.1.Some? <==> !w.closed && w.permits > 0 && w.idle != []
    ensures r.1.None? ==> r.0 == w
    ensures r.1.Some? ==> (r.1.value == w.idle[0] && r.0.idle == w.idle[1..] && r.0.numIdle == w.numIdle - 1
      && r.0.size == w.size && r.0.permits == w.permits - 1 && r.0.checkedOut == w.checkedOut + 1)
  {
    var (w1, c) := TryAcquire(w);
    if c.Some? then (Reattach(w1), c) else (w1, None)
  }

  /** The check at the start of `acquire`. */
  function AcquireOpen(w: World): (r: Result<(), Errors.Error>)
    ensures r.Err? <==> w.closed
    ensures r.Err? ==> r.error == Errors.PoolClosed
  {
    if w.closed then Err(Errors.PoolClosed) else Ok(())
  }

  /** One pass of the `acquire` loop once a permit is held. */
  datatype Attempt = GotIdle(w: World, conn: Conn) | MayConnect(w: World) | Retry(w: World)

  function AcquireAttempt(w: World): (r: Attempt)
    requires Valid(w) && w.held > 0
    ensures Valid(r.w)
    ensures r.GotIdle? <==> w.idle != []
    ensures r.GotIdle? ==> r.conn == w.idle[0] && r.w.floating == w.floating + 1 && r.w.size == w.size
    ensures r.MayConnect? <==> w.idle == [] && !w.closed && w.size + 1 <= w.max
    ensures r.MayConnect? ==> r.w.size == w.size + 1 && r.w.floating == w.floating + 1
    ensures r.Retry? ==> r.w.size == w.size && r.w.permits == w.permits + 1 && r.w.held == w.held - 1
  {
    var (w1, c) := PopIdle(w);
    if c.Some? then GotIdle(w1, c.value)
    else
      var (w2, ok) := TryIncrementSize(w1);
      if ok then MayConnect(w2) else Retry(DropPermit(w2))
  }

  /** `connect` with a size guard: refused on a closed pool, otherwise the
      engine's outcome; a refusal or failure drops the guard. */
  function Connect(w: World, connected: bool): (r: (World, Result<(), Errors.Error>))
    requires Valid(w) && w.floating > 0
    ensures Valid(r.0)
    ensures w.closed ==> r.1 == Err(Errors.PoolClosed)
    ensures r.1.Ok? <==> !w.closed && connected
    ensures r.1.Ok? ==> r.0 == w
    ensures r.1.Err? ==> r.0.size == w.size - 1 && r.0.permits == w.permits + 1
  {
    if w.closed then (DropGuard(w, false), Err(Errors.PoolClosed))
    else if connected then (w, Ok(()))
    else (DropGuard(w, false), Err(Errors.PoolTimedOut))
  }

  /* ---------------------------------------------------------------------- */
  /* Floating connections                                                    */

  /** `Floating::reattach`: the guard cancelled, the connection handed to
      the caller; neither the size nor the permits change. */
  function Reattach(w: World): (r: World)
    requires Valid(w) && w.floating > 0
    ensures Valid(r) && r.size == w.size && r.permits == w.permits && r.idle == w.idle
    ensures r.checkedOut == w.checkedOut + 1 && r.floating == w.floating - 1
  {
    w.(floating := w.floating - 1, checkedOut := w.checkedOut + 1)
  }

  /** `Live::float`: a checked-out connection, already counted in the size
      and holding a leaked permit, wrapped in a fresh guard that owns it. */
  function Float(w: World): (r: World)
    requires Valid(w) && w.checkedOut > 0
    ensures Valid(r) && r.size == w.size && r.permits == w.permits && r.idle == w.idle
    ensures r.floating == w.floating + 1 && r.checkedOut == w.checkedOut - 1
  {
    w.(floating := w.floating + 1, checkedOut := w.checkedOut - 1)
  }

  /** `Floating::return_to_pool`: on a closed pool the connection is closed
      and its guard dropped, and the answer is false; otherwise it is
      released to the idle queue and the answer is true. */
  function ReturnToPool(w: World, c: Conn): (r: (Released, bool))
    requires Valid(w) && w.floating > 0
    ensures r.0.Released? && Valid(r.0.w)
    ensures r.1 <==> !w.closed
    ensures w.closed ==> r.0.w.size == w.size - 1 && r.0.w.permits == w.permits + 1 && r.0.w.idle == w.idle
    ensures !w.closed ==> r.0.w.size == w.size && r.0.w.idle == w.idle + [c] && r.0.w.numIdle == w.numIdle + 1
  {
    if w.closed then (Released(DropGuard(w, false)), false)
    else (Release(w, c), true)
  }

  /** `PoolConnection::return_to_pool`: nothing when the connection was
      already taken; otherwise float it and return it. */
  function ReturnLive(w: World, live: Option<Conn>): (r: World)
    requires Valid(w) && (live.Some? ==> w.checkedOut > 0)
    ensures Valid(r)
    ensures live.None? ==> r == w
    ensures live.Some? ==> r.checkedOut == w.checkedOut - 1
    ensures live.Some? && w.closed ==> r.size == w.size - 1 && r.idle == w.idle
    ensures live.Some? && !w.closed ==> r.size == w.size && r.idle == w.idle + [live.value]
  {
    match live
    case None => w
    case Some(c) => ReturnToPool(Float(w), c).0.w
  }

  /** `mark_closed`. */
  function MarkClosed(w: World): (r: World)
    requires Valid(w)
    ensures Valid(r) && r.closed
    ensures r.max == w.max && r.size == w.size && r.numIdle == w.numIdle && r.permits == w.permits && r.idle == w.idle
    ensures r.held == w.held && r.floating == w.floating && r.checkedOut == w.checkedOut
  {
    w.(closed := true)
  }

  /* ---------------------------------------------------------------------- */
  /* Closing idle connections                                                */

  /** `close`'s treatment of one idle connection as written: popped, floated
      with a fresh guard and closed, so the guard's drop returns a permit the
      idle connection never held, and `num_idle` is not decremented. */
  function CloseIdleAsWritten(w: World): (r: World)
    requires w.idle != [] && |w.idle| <= w.size
    ensures r.size == w.size - 1 && r.permits == w.permits + 1 && r.numIdle == w.numIdle && r.idle == w.idle[1..]
    ensures r.closed == w.closed
  {
    w.(idle := w.idle[1..], size := w.size - 1, permits := w.permits + 1)
  }

  /** Closing one idle connection so that the accounting holds: one fewer
      open and idle connection, no permit created. */
  function CloseIdle(w: World): (r: World)
    requires Valid(w) && w.idle != []
    ensures Valid(r)
    ensures r.size == w.size - 1 && r.permits == w.permits && r.numIdle == w.numIdle - 1 && r.idle == w.idle[1..]
    ensures r.closed == w.closed
  {
    w.(idle := w.idle[1..], size := w.size - 1, numIdle := w.numIdle - 1)
  }

  /** All idle connections closed as written: a permit gained for each. */
  function DrainIdleAsWritten(w: World): (r: World)
    requires |w.idle| <= w.size
    ensures r.idle == [] && r.size == w.size - |w.idle| && r.permits == w.permits + |w.idle|
    ensures r.numIdle == w.numIdle && r.max == w.max && r.checkedOut == w.checkedOut && r.closed == w.closed
    decreases |w.idle|
  {
    if w.idle == [] then w else DrainIdleAsWritten(CloseIdleAsWritten(w))
  }

  /** All idle connections closed with the accounting kept. */
  function DrainIdle(w: World): (r: World)
    requires Valid(w)
    ensures Valid(r) && r.idle == [] && r.size == w.size - |w.idle|
    ensures r.permits == w.permits && r.checkedOut == w.checkedOut && r.max == w.max && r.closed == w.closed
    decreases |w.idle|
  {
    if w.idle == [] then w else DrainIdle(CloseIdle(w))
  }

  /** How `close` ends: every round finished without waiting, or it waits
      in round k for permits that are not free. */
  datatype Closing = Finished(w: World) | Waits(w: World, round: nat)

  /** The rounds of `close` after draining: stop when nothing is open;
      otherwise round k needs k free permits at once (dropped right after),
      and waits when they are not there. */
  function Rounds(w: World, k: nat): (r: Closing)
    requires 1 <= k
    ensures r.w == w
    decreases w.max + 1 - k
  {
    if k > w.max then Finished(w)
    else if w.size == 0 then Finished(w)
    else if w.permits < k then Waits(w, k)
    else Rounds(w, k + 1)
  }

  /** `close`: mark closed, close the idle connections, then the rounds.
      Afterwards only the floating and checked-out connections are open, no
      permit has been created, and with none of them close finishes at
      once. */
  function Close(w: World): (r: Closing)
    requires Valid(w)
    ensures Valid(r.w) && r.w.closed && r.w.idle == []
    ensures r.w.size == w.floating + w.checkedOut && r.w.checkedOut == w.checkedOut && r.w.permits == w.permits
    ensures w.floating + w.checkedOut == 0 ==> r.Finished?
  {
    Rounds(DrainIdle(MarkClosed(w)), 1)
  }

  /** `close` as written: each idle connection closed adds a permit, and
      `num_idle` keeps its old value. */
  function CloseAsWritten(w: World): (r: Closing)
    requires Valid(w)
    ensures r.w.closed && r.w.idle == [] && r.w.checkedOut == w.checkedOut
    ensures r.w.size == w.size - |w.idle| && r.w.permits == w.permits + |w.idle| && r.w.numIdle == w.numIdle
  {
    Rounds(DrainIdleAsWritten(MarkClosed(w)), 1)
  }

  /** A world with no idle connection where something is still checked
      out: some round finds too few permits. */
  lemma {:induction false} RoundsWait(w: World, k: nat)
    requires Valid(w) && w.idle == [] && w.checkedOut > 0 && 1 <= k <= w.max
    ensures Rounds(w, k).Waits?
    decreases w.max + 1 - k
  {
    if k <= w.max && w.permits >= k {
      RoundsWait(w, k + 1);
    }
  }

  /** Enough free permits for every round: `close` finishes without
      waiting, whatever is still open. */
  lemma {:induction false} RoundsFinish(w: World, k: nat)
    requires 1 <= k && w.permits >= w.max
    ensures Rounds(w, k) == Finished(w)
    decreases w.max + 1 - k
  {
    if k <= w.max && w.size != 0 {
      RoundsFinish(w, k + 1);
    }
  }

  /** With the accounting kept, `close` does not finish while a connection
      is still checked out: it waits for it. */
  lemma {:induction false} CloseWaitsForCheckedOut(w: World)
    requires Valid(w) && w.checkedOut > 0
    ensures Close(w).Waits?
  {
    RoundsWait(DrainIdle(MarkClosed(w)), 1);
  }

  /** As written, a pool with at least as many idle connections as
      checked-out ones (and no caller mid-acquire) gets back every permit
      while draining, so its `close` finishes every round without waiting
      although the checked-out connections are still open: with a maximum
      of two, one idle and one checked-out connection are enough. */
  lemma {:induction false} CloseAsWrittenFinishesEarly(w: World)
    requires Valid(w) && w.held == 0 && w.floating == 0 && 0 < w.checkedOut <= |w.idle|
    ensures CloseAsWritten(w).Finished?
    ensures CloseAsWritten(w).w.size == w.checkedOut > 0
  {
    var d := DrainIdleAsWritten(MarkClosed(w));
    assert d.permits >= d.max;
    RoundsFinish(d, 1);
  }

  /* ---------------------------------------------------------------------- */
  /* Runs                                                                    */

  /** The transitions, each applied only where its caller could make it. */
  datatype Op =
    | TakePermitOp | DropPermitOp | PopIdleOp | TryIncrementOp | ConnectOp(connected: bool)
    | ReleaseOp(c: Conn) | ReattachOp | FloatOp | ReturnToPoolOp(c: Conn) | ReturnLiveOp(live: Option<Conn>)
    | TryAcquireOp | PoolTryAcquireOp | MarkClosedOp | CloseIdleOp

  function Step(w: World, op: Op): (r: World)
    requires Valid(w)
  {
    match op
    case TakePermitOp => TakePermit(w).GetOr(w)
    case DropPermitOp => if w.held > 0 then DropPermit(w) else w
    case PopIdleOp => if w.held > 0 then PopIdle(w).0 else w
    case TryIncrementOp => if w.held > 0 then TryIncrementSize(w).0 else w
    case ConnectOp(ok) => if w.floating > 0 then Connect(w, ok).0 else w
    case ReleaseOp(c) => if w.floating > 0 then Release(w, c).w else w
    case ReattachOp => if w.floating > 0 then Reattach(w) else w
    case FloatOp => if w.checkedOut > 0 then Float(w) else w
    case ReturnToPoolOp(c) => if w.floating > 0 then ReturnToPool(w, c).0.w else w
    case ReturnLiveOp(live) => if live.None? || w.checkedOut > 0 then ReturnLive(w, live) else w
    case TryAcquireOp => TryAcquire(w).0
    case PoolTryAcquireOp => PoolTryAcquire(w).0
    case MarkClosedOp => MarkClosed(w)
    case CloseIdleOp => if w.idle != [] then CloseIdle(w) else w
  }

  /** The state a sequence of transitions reaches, or None when the
      accounting broke on the way. */
  function Run(w: World, ops: seq<Op>): (r: Option<World>)
    decreases |ops|
  {
    if !Valid(w) then None
    else if ops == [] then Some(w)
    else Run(Step(w, ops[0]), ops[1..])
  }

  /** Every sequence of transitions from a pool whose accounting holds (a
      new pool, say) keeps the accounting:
      the size never exceeds the maximum, the idle counter matches the
      queue, and the queue never overflows. */
  lemma {:induction false} RunKeepsAccounting(w: World, ops: seq<Op>)
    requires Valid(w)
    ensures Run(w, ops).Some?
    ensures Valid(Run(w, ops).value) && Run(w, ops).value.size <= w.max && Run(w, ops).value.max == w.max
    ensures |Run(w, ops).value.idle| <= w.max
    decreases |ops|
  {
    if ops != [] {
      var w1 := Step(w, ops[0]);
      StepKeeps(w, ops[0]);
      RunKeepsAccounting(w1, ops[1..]);
    }
  }

  lemma {:induction false} StepKeeps(w: World, op: Op)
    requires Valid(w)
    ensures Valid(Step(w, op)) && Step(w, op).max == w.max
  {
  }
}

=== FILE: query.dfy ===
/** `Query` and its helpers (crates/musq/src/query.rs): a SQL text or a
    prepared statement, optional arguments, and a taint flag that records
    whether raw SQL went into it; and `quote_identifier`. */
module Query {

  import opened Wrappers
  import Errors
  import Arguments
  import Rows
  import SqlValue
  import CodecErrors

  type Error = Errors.Error

  /** A prepared statement; only its SQL text matters here. */
  datatype Statement = Statement(sql: string)

  datatype Query = Query(statement: Either<string, Statement>, arguments: Option<Arguments.Arguments>, tainted: bool)

  /** `Execute::sql`: the text, or the prepared statement's text. */
  function Sql(q: Query): (r: string)
    ensures q.statement == Left(r) || q.statement == Right(Statement(r))
  {
    match q.statement
    case Left(sql) => sql
    case Right(st) => st.sql
  }

  /** `query(sql)`: untainted, with empty arguments present. */
  function New(sql: string): (q: Query)
    ensures Sql(q) == sql && q.arguments == Some(Arguments.EMPTY) && !q.tainted
  {
    Query(Left(sql), Some(Arguments.EMPTY), false)
  }

  /** `query_with(sql, arguments)`. */
  function With(sql: string, args: Arguments.Arguments): (q: Query)
    ensures Sql(q) == sql && q.arguments == Some(args) && !q.tainted
  {
    Query(Left(sql), Some(args), false)
  }

  /** `query_statement` and `query_statement_with`. */
  function FromStatement(st: Statement, args: Arguments.Arguments): (q: Query)
    ensures Sql(q) == st.sql && q.arguments == Some(args) && !q.tainted
  {
    Query(Right(st), Some(args), false)
  }

  /** `try_bind`: the encoded value is added to the arguments when there are
      any; a query without arguments ignores it. */
  function TryBind(q: Query, encoded: Result<SqlValue.Value, CodecErrors.EncodeError>): (r: Result<Query, Error>)
    ensures q.arguments.None? ==> r == Ok(q)
    ensures q.arguments.Some? && encoded.Err? ==> r == Err(Errors.Encode(encoded.error))
    ensures q.arguments.Some? && encoded.Ok? ==>
      r.Ok? && r.value.arguments.Some? &&
      r.value.arguments.value.values == q.arguments.value.values + [encoded.value] &&
      r.value.arguments.value.named == q.arguments.value.named
    ensures r.Ok? ==> r.value.statement == q.statement && r.value.tainted == q.tainted
  {
    match q.arguments
    case None => Ok(q)
    case Some(args) =>
      match Arguments.Add(args, encoded)
      case Ok(args') => Ok(Query(q.statement, Some(args'), q.tainted))
      case Err(e) => Err(e)
  }

  /** `try_bind_named`: delegates to `add_named` when there are arguments. */
  function TryBindNamed(q: Query, name: string, encoded: Result<SqlValue.Value, CodecErrors.EncodeError>): (r: Result<Query, Error>)
    requires q.arguments.Some? ==> Arguments.Valid(q.arguments.value)
    ensures q.arguments.None? ==> r == Ok(q)
    ensures q.arguments.Some? ==> r.Ok? == encoded.Ok?
    ensures q.arguments.Some? && encoded.Ok? ==>
      r.value == Query(q.statement, Some(Arguments.Register(q.arguments.value, Arguments.StripPrefixes(name), encoded.value)), q.tainted)
    ensures q.arguments.Some? && encoded.Err? ==> r == Err(Errors.Encode(encoded.error))
  {
    match q.arguments
    case None => Ok(q)
    case Some(args) =>
      match Arguments.AddNamed(args, name, encoded)
      case Ok(args') => Ok(Query(q.statement, Some(args'), q.tainted))
      case Err(e) => Err(e)
  }

  /** Binding to `query(sql)` in turn gives exactly the bound values, in
      order. */
  lemma {:induction false} BindAll(sql: string, vs: seq<SqlValue.Value>)
    ensures BindEach(New(sql), vs).Ok?
    ensures BindEach(New(sql), vs).value.arguments == Some(Arguments.Arguments(vs, map[]))
    ensures Sql(BindEach(New(sql), vs).value) == sql && !BindEach(New(sql), vs).value.tainted
    decreases |vs|
  {
    if vs != [] {
      BindAll(sql, vs[..|vs| - 1]);
      assert vs[..|vs| - 1] + [vs[|vs| - 1]] == vs;
    }
  }

  /** `try_bind` once per value, stopping at the first failure. */
  function BindEach(q: Query, vs: seq<SqlValue.Value>): Result<Query, Error>
    decreases |vs|
  {
    if vs == [] then Ok(q)
    else
      match BindEach(q, vs[..|vs| - 1])
      case Err(e) => Err(e)
      case Ok(q') => TryBind(q', Ok(vs[|vs| - 1]))
  }

  /* ---------------------------------------------------------------------- */
  /* `quote_identifier`                                                      */

  /** Every `"` doubled. */
  function Escape(s: string): (r: string)
    ensures |r| >= |s|
  {
    if s == [] then []
    else (if s[0] == '"' then "\"\"" else [s[0]]) + Escape(s[1..])
  }

  /** `quote_identifier`: the escaped text between double quotes. */
  function QuoteIdentifier(ident: string): (r: string)
    ensures |r| >= 2 && r[0] == '"' && r[|r| - 1] == '"'
  {
    "\"" + Escape(ident) + "\""
  }

  /** Reading an escaped text back: a `"` must be doubled. */
  function Unescape(t: string): (r: Option<string>)
    decreases |t|
  {
    if t == [] then Some([])
    else if t[0] == '"' then
      if |t| >= 2 && t[1] == '"' then
        match Unescape(t[2..])
        case Some(s) => Some("\"" + s)
        case None => None
      else None
    else
      match Unescape(t[1..])
      case Some(s) => Some([t[0]] + s)
      case None => None
  }

  /** Reading a quoted identifier back. */
  function Unquote(t: string): Option<string> {
    if |t| >= 2 && t[0] == '"' && t[|t| - 1] == '"' then Unescape(t[1..|t| - 1]) else None
  }

  lemma {:induction false} UnescapeEscape(s: string)
    ensures Unescape(Escape(s)) == Some(s)
    decreases |s|
  {
    if s != [] {
      UnescapeEscape(s[1..]);
      var t := Escape(s);
      if s[0] == '"' {
        assert t[2..] == Escape(s[1..]);
      } else {
        assert t[1..] == Escape(s[1..]);
      }
      assert s == [s[0]] + s[1..];
    }
  }

  lemma {:induction false} EscapeUnescape(t: string)
    requires Unescape(t).Some?
    ensures Escape(Unescape(t).value) == t
    decreases |t|
  {
    if t != [] {
      var s := Unescape(t).value;
      if t[0] == '"' {
        EscapeUnescape(t[2..]);
        assert s[1..] == Unescape(t[2..]).value;
        assert t == t[..2] + t[2..];
      } else {
        EscapeUnescape(t[1..]);
        assert s[1..] == Unescape(t[1..]).value;
        assert t == [t[0]] + t[1..];
      }
    }
  }

  /** A quoted identifier reads back as the identifier. */
  lemma {:induction false} UnquoteQuote(ident: string)
    ensures Unquote(QuoteIdentifier(ident)) == Some(ident)
  {
    var q := QuoteIdentifier(ident);
    assert q[1..|q| - 1] == Escape(ident);
    UnescapeEscape(ident);
  }

  /** Only a text `quote_identifier` can produce reads back at all, so
      quoting is injective and unambiguous. */
  lemma {:induction false} QuoteUnquote(t: string)
    requires Unquote(t).Some?
    ensures QuoteIdentifier(Unquote(t).value) == t
  {
    var inner := t[1..|t| - 1];
    var u := Unescape(inner).value;
    EscapeUnescape(inner);
    var r := QuoteIdentifier(u);
    assert r == "\"" + inner + "\"";
    forall i | 0 <= i < |t|
      ensures r[i] == t[i]
    {
      if 0 < i < |t| - 1 {
        assert r[i] == inner[i - 1];
      }
    }
  }

  lemma {:induction false} EscapeAppend(a: string, b: string)
    ensures Escape(a + b) == Escape(a) + Escape(b)
    decreases |a|
  {
    if a == [] {
      assert a + b == b;
    } else {
      assert (a + b)[1..] == a[1..] + b;
      EscapeAppend(a[1..], b);
    }
  }

  lemma {:induction false} EscapeNoQuote(s: string)
    requires forall i :: 0 <= i < |s| ==> s[i] != '"'
    ensures Escape(s) == s
    decreases |s|
  {
    if s != [] {
      EscapeNoQuote(s[1..]);
    }
  }

  /* ---------------------------------------------------------------------- */
  /* `Map` results                                                           */

  /** `Map::fetch_optional`: the mapper applied to the row, if any; its
      error is returned. */
  function MapFetchOptional<O>(row: Result<Option<Rows.Row>, Error>, mapper: Rows.Row -> Result<O, Error>): (r: Result<Option<O>, Error>)
    ensures row.Err? ==> r == Err(row.error)
    ensures row == Ok(None) ==> r == Ok(None)
    ensures row.Ok? && row.value.Some? ==>
      (r.Ok? <==> mapper(row.value.value).Ok?) &&
      (r.Ok? ==> r.value == Some(mapper(row.value.value).value))
  {
    match row
    case Err(e) => Err(e)
    case Ok(None) => Ok(None)
    case Ok(Some(x)) =>
      match mapper(x)
      case Ok(o) => Ok(Some(o))
      case Err(e) => Err(e)
  }

  /** `Map::fetch_one`: a missing row is RowNotFound. */
  function MapFetchOne<O>(row: Result<Option<Rows.Row>, Error>, mapper: Rows.Row -> Result<O, Error>): (r: Result<O, Error>)
    ensures r.Ok? <==> MapFetchOptional(row, mapper).Ok? && MapFetchOptional(row, mapper).value.Some?
    ensures MapFetchOptional(row, mapper) == Ok(None) ==> r == Err(Errors.RowNotFound)
    ensures r.Ok? ==> MapFetchOptional(row, mapper) == Ok(Some(r.value))
  {
    match MapFetchOptional(row, mapper)
    case Ok(Some(o)) => Ok(o)
    case Ok(None) => Err(Errors.RowNotFound)
    case Err(e) => Err(e)
  }

  /** RowNotFound comes back exactly when there was no row, or when the
      mapper or the query itself failed with it. */
  lemma {:induction false} MapFetchOneNotFound<O>(row: Result<Option<Rows.Row>, Error>, mapper: Rows.Row -> Result<O, Error>)
    ensures MapFetchOne(row, mapper) == Err(Errors.RowNotFound) <==>
      row == Ok(None) || row == Err(Errors.RowNotFound) ||
      (row.Ok? && row.value.Some? && mapper(row.value.value) == Err(Errors.RowNotFound))
  {
  }
}

=== FILE: query_builder.dfy ===
/** `QueryBuilder` (crates/musq/src/query_builder.rs): SQL text, arguments
    and a taint flag assembled piece by piece. Only `push_raw` taints, and
    nothing clears the flag afterwards. */
module QueryBuilder {

  import opened Wrappers
  import Arguments
  import SqlValue
  import CodecErrors
  import Query
  import Text

  type Encoded = Result<SqlValue.Value, CodecErrors.EncodeError>

  datatype Builder = Builder(sql: string, args: Arguments.Arguments, tainted: bool)

  /** The arguments keep their slot bookkeeping consistent. */
  predicate Valid(b: Builder) {
    Arguments.Valid(b.args)
  }

  /** `QueryBuilder::new`. */
  function New(): (b: Builder)
    ensures Valid(b) && b.sql == [] && !b.tainted && b.args.values == [] && b.args.named == map[]
  {
    Builder([], Arguments.EMPTY, false)
  }

  /** `QueryBuilder::from_query`: the query's SQL, its arguments or none, and
      its taint flag. */
  function FromQuery(q: Query.Query): (b: Builder)
    ensures b.sql == Query.Sql(q) && b.tainted == q.tainted
    ensures b.args == q.arguments.GetOr(Arguments.EMPTY)
  {
    Builder(Query.Sql(q), q.arguments.GetOr(Arguments.EMPTY), q.tainted)
  }

  /** `Query::into_builder`, through `from_parts` with the same three parts. */
  function IntoBuilder(q: Query.Query): (b: Builder)
    ensures b == FromQuery(q)
  {
    Builder(Query.Sql(q), if q.arguments.Some? then q.arguments.value else Arguments.EMPTY, q.tainted)
  }

  /** `push_sql`: appended verbatim; the taint flag is left alone. */
  function PushSql(b: Builder, s: string): (r: Builder)
    ensures r.sql == b.sql + s && r.args == b.args && r.tainted == b.tainted
  {
    Builder(b.sql + s, b.args, b.tainted)
  }

  /** `push_raw`: appended, and the builder is tainted. */
  function PushRaw(b: Builder, s: string): (r: Builder)
    ensures r.sql == b.sql + s && r.args == b.args && r.tainted
  {
    Builder(b.sql + s, b.args, true)
  }

  /** The character loop of `push_identifier`: each `"` is pushed twice,
      every other character once. */
  function PushChars(sql: string, ident: string): (r: string)
    decreases |ident|
  {
    if ident == [] then sql
    else PushChars(sql + (if ident[0] == '"' then "\"\"" else [ident[0]]), ident[1..])
  }

  /** The loop appends exactly the escaped identifier. */
  lemma {:induction false} PushCharsEscapes(sql: string, ident: string)
    ensures PushChars(sql, ident) == sql + Query.Escape(ident)
    decreases |ident|
  {
    if ident != [] {
      var piece := if ident[0] == '"' then "\"\"" else [ident[0]];
      PushCharsEscapes(sql + piece, ident[1..]);
      assert Query.Escape(ident) == piece + Query.Escape(ident[1..]);
      assert sql + piece + Query.Escape(ident[1..]) == sql + (piece + Query.Escape(ident[1..]));
    }
  }

  /** `push_identifier`: an opening quote, the loop, a closing quote. */
  function PushIdentifier(b: Builder, ident: string): (r: Builder)
    ensures r.sql == b.sql + Query.QuoteIdentifier(ident)
    ensures r.args == b.args && r.tainted == b.tainted
  {
    PushCharsEscapes(b.sql + "\"", ident);
    assert b.sql + "\"" + Query.Escape(ident) + "\"" == b.sql + ("\"" + Query.Escape(ident) + "\"");
    Builder(PushChars(b.sql + "\"", ident) + "\"", b.args, b.tainted)
  }

  /** The quoted form of each identifier. */
  function Quoted(idents: seq<string>): (qs: seq<string>)
    ensures |qs| == |idents|
    ensures forall i :: 0 <= i < |idents| ==> qs[i] == Query.QuoteIdentifier(idents[i])
  {
    seq(|idents|, i requires 0 <= i < |idents| => Query.QuoteIdentifier(idents[i]))
  }

  /** `push_idents`: each identifier quoted, with `", "` after every one that
      has a successor. */
  function PushIdents(b: Builder, idents: seq<string>): (r: Builder)
    ensures r.args == b.args && r.tainted == b.tainted
    decreases |idents|
  {
    if idents == [] then b
    else
      var b' := PushIdentifier(b, idents[0]);
      if |idents| > 1 then PushIdents(PushSql(b', ", "), idents[1..]) else b'
  }

  /** What `push_idents` appends is the quoted identifiers joined by `", "`:
      nothing for no identifiers, and no trailing separator. */
  lemma {:induction false} PushIdentsJoins(b: Builder, idents: seq<string>)
    ensures PushIdents(b, idents).sql == b.sql + Text.Join(Quoted(idents), ", ")
    decreases |idents|
  {
    if |idents| > 1 {
      var head := Query.QuoteIdentifier(idents[0]);
      var b' := PushSql(PushIdentifier(b, idents[0]), ", ");
      PushIdentsJoins(b', idents[1..]);
      var tail := Text.Join(Quoted(idents[1..]), ", ");
      assert Quoted(idents)[1..] == Quoted(idents[1..]);
      assert Text.Join(Quoted(idents), ", ") == head + ", " + tail;
      assert b'.sql == b.sql + head + ", ";
      assert b'.sql + tail == b.sql + (head + ", " + tail);
    }
  }

  /** `push_bind`: a `?`, and the value added; a failed encoding is dropped
      and adds nothing. */
  function PushBind(b: Builder, encoded: Encoded): (r: Builder)
    ensures r.sql == b.sql + "?" && r.tainted == b.tainted && r.args.named == b.args.named
    ensures encoded.Ok? ==> r.args.values == b.args.values + [encoded.value]
    ensures encoded.Err? ==> r.args == b.args
    ensures Valid(b) ==> Valid(r)
  {
    match Arguments.Add(b.args, encoded)
    case Ok(args) => Builder(b.sql + "?", args, b.tainted)
    case Err(_) => Builder(b.sql + "?", b.args, b.tainted)
  }

  /** `push_bind_named`: `:` and the name, and the value registered under the
      name; a failed encoding is dropped and registers nothing. */
  function PushBindNamed(b: Builder, name: string, encoded: Encoded): (r: Builder)
    requires Valid(b)
    ensures Valid(r) && r.tainted == b.tainted
    ensures r.sql == b.sql + ":" + name
    ensures encoded.Ok? ==> r.args == Arguments.Register(b.args, Arguments.StripPrefixes(name), encoded.value)
    ensures encoded.Err? ==> r.args == b.args
  {
    match Arguments.AddNamed(b.args, name, encoded)
    case Ok(args) => Builder(b.sql + ":" + name, args, b.tainted)
    case Err(_) => Builder(b.sql + ":" + name, b.args, b.tainted)
  }

  /** `push_values`: `push_bind` for each value, with `", "` after every one
      that has a successor. */
  function PushValues(b: Builder, vs: seq<Encoded>): (r: Builder)
    ensures r.tainted == b.tainted && r.args.named == b.args.named
    ensures Valid(b) ==> Valid(r)
    decreases |vs|
  {
    if vs == [] then b
    else
      var b' := PushBind(b, vs[0]);
      if |vs| > 1 then PushValues(PushSql(b', ", "), vs[1..]) else b'
  }

  /** The values that encoded, in order. */
  function Encodable(vs: seq<Encoded>): seq<SqlValue.Value>
    decreases |vs|
  {
    if vs == [] then []
    else (if vs[0].Ok? then [vs[0].value] else []) + Encodable(vs[1..])
  }

  /** `n` copies of `?`. */
  function Marks(n: nat): (ms: seq<string>)
    ensures |ms| == n && forall i :: 0 <= i < n ==> ms[i] == "?"
  {
    seq(n, i => "?")
  }

  /** `push_values` with n values appends n `?` joined by `", "`... */
  lemma {:induction false} PushValuesSql(b: Builder, vs: seq<Encoded>)
    ensures PushValues(b, vs).sql == b.sql + Text.Join(Marks(|vs|), ", ")
    decreases |vs|
  {
    if |vs| > 1 {
      var b' := PushSql(PushBind(b, vs[0]), ", ");
      PushValuesSql(b', vs[1..]);
      var tail := Text.Join(Marks(|vs| - 1), ", ");
      assert Marks(|vs|)[1..] == Marks(|vs| - 1);
      assert Text.Join(Marks(|vs|), ", ") == "?" + ", " + tail;
      assert b'.sql == b.sql + "?" + ", ";
      assert b'.sql + tail == b.sql + ("?" + ", " + tail);
    } else if |vs| == 1 {
      assert Text.Join(Marks(1), ", ") == "?";
    }
  }

  /** ... and adds the values that encoded, in order. */
  lemma {:induction false} PushValuesArgs(b: Builder, vs: seq<Encoded>)
    ensures PushValues(b, vs).args.values == b.args.values + Encodable(vs)
    decreases |vs|
  {
    if vs != [] {
      var b' := PushBind(b, vs[0]);
      var head := if vs[0].Ok? then [vs[0].value] else [];
      assert b'.args.values == b.args.values + head;
      assert Encodable(vs) == head + Encodable(vs[1..]);
      if |vs| > 1 {
        PushValuesArgs(PushSql(b', ", "), vs[1..]);
        assert b.args.values + head + Encodable(vs[1..]) == b.args.values + (head + Encodable(vs[1..]));
      } else {
        assert Encodable(vs[1..]) == [];
        assert head + [] == head;
      }
    }
  }

  /** `build`: `query_with` over the SQL and arguments, with the taint
      carried over. */
  function Build(b: Builder): (q: Query.Query)
    ensures Query.Sql(q) == b.sql && q.arguments == Some(b.args) && q.tainted == b.tainted
  {
    var q := Query.With(b.sql, b.args);
    Query.Query(q.statement, q.arguments, b.tainted)
  }

  /** Building and reopening a builder gives the same builder back. */
  lemma {:induction false} FromQueryBuild(b: Builder)
    ensures FromQuery(Build(b)) == b
  {
  }

  /** Reopening a text query that carries arguments and building it again
      gives the same query back. */
  lemma {:induction false} BuildFromQuery(q: Query.Query)
    requires q.statement.Left? && q.arguments.Some?
    ensures Build(FromQuery(q)) == q
  {
  }

  /* ---------------------------------------------------------------------- */
  /* Taint                                                                   */

  /** One builder call. */
  datatype Op =
    | PushSqlOp(sql: string)
    | PushRawOp(raw: string)
    | PushIdentifierOp(ident: string)
    | PushIdentsOp(idents: seq<string>)
    | PushBindOp(encoded: Encoded)
    | PushBindNamedOp(name: string, value: Encoded)
    | PushValuesOp(values: seq<Encoded>)

  function Apply(b: Builder, op: Op): (r: Builder)
    requires Valid(b)
    ensures Valid(r)
    ensures r.tainted == (b.tainted || op.PushRawOp?)
  {
    match op
    case PushSqlOp(s) => PushSql(b, s)
    case PushRawOp(s) => PushRaw(b, s)
    case PushIdentifierOp(s) => PushIdentifier(b, s)
    case PushIdentsOp(ss) => PushIdents(b, ss)
    case PushBindOp(v) => PushBind(b, v)
    case PushBindNamedOp(n, v) => PushBindNamed(b, n, v)
    case PushValuesOp(vs) => PushValues(b, vs)
  }

  /** The calls in order. */
  function Run(b: Builder, ops: seq<Op>): (r: Builder)
    requires Valid(b)
    ensures Valid(r)
    decreases |ops|
  {
    if ops == [] then b else Run(Apply(b, ops[0]), ops[1..])
  }

  /** A builder is tainted after a run exactly when it started tainted or
      one of the calls was `push_raw`: no call clears the flag. */
  lemma {:induction false} RunTaint(b: Builder, ops: seq<Op>)
    requires Valid(b)
    ensures Run(b, ops).tainted <==> b.tainted || exists i :: 0 <= i < |ops| && ops[i].PushRawOp?
    decreases |ops|
  {
    if ops != [] {
      RunTaint(Apply(b, ops[0]), ops[1..]);
      if exists i :: 0 <= i < |ops[1..]| && ops[1..][i].PushRawOp? {
        var i :| 0 <= i < |ops[1..]| && ops[1..][i].PushRawOp?;
        assert ops[i + 1].PushRawOp?;
      }
      if exists i :: 0 <= i < |ops| && ops[i].PushRawOp? {
        var i :| 0 <= i < |ops| && ops[i].PushRawOp?;
        if i > 0 {
          assert ops[1..][i - 1].PushRawOp?;
        }
      }
    }
  }

  /** A query built from a fresh builder is tainted exactly when some call
      was `push_raw`. */
  lemma {:induction false} BuiltTaint(ops: seq<Op>)
    ensures Build(Run(New(), ops)).tainted <==> exists i :: 0 <= i < |ops| && ops[i].PushRawOp?
  {
    RunTaint(New(), ops);
  }
}

=== FILE: row.dfy ===
/** `Row` (crates/musq/src/row.rs): the values of one result row, built from
    what the engine reports for each column, and the by-index and by-name
    accessors. */
module Rows {

  import opened Wrappers
  import opened Numeric
  import TypeInfo
  import opened SqlValue
  import opened CodecErrors
  import Errors
  import Utf8
  import Text

  type SqliteDataType = TypeInfo.SqliteDataType
  type Error = Errors.Error

  /** Column metadata: the name and the declared type. */
  datatype Column = Column(name: string, typeInfo: SqliteDataType)

  /** What the engine reports for one column of the current row: the storage
      class code of `sqlite3_column_type`, and the answers the accessors give
      (`column_int64`, the bit pattern of `column_double`, the bytes of
      `column_text`/`column_blob` with `column_bytes` as their length, and
      whether the text pointer is null). */
  datatype ColumnRead = ColumnRead(code: I32, int64: I64, bits: U64, bytes: seq<Byte>, textPtrNull: bool)

  /** A row: its values, its columns, and the name lookup table as the
      sequence of (name, index) pairs its iteration visits. */
  datatype Row = Row(values: seq<Value>, columns: seq<Column>, columnNames: seq<(string, nat)>)

  const NULL_TEXT_POINTER: string := "sqlite3_column_text returned null"

  /** The message of the error for invalid UTF-8 in TEXT column `i`. */
  function InvalidUtf8Message(i: nat, e: Utf8.Utf8Error): string {
    "invalid UTF-8 in TEXT column " + Text.Decimal(i) + ": " + Utf8.ErrorText(e)
  }

  /** A declared type of Null means "no declared type". */
  function DeclaredTypeInfo(declared: SqliteDataType): (t: Option<SqliteDataType>)
    ensures t.None? <==> declared == TypeInfo.Null
    ensures t.Some? ==> t.value == declared
  {
    if declared != TypeInfo.Null then Some(declared) else None
  }

  /** The value of column `i` of `Row::current`, or the error that aborts the row. */
  function ReadColumn(i: nat, read: ColumnRead, declared: SqliteDataType): (r: Result<Value, Error>)
    ensures r.Ok? ==> r.value.typeInfo == DeclaredTypeInfo(declared)
    ensures r.Ok? <==> (1 <= read.code <= 5 &&
      (read.code == TypeInfo.SQLITE_TEXT && |read.bytes| > 0 ==>
         !read.textPtrNull && Utf8.Decode(read.bytes).Some?))
    ensures r.Ok? ==> TypeInfo.FromCode(read.code) == Some(NaturalType(r.value))
    ensures r.Ok? && r.value.Integer? ==> r.value.int64 == read.int64
    ensures r.Ok? && r.value.Blob? ==> r.value.bytes == read.bytes
    ensures r.Ok? && r.value.Text? ==> Utf8.Encode(r.value.text) == read.bytes
    ensures !(1 <= read.code <= 5) ==> r == Err(Errors.UnknownColumnType(read.code))
  {
    var ti := DeclaredTypeInfo(declared);
    if read.code == TypeInfo.SQLITE_NULL then Ok(Null(ti))
    else if read.code == TypeInfo.SQLITE_INTEGER then Ok(Integer(read.int64, ti))
    else if read.code == TypeInfo.SQLITE_FLOAT then Ok(Double(read.bits, ti))
    else if read.code == TypeInfo.SQLITE_TEXT then
      if |read.bytes| == 0 then Ok(Text("", ti))
      else if read.textPtrNull then Err(Errors.Protocol(NULL_TEXT_POINTER))
      else
        match Utf8.Validate(read.bytes)
        case Some(e) =>
          Utf8.ValidateAgrees(read.bytes);
          Err(Errors.Decode(Conversion(InvalidUtf8Message(i, e))))
        case None =>
          Utf8.ValidateAgrees(read.bytes);
          Utf8.EncodeDecode(read.bytes);
          Ok(Text(Utf8.Decode(read.bytes).value, ti))
    else if read.code == TypeInfo.SQLITE_BLOB then Ok(Blob(read.bytes, ti))
    else Err(Errors.UnknownColumnType(read.code))
  }

  /** What each reported column reads as, in column order. */
  function ColumnOutcomes(reported: seq<ColumnRead>, columns: seq<Column>): (rs: seq<Result<Value, Error>>)
    requires |reported| <= |columns|
    ensures |rs| == |reported|
    ensures forall k :: 0 <= k < |reported| ==> rs[k] == ReadColumn(k, reported[k], columns[k].typeInfo)
  {
    seq(|reported|, k requires 0 <= k < |reported| => ReadColumn(k, reported[k], columns[k].typeInfo))
  }

  /** The values of the outcomes from `from` on, or the first error among
      them. */
  function Collect(rs: seq<Result<Value, Error>>, from: nat): (r: Result<seq<Value>, Error>)
    requires from <= |rs|
    ensures r.Ok? ==> |r.value| == |rs| - from && forall k :: from <= k < |rs| ==> rs[k] == Ok(r.value[k - from])
    ensures r.Ok? <==> forall k :: from <= k < |rs| ==> rs[k].Ok?
    ensures r.Err? ==> exists k :: from <= k < |rs| && rs[k] == Err(r.error) && forall j :: from <= j < k ==> rs[j].Ok?
    decreases |rs| - from
  {
    if from == |rs| then Ok([])
    else
      match rs[from]
      case Err(e) => Err(e)
      case Ok(v) =>
        match Collect(rs, from + 1)
        case Err(e) => Err(e)
        case Ok(rest) => Ok([v] + rest)
  }

  /** Columns `from` onwards, in column order; the first failing column decides. */
  function ReadColumns(reported: seq<ColumnRead>, columns: seq<Column>, from: nat): (r: Result<seq<Value>, Error>)
    requires |reported| <= |columns| && from <= |reported|
    ensures r.Ok? ==> |r.value| == |reported| - from
    ensures r.Ok? ==> forall k :: from <= k < |reported| ==>
      ReadColumn(k, reported[k], columns[k].typeInfo) == Ok(r.value[k - from])
    ensures r.Ok? <==> forall k :: from <= k < |reported| ==> ReadColumn(k, reported[k], columns[k].typeInfo).Ok?
    ensures r.Err? ==> exists k :: (from <= k < |reported| && ReadColumn(k, reported[k], columns[k].typeInfo) == Err(r.error) &&
      forall j :: from <= j < k ==> ReadColumn(j, reported[j], columns[j].typeInfo).Ok?)
  {
    Collect(ColumnOutcomes(reported, columns), from)
  }

  /** `Row::current`: the row at the statement's current position. */
  function Current(reported: seq<ColumnRead>, columns: seq<Column>, columnNames: seq<(string, nat)>): (r: Result<Row, Error>)
    requires |reported| <= |columns|
    ensures r.Ok? ==> |r.value.values| == |reported| && r.value.columns == columns && r.value.columnNames == columnNames
    ensures r.Ok? ==> forall k :: 0 <= k < |reported| ==> ReadColumn(k, reported[k], columns[k].typeInfo) == Ok(r.value.values[k])
    ensures r.Err? ==> exists k :: 0 <= k < |reported| && ReadColumn(k, reported[k], columns[k].typeInfo) == Err(r.error)
  {
    var values :- ReadColumns(reported, columns, 0);
    Ok(Row(values, columns, columnNames))
  }

  /** `Row::is_empty`: the row has no columns. */
  predicate IsEmpty(row: Row) {
    |row.columns| == 0
  }

  /** A row read from a statement with no columns holds no values, so every
      index lookup in it reports index out of bounds against a length of 0. */
  lemma {:induction false} EmptyRowRejectsEveryIndex<T>(reported: seq<ColumnRead>, columns: seq<Column>, names: seq<(string, nat)>, index: Usize, decode: Value -> Result<T, DecodeError>)
    requires |reported| <= |columns|
    requires Current(reported, columns, names).Ok? && IsEmpty(Current(reported, columns, names).value)
    ensures Current(reported, columns, names).value.values == []
    ensures GetValueIdx(Current(reported, columns, names).value, index, decode) == Err(Errors.ColumnIndexOutOfBounds(index, 0))
  {
  }

  /** The name the lookup table gives column `index`, if any: the first pair
      with that index in iteration order. */
  function NameOfIndex(names: seq<(string, nat)>, index: nat): (r: Option<string>)
    ensures r.Some? ==> (r.value, index) in names
    ensures r.None? ==> forall k :: 0 <= k < |names| ==> names[k].1 != index
  {
    if names == [] then None
    else if names[0].1 == index then Some(names[0].0)
    else NameOfIndex(names[1..], index)
  }

  /** The index the lookup table gives `name`, if any. */
  function IndexOfName(names: seq<(string, nat)>, name: string): (r: Option<nat>)
    ensures r.Some? ==> (name, r.value) in names
    ensures r.None? ==> forall k :: 0 <= k < |names| ==> names[k].0 != name
  {
    if names == [] then None
    else if names[0].0 == name then Some(names[0].1)
    else IndexOfName(names[1..], name)
  }

  /** `names` is an iteration order of the map `m` (the `HashMap` of column
      names the statement keeps): it lists every entry of `m` once and
      nothing else. */
  ghost predicate ListsExactly(names: seq<(string, nat)>, m: map<string, nat>) {
    (forall k :: 0 <= k < |names| ==> names[k].0 in m && m[names[k].0] == names[k].1) &&
    (forall key :: key in m ==> (key, m[key]) in names) &&
    (forall j, k :: 0 <= j < k < |names| ==> names[j].0 != names[k].0)
  }

  /** Looking a name up in an iteration order of the map finds what the map
      holds for it, whatever the order. */
  lemma {:induction false} LookupAgreesWithMap(names: seq<(string, nat)>, m: map<string, nat>, name: string)
    requires ListsExactly(names, m)
    ensures IndexOfName(names, name) == (if name in m then Some(m[name]) else None)
  {
    var r := IndexOfName(names, name);
    if name in m {
      assert (name, m[name]) in names;
    }
    if r.Some? {
      var k :| 0 <= k < |names| && names[k] == (name, r.value);
    }
  }

  /** `Row::get_value_idx`: the value at `index`, decoded by `decode`. */
  function GetValueIdx<T>(row: Row, index: Usize, decode: Value -> Result<T, DecodeError>): (r: Result<T, Error>)
    requires |row.values| <= USIZE_MAX
    ensures index >= |row.values| ==> r == Err(Errors.ColumnIndexOutOfBounds(index, |row.values|))
    ensures index < |row.values| && decode(row.values[index]).Ok? ==> r == Ok(decode(row.values[index]).value)
    ensures index < |row.values| && decode(row.values[index]).Err? ==>
      r == Err(Errors.ColumnDecode(Text.Decimal(index),
                                   NameOfIndex(row.columnNames, index).GetOr("unknown"),
                                   row.values[index], decode(row.values[index]).error))
  {
    if index >= |row.values| then Err(Errors.ColumnIndexOutOfBounds(index, |row.values|))
    else
      var value := row.values[index];
      match decode(value)
      case Ok(x) => Ok(x)
      case Err(source) =>
        Err(Errors.ColumnDecode(Text.Decimal(index), NameOfIndex(row.columnNames, index).GetOr("unknown"), value, source))
  }

  /** `Row::get_value`: look the name up, then decode by index. */
  function GetValue<T>(row: Row, column: string, decode: Value -> Result<T, DecodeError>): (r: Result<T, Error>)
    requires |row.values| <= USIZE_MAX
    requires forall k :: 0 <= k < |row.columnNames| ==> row.columnNames[k].1 <= USIZE_MAX
    ensures IndexOfName(row.columnNames, column).None? ==> r == Err(Errors.ColumnNotFound(column))
    ensures IndexOfName(row.columnNames, column).Some? ==>
      r == GetValueIdx(row, IndexOfName(row.columnNames, column).value, decode)
  {
    match IndexOfName(row.columnNames, column)
    case None => Err(Errors.ColumnNotFound(column))
    case Some(i) =>
      assert (column, i) in row.columnNames;
      GetValueIdx(row, i, decode)
  }

  /** `<Row as FromRow>::from_row`: a copy of the row, whatever the prefix. */
  function RowFromRow(prefix: string, row: Row): (r: Result<Row, Error>)
    ensures r == Ok(row)
  {
    Ok(row)
  }

  /** A row is built only when every column reported cleanly; in particular one
      TEXT column with ill-formed UTF-8 fails the whole row, and the error
      names the column. */
  lemma {:induction false} InvalidUtf8FailsRow(reported: seq<ColumnRead>, columns: seq<Column>, names: seq<(string, nat)>, i: nat, e: Utf8.Utf8Error)
    requires |reported| <= |columns| && i < |reported|
    requires reported[i].code == TypeInfo.SQLITE_TEXT && !reported[i].textPtrNull
    requires Utf8.Validate(reported[i].bytes) == Some(e)
    requires forall j :: 0 <= j < i ==> ReadColumn(j, reported[j], columns[j].typeInfo).Ok?
    ensures Current(reported, columns, names) ==
      Err(Errors.Decode(Conversion(InvalidUtf8Message(i, e))))
  {
    Utf8.ValidateAgrees(reported[i].bytes);
    assert reported[i].bytes != [];
    FirstErrorDecides(reported, columns, 0, i);
  }

  /** When every column before `i` reported cleanly and column `i` fails, the rows
      reading fails with column `i`'s error. */
  lemma {:induction false} FirstErrorDecides(reported: seq<ColumnRead>, columns: seq<Column>, from: nat, i: nat)
    requires |reported| <= |columns| && from <= i < |reported|
    requires forall j :: from <= j < i ==> ReadColumn(j, reported[j], columns[j].typeInfo).Ok?
    requires ReadColumn(i, reported[i], columns[i].typeInfo).Err?
    ensures ReadColumns(reported, columns, from) == Err(ReadColumn(i, reported[i], columns[i].typeInfo).error)
  {
    CollectFirstError(ColumnOutcomes(reported, columns), from, i);
  }

  lemma {:induction false} CollectFirstError(rs: seq<Result<Value, Error>>, from: nat, i: nat)
    requires from <= i < |rs|
    requires forall j :: from <= j < i ==> rs[j].Ok?
    requires rs[i].Err?
    ensures Collect(rs, from) == Err(rs[i].error)
    decreases i - from
  {
    if from < i {
      CollectFirstError(rs, from + 1, i);
    }
  }

  /** The declared type reaches every value read, as None exactly when the
      column is declared Null. */
  lemma {:induction false} CurrentCarriesDeclaredTypes(reported: seq<ColumnRead>, columns: seq<Column>, names: seq<(string, nat)>, k: nat)
    requires |reported| <= |columns| && k < |reported| && Current(reported, columns, names).Ok?
    ensures Current(reported, columns, names).value.values[k].typeInfo.None? <==> columns[k].typeInfo == TypeInfo.Null
  {
  }
}

=== FILE: savepoint_engine.dfy ===
/** The engine side of the transaction statements: SQLite's savepoint stack as
    described in "SAVEPOINT" of SQLite's SQL language documentation (section
    "Transaction Nesting" and the RELEASE and ROLLBACK TO semantics), over a
    single table whose contents are a sequence of integers.

    - SAVEPOINT pushes a savepoint remembering the current contents, starting
      a transaction when none is active;
    - RELEASE removes the most recent savepoint of that name and every one
      above it, committing when it was the outermost;
    - ROLLBACK TO restores the contents remembered by the most recent savepoint
      of that name and removes every savepoint above it, but not that one;
    - ROLLBACK restores the contents from before the transaction and ends it. */
module SavepointEngine {

  import opened Wrappers
  import SqliteCodes
  import Errors
  import Transaction

  type Error = Errors.Error
  type Sql = Transaction.Sql

  datatype Frame = Frame(name: string, saved: seq<int>)

  /** The table's rows and the savepoint stack, outermost first. The stack is
      empty exactly when no transaction is active. */
  datatype Engine = Engine(rows: seq<int>, stack: seq<Frame>)

  /** The position of the most recent savepoint called `name`. */
  function LastNamed(stack: seq<Frame>, name: string): (r: Option<nat>)
    ensures r.Some? ==> r.value < |stack| && stack[r.value].name == name
    ensures r.Some? ==> forall j :: r.value < j < |stack| ==> stack[j].name != name
    ensures r.None? ==> forall j :: 0 <= j < |stack| ==> stack[j].name != name
  {
    if stack == [] then None
    else if stack[|stack| - 1].name == name then Some(|stack| - 1)
    else LastNamed(stack[..|stack| - 1], name)
  }

  /** The position of a name is unchanged by pushing a differently named
      savepoint, and by cutting the stack above it. */
  lemma {:induction false} LastNamedPush(stack: seq<Frame>, f: Frame, name: string)
    requires f.name != name
    ensures LastNamed(stack + [f], name) == LastNamed(stack, name)
  {
    assert (stack + [f])[..|stack|] == stack;
  }

  lemma {:induction false} LastNamedCut(stack: seq<Frame>, n: nat, name: string)
    requires LastNamed(stack, name).Some? && LastNamed(stack, name).value < n <= |stack|
    ensures LastNamed(stack[..n], name) == LastNamed(stack, name)
    decreases |stack|
  {
    if n < |stack| {
      var k := |stack| - 1;
      assert stack[..k][..n] == stack[..n];
      LastNamedCut(stack[..k], n, name);
    } else {
      assert stack[..n] == stack;
    }
  }

  /** SQLITE_ERROR with the engine's message. */
  function SqlError(message: string): (e: Error)
    ensures e.Sqlite? && e.primary == SqliteCodes.Error && e.message == message
  {
    Errors.Sqlite(SqliteCodes.Error, SqliteCodes.ExtUnknown(1), message)
  }

  /** Executing one transaction statement. */
  function Apply(e: Engine, s: Sql): (r: Result<Engine, Error>)
    ensures s.Savepoint? ==> r == Ok(Engine(e.rows, e.stack + [Frame(s.name, e.rows)]))
    ensures s.Release? ==> (r.Ok? <==> LastNamed(e.stack, s.name).Some?)
    ensures s.RollbackTo? ==> (r.Ok? <==> LastNamed(e.stack, s.name).Some?)
    ensures s.RollbackAll? ==> (r.Ok? <==> e.stack != [])
  {
    match s
    case Savepoint(n) => Ok(Engine(e.rows, e.stack + [Frame(n, e.rows)]))
    case Release(n) =>
      (match LastNamed(e.stack, n)
       case None => Err(SqlError("no such savepoint: " + n))
       case Some(i) => Ok(Engine(e.rows, e.stack[..i])))
    case RollbackTo(n) =>
      (match LastNamed(e.stack, n)
       case None => Err(SqlError("no such savepoint: " + n))
       case Some(i) => Ok(Engine(e.stack[i].saved, e.stack[..i + 1])))
    case RollbackAll =>
      if e.stack == [] then Err(SqlError("cannot rollback - no transaction is active"))
      else Ok(Engine(e.stack[0].saved, []))
  }

  /** An INSERT of one row: outside a transaction it commits at once. */
  function Insert(e: Engine, v: int): (r: Engine)
    ensures r.rows == e.rows + [v] && r.stack == e.stack
  {
    Engine(e.rows + [v], e.stack)
  }

  /** ROLLBACK TO keeps the savepoint it rolled back to, so a RELEASE of the
      same name still finds it. */
  lemma {:induction false} RollbackToKeeps(e: Engine, name: string)
    requires LastNamed(e.stack, name).Some?
    ensures Apply(e, Transaction.RollbackTo(name)).Ok?
    ensures var after := Apply(e, Transaction.RollbackTo(name)).value;
      LastNamed(after.stack, name) == LastNamed(e.stack, name) &&
      after.rows == e.stack[LastNamed(e.stack, name).value].saved
  {
    var i := LastNamed(e.stack, name).value;
    LastNamedCut(e.stack, i + 1, name);
  }
}

=== FILE: sqlite_codes.dfy ===
/** Classification of SQLite result codes into the primary and extended error
    codes carried by a `SqliteError` (crates/musq/src/sqlite/error.rs). The numeric
    values are those of SQLite's C interface, section "Result and Error Codes"
    (an extended code is its primary code in the low byte plus a sub-code shifted
    left by 8 bits). */
module SqliteCodes {

  import opened Wrappers
  import opened Numeric

  /** Rust's `code as u32` on an `i32`: two's-complement reinterpretation. */
  function AsU32(code: I32): (u: nat)
    ensures u < 0x1_0000_0000
    ensures u % 0x1_0000_0000 == (code) % 0x1_0000_0000
    ensures 0 <= code ==> u == code
  {
    if code < 0 then code + 0x1_0000_0000 else code
  }

  /** Rust's `code & 255` on an `i32`: the low byte in two's complement, which is
      Dafny's Euclidean remainder. */
  function LowByte(code: I32): (b: int)
    ensures 0 <= b < 256
  {
    (code) % 256
  }

  const SQLITE_BUSY: int := 5
  const SQLITE_LOCKED: int := 6
  const SQLITE_MISUSE: int := 21
  const SQLITE_ROW: int := 100
  const SQLITE_DONE: int := 101
  const SQLITE_LOCKED_SHAREDCACHE: int := 262

  datatype PrimaryErrCode =
    | Error | Internal | Perm | Abort | Busy | Locked | NoMem | ReadOnly | Interrupt
    | IoErr | Corrupt | NotFound | Full | CantOpen | Protocol | Empty | Schema | TooBig
    | Constraint | Mismatch | Misuse | NoLfs | Auth | Format | Range | NotADB | Notice
    | Warning
    | PrimUnknown(raw: nat)

  /** The SQLite primary result code each named variant stands for. */
  function PrimaryCodeValue(p: PrimaryErrCode): int
    requires !p.PrimUnknown?
  {
    match p
    case Error => 1
    case Internal => 2
    case Perm => 3
    case Abort => 4
    case Busy => 5
    case Locked => 6
    case NoMem => 7
    case ReadOnly => 8
    case Interrupt => 9
    case IoErr => 10
    case Corrupt => 11
    case NotFound => 12
    case Full => 13
    case CantOpen => 14
    case Protocol => 15
    case Empty => 16
    case Schema => 17
    case TooBig => 18
    case Constraint => 19
    case Mismatch => 20
    case Misuse => 21
    case NoLfs => 22
    case Auth => 23
    case Format => 24
    case Range => 25
    case NotADB => 26
    case Notice => 27
    case Warning => 28
  }

  /** `PrimaryErrCode::from_code`: dispatch on the low byte of the raw code; an
      unrecognised low byte keeps the whole code, reinterpreted as unsigned. */
  function PrimaryFromCode(code: I32): (p: PrimaryErrCode)
    ensures p.PrimUnknown? <==> !(1 <= LowByte(code) <= 28)
    ensures !p.PrimUnknown? ==> PrimaryCodeValue(p) == LowByte(code)
    ensures p.PrimUnknown? ==> p.raw == AsU32(code)
  {
    var b := LowByte(code);
    if 1 <= b <= 14 then PrimaryLow(b)
    else if 15 <= b <= 28 then PrimaryHigh(b)
    else PrimUnknown(AsU32(code))
  }

  /** The named primary codes 1 to 14. */
  function PrimaryLow(b: int): (p: PrimaryErrCode)
    requires 1 <= b <= 14
    ensures !p.PrimUnknown? && PrimaryCodeValue(p) == b
  {
    match b
    case 1 => Error
    case 2 => Internal
    case 3 => Perm
    case 4 => Abort
    case 5 => Busy
    case 6 => Locked
    case 7 => NoMem
    case 8 => ReadOnly
    case 9 => Interrupt
    case 10 => IoErr
    case 11 => Corrupt
    case 12 => NotFound
    case 13 => Full
    case _ => CantOpen
  }

  /** The named primary codes 15 to 28. */
  function PrimaryHigh(b: int): (p: PrimaryErrCode)
    requires 15 <= b <= 28
    ensures !p.PrimUnknown? && PrimaryCodeValue(p) == b
  {
    match b
    case 15 => Protocol
    case 16 => Empty
    case 17 => Schema
    case 18 => TooBig
    case 19 => Constraint
    case 20 => Mismatch
    case 21 => Misuse
    case 22 => NoLfs
    case 23 => Auth
    case 24 => Format
    case 25 => Range
    case 26 => NotADB
    case 27 => Notice
    case _ => Warning
  }

  /** `ExtendedErrCode`: one of the library's named variants, identified by
      the SQLite extended result code it stands for (the variant names are
      given beside `NAMED_SUBCODES`), or Unknown with the code reinterpreted
      as unsigned. */
  datatype ExtendedErrCode = Named(code: int) | ExtUnknown(raw: nat)

  /** For each primary code, the first and last sub-code that
      `ExtendedErrCode` has a variant for: SQLite's extended code for sub-code
      n of primary code p is p + 256 n. Beside each entry, its variants in
      sub-code order. */
  const NAMED_SUBCODES: map<int, (int, int)> := map[
    0 := (1, 2),       // OkLoadPermanently, OkSymlink
    1 := (1, 3),       // ErrorMissingCollseq, ErrorRetry, ErrorSnapshot
    4 := (2, 2),       // AbortRollback
    5 := (1, 3),       // BusyRecovery, BusySnapshot, BusyTimeout
    6 := (1, 2),       // LockedSharedCache, LockedVTab
    8 := (1, 6),       // ReadOnlyRecovery, ReadOnlyCantLock, ReadOnlyRollback, ReadOnlyDbMoved, ReadOnlyCantInit
                       // ReadOnlyDirectory
    10 := (1, 33),     // IOErrRead, IOErrShortRead, IOErrWrite, IOErrFsync, IOErrDirFsync
                       // IOErrTruncate, IOErrFstat, IOErrUnlock, IOErrRdlock, IOErrDelete
                       // IOErrBlocked, IOErrNoMem, IOErrAccess, IOErrCheckReservedLock, IOErrLock
                       // IOErrClose, IOErrDirClose, IOErrShmopen, IOErrShmsize, IOErrShmlock
                       // IOErrShmmap, IOErrSeek, IOErrDeleteNoent, IOErrMmap, IOErrGetTempPath
                       // IOErrConvPath, IOErrVnode, IOErrAuth, IOErrBeginAtomic, IOErrCommitAtomic
                       // IOErrRollbackAtomic, IOErrData, IOErrCorruptFs
    11 := (1, 3),      // CorruptVTab, CorruptSequence, CorruptIndex
    14 := (1, 6),      // CantOpenNoTempDir, CantOpenIsDir, CantOpenFullPath, CantOpenConvPath, CantOpenDirtyWal
                       // CantOpenSymlink
    19 := (1, 12),     // ConstraintCheck, ConstraintCommitHook, ConstraintForeignKey, ConstraintFunction, ConstraintNotNull
                       // ConstraintPrimaryKey, ConstraintTrigger, ConstraintUnique, ConstraintVTab, ConstraintRowId
                       // ConstraintPinned, ConstraintDataType
    23 := (1, 1),      // AuthUser
    27 := (1, 2),      // NoticeRecoverWal, NoticeRecoverRollback
    28 := (1, 1)       // WarningAutoIndex
  ]

  /** The extended result codes `ExtendedErrCode` has a variant for. */
  predicate NamedExtended(code: I32) {
    && code > 0
    && LowByte(code) in NAMED_SUBCODES
    && NAMED_SUBCODES[LowByte(code)].0 <= code / 256 <= NAMED_SUBCODES[LowByte(code)].1
  }

  const SQLITE_BUSY_RECOVERY: int := 261
  const SQLITE_BUSY_SNAPSHOT: int := 517
  const SQLITE_BUSY_TIMEOUT: int := 773

  /** `ExtendedErrCode::LockedSharedCache`. */
  const LockedSharedCache: ExtendedErrCode := Named(SQLITE_LOCKED_SHAREDCACHE)

  /** `ExtendedErrCode::from_code`: each listed code is its own variant; any
      other code is kept, reinterpreted as unsigned. */
  function ExtendedFromCode(code: I32): (e: ExtendedErrCode)
    ensures e.Named? <==> NamedExtended(code)
    ensures e.Named? ==> e.code == code
    ensures e.ExtUnknown? ==> e.raw == AsU32(code)
  {
    if NamedExtended(code) then Named(code) else ExtUnknown(AsU32(code))
  }

  /** `ExtendedErrCode::is_busy`. */
  predicate ExtendedIsBusy(e: ExtendedErrCode) {
    e.Named? && e.code in {SQLITE_BUSY_RECOVERY, SQLITE_BUSY_SNAPSHOT, SQLITE_BUSY_TIMEOUT}
  }

  /** The busy extended codes are exactly the named extended codes whose low
      byte is SQLITE_BUSY. */
  lemma {:induction false} BusySubcodes(e: ExtendedErrCode)
    ensures ExtendedIsBusy(e) <==> e.Named? && I32_MIN <= e.code <= I32_MAX && NamedExtended(e.code) && LowByte(e.code) == SQLITE_BUSY
  {
  }

  /** A `SqliteError`: both codes and the engine's message. */
  datatype SqliteError = SqliteError(primary: PrimaryErrCode, extended: ExtendedErrCode, message: string)

  /** The code-derived part of `SqliteError::new`: both classifications are taken
      from the same extended result code; the message is the engine's. */
  function ErrorFromCode(code: I32, message: string): (e: SqliteError)
    ensures e.primary == PrimaryFromCode(code) && e.extended == ExtendedFromCode(code)
    ensures e.message == message
  {
    SqliteError(PrimaryFromCode(code), ExtendedFromCode(code), message)
  }

  /** The extended code is a named one and the primary code is the one it
      carries, as for every error the engine reports with a named code. */
  predicate CodesAgree(e: SqliteError) {
    && e.extended.Named?
    && I32_MIN <= e.extended.code <= I32_MAX
    && NamedExtended(e.extended.code)
    && e.primary == PrimaryFromCode(e.extended.code)
  }

  /** `SqliteError::is_busy`. A Busy primary code is enough; when the codes
      agree, the extended check adds nothing. */
  predicate IsBusy(e: SqliteError): (b: bool)
    ensures e.primary == Busy ==> b
    ensures CodesAgree(e) ==> (b <==> e.primary == Busy)
  {
    e.primary == Busy || ExtendedIsBusy(e.extended)
  }

  /** `SqliteError::should_retry`: every busy error is retried, and when the
      codes agree the error is retried exactly for a Busy or Locked primary
      code. */
  predicate ShouldRetry(e: SqliteError): (b: bool)
    ensures IsBusy(e) ==> b
    ensures CodesAgree(e) ==> (b <==> e.primary == Busy || e.primary == Locked)
  {
    e.primary == Locked || e.extended == LockedSharedCache || IsBusy(e)
  }

  /** Every named extended code is a positive `i32` that carries its primary
      code in the low byte: the busy ones classify as Busy, LockedSharedCache
      as Locked, and only the two OK codes have no named primary code. */
  lemma {:induction false} ExtendedCarriesPrimary(c: I32)
    requires NamedExtended(c)
    ensures 0 < c < 0x8000_0000
    ensures PrimaryFromCode(c).PrimUnknown? <==> LowByte(c) == 0
    ensures ExtendedIsBusy(Named(c)) ==> PrimaryFromCode(c) == Busy
    ensures Named(c) == LockedSharedCache ==> PrimaryFromCode(c) == Locked
  {
  }

  /** For an error built from one code, `is_busy` holds exactly when the low byte
      is SQLITE_BUSY. */
  lemma {:induction false} IsBusyIffLowByteBusy(code: I32, message: string)
    ensures IsBusy(ErrorFromCode(code, message)) <==> LowByte(code) == SQLITE_BUSY
  {
    var e := ErrorFromCode(code, message);
    if ExtendedIsBusy(e.extended) {
      ExtendedCarriesPrimary(e.extended.code);
    }
  }

  /** For an error built from one code, `should_retry` holds exactly when the low
      byte is SQLITE_BUSY or SQLITE_LOCKED. */
  lemma {:induction false} ShouldRetryIffBusyOrLocked(code: I32, message: string)
    ensures ShouldRetry(ErrorFromCode(code, message)) <==>
      LowByte(code) == SQLITE_BUSY || LowByte(code) == SQLITE_LOCKED
  {
    var e := ErrorFromCode(code, message);
    IsBusyIffLowByteBusy(code, message);
    if e.extended == LockedSharedCache {
      ExtendedCarriesPrimary(e.extended.code);
    }
  }
}

=== FILE: statement_cache.dfy ===
/** The prepared-statement cache of crates/musq/src/statement_cache.rs: a
    bounded LRU map from SQL text to a compound statement. The LRU map itself
    is a recency list, least recently used first: an insert or a lookup that
    touches a key moves it to the end, and whenever the list is longer than
    the capacity entries are evicted from the front. */
module StatementCache {

  import opened Wrappers
  import Errors
  import Compound

  type Error = Errors.Error

  const DEFAULT_CAPACITY: nat := 1024

  datatype Entry<V> = Entry(key: string, value: V)

  /** `entries` is in recency order, least recently used first. */
  datatype Cache<V> = Cache(entries: seq<Entry<V>>, capacity: nat)

  /** No key occurs twice. */
  predicate Distinct<V>(es: seq<Entry<V>>) {
    forall i, j :: 0 <= i < j < |es| ==> es[i].key != es[j].key
  }

  predicate Valid<V>(c: Cache<V>) {
    Distinct(c.entries) && |c.entries| <= c.capacity
  }

  function New<V>(capacity: nat): (c: Cache<V>)
    ensures Valid(c) && Len(c) == 0 && c.capacity == capacity
  {
    Cache([], capacity)
  }

  /** `len`: the number of cached statements. */
  function Len<V>(c: Cache<V>): nat {
    |c.entries|
  }

  /** The position of `k`, if it is cached. */
  function Find<V>(es: seq<Entry<V>>, k: string): (r: Option<nat>)
    ensures r.Some? ==> r.value < |es| && es[r.value].key == k
    ensures r.None? ==> forall i :: 0 <= i < |es| ==> es[i].key != k
  {
    if es == [] then None
    else if es[|es| - 1].key == k then Some(|es| - 1)
    else Find(es[..|es| - 1], k)
  }

  /** In a list without duplicates, `k` is found exactly where it is. */
  lemma {:induction false} FindUnique<V>(es: seq<Entry<V>>, k: string, i: nat)
    requires Distinct(es) && i < |es| && es[i].key == k
    ensures Find(es, k) == Some(i)
  {
  }

  function ContainsKey<V>(c: Cache<V>, k: string): bool {
    Find(c.entries, k).Some?
  }

  /** The size is zero exactly when no key is cached, and a valid cache never
      holds more than its capacity. */
  lemma {:induction false} LenMeaning<V>(c: Cache<V>)
    ensures Len(c) == 0 <==> forall k :: !ContainsKey(c, k)
    ensures Valid(c) ==> Len(c) <= c.capacity
  {
    if c.entries != [] {
      assert ContainsKey(c, c.entries[0].key);
    }
  }

  /** The cached value of `k`, without touching its recency. */
  function Peek<V>(c: Cache<V>, k: string): (r: Option<V>)
    ensures r.Some? <==> ContainsKey(c, k)
  {
    match Find(c.entries, k)
    case Some(i) => Some(c.entries[i].value)
    case None => None
  }

  /** The entries without the one at `i`. */
  function Without<V>(es: seq<Entry<V>>, i: nat): (r: seq<Entry<V>>)
    requires i < |es|
    ensures |r| == |es| - 1
    ensures forall j :: 0 <= j < i ==> r[j] == es[j]
    ensures forall j :: i <= j < |r| ==> r[j] == es[j + 1]
  {
    es[..i] + es[i + 1..]
  }

  /** `remove`: take `k` out, returning its value. */
  function Remove<V>(c: Cache<V>, k: string): (r: (Cache<V>, Option<V>))
    ensures r.1 == Peek(c, k) && r.0.capacity == c.capacity
    ensures r.1.None? ==> r.0 == c
    ensures r.1.Some? ==> Len(r.0) == Len(c) - 1
  {
    match Find(c.entries, k)
    case Some(i) => (Cache(Without(c.entries, i), c.capacity), Some(c.entries[i].value))
    case None => (c, None)
  }

  /** `remove_lru`: take out the least recently used entry. */
  function RemoveLru<V>(c: Cache<V>): (r: (Cache<V>, Option<V>))
    ensures c.entries == [] ==> r == (c, None)
    ensures c.entries != [] ==> r.1 == Some(c.entries[0].value) && r.0.entries == c.entries[1..]
    ensures r.0.capacity == c.capacity
  {
    if c.entries == [] then (c, None) else (Cache(c.entries[1..], c.capacity), Some(c.entries[0].value))
  }

  /** Eviction from the front until the capacity is respected. */
  function Trim<V>(es: seq<Entry<V>>, capacity: nat): (r: seq<Entry<V>>)
    ensures |r| <= capacity && |r| <= |es|
    ensures |es| <= capacity ==> r == es
    ensures r == es[|es| - |r|..]
  {
    if |es| <= capacity then es else es[|es| - capacity..]
  }

  /** The LRU map's own insert: the key goes to the most recently used end,
      replacing an earlier entry of the same key, and the excess is evicted. */
  function Put<V>(c: Cache<V>, k: string, v: V): (r: Cache<V>)
    ensures r.capacity == c.capacity
  {
    var es := match Find(c.entries, k)
      case Some(i) => Without(c.entries, i)
      case None => c.entries;
    Cache(Trim(es + [Entry(k, v)], c.capacity), c.capacity)
  }

  /** The cache's `insert`: a new key in a full cache first evicts the least
      recently used entry, an existing key is removed first; the evicted or
      replaced value is returned. */
  function Insert<V>(c: Cache<V>, k: string, v: V): (r: (Cache<V>, Option<V>))
    ensures r.0.capacity == c.capacity
  {
    if c.capacity == Len(c) && !ContainsKey(c, k) then
      var (c1, lru) := RemoveLru(c);
      (Put(c1, k, v), lru)
    else if ContainsKey(c, k) then
      var (c1, prev) := Remove(c, k);
      (Put(c1, k, v), prev)
    else (Put(c, k, v), None)
  }

  /** `get_mut`: the value of `k`, which becomes the most recently used. */
  function GetMut<V>(c: Cache<V>, k: string): (r: (Cache<V>, Option<V>))
    ensures r.1 == Peek(c, k) && r.0.capacity == c.capacity
    ensures r.1.None? ==> r.0 == c
  {
    match Find(c.entries, k)
    case Some(i) => (Cache(Without(c.entries, i) + [c.entries[i]], c.capacity), Some(c.entries[i].value))
    case None => (c, None)
  }

  function Clear<V>(c: Cache<V>): (r: Cache<V>)
    ensures Len(r) == 0 && r.capacity == c.capacity
  {
    Cache([], c.capacity)
  }

  /** Removing, evicting, trimming and appending keep the keys distinct. */
  lemma {:induction false} WithoutDistinct<V>(es: seq<Entry<V>>, i: nat)
    requires Distinct(es) && i < |es|
    ensures Distinct(Without(es, i))
    ensures forall j :: 0 <= j < |Without(es, i)| ==> Without(es, i)[j].key != es[i].key
  {
    var r := Without(es, i);
    forall a, b | 0 <= a < b < |r|
      ensures r[a].key != r[b].key
    {
      var a' := if a < i then a else a + 1;
      var b' := if b < i then b else b + 1;
      assert r[a] == es[a'] && r[b] == es[b'];
    }
  }

  lemma {:induction false} PutValid<V>(c: Cache<V>, k: string, v: V)
    requires Distinct(c.entries)
    ensures Valid(Put(c, k, v))
  {
    var es := match Find(c.entries, k)
      case Some(i) => Without(c.entries, i)
      case None => c.entries;
    if Find(c.entries, k).Some? {
      WithoutDistinct(c.entries, Find(c.entries, k).value);
    }
    AppendDistinct(es, Entry(k, v));
    SuffixDistinct(es + [Entry(k, v)], |es + [Entry(k, v)]| - |Trim(es + [Entry(k, v)], c.capacity)|);
  }

  /** Appending a key not yet present keeps the keys distinct. */
  lemma {:induction false} AppendDistinct<V>(es: seq<Entry<V>>, e: Entry<V>)
    requires Distinct(es)
    requires forall j :: 0 <= j < |es| ==> es[j].key != e.key
    ensures Distinct(es + [e])
  {
    var full := es + [e];
    forall a, b | 0 <= a < b < |full|
      ensures full[a].key != full[b].key
    {
      assert full[a] == es[a];
    }
  }

  /** A suffix of a list with distinct keys has distinct keys. */
  lemma {:induction false} SuffixDistinct<V>(es: seq<Entry<V>>, n: nat)
    requires Distinct(es) && n <= |es|
    ensures Distinct(es[n..])
  {
    var s := es[n..];
    forall a, b | 0 <= a < b < |s|
      ensures s[a].key != s[b].key
    {
      assert s[a] == es[n + a] && s[b] == es[n + b];
    }
  }

  /** `insert` keeps the cache valid: distinct keys and, for every capacity of
      at least one, no more entries than the capacity. */
  lemma {:induction false} InsertValid<V>(c: Cache<V>, k: string, v: V)
    requires Valid(c)
    ensures Valid(Insert(c, k, v).0)
  {
    if c.capacity == Len(c) && !ContainsKey(c, k) {
      if c.entries != [] {
        assert forall j :: 0 <= j < |c.entries| - 1 ==> c.entries[1..][j] == c.entries[j + 1];
      }
      PutValid(RemoveLru(c).0, k, v);
    } else if ContainsKey(c, k) {
      WithoutDistinct(c.entries, Find(c.entries, k).value);
      PutValid(Remove(c, k).0, k, v);
    } else {
      PutValid(c, k, v);
    }
  }

  /** After `insert`, the key holds the new value and is the most recently
      used entry, whenever the capacity is at least one. */
  lemma {:induction false} InsertThenPeek<V>(c: Cache<V>, k: string, v: V)
    requires Valid(c) && c.capacity >= 1
    ensures var r := Insert(c, k, v).0;
      r.entries != [] && r.entries[|r.entries| - 1] == Entry(k, v) && Peek(r, k) == Some(v)
  {
    InsertValid(c, k, v);
    var r := Insert(c, k, v).0;
    assert r.entries[|r.entries| - 1] == Entry(k, v);
    FindUnique(r.entries, k, |r.entries| - 1);
  }

  /** Inserting a cached key replaces it: the old value is returned and the
      length is unchanged. */
  lemma {:induction false} InsertExisting<V>(c: Cache<V>, k: string, v: V)
    requires Valid(c) && ContainsKey(c, k)
    ensures Insert(c, k, v).1 == Peek(c, k)
    ensures Len(Insert(c, k, v).0) == Len(c)
  {
  }

  /** Inserting a new key into a full cache evicts exactly the least recently
      used entry and keeps the length at the capacity. */
  lemma {:induction false} InsertEvictsLru<V>(c: Cache<V>, k: string, v: V)
    requires Valid(c) && c.capacity >= 1 && Len(c) == c.capacity && !ContainsKey(c, k)
    ensures Insert(c, k, v).1 == Some(c.entries[0].value)
    ensures Insert(c, k, v).0.entries == c.entries[1..] + [Entry(k, v)]
    ensures Len(Insert(c, k, v).0) == c.capacity
  {
  }

  /** Inserting a new key into a cache with room appends it and returns
      nothing. */
  lemma {:induction false} InsertAppends<V>(c: Cache<V>, k: string, v: V)
    requires Valid(c) && Len(c) < c.capacity && !ContainsKey(c, k)
    ensures Insert(c, k, v) == (Cache(c.entries + [Entry(k, v)], c.capacity), None)
  {
  }

  /** `get_mut` moves the key to the most recently used end and keeps the
      cache valid with the same length. */
  lemma {:induction false} GetMutTouches<V>(c: Cache<V>, k: string)
    requires Valid(c) && ContainsKey(c, k)
    ensures var r := GetMut(c, k).0;
      Valid(r) && Len(r) == Len(c) && r.entries[|r.entries| - 1].key == k
  {
    var i := Find(c.entries, k).value;
    WithoutDistinct(c.entries, i);
    var r := GetMut(c, k).0;
    assert forall j :: 0 <= j < |r.entries| - 1 ==> r.entries[j] == Without(c.entries, i)[j];
  }

  /** What `get` hands back: the statement, or an error; `None` when the
      final `unwrap` would find nothing, which happens only when the
      capacity is 0 and the new entry is evicted at once. */
  datatype Got = Got(cache: Cache<Compound.Compound>, statement: Option<Result<Compound.Compound, Error>>)

  /** The rewound statement `reset` leaves: no current index, same handles. */
  function Rewound(s: Compound.Compound): (r: Compound.Compound)
    ensures r.index.None? && r.statements == s.statements && r.tail == s.tail
  {
    Compound.Compound(None, s.tail, s.statements)
  }

  /** `get` as written: a missing query is parsed and inserted; a cached one
      is reset before use (`reset` answers `resetResult`), and a failed reset
      is returned as the error, the statement staying rewound in the cache.
      The final `unwrap` finding nothing is `None`. */
  function GetAsWritten(c: Cache<Compound.Compound>, query: string, resetResult: Result<(), Error>): (r: Got)
    ensures r.cache.capacity == c.capacity
  {
    var cached := ContainsKey(c, query);
    if !cached && Compound.New(query).Err? then Got(c, Some(Err(Compound.New(query).error)))
    else
      var c1 := if cached then c else Insert(c, query, Compound.New(query).value).0;
      var (c2, found) := GetMut(c1, query);
      if found.None? then Got(c2, None)
      else if !cached then Got(c2, Some(Ok(found.value)))
      else
        var s := Rewound(found.value);
        var c3 := Cache(c2.entries[..|c2.entries| - 1] + [Entry(query, s)], c2.capacity);
        match resetResult
        case Ok(_) => Got(c3, Some(Ok(s)))
        case Err(e) => Got(c3, Some(Err(e)))
  }

  /** `get` with the capacity-0 panic corrected: a cache that can hold
      nothing hands out the freshly compiled statement without keeping it;
      otherwise `get` as written. */
  function Get(c: Cache<Compound.Compound>, query: string, resetResult: Result<(), Error>): (r: Got)
    requires Valid(c)
    ensures r.cache.capacity == c.capacity && Valid(r.cache)
    ensures r.statement.Some?
    ensures GetAsWritten(c, query, resetResult).statement.Some? ==> r == GetAsWritten(c, query, resetResult)
  {
    if c.capacity == 0 && Compound.New(query).Ok? then
      GetAtCapacityZero(c, query, resetResult);
      Got(c, Some(Ok(Compound.New(query).value)))
    else if ContainsKey(c, query) then
      GetHit(c, query, resetResult);
      GetAsWritten(c, query, resetResult)
    else if c.capacity >= 1 then
      GetMiss(c, query, resetResult);
      GetAsWritten(c, query, resetResult)
    else
      GetAsWritten(c, query, resetResult)
  }

  /** A query that is not cached: when it parses, `get` returns its new
      statement and caches it, growing the cache by one unless it was full;
      when it does not, nothing is cached. */
  lemma {:induction false} GetMiss(c: Cache<Compound.Compound>, query: string, resetResult: Result<(), Error>)
    requires Valid(c) && c.capacity >= 1 && !ContainsKey(c, query)
    ensures Compound.New(query).Err? ==> GetAsWritten(c, query, resetResult) == Got(c, Some(Err(Compound.New(query).error)))
    ensures Compound.New(query).Ok? ==>
      var r := GetAsWritten(c, query, resetResult);
      r.statement == Some(Ok(Compound.New(query).value)) && Valid(r.cache) &&
      Peek(r.cache, query) == Some(Compound.New(query).value) &&
      Len(r.cache) == (if Len(c) == c.capacity then Len(c) else Len(c) + 1)
  {
    if Compound.New(query).Ok? {
      InsertThenGetMut(c, query, Compound.New(query).value);
    }
  }

  /** A new key inserted into a cache with room for one is then found by
      `get_mut` as the most recently used entry, holding its value; the
      cache grows by one unless it was full. */
  lemma {:induction false} InsertThenGetMut<V>(c: Cache<V>, k: string, v: V)
    requires Valid(c) && c.capacity >= 1 && !ContainsKey(c, k)
    ensures var (c2, found) := GetMut(Insert(c, k, v).0, k);
      found == Some(v) && Valid(c2) && Peek(c2, k) == Some(v) &&
      Len(c2) == (if Len(c) == c.capacity then Len(c) else Len(c) + 1)
  {
    InsertValid(c, k, v);
    InsertThenPeek(c, k, v);
    var c1 := Insert(c, k, v).0;
    GetMutTouches(c1, k);
    var c2 := GetMut(c1, k).0;
    FindUnique(c2.entries, k, |c2.entries| - 1);
    if Len(c) == c.capacity {
      InsertEvictsLru(c, k, v);
    } else {
      InsertAppends(c, k, v);
    }
  }

  /** A cached query: `get` returns the cached statement rewound, with the
      same handles, and does not grow the cache. */
  lemma {:induction false} GetHit(c: Cache<Compound.Compound>, query: string, resetResult: Result<(), Error>)
    requires Valid(c) && ContainsKey(c, query)
    ensures var r := GetAsWritten(c, query, resetResult);
      Valid(r.cache) && Len(r.cache) == Len(c) &&
      Peek(r.cache, query) == Some(Rewound(Peek(c, query).value)) &&
      (resetResult.Ok? ==> r.statement == Some(Ok(Rewound(Peek(c, query).value)))) &&
      (resetResult.Err? ==> r.statement == Some(Err(resetResult.error)))
  {
    GetMutTouches(c, query);
    var c2 := GetMut(c, query).0;
    var s := Rewound(Peek(c, query).value);
    var c3 := Cache(c2.entries[..|c2.entries| - 1] + [Entry(query, s)], c2.capacity);
    assert forall j :: 0 <= j < |c3.entries| - 1 ==> c3.entries[j] == c2.entries[j];
    assert Distinct(c3.entries);
    FindUnique(c3.entries, query, |c3.entries| - 1);
  }

  /** Asking twice for the same query gives the same statement both times:
      the second `get` only rewinds what the first cached. */
  lemma {:induction false} GetTwiceSameStatement(c: Cache<Compound.Compound>, query: string, reset1: Result<(), Error>, reset2: Result<(), Error>)
    requires Valid(c) && c.capacity >= 1 && Compound.New(query).Ok?
    ensures var first := Get(c, query, reset1);
      first.statement.Some? && first.statement.value.Ok? ==>
      var second := Get(first.cache, query, reset2);
      Len(second.cache) == Len(first.cache) &&
      (reset2.Ok? ==> second.statement == Some(Ok(Rewound(first.statement.value.value))))
  {
    var first := Get(c, query, reset1);
    if ContainsKey(c, query) {
      GetHit(c, query, reset1);
      GetHit(first.cache, query, reset2);
    } else {
      GetMiss(c, query, reset1);
      GetHit(first.cache, query, reset2);
    }
  }

  /** With capacity 0 a new entry is evicted as soon as it is inserted, so
      the `unwrap` in `get` finds nothing for a query that parses. */
  lemma {:induction false} GetAtCapacityZero(c: Cache<Compound.Compound>, query: string, resetResult: Result<(), Error>)
    requires Valid(c) && c.capacity == 0 && Compound.New(query).Ok?
    ensures GetAsWritten(c, query, resetResult).statement.None?
  {
  }
}

=== FILE: step.dfy ===
/** `StatementHandle::step` (crates/musq/src/sqlite/statement/handle.rs:178-244):
    one step of a prepared statement, with the wait-and-retry policy for a
    locked or busy database.

    The engine's answers are an oracle: the results of successive
    `sqlite3_step` calls, of successive unlock-notify waits, of successive
    `sqlite3_reset` calls, and the error the connection reports last. Running
    out of answers is an explicit outcome, which is what makes the inner
    reset loop, unbounded in the source, terminate here. */
module Step {

  import opened Wrappers
  import opened Numeric
  import SqliteCodes
  import Errors

  type Error = Errors.Error
  type SqliteError = SqliteCodes.SqliteError

  /** What the engine answers, in the order the loop asks. */
  datatype Oracle = Oracle(
    steps: seq<Result<I32, SqliteError>>,
    waits: seq<Option<Error>>,
    resets: seq<Option<SqliteError>>,
    lastError: SqliteError)

  /** The engine calls the loop makes, in order. */
  datatype Call = StepCall | WaitCall | ResetCall

  datatype Outcome =
    | Stepped(result: Result<bool, Error>, calls: seq<Call>)
    | MisusePanic(calls: seq<Call>)      // `SQLITE_MISUSE` panics
    | Exhausted(calls: seq<Call>)        // the oracle has no answer left

  /** The codes that make the loop wait and try again. */
  predicate Retryable(rc: int) {
    rc == SqliteCodes.SQLITE_LOCKED_SHAREDCACHE || rc == SqliteCodes.SQLITE_LOCKED || rc == SqliteCodes.SQLITE_BUSY
  }

  /** A failed reset after a wait is retried (after another wait) when the
      database is still locked or busy. */
  predicate ResetRetryable(e: SqliteError) {
    e.primary == SqliteCodes.Locked || e.primary == SqliteCodes.Busy || e.extended == SqliteCodes.LockedSharedCache
  }

  function CallsOf(o: Outcome): seq<Call> {
    match o
    case Stepped(_, calls) => calls
    case MisusePanic(calls) => calls
    case Exhausted(calls) => calls
  }

  /** Prefix a call to the trace of an outcome. */
  function Then(c: Call, o: Outcome): (r: Outcome)
    ensures CallsOf(r) == [c] + CallsOf(o)
    ensures r.Stepped? <==> o.Stepped?
    ensures r.Stepped? ==> r.result == o.result
    ensures r.MisusePanic? <==> o.MisusePanic?
  {
    match o
    case Stepped(res, calls) => Stepped(res, [c] + calls)
    case MisusePanic(calls) => MisusePanic([c] + calls)
    case Exhausted(calls) => Exhausted([c] + calls)
  }

  function CountSteps(calls: seq<Call>): nat {
    if calls == [] then 0 else (if calls[0] == StepCall then 1 else 0) + CountSteps(calls[1..])
  }

  lemma {:induction false} CountStepsAppend(a: seq<Call>, b: seq<Call>)
    ensures CountSteps(a + b) == CountSteps(a) + CountSteps(b)
  {
    if a != [] {
      assert (a + b)[1..] == a[1..] + b;
      CountStepsAppend(a[1..], b);
      assert (a + b)[0] == a[0];
    } else {
      assert a + b == b;
    }
  }

  /** Every step call but the first comes straight after a reset. */
  predicate StepsFollowResets(calls: seq<Call>) {
    forall i :: 0 < i < |calls| && calls[i] == StepCall ==> calls[i - 1] == ResetCall
  }

  /** The outer loop: step once more, having already used `attempts` waits. */
  function StepLoop(o: Oracle, maxRetries: nat, attempts: nat, s: nat, w: nat, r: nat): (out: Outcome)
    requires s <= |o.steps| && w <= |o.waits| && r <= |o.resets| && attempts <= maxRetries
    ensures CountSteps(CallsOf(out)) <= maxRetries - attempts + 1
    ensures |CallsOf(out)| > 0 ==> CallsOf(out)[0] == StepCall
    ensures StepsFollowResets(CallsOf(out))
    decreases |o.steps| - s, 0
  {
    if s == |o.steps| then Exhausted([])
    else
      match o.steps[s]
      case Err(e) => Stepped(Err(Errors.FromSqliteError(e)), [StepCall])
      case Ok(rc) =>
        if rc == SqliteCodes.SQLITE_ROW then Stepped(Ok(true), [StepCall])
        else if rc == SqliteCodes.SQLITE_DONE then Stepped(Ok(false), [StepCall])
        else if rc == SqliteCodes.SQLITE_MISUSE then MisusePanic([StepCall])
        else if Retryable(rc) then
          if attempts >= maxRetries then Stepped(Err(Errors.UnlockNotify), [StepCall])
          else
            var rest := WaitThenReset(o, maxRetries, attempts + 1, s + 1, w, r);
            var out := Then(StepCall, rest);
            CountStepsAppend([StepCall], CallsOf(rest));
            out
        else Stepped(Err(Errors.FromSqliteError(o.lastError)), [StepCall])
  }

  /** Wait for an unlock notification, then reset until the reset succeeds
      (waiting again while the database stays locked), then step again. */
  function WaitThenReset(o: Oracle, maxRetries: nat, attempts: nat, s: nat, w: nat, r: nat): (out: Outcome)
    requires s <= |o.steps| && w <= |o.waits| && r <= |o.resets| && attempts <= maxRetries
    ensures CountSteps(CallsOf(out)) <= maxRetries - attempts + 1
    ensures |CallsOf(out)| > 0 ==> CallsOf(out)[0] == WaitCall
    ensures StepsFollowResets(CallsOf(out))
    ensures forall i :: 0 <= i < |CallsOf(out)| && CallsOf(out)[i] == StepCall ==> i > 0
    decreases |o.steps| - s, |o.waits| - w + |o.resets| - r
  {
    if w == |o.waits| then Exhausted([])
    else if o.waits[w].Some? then Stepped(Err(o.waits[w].value), [WaitCall])
    else
      var rest := ResetLoop(o, maxRetries, attempts, s, w + 1, r);
      CountStepsAppend([WaitCall], CallsOf(rest));
      Then(WaitCall, rest)
  }

  function ResetLoop(o: Oracle, maxRetries: nat, attempts: nat, s: nat, w: nat, r: nat): (out: Outcome)
    requires s <= |o.steps| && w <= |o.waits| && r <= |o.resets| && attempts <= maxRetries
    ensures CountSteps(CallsOf(out)) <= maxRetries - attempts + 1
    ensures |CallsOf(out)| > 0 ==> CallsOf(out)[0] == ResetCall
    ensures StepsFollowResets(CallsOf(out))
    ensures forall i :: 0 <= i < |CallsOf(out)| && CallsOf(out)[i] == StepCall ==> i > 0
    decreases |o.steps| - s, |o.waits| - w + |o.resets| - r
  {
    if r == |o.resets| then Exhausted([])
    else
      match o.resets[r]
      case None =>
        var rest := StepLoop(o, maxRetries, attempts, s, w, r + 1);
        CountStepsAppend([ResetCall], CallsOf(rest));
        Then(ResetCall, rest)
      case Some(e) =>
        if ResetRetryable(e) then
          var rest := WaitThenReset(o, maxRetries, attempts, s, w, r + 1);
          CountStepsAppend([ResetCall], CallsOf(rest));
          Then(ResetCall, rest)
        else Stepped(Err(Errors.FromSqliteError(e)), [ResetCall])
  }

  /** `StatementHandle::step`: Ok(true) for a row, Ok(false) when done. */
  function Step(o: Oracle, maxRetries: nat): (out: Outcome)
    ensures CountSteps(CallsOf(out)) <= maxRetries + 1
    ensures StepsFollowResets(CallsOf(out))
    ensures |o.steps| > 0 && o.steps[0] == Ok(SqliteCodes.SQLITE_ROW) ==> out == Stepped(Ok(true), [StepCall])
    ensures |o.steps| > 0 && o.steps[0] == Ok(SqliteCodes.SQLITE_DONE) ==> out == Stepped(Ok(false), [StepCall])
    ensures |o.steps| > 0 && o.steps[0].Ok? && !Retryable(o.steps[0].value) &&
            o.steps[0].value !in {SqliteCodes.SQLITE_ROW, SqliteCodes.SQLITE_DONE, SqliteCodes.SQLITE_MISUSE} ==>
            out == Stepped(Err(Errors.FromSqliteError(o.lastError)), [StepCall])
  {
    StepLoop(o, maxRetries, 0, 0, 0, 0)
  }

  /** An oracle that keeps the database busy: every step is `code`, every
      wait and reset succeeds. */
  predicate AlwaysBusy(o: Oracle, code: int, n: nat) {
    |o.steps| >= n && |o.waits| >= n && |o.resets| >= n &&
    (forall i :: 0 <= i < n ==> o.steps[i] == Ok(code)) &&
    (forall i :: 0 <= i < n ==> o.waits[i].None?) &&
    (forall i :: 0 <= i < n ==> o.resets[i].None?)
  }

  /** With the database busy throughout, the loop gives up with UnlockNotify
      after exactly `maxRetries` waits, having stepped `maxRetries + 1`
      times. */
  lemma {:induction false} BusyGivesUp(o: Oracle, code: I32, maxRetries: nat, attempts: nat)
    requires Retryable(code) && attempts <= maxRetries
    requires AlwaysBusy(o, code, maxRetries + 1)
    ensures var out := StepLoop(o, maxRetries, attempts, attempts, attempts, attempts);
      out.Stepped? && out.result == Err(Errors.UnlockNotify) &&
      CountSteps(out.calls) == maxRetries - attempts + 1
    decreases maxRetries - attempts
  {
    if attempts < maxRetries {
      BusyGivesUp(o, code, maxRetries, attempts + 1);
      var next := StepLoop(o, maxRetries, attempts + 1, attempts + 1, attempts + 1, attempts + 1);
      var reset := ResetLoop(o, maxRetries, attempts + 1, attempts + 1, attempts + 1, attempts);
      assert reset == Then(ResetCall, next);
      CountStepsAppend([ResetCall], next.calls);
      var waited := WaitThenReset(o, maxRetries, attempts + 1, attempts + 1, attempts, attempts);
      assert waited == Then(WaitCall, reset);
      CountStepsAppend([WaitCall], reset.calls);
      CountStepsAppend([StepCall], waited.calls);
    }
  }

  /** A busy answer followed by a row: one wait, one reset, and the row. */
  lemma {:induction false} BusyThenRow(o: Oracle, maxRetries: nat)
    requires maxRetries >= 1 && |o.steps| >= 2 && |o.waits| >= 1 && |o.resets| >= 1
    requires o.steps[0] == Ok(SqliteCodes.SQLITE_BUSY) && o.steps[1] == Ok(SqliteCodes.SQLITE_ROW)
    requires o.waits[0].None? && o.resets[0].None?
    ensures Step(o, maxRetries) == Stepped(Ok(true), [StepCall, WaitCall, ResetCall, StepCall])
  {
    var row := StepLoop(o, maxRetries, 1, 1, 1, 1);
    assert row == Stepped(Ok(true), [StepCall]);
    var reset := ResetLoop(o, maxRetries, 1, 1, 1, 0);
    assert reset == Then(ResetCall, row);
    var waited := WaitThenReset(o, maxRetries, 1, 1, 0, 0);
    assert waited == Then(WaitCall, reset);
    assert Step(o, maxRetries) == Then(StepCall, waited);
  }

  /** `StatementHandle::column_name`: the engine's name for a column, or the
      connection's last error when the engine gives a null name. */
  function ColumnName(name: Option<string>, lastError: SqliteError): (r: Result<string, SqliteError>)
    ensures r.Ok? <==> name.Some?
    ensures r.Ok? ==> r.value == name.value
    ensures r.Err? ==> r.error == lastError
  {
    match name
    case Some(n) => Ok(n)
    case None => Err(lastError)
  }
}

=== FILE: text.dfy ===
/** String helpers shared by the parsers and renderers of the model: decimal
    numerals, ASCII case folding, substring search, joining, and Rust's
    `char::is_whitespace` / `str::trim`. */
module Text {

  predicate IsAsciiDigit(c: char) {
    '0' <= c <= '9'
  }

  predicate AllDigits(s: string) {
    forall i :: 0 <= i < |s| ==> IsAsciiDigit(s[i])
  }

  function DigitValue(c: char): (d: nat)
    requires IsAsciiDigit(c)
    ensures d < 10
  {
    c as int - '0' as int
  }

  function DigitChar(d: nat): (c: char)
    requires d < 10
    ensures IsAsciiDigit(c) && DigitValue(c) == d
  {
    ('0' as int + d) as char
  }

  /** The value of a string of decimal digits, most significant first. */
  function DigitsValue(s: string): nat
    requires AllDigits(s)
  {
    if s == [] then 0 else DigitsValue(s[..|s| - 1]) * 10 + DigitValue(s[|s| - 1])
  }

  /** Rust's `Display` for an unsigned integer: shortest decimal numeral. */
  function Decimal(n: nat): (s: string)
    ensures |s| >= 1 && AllDigits(s)
    ensures n > 0 ==> s[0] != '0'
    ensures n == 0 ==> s == "0"
    decreases n
  {
    if n < 10 then [DigitChar(n)] else Decimal(n / 10) + [DigitChar(n % 10)]
  }

  /** Reading back a rendered numeral gives the number. */
  lemma {:induction false} DigitsValueOfDecimal(n: nat)
    ensures DigitsValue(Decimal(n)) == n
    decreases n
  {
    var s := Decimal(n);
    if n >= 10 {
      DigitsValueOfDecimal(n / 10);
      assert s[..|s| - 1] == Decimal(n / 10);
    }
  }

  /** Distinct numbers render differently. */
  lemma {:induction false} DecimalInjective(m: nat, n: nat)
    requires Decimal(m) == Decimal(n)
    ensures m == n
  {
    DigitsValueOfDecimal(m);
    DigitsValueOfDecimal(n);
  }

  /** A numeral of k digits with no leading zero is at least 10^(k-1). */
  function Pow10(k: nat): (p: nat)
    ensures p >= 1
  {
    if k == 0 then 1 else 10 * Pow10(k - 1)
  }

  lemma {:induction false} DigitsValueBound(s: string)
    requires AllDigits(s)
    ensures DigitsValue(s) < Pow10(|s|)
    ensures |s| > 0 && s[0] != '0' ==> DigitsValue(s) >= Pow10(|s| - 1)
  {
    if s != [] {
      var init := s[..|s| - 1];
      assert AllDigits(init);
      DigitsValueBound(init);
      if |s| > 1 && s[0] != '0' {
        assert init[0] == s[0];
      }
    }
  }

  predicate StartsWith(s: string, prefix: string) {
    |prefix| <= |s| && s[..|prefix|] == prefix
  }

  /** `sub[j..]` matches `s` from position `i + j` on. */
  predicate MatchesFrom(s: string, sub: string, i: nat, j: nat)
    requires i + |sub| <= |s| && j <= |sub|
    decreases |sub| - j
  {
    j == |sub| || (s[i + j] == sub[j] && MatchesFrom(s, sub, i, j + 1))
  }

  /** Some window of `s` starting at `i` or later equals `sub`. */
  predicate ContainsFrom(s: string, sub: string, i: nat)
    decreases |s| - i
  {
    i + |sub| <= |s| && (MatchesFrom(s, sub, i, 0) || ContainsFrom(s, sub, i + 1))
  }

  /** `str::contains`. */
  predicate Contains(s: string, sub: string) {
    ContainsFrom(s, sub, 0)
  }

  /** `sub` occurs in `s` starting at position `i`. */
  predicate OccursAt(s: string, sub: string, i: int) {
    0 <= i && i + |sub| <= |s| && s[i..i + |sub|] == sub
  }

  lemma {:induction false} MatchesFromWindow(s: string, sub: string, i: nat, j: nat)
    requires i + |sub| <= |s| && j <= |sub|
    ensures MatchesFrom(s, sub, i, j) <==> s[i + j..i + |sub|] == sub[j..]
    decreases |sub| - j
  {
    if j < |sub| {
      MatchesFromWindow(s, sub, i, j + 1);
      assert s[i + j..i + |sub|] == [s[i + j]] + s[i + j + 1..i + |sub|];
      assert sub[j..] == [sub[j]] + sub[j + 1..];
    }
  }

  lemma {:induction false} ContainsFromWitness(s: string, sub: string, i: nat)
    ensures ContainsFrom(s, sub, i) <==> exists k :: i <= k && OccursAt(s, sub, k)
    decreases |s| - i
  {
    if i + |sub| <= |s| {
      MatchesFromWindow(s, sub, i, 0);
      ContainsFromWitness(s, sub, i + 1);
      if MatchesFrom(s, sub, i, 0) {
        assert OccursAt(s, sub, i);
      }
      if exists k :: i <= k && OccursAt(s, sub, k) {
        var k :| i <= k && OccursAt(s, sub, k);
        if k > i {
          assert i + 1 <= k;
        }
      }
    }
  }

  /** `Contains` means exactly that `sub` occurs somewhere in `s`. */
  lemma {:induction false} ContainsWitness(s: string, sub: string)
    ensures Contains(s, sub) <==> exists i :: OccursAt(s, sub, i)
  {
    ContainsFromWitness(s, sub, 0);
  }

  function AsciiLowerChar(c: char): char {
    if 'A' <= c <= 'Z' then (c as int + 32) as char else c
  }

  /** `str::to_ascii_lowercase`. */
  function AsciiLower(s: string): (r: string)
    ensures |r| == |s|
    ensures forall i :: 0 <= i < |s| ==> r[i] == AsciiLowerChar(s[i])
  {
    seq(|s|, i requires 0 <= i < |s| => AsciiLowerChar(s[i]))
  }

  function AsciiUpperChar(c: char): char {
    if 'a' <= c <= 'z' then (c as int - 32) as char else c
  }

  function AsciiUpper(s: string): (r: string)
    ensures |r| == |s|
    ensures forall i :: 0 <= i < |s| ==> r[i] == AsciiUpperChar(s[i])
  {
    seq(|s|, i requires 0 <= i < |s| => AsciiUpperChar(s[i]))
  }

  /** `parts.join(sep)`. */
  function Join(parts: seq<string>, sep: string): string {
    if parts == [] then ""
    else if |parts| == 1 then parts[0]
    else parts[0] + sep + Join(parts[1..], sep)
  }

  /** Rust's `char::is_whitespace`: the Unicode White_Space property. */
  predicate IsWhitespace(c: char) {
    ('\U{0009}' <= c <= '\U{000D}') || c == ' ' || c == '\U{0085}' || c == '\U{00A0}'
    || c == '\U{1680}' || ('\U{2000}' <= c <= '\U{200A}') || c == '\U{2028}' || c == '\U{2029}'
    || c == '\U{202F}' || c == '\U{205F}' || c == '\U{3000}'
  }

  /** The first index from `i` on that does not hold whitespace, or `|s|`. */
  function SkipBlanks(s: string, i: nat): (j: nat)
    requires i <= |s|
    ensures i <= j <= |s| && (j == |s| || !IsWhitespace(s[j]))
    ensures forall k :: i <= k < j ==> IsWhitespace(s[k])
    decreases |s| - i
  {
    if i < |s| && IsWhitespace(s[i]) then SkipBlanks(s, i + 1) else i
  }

  /** The end of `s[lo..j]` once its trailing whitespace is dropped. */
  function SkipBlanksBack(s: string, lo: nat, j: nat): (e: nat)
    requires lo <= j <= |s|
    ensures lo <= e <= j && (e == lo || !IsWhitespace(s[e - 1]))
    ensures forall k :: e <= k < j ==> IsWhitespace(s[k])
    decreases j
  {
    if lo < j && IsWhitespace(s[j - 1]) then SkipBlanksBack(s, lo, j - 1) else j
  }

  /** `str::trim`: the slice of `s` left when the whitespace at both ends is
      removed. */
  function Trim(s: string): (r: string)
    ensures |r| <= |s|
    ensures exists i, j ::
              0 <= i <= j <= |s| && r == s[i..j] &&
              (forall k :: 0 <= k < i ==> IsWhitespace(s[k])) && (forall k :: j <= k < |s| ==> IsWhitespace(s[k]))
    ensures r == [] || (!IsWhitespace(r[0]) && !IsWhitespace(r[|r| - 1]))
  {
    var i := SkipBlanks(s, 0);
    var j := SkipBlanksBack(s, i, |s|);
    s[i..j]
  }
}

=== FILE: transaction.dfy ===
/** The transaction and savepoint statements of crates/musq/src/transaction.rs
    and the `open` flag a `Transaction` keeps. Every level of nesting, the
    outermost included, is a savepoint named after the depth it was begun at. */
module Transaction {

  import opened Wrappers
  import Text
  import Errors

  type Error = Errors.Error

  const SAVEPOINT_PREFIX: string := "_musq_savepoint_"

  /** The savepoint the begin at `depth` creates. */
  function SavepointName(depth: nat): (n: string)
    ensures |n| > |SAVEPOINT_PREFIX| && n[..|SAVEPOINT_PREFIX|] == SAVEPOINT_PREFIX
  {
    SAVEPOINT_PREFIX + Text.Decimal(depth)
  }

  /** Savepoints begun at different depths have different names. */
  lemma {:induction false} SavepointNamesDistinct(m: nat, n: nat)
    requires m != n
    ensures SavepointName(m) != SavepointName(n)
  {
    if SavepointName(m) == SavepointName(n) {
      var k := |SAVEPOINT_PREFIX|;
      assert SavepointName(m)[k..] == Text.Decimal(m);
      assert SavepointName(n)[k..] == Text.Decimal(n);
      Text.DecimalInjective(m, n);
    }
  }

  /** The statements the transaction machinery sends to the engine. */
  datatype Sql =
    | Savepoint(name: string)
    | Release(name: string)
    | RollbackTo(name: string)
    | RollbackAll

  /** The statement's SQL text. */
  function Render(s: Sql): string {
    match s
    case Savepoint(n) => "SAVEPOINT " + n
    case Release(n) => "RELEASE SAVEPOINT " + n
    case RollbackTo(n) => "ROLLBACK TO SAVEPOINT " + n
    case RollbackAll => "ROLLBACK"
  }

  predicate HasPrefix(s: string, p: string) {
    |p| <= |s| && s[..|p|] == p
  }

  /** Reads back the four statement shapes `Render` writes. */
  function Parse(s: string): (r: Option<Sql>)
    ensures r.Some? ==> Render(r.value) == s
  {
    if HasPrefix(s, "SAVEPOINT ") then
      assert s == "SAVEPOINT " + s[10..];
      Some(Savepoint(s[10..]))
    else if HasPrefix(s, "RELEASE SAVEPOINT ") then
      assert s == "RELEASE SAVEPOINT " + s[18..];
      Some(Release(s[18..]))
    else if HasPrefix(s, "ROLLBACK TO SAVEPOINT ") then
      assert s == "ROLLBACK TO SAVEPOINT " + s[22..];
      Some(RollbackTo(s[22..]))
    else if s == "ROLLBACK" then Some(RollbackAll)
    else None
  }

  /** Every statement's text reads back as that statement. */
  lemma {:induction false} ParseRender(s: Sql)
    ensures Parse(Render(s)) == Some(s)
  {
    var t := Render(s);
    match s
    case Savepoint(n) =>
      assert t[..10] == "SAVEPOINT ";
    case Release(n) =>
      assert t[0] == 'R' && !HasPrefix(t, "SAVEPOINT ");
      assert t[..18] == "RELEASE SAVEPOINT ";
    case RollbackTo(n) =>
      assert t[1] == 'O' && !HasPrefix(t, "SAVEPOINT ") && !HasPrefix(t, "RELEASE SAVEPOINT ");
      assert t[..22] == "ROLLBACK TO SAVEPOINT ";
    case RollbackAll =>
      assert !HasPrefix(t, "SAVEPOINT ") && !HasPrefix(t, "RELEASE SAVEPOINT ") && !HasPrefix(t, "ROLLBACK TO SAVEPOINT ");
  }

  /** `begin_ansi_transaction_sql`: a savepoint at every depth, the first
      one standing in for BEGIN. */
  function BeginSql(depth: nat): (s: Sql)
    ensures s.Savepoint? && s.name == SavepointName(depth)
  {
    Savepoint(SavepointName(depth))
  }

  /** `commit_ansi_transaction_sql`: release the savepoint of the begin that
      reached `depth`. The source computes `depth - 1` on a `usize`, so its
      callers only use it with `depth >= 1`. */
  function CommitSql(depth: nat): (s: Sql)
    requires depth >= 1
    ensures s.Release? && s.name == BeginSql(depth - 1).name
  {
    Release(SavepointName(depth - 1))
  }

  /** `rollback_ansi_transaction_sql`: ROLLBACK at depth 1, else roll back to
      the savepoint of the begin that reached `depth`, without releasing it. */
  function RollbackSql(depth: nat): (s: Sql)
    requires depth >= 1
    ensures depth == 1 <==> s.RollbackAll?
    ensures depth > 1 ==> s.RollbackTo? && s.name == BeginSql(depth - 1).name
  {
    if depth == 1 then RollbackAll else RollbackTo(SavepointName(depth - 1))
  }

  /** A commit or rollback names no savepoint but the one its matching begin
      created. */
  lemma {:induction false} EndNamesItsBegin(depth: nat, other: nat)
    requires depth >= 1 && other != depth - 1
    ensures CommitSql(depth).name != BeginSql(other).name
    ensures depth > 1 ==> RollbackSql(depth).name != BeginSql(other).name
  {
    SavepointNamesDistinct(depth - 1, other);
  }

  /** A `Transaction`: whether it still has to be ended. */
  datatype Tx = Tx(open: bool)

  /** `Transaction::begin`: a transaction exists, open, only when the
      worker's begin succeeded. */
  function Begin(begun: Result<(), Error>): (r: Result<Tx, Error>)
    ensures r.Ok? <==> begun.Ok?
    ensures r.Ok? ==> r.value.open
    ensures r.Err? ==> r.error == begun.error
  {
    match begun
    case Ok(_) => Ok(Tx(true))
    case Err(e) => Err(e)
  }

  /** `commit` and `rollback`: the worker's answer is returned, and `open` is
      cleared only when that answer is Ok. */
  function End(tx: Tx, ended: Result<(), Error>): (r: (Tx, Result<(), Error>))
    ensures r.1 == ended
    ensures r.0.open <==> tx.open && ended.Err?
  {
    match ended
    case Ok(_) => (Tx(false), ended)
    case Err(e) => (tx, Err(e))
  }

  /** `Drop for Transaction`: whether a reply-less rollback is enqueued. */
  function DropRollback(tx: Tx): (send: bool)
    ensures send <==> tx.open
  {
    tx.open
  }

  /** A transaction whose end failed is rolled back when dropped; one that
      ended is not. */
  lemma {:induction false} DropAfterEnd(tx: Tx, ended: Result<(), Error>)
    requires tx.open
    ensures DropRollback(End(tx, ended).0) <==> ended.Err?
  {
  }
}

=== FILE: type_info.dfy ===
/** `SqliteDataType` (crates/musq/src/sqlite/type_info.rs): the declared or
    natural type of a value, its display name, and the mapping from SQLite's
    storage-class codes. */
module TypeInfo {

  import opened Wrappers
  import opened Numeric

  datatype SqliteDataType =
    | Null | Int | Float | Text | Blob | Numeric
    | Bool | Int64 | Date | Time | Datetime

  /** Storage-class codes of SQLite's C interface ("Fundamental Datatypes"). */
  const SQLITE_INTEGER: int := 1
  const SQLITE_FLOAT: int := 2
  const SQLITE_TEXT: int := 3
  const SQLITE_BLOB: int := 4
  const SQLITE_NULL: int := 5

  /** `SqliteDataType::is_null`: the type is the NULL storage class, the one
      whose code is SQLITE_NULL. */
  predicate IsNull(t: SqliteDataType) {
    t == Null
  }

  /** `SqliteDataType::name`: the SQL spelling shown to users. Only the two
      integer types share a spelling. */
  function Name(t: SqliteDataType): (r: string)
    ensures r != []
    ensures r == "INTEGER" <==> t == Int || t == Int64
    ensures r == "NULL" <==> IsNull(t)
  {
    match t
    case Null => "NULL"
    case Text => "TEXT"
    case Float => "REAL"
    case Blob => "BLOB"
    case Int => "INTEGER"
    case Int64 => "INTEGER"
    case Numeric => "NUMERIC"
    case Bool => "BOOLEAN"
    case Date => "DATE"
    case Time => "TIME"
    case Datetime => "DATETIME"
  }

  /** The five types that are storage classes, with their codes. */
  predicate IsStorageClass(t: SqliteDataType) {
    t in {Null, Int, Float, Text, Blob}
  }

  function StorageCode(t: SqliteDataType): int
    requires IsStorageClass(t)
  {
    match t
    case Int => SQLITE_INTEGER
    case Float => SQLITE_FLOAT
    case Text => SQLITE_TEXT
    case Blob => SQLITE_BLOB
    case Null => SQLITE_NULL
  }

  /** `SqliteDataType::from_code`. */
  function FromCode(code: I32): (r: Option<SqliteDataType>)
    ensures r.Some? <==> 1 <= code <= 5
    ensures r.Some? ==> IsStorageClass(r.value) && StorageCode(r.value) == code
  {
    if code == SQLITE_INTEGER then Some(Int)
    else if code == SQLITE_FLOAT then Some(Float)
    else if code == SQLITE_BLOB then Some(Blob)
    else if code == SQLITE_NULL then Some(Null)
    else if code == SQLITE_TEXT then Some(Text)
    else None
  }

  /** `from_code` inverts the storage-class code of each storage-class type. */
  lemma {:induction false} FromCodeOfStorageCode(t: SqliteDataType)
    requires IsStorageClass(t)
    ensures FromCode(StorageCode(t)) == Some(t)
  {
  }

  /** `name` is "INTEGER" for both integer types and tells every other pair of
      types apart; `is_null` holds only for Null. */
  lemma {:induction false} NameSeparatesTypes(t: SqliteDataType, u: SqliteDataType)
    ensures Name(t) == Name(u) <==> t == u || ({t, u} == {Int, Int64})
    ensures IsNull(t) <==> t == Null
  {
  }

  /** `is_null` holds exactly for the storage class whose code is
      SQLITE_NULL, the type `from_code` gives that code. */
  lemma {:induction false} IsNullMeansNullCode(t: SqliteDataType)
    ensures IsNull(t) <==> IsStorageClass(t) && StorageCode(t) == SQLITE_NULL
    ensures IsNull(t) <==> FromCode(SQLITE_NULL) == Some(t)
  {
  }

  lemma FromCodeExamples()
    ensures FromCode(9999) == None
    ensures FromCode(0) == None && FromCode(6) == None
  {
  }
}

=== FILE: utf8.dfy ===
/** UTF-8, as Rust's `str::as_bytes` produces it and `str::from_utf8` checks it
    (well-formed sequences per table 3-7 of section 3.9 of the Unicode Standard).
    A Dafny `char` is a Unicode scalar value, so every string has an encoding. */
module Utf8 {

  import opened Wrappers
  import opened Numeric
  import Text

  predicate IsContinuation(b: Byte) {
    0x80 <= b <= 0xBF
  }

  /** The bytes of one scalar value, shortest form. */
  function EncodeChar(c: char): (bs: seq<Byte>)
    ensures 1 <= |bs| <= 4
  {
    var cp := c as int;
    if cp < 0x80 then [cp]
    else if cp < 0x800 then [0xC0 + cp / 64, 0x80 + cp % 64]
    else if cp < 0x1_0000 then [0xE0 + cp / 4096, 0x80 + (cp / 64) % 64, 0x80 + cp % 64]
    else [0xF0 + cp / 262144, 0x80 + (cp / 4096) % 64, 0x80 + (cp / 64) % 64, 0x80 + cp % 64]
  }

  /** `str::as_bytes`. */
  function Encode(s: string): (bs: seq<Byte>)
    ensures |s| <= |bs| <= 4 * |s|
  {
    if s == [] then [] else EncodeChar(s[0]) + Encode(s[1..])
  }

  /** The scalar value at the front of `bs` and the number of bytes it takes, or
      None when `bs` does not start with a well-formed sequence. */
  function DecodeFirst(bs: seq<Byte>): (r: Option<(char, nat)>)
    requires |bs| > 0
    ensures r.Some? ==> 1 <= r.value.1 <= |bs| && r.value.1 <= 4
  {
    var b0: int := bs[0];
    var b1: int := if |bs| > 1 then bs[1] else 0;
    var b2: int := if |bs| > 2 then bs[2] else 0;
    var b3: int := if |bs| > 3 then bs[3] else 0;
    if b0 < 0x80 then
      Some((b0 as char, 1))
    else if 0xC2 <= b0 <= 0xDF then
      if |bs| >= 2 && IsContinuation(bs[1]) then
        Some((((b0 - 0xC0) * 64 + (b1 - 0x80)) as char, 2))
      else None
    else if 0xE0 <= b0 <= 0xEF then
      var lo := if b0 == 0xE0 then 0xA0 else 0x80;
      var hi := if b0 == 0xED then 0x9F else 0xBF;
      if |bs| >= 3 && lo <= b1 <= hi && IsContinuation(bs[2]) then
        var cp := (b0 - 0xE0) * 4096 + (b1 - 0x80) * 64 + (b2 - 0x80);
        Some((cp as char, 3))
      else None
    else if 0xF0 <= b0 <= 0xF4 then
      var lo := if b0 == 0xF0 then 0x90 else 0x80;
      var hi := if b0 == 0xF4 then 0x8F else 0xBF;
      if |bs| >= 4 && lo <= b1 <= hi && IsContinuation(bs[2]) && IsContinuation(bs[3]) then
        var cp := (b0 - 0xF0) * 262144 + (b1 - 0x80) * 4096 + (b2 - 0x80) * 64 + (b3 - 0x80);
        Some((cp as char, 4))
      else None
    else None
  }

  /** `str::from_utf8`: the text when all of `bs` is well-formed, otherwise None. */
  function Decode(bs: seq<Byte>): (r: Option<string>)
    decreases |bs|
  {
    if bs == [] then Some([])
    else
      match DecodeFirst(bs)
      case None => None
      case Some((c, n)) =>
        match Decode(bs[n..])
        case None => None
        case Some(rest) => Some([c] + rest)
  }

  lemma {:induction false} DecodeFirstOfEncodeChar(c: char, rest: seq<Byte>)
    ensures DecodeFirst(EncodeChar(c) + rest) == Some((c, |EncodeChar(c)|))
  {
    var cp := c as int;
    if cp < 0x80 {
    } else if cp < 0x800 {
      DecodeTwo(c, rest);
    } else if cp < 0x1_0000 {
      DecodeThree(c, rest);
    } else {
      DecodeFour(c, rest);
    }
  }

  lemma {:induction false} DecodeTwo(c: char, rest: seq<Byte>)
    requires 0x80 <= c as int < 0x800
    ensures DecodeFirst(EncodeChar(c) + rest) == Some((c, 2))
  {
    var cp := c as int;
    var x0, x1 := cp / 64, cp % 64;
    assert x0 * 64 + x1 == cp;
    var bs := EncodeChar(c) + rest;
    assert bs[0] == 0xC0 + x0 && bs[1] == 0x80 + x1;
  }

  lemma {:induction false} DecodeThree(c: char, rest: seq<Byte>)
    requires 0x800 <= c as int < 0x1_0000
    ensures DecodeFirst(EncodeChar(c) + rest) == Some((c, 3))
  {
    var cp := c as int;
    var q := cp / 64;
    var x0, x1, x2 := q / 64, q % 64, cp % 64;
    assert cp / 4096 == x0;
    assert (x0 * 64 + x1) * 64 + x2 == cp;
    var bs := EncodeChar(c) + rest;
    assert bs[0] == 0xE0 + x0 && bs[1] == 0x80 + x1 && bs[2] == 0x80 + x2;
  }

  lemma {:induction false} DecodeFour(c: char, rest: seq<Byte>)
    requires 0x1_0000 <= c as int
    ensures DecodeFirst(EncodeChar(c) + rest) == Some((c, 4))
  {
    var cp := c as int;
    var q := cp / 64;
    var q2 := q / 64;
    var x0, x1, x2, x3 := q2 / 64, q2 % 64, q % 64, cp % 64;
    assert cp / 4096 == q2;
    assert cp / 262144 == x0;
    assert ((x0 * 64 + x1) * 64 + x2) * 64 + x3 == cp;
    var bs := EncodeChar(c) + rest;
    assert bs[0] == 0xF0 + x0 && bs[1] == 0x80 + x1 && bs[2] == 0x80 + x2 && bs[3] == 0x80 + x3;
  }

  lemma {:induction false} EncodeCharOfDecodeFirst(bs: seq<Byte>)
    requires |bs| > 0 && DecodeFirst(bs).Some?
    ensures EncodeChar(DecodeFirst(bs).value.0) == bs[..DecodeFirst(bs).value.1]
  {
    var b0: int := bs[0];
    if b0 < 0x80 {
    } else if 0xC2 <= b0 <= 0xDF {
      EncodeTwo(b0 - 0xC0, bs[1] as int - 0x80);
    } else if 0xE0 <= b0 <= 0xEF {
      EncodeThree(b0 - 0xE0, bs[1] as int - 0x80, bs[2] as int - 0x80);
    } else {
      EncodeFour(b0 - 0xF0, bs[1] as int - 0x80, bs[2] as int - 0x80, bs[3] as int - 0x80);
    }
  }

  lemma {:induction false} EncodeTwo(x0: int, x1: int)
    requires 0 <= x0 < 32 && 0 <= x1 < 64
    ensures var cp := x0 * 64 + x1; cp / 64 == x0 && cp % 64 == x1
  {
  }

  lemma {:induction false} EncodeThree(x0: int, x1: int, x2: int)
    requires 0 <= x0 < 16 && 0 <= x1 < 64 && 0 <= x2 < 64
    ensures var cp := x0 * 4096 + x1 * 64 + x2;
      cp / 4096 == x0 && (cp / 64) % 64 == x1 && cp % 64 == x2
  {
    var cp := x0 * 4096 + x1 * 64 + x2;
    assert cp == (x0 * 64 + x1) * 64 + x2;
    assert cp / 64 == x0 * 64 + x1;
  }

  lemma {:induction false} EncodeFour(x0: int, x1: int, x2: int, x3: int)
    requires 0 <= x0 < 8 && 0 <= x1 < 64 && 0 <= x2 < 64 && 0 <= x3 < 64
    ensures var cp := x0 * 262144 + x1 * 4096 + x2 * 64 + x3;
      cp / 262144 == x0 && (cp / 4096) % 64 == x1 && (cp / 64) % 64 == x2 && cp % 64 == x3
  {
    var cp := x0 * 262144 + x1 * 4096 + x2 * 64 + x3;
    assert cp == ((x0 * 64 + x1) * 64 + x2) * 64 + x3;
    assert cp / 64 == (x0 * 64 + x1) * 64 + x2;
    assert cp / 4096 == x0 * 64 + x1;
  }

  /** Every string's encoding is well-formed and decodes back to the string. */
  lemma {:induction false} DecodeEncode(s: string)
    ensures Decode(Encode(s)) == Some(s)
  {
    if s != [] {
      var e := EncodeChar(s[0]);
      var rest := Encode(s[1..]);
      DecodeFirstOfEncodeChar(s[0], rest);
      assert (e + rest)[|e|..] == rest;
      DecodeEncode(s[1..]);
      assert [s[0]] + s[1..] == s;
    }
  }

  /** Well-formed bytes are exactly the encoding of the text they decode to. */
  lemma {:induction false} EncodeDecode(bs: seq<Byte>)
    requires Decode(bs).Some?
    ensures Encode(Decode(bs).value) == bs
    decreases |bs|
  {
    if bs != [] {
      var first := DecodeFirst(bs).value;
      EncodeCharOfDecodeFirst(bs);
      EncodeDecode(bs[first.1..]);
      var s := Decode(bs).value;
      assert s == [first.0] + Decode(bs[first.1..]).value;
      assert s[1..] == Decode(bs[first.1..]).value;
      assert bs == bs[..first.1] + bs[first.1..];
    }
  }

  /** `core::str::Utf8Error`: the length of the longest well-formed prefix, and
      the length of the invalid sequence after it, or None when the input ends
      in the middle of a sequence. */
  datatype Utf8Error = Utf8Error(validUpTo: nat, errorLen: Option<nat>)

  /** How the validator of `str::from_utf8` judges the sequence at the front of
      `bs`: None when it is well-formed, otherwise Some of the error length it
      reports (None for a sequence cut short by the end of the input). */
  function LeadError(bs: seq<Byte>): (r: Option<Option<nat>>)
    requires |bs| > 0
    ensures r.Some? && r.value.Some? ==> 1 <= r.value.value <= 3 && r.value.value <= |bs|
    ensures r == Some(None) ==> |bs| < 4
  {
    var b0: int := bs[0];
    if b0 < 0x80 then None
    else if 0xC2 <= b0 <= 0xDF then
      if |bs| < 2 then Some(None)
      else if !IsContinuation(bs[1]) then Some(Some(1))
      else None
    else if 0xE0 <= b0 <= 0xEF then
      var lo := if b0 == 0xE0 then 0xA0 else 0x80;
      var hi := if b0 == 0xED then 0x9F else 0xBF;
      if |bs| < 2 then Some(None)
      else if !(lo <= bs[1] <= hi) then Some(Some(1))
      else if |bs| < 3 then Some(None)
      else if !IsContinuation(bs[2]) then Some(Some(2))
      else None
    else if 0xF0 <= b0 <= 0xF4 then
      var lo := if b0 == 0xF0 then 0x90 else 0x80;
      var hi := if b0 == 0xF4 then 0x8F else 0xBF;
      if |bs| < 2 then Some(None)
      else if !(lo <= bs[1] <= hi) then Some(Some(1))
      else if |bs| < 3 then Some(None)
      else if !IsContinuation(bs[2]) then Some(Some(2))
      else if |bs| < 4 then Some(None)
      else if !IsContinuation(bs[3]) then Some(Some(3))
      else None
    else Some(Some(1))
  }

  /** The validator and the decoder agree on every leading sequence. */
  lemma {:induction false} LeadErrorAgrees(bs: seq<Byte>)
    requires |bs| > 0
    ensures LeadError(bs).None? <==> DecodeFirst(bs).Some?
  {
  }

  /** `str::from_utf8` as a check: None when all of `bs` is well-formed,
      otherwise the error it reports. */
  function Validate(bs: seq<Byte>): (r: Option<Utf8Error>)
    ensures r.Some? ==> r.value.validUpTo < |bs|
    ensures r.Some? && r.value.errorLen.Some? ==>
      1 <= r.value.errorLen.value <= 3 && r.value.validUpTo + r.value.errorLen.value <= |bs|
    ensures r.Some? && r.value.errorLen.None? ==> |bs| - r.value.validUpTo < 4
    decreases |bs|
  {
    if bs == [] then None
    else
      match LeadError(bs)
      case Some(len) => Some(Utf8Error(0, len))
      case None =>
        LeadErrorAgrees(bs);
        var n := DecodeFirst(bs).value.1;
        match Validate(bs[n..])
        case None => None
        case Some(e) => Some(Utf8Error(e.validUpTo + n, e.errorLen))
  }

  /** The check fails exactly when decoding fails, and the prefix it reports
      as valid does decode. */
  lemma {:induction false} ValidateAgrees(bs: seq<Byte>)
    ensures Validate(bs).None? <==> Decode(bs).Some?
    ensures Validate(bs).Some? ==> Decode(bs[..Validate(bs).value.validUpTo]).Some?
    decreases |bs|
  {
    if bs != [] {
      LeadErrorAgrees(bs);
      if LeadError(bs).None? {
        var n := DecodeFirst(bs).value.1;
        ValidateAgrees(bs[n..]);
        if Validate(bs[n..]).Some? {
          var k := Validate(bs[n..]).value.validUpTo;
          var pre := bs[..k + n];
          assert pre[..n] == bs[..n];
          assert DecodeFirst(pre) == DecodeFirst(bs) by {
            DecodeFirstPrefix(bs, k + n);
          }
          assert pre[n..] == bs[n..][..k];
        }
      } else {
        assert bs[..0] == [];
      }
    }
  }

  /** The first sequence is judged from its own bytes only. */
  lemma {:induction false} DecodeFirstPrefix(bs: seq<Byte>, m: nat)
    requires |bs| > 0 && DecodeFirst(bs).Some? && DecodeFirst(bs).value.1 <= m <= |bs|
    ensures DecodeFirst(bs[..m]) == DecodeFirst(bs)
  {
  }

  /** The `Display` text of `Utf8Error`. */
  function ErrorText(e: Utf8Error): string {
    match e.errorLen
    case Some(n) =>
      "invalid utf-8 sequence of " + Text.Decimal(n) + " bytes from index " + Text.Decimal(e.validUpTo)
    case None => "incomplete utf-8 byte sequence from index " + Text.Decimal(e.validUpTo)
  }
}

=== FILE: value.dfy ===
/** `Value` (crates/musq/src/sqlite/value.rs): an owned SQLite value with the
    declared type of the column it came from, and its checked accessors. */
module SqlValue {

  import opened Wrappers
  import opened Numeric
  import TypeInfo
  import Utf8
  import opened CodecErrors

  type SqliteDataType = TypeInfo.SqliteDataType

  /** A double is carried as its IEEE-754 bit pattern and never interpreted. */
  datatype Value =
    | Null(typeInfo: Option<SqliteDataType>)
    | Integer(int64: I64, typeInfo: Option<SqliteDataType>)
    | Double(bits: U64, typeInfo: Option<SqliteDataType>)
    | Text(text: string, typeInfo: Option<SqliteDataType>)
    | Blob(bytes: seq<Byte>, typeInfo: Option<SqliteDataType>)

  type U64 = x: int | 0 <= x < 0x1_0000_0000_0000_0000

  const UNEXPECTED_NULL: string := "unexpected NULL"

  /** `Value::int`: the stored integer when it fits in an `i32`. */
  function AsInt(v: Value): (r: Result<I32, DecodeError>)
    ensures r.Ok? <==> v.Integer? && I32_MIN <= v.int64 <= I32_MAX
    ensures r.Ok? ==> r.value == v.int64
    ensures v.Null? ==> r == Err(Conversion(UNEXPECTED_NULL))
    ensures v.Integer? && r.Err? ==> r.error == DecodeErrorFromTryFromInt()
    ensures !v.Null? && !v.Integer? ==> r == Err(Conversion("not an integer or out of range"))
  {
    match v
    case Integer(x, _) =>
      if I32_MIN <= x <= I32_MAX then Ok(x) else Err(DecodeErrorFromTryFromInt())
    case Null(_) => Err(Conversion(UNEXPECTED_NULL))
    case _ => Err(Conversion("not an integer or out of range"))
  }

  /** `Value::int64`: succeeds on Integer only. */
  function AsInt64(v: Value): (r: Result<I64, DecodeError>)
    ensures r.Ok? <==> v.Integer?
    ensures r.Ok? ==> r.value == v.int64
    ensures v.Null? ==> r == Err(Conversion(UNEXPECTED_NULL))
    ensures !v.Null? && !v.Integer? ==> r == Err(Conversion("not an integer"))
  {
    match v
    case Integer(x, _) => Ok(x)
    case Null(_) => Err(Conversion(UNEXPECTED_NULL))
    case _ => Err(Conversion("not an integer"))
  }

  /** `Value::blob`: the bytes of a Blob, or the UTF-8 bytes of a Text. */
  function AsBlob(v: Value): (r: Result<seq<Byte>, DecodeError>)
    ensures r.Ok? <==> v.Blob? || v.Text?
    ensures v.Blob? ==> r == Ok(v.bytes)
    ensures v.Text? ==> r == Ok(Utf8.Encode(v.text))
    ensures v.Null? ==> r == Err(Conversion(UNEXPECTED_NULL))
    ensures v.Integer? || v.Double? ==> r == Err(Conversion("not blob"))
  {
    match v
    case Blob(b, _) => Ok(b)
    case Text(s, _) => Ok(Utf8.Encode(s))
    case Null(_) => Err(Conversion(UNEXPECTED_NULL))
    case _ => Err(Conversion("not blob"))
  }

  /** `Value::text`: succeeds on Text only. */
  function AsText(v: Value): (r: Result<string, DecodeError>)
    ensures r.Ok? <==> v.Text?
    ensures v.Text? ==> r.value == v.text
    ensures v.Null? ==> r == Err(Conversion(UNEXPECTED_NULL))
    ensures !v.Null? && !v.Text? ==> r == Err(Conversion("not text"))
  {
    match v
    case Text(s, _) => Ok(s)
    case Null(_) => Err(Conversion(UNEXPECTED_NULL))
    case _ => Err(Conversion("not text"))
  }

  /** The type a variant has when no declared type was captured. */
  function NaturalType(v: Value): SqliteDataType {
    match v
    case Null(_) => TypeInfo.Null
    case Integer(_, _) => TypeInfo.Int
    case Double(_, _) => TypeInfo.Float
    case Text(_, _) => TypeInfo.Text
    case Blob(_, _) => TypeInfo.Blob
  }

  /** `Value::type_info`: the declared type when present, else the natural one. */
  function TypeInfoOf(v: Value): (t: SqliteDataType)
    ensures v.typeInfo.Some? ==> t == v.typeInfo.value
    ensures v.typeInfo.None? ==> t == NaturalType(v)
  {
    v.typeInfo.GetOr(NaturalType(v))
  }

  /** `Value::is_null`: the variant is NULL, which is the one whose own type
      is NULL; a declared type does not change it. */
  predicate IsNull(v: Value): (b: bool)
    ensures b <==> TypeInfo.IsNull(NaturalType(v))
    ensures v.typeInfo.None? ==> (b <==> TypeInfo.IsNull(TypeInfoOf(v)))
  {
    v.Null?
  }

  /** `impl Decode for Value`: a copy of the value. */
  function DecodeValue(v: Value): (r: Result<Value, DecodeError>)
    ensures r == Ok(v)
  {
    Ok(v)
  }

  /** `int` agrees with `int64` wherever the stored integer fits in 32 bits, and
      fails exactly where `int64` fails or the integer does not fit. */
  lemma {:induction false} IntAgreesWithInt64(v: Value)
    ensures AsInt(v).Ok? <==> AsInt64(v).Ok? && I32_MIN <= AsInt64(v).value <= I32_MAX
    ensures AsInt(v).Ok? ==> AsInt(v).value == AsInt64(v).value
  {
  }

  /** Every accessor fails on NULL with the same "unexpected NULL" conversion
      error, whatever type the column declared. */
  lemma {:induction false} NullAccessorsFail(t: Option<SqliteDataType>)
    ensures var v := Null(t);
      AsInt(v) == Err(Conversion(UNEXPECTED_NULL)) &&
      AsInt64(v) == Err(Conversion(UNEXPECTED_NULL)) &&
      AsBlob(v) == Err(Conversion(UNEXPECTED_NULL)) &&
      AsText(v) == Err(Conversion(UNEXPECTED_NULL))
  {
  }

  /** The bytes `blob` returns for a Text value are well-formed UTF-8 and decode
      back to the stored text: no reinterpretation takes place. */
  lemma {:induction false} BlobOfTextIsUtf8(s: string, t: Option<SqliteDataType>)
    ensures AsBlob(Text(s, t)).Ok?
    ensures Utf8.Decode(AsBlob(Text(s, t)).value) == Some(s)
  {
    Utf8.DecodeEncode(s);
  }

  /** `is_null` depends on the variant only, never on the declared type. */
  lemma {:induction false} IsNullIgnoresDeclaredType(v: Value)
    ensures IsNull(v) <==> v.Null?
    ensures IsNull(v) ==> TypeInfoOf(v) == v.typeInfo.GetOr(TypeInfo.Null)
  {
  }
}

=== FILE: values.dfy ===
/** `Values` (crates/musq/src/values.rs): an insertion-ordered map from
    column names to bound values or SQL fragments. */
module Values {

  import opened Wrappers
  import Errors
  import SqlValue
  import CodecErrors
  import Expr
  import Query
  import OrderedMap

  type Error = Errors.Error

  /** `ValuesEntry`: a value bound as a parameter, or a SQL fragment. */
  datatype Entry = Bound(value: SqlValue.Value) | Fragment(expr: Expr.Expr)

  /** The wrapped `IndexMap`. */
  type Values = OrderedMap.IndexMap<Entry>

  predicate Valid(v: Values) {
    OrderedMap.Valid(v)
  }

  /** `IntoValuesEntry` for an encodable value: a failed encoding is an
      `Error::Encode`. */
  function EncodedEntry(encoded: Result<SqlValue.Value, CodecErrors.EncodeError>): (r: Result<Entry, Error>)
    ensures encoded.Ok? <==> r.Ok?
    ensures encoded.Ok? ==> r.value == Bound(encoded.value)
    ensures encoded.Err? ==> r.error == Errors.Encode(encoded.error)
  {
    match encoded
    case Ok(v) => Ok(Bound(v))
    case Err(e) => Err(Errors.Encode(e))
  }

  /** `IntoValuesEntry` for a query: the query as a fragment. */
  function QueryEntry(q: Query.Query): (r: Result<Entry, Error>)
    ensures r.Ok? && r.value.Fragment? && r.value.expr.sql == Query.Sql(q) && r.value.expr.tainted == q.tainted
  {
    Ok(Fragment(Expr.FromQuery(q)))
  }

  /** `Values::insert`: the map and the outcome. The entry is converted first,
      so a failed conversion leaves the map as it was. */
  function Insert(v: Values, k: string, entry: Result<Entry, Error>): (r: (Values, Result<(), Error>))
    requires Valid(v)
    ensures entry.Err? ==> r.0 == v && r.1 == Err(entry.error)
    ensures entry.Ok? ==> r.1 == Ok(()) && OrderedMap.Lookup(r.0, k) == Some(entry.value)
    ensures entry.Ok? && k in v.keys ==> r.0.keys == v.keys && OrderedMap.Len(r.0) == OrderedMap.Len(v)
    ensures entry.Ok? && k !in v.keys ==> r.0.keys == v.keys + [k] && OrderedMap.Len(r.0) == OrderedMap.Len(v) + 1
    ensures Valid(r.0)
  {
    match entry
    case Err(e) => (v, Err(e))
    case Ok(e) => (OrderedMap.Put(v, k, e), Ok(()))
  }

  /** `Values::val`: `insert` returning the map. */
  function Val(v: Values, k: string, entry: Result<Entry, Error>): (r: Result<Values, Error>)
    requires Valid(v)
    ensures r.Ok? <==> entry.Ok?
    ensures r.Ok? ==> r.value == Insert(v, k, entry).0
    ensures r.Err? ==> r.error == entry.error
  {
    match entry
    case Err(e) => Err(e)
    case Ok(e) => Ok(OrderedMap.Put(v, k, e))
  }

  /** `Values::extend`: the existing columns keep their places, new ones
      follow in `other`'s order, and every column of `other` takes its entry
      from `other`. */
  function Extend(v: Values, other: Values): (r: Values)
    requires Valid(v) && Valid(other)
    ensures Valid(r)
    ensures r.keys == v.keys + OrderedMap.Fresh(v.entries.Keys, other.keys)
    ensures forall k :: k in other.entries ==> k in r.entries && r.entries[k] == other.entries[k]
  {
    var r := OrderedMap.Extend(v, other);
    assert forall k :: k in other.entries ==> k in r.entries && r.entries[k] == other.entries[k] by {
      forall k | k in other.entries
        ensures k in r.entries && r.entries[k] == other.entries[k]
      {
        OrderedMap.ExtendLookup(v, other, k);
      }
    }
    r
  }

  /** The duplicate-key scenario of the tests: `id, name, status` extended by
      `status, email` gives `id, name, status, email`, with four entries and
      the status from the second map. */
  lemma {:induction false} ExtendOverwritesInPlace(id: string, name: string, status: string, email: string, e1: Entry, e2: Entry, e3: Entry, e4: Entry, e5: Entry)
    requires id != name && id != status && id != email && name != status && name != email && status != email
    ensures var a := OrderedMap.IndexMap([id, name, status], map[id := e1, name := e2, status := e3]);
      var b := OrderedMap.IndexMap([status, email], map[status := e4, email := e5]);
      Valid(a) && Valid(b) &&
      Extend(a, b).keys == [id, name, status, email] &&
      OrderedMap.Len(Extend(a, b)) == 4 &&
      OrderedMap.Lookup(Extend(a, b), status) == Some(e4)
  {
    var a := OrderedMap.IndexMap([id, name, status], map[id := e1, name := e2, status := e3]);
    var b := OrderedMap.IndexMap([status, email], map[status := e4, email := e5]);
    assert Valid(a);
    assert Valid(b);
    assert a.entries.Keys == {id, name, status};
    assert b.keys[1..] == [email];
    assert OrderedMap.Fresh(a.entries.Keys, b.keys) == OrderedMap.Fresh(a.entries.Keys, [email]);
    assert OrderedMap.Fresh(a.entries.Keys, [email]) == [email] + OrderedMap.Fresh(a.entries.Keys + {email}, []);
    OrderedMap.ExtendLookup(a, b, status);
  }
}

=== FILE: worker.dfy ===
/** The transaction commands of the connection worker
    (crates/musq/src/sqlite/connection/worker.rs:103-219): Begin, Commit and
    Rollback change `transaction_depth` and `ignore_next_start_rollback`
    according to what the engine answers and whether the requester received
    the reply; an Execute command stands for the user's statements.

    What the worker cannot decide is an input `Env`: a fault the engine
    reports instead of running a statement (a full disk, a busy database), a
    fault for the statement that undoes an unacknowledged begin, and whether
    the reply reached the requester. */
module Worker {

  import opened Wrappers
  import Errors
  import Transaction
  import opened SavepointEngine

  type Sql = Transaction.Sql

  /** The worker's own state and the engine it drives; `running` is false
      once the command loop has stopped. */
  datatype State = State(depth: nat, ignoreNextStartRollback: bool, engine: Engine, running: bool)

  /** `Rollback(false)` is the reply-less rollback a dropped `Transaction`
      sends; `Execute(v)` inserts the row `v`. */
  datatype Command = Begin | Commit | Rollback(withReply: bool) | Execute(row: int)

  datatype Env = Env(fault: Option<Error>, undoFault: Option<Error>, delivered: bool)

  /** A command's effect: the new state, the reply sent (None when the
      command has no reply channel or was skipped), and the statements run. */
  datatype Handled = Handled(s: State, reply: Option<Result<(), Error>>, sql: seq<Sql>)

  /** The engine runs the statement unless it reports a fault. */
  function Exec(e: Engine, stmt: Sql, fault: Option<Error>): Result<Engine, Error> {
    if fault.Some? then Err(fault.value) else Apply(e, stmt)
  }

  /** Begin at depth d: run the savepoint for d and count it only if it
      succeeded; an unacknowledged successful begin is rolled back straight
      away, and if that fails the worker stops. */
  function HandleBegin(s: State, env: Env): (r: Handled)
    requires s.running
    ensures r.reply.Some? && |r.sql| >= 1 && r.sql[0] == Transaction.BeginSql(s.depth)
    ensures r.reply.value.Ok? <==> env.fault.None?
    ensures r.reply.value.Err? ==> r.s == s
    ensures r.reply.value.Ok? && env.delivered ==> r.s.depth == s.depth + 1 && r.s.running
    ensures r.reply.value.Ok? && !env.delivered ==>
      r.sql == [Transaction.BeginSql(s.depth), Transaction.RollbackSql(s.depth + 1)] &&
      (r.s.running <==>
        Exec(Apply(s.engine, Transaction.BeginSql(s.depth)).value, Transaction.RollbackSql(s.depth + 1), env.undoFault).Ok?) &&
      (r.s.running ==> r.s.depth == s.depth)
    ensures r.s.ignoreNextStartRollback == s.ignoreNextStartRollback
  {
    var d := s.depth;
    var begin := Transaction.BeginSql(d);
    match Exec(s.engine, begin, env.fault)
    case Err(e) => Handled(s, Some(Err(e)), [begin])
    case Ok(e1) =>
      if env.delivered then Handled(State(d + 1, s.ignoreNextStartRollback, e1, true), Some(Ok(())), [begin])
      else
        var undo := Transaction.RollbackSql(d + 1);
        match Exec(e1, undo, env.undoFault)
        case Ok(e2) => Handled(State(d, s.ignoreNextStartRollback, e2, true), Some(Ok(())), [begin, undo])
        case Err(_) => Handled(State(d + 1, s.ignoreNextStartRollback, e1, false), Some(Ok(())), [begin, undo])
  }

  /** The end of a transaction level: at depth 0 a silent Ok without SQL,
      otherwise the statement, and one level less only if it succeeded. */
  function End(s: State, stmt: nat -> Sql, fault: Option<Error>): (r: Result<State, Error>)
    requires s.running
    ensures s.depth == 0 ==> r == Ok(s)
    ensures r.Ok? ==> r.value.running && r.value.ignoreNextStartRollback == s.ignoreNextStartRollback
    ensures r.Ok? && s.depth > 0 ==> r.value.depth == s.depth - 1
    ensures s.depth > 0 ==> (r.Ok? <==> Exec(s.engine, stmt(s.depth), fault).Ok?)
  {
    if s.depth > 0 then
      match Exec(s.engine, stmt(s.depth), fault)
      case Ok(e) => Ok(State(s.depth - 1, s.ignoreNextStartRollback, e, true))
      case Err(err) => Err(err)
    else Ok(s)
  }

  function CommitStmt(d: nat): Sql {
    if d >= 1 then Transaction.CommitSql(d) else Transaction.RollbackAll
  }

  function RollbackStmt(d: nat): Sql {
    if d >= 1 then Transaction.RollbackSql(d) else Transaction.RollbackAll
  }

  /** Commit: a successful commit whose reply was not received sets the flag,
      because the `Transaction` will still send a rollback when dropped. */
  function HandleCommit(s: State, env: Env): (r: Handled)
    requires s.running
    ensures r.reply.Some? && r.s.running
    ensures s.depth == 0 ==> r.reply == Some(Ok(())) && r.sql == [] && r.s.depth == 0
    ensures s.depth > 0 ==> r.sql == [Transaction.CommitSql(s.depth)]
    ensures r.reply.value.Ok? && s.depth > 0 ==> r.s.depth == s.depth - 1
    ensures r.reply.value.Err? ==> r.s == s
    ensures r.s.ignoreNextStartRollback <==> s.ignoreNextStartRollback || (r.reply.value.Ok? && !env.delivered)
  {
    var sql := if s.depth > 0 then [Transaction.CommitSql(s.depth)] else [];
    match End(s, CommitStmt, env.fault)
    case Err(e) => Handled(s, Some(Err(e)), sql)
    case Ok(s1) =>
      var flag := s1.ignoreNextStartRollback || !env.delivered;
      Handled(State(s1.depth, flag, s1.engine, true), Some(Ok(())), sql)
  }

  /** Rollback: a reply-less rollback arriving while the flag is set is
      skipped and clears it; otherwise like commit, and only a replied
      rollback can set the flag. */
  function HandleRollback(s: State, withReply: bool, env: Env): (r: Handled)
    requires s.running
    ensures r.s.running
    ensures s.ignoreNextStartRollback && !withReply ==>
      r.sql == [] && r.reply.None? && r.s == State(s.depth, false, s.engine, true)
    ensures !(s.ignoreNextStartRollback && !withReply) ==>
      (r.reply.Some? <==> withReply) &&
      (s.depth > 0 ==> r.sql == [Transaction.RollbackSql(s.depth)]) &&
      (s.depth == 0 ==> r.sql == [] && r.s.depth == 0 && r.s.engine == s.engine && (withReply ==> r.reply == Some(Ok(()))))
    ensures !(s.ignoreNextStartRollback && !withReply) && s.depth > 0 ==>
      (r.s.depth == s.depth - 1 <==> Exec(s.engine, Transaction.RollbackSql(s.depth), env.fault).Ok?)
    ensures !(s.ignoreNextStartRollback && !withReply) ==>
      (r.s.ignoreNextStartRollback <==>
        (s.ignoreNextStartRollback ||
         (withReply && !env.delivered && (s.depth == 0 || Exec(s.engine, Transaction.RollbackSql(s.depth), env.fault).Ok?))))
  {
    if s.ignoreNextStartRollback && !withReply then Handled(State(s.depth, false, s.engine, true), None, [])
    else
      var sql := if s.depth > 0 then [Transaction.RollbackSql(s.depth)] else [];
      match End(s, RollbackStmt, env.fault)
      case Err(e) => Handled(s, if withReply then Some(Err(e)) else None, sql)
      case Ok(s1) =>
        var flag := s1.ignoreNextStartRollback || (withReply && !env.delivered);
        Handled(State(s1.depth, flag, s1.engine, true), if withReply then Some(Ok(())) else None, sql)
  }

  /** A statement of the user's: a fault is replied and the loop goes on. */
  function HandleExecute(s: State, v: int, env: Env): (r: Handled)
    requires s.running
    ensures r.s.running && r.s.depth == s.depth && r.s.ignoreNextStartRollback == s.ignoreNextStartRollback
    ensures r.s.engine.stack == s.engine.stack
    ensures env.fault.None? ==> r.s.engine.rows == s.engine.rows + [v] && r.reply == Some(Ok(()))
    ensures env.fault.Some? ==> r.s == s && r.reply == Some(Err(env.fault.value))
  {
    if env.fault.Some? then Handled(s, Some(Err(env.fault.value)), [])
    else Handled(State(s.depth, s.ignoreNextStartRollback, Insert(s.engine, v), true), Some(Ok(())), [])
  }

  /** One command. Once the loop has stopped nothing changes: a command with
      a reply channel fails with WorkerCrashed, a reply-less rollback is
      dropped. */
  function Handle(s: State, c: Command, env: Env): (r: Handled)
    ensures !s.running ==> r.s == s && r.sql == []
    ensures !s.running ==> (r.reply.None? <==> c == Rollback(false))
    ensures !s.running && r.reply.Some? ==> r.reply.value == Err(Errors.WorkerCrashed)
  {
    if !s.running then
      if c == Rollback(false) then Handled(s, None, []) else Handled(s, Some(Err(Errors.WorkerCrashed)), [])
    else
      match c
      case Begin => HandleBegin(s, env)
      case Commit => HandleCommit(s, env)
      case Rollback(withReply) => HandleRollback(s, withReply, env)
      case Execute(v) => HandleExecute(s, v, env)
  }

  /** A command loop: each command, in channel order, is handled by `step`
      in the state the previous one left. */
  function Run<S, C>(step: (S, C) -> S, s: S, cmds: seq<C>): S
    decreases |cmds|
  {
    if cmds == [] then s else Run(step, step(s, cmds[0]), cmds[1..])
  }

  function Step(s: State, c: (Command, Env)): State {
    Handle(s, c.0, c.1).s
  }

  /** The worker's loop over commands in channel order. */
  function RunAll(s: State, cmds: seq<(Command, Env)>): State {
    Run(Step, s, cmds)
  }

  /** The worker's depth and the engine's savepoint stack agree: the stack is
      empty at depth 0; every level k below the depth has its savepoint on the
      stack, the outermost at the bottom, each level's most recent one above
      the levels below it. Savepoints of rolled-back levels may remain above. */
  predicate Consistent(depth: nat, stack: seq<Frame>) {
    (depth == 0 <==> stack == []) &&
    (forall k :: 0 <= k < depth ==> LastNamed(stack, Transaction.SavepointName(k)).Some?) &&
    (forall k, m :: 0 <= k < m < depth ==>
       LastNamed(stack, Transaction.SavepointName(k)).value < LastNamed(stack, Transaction.SavepointName(m)).value) &&
    (depth > 0 ==> LastNamed(stack, Transaction.SavepointName(0)) == Some(0))
  }

  /** In a consistent state, the engine finds every savepoint the commit and
      rollback statements name. */
  lemma {:induction false} EndStatementsSucceed(depth: nat, e: Engine)
    requires depth >= 1 && Consistent(depth, e.stack)
    ensures Apply(e, Transaction.CommitSql(depth)).Ok?
    ensures Apply(e, Transaction.RollbackSql(depth)).Ok?
  {
    assert LastNamed(e.stack, Transaction.SavepointName(depth - 1)).Some?;
  }

  lemma {:induction false} ConsistentAfterBegin(depth: nat, e: Engine)
    requires Consistent(depth, e.stack)
    ensures Consistent(depth + 1, Apply(e, Transaction.BeginSql(depth)).value.stack)
  {
    var f := Frame(Transaction.SavepointName(depth), e.rows);
    assert Apply(e, Transaction.BeginSql(depth)).value.stack == e.stack + [f];
    ConsistentPush(depth, e.stack, f);
  }

  /** Pushing the savepoint of the next level keeps the stack consistent
      with one level more. */
  lemma {:induction false} ConsistentPush(depth: nat, stack: seq<Frame>, f: Frame)
    requires Consistent(depth, stack) && f.name == Transaction.SavepointName(depth)
    ensures Consistent(depth + 1, stack + [f])
  {
    var st := stack + [f];
    forall k | 0 <= k < depth
      ensures LastNamed(st, Transaction.SavepointName(k)) == LastNamed(stack, Transaction.SavepointName(k))
    {
      Transaction.SavepointNamesDistinct(depth, k);
      LastNamedPush(stack, f, Transaction.SavepointName(k));
    }
    assert LastNamed(st, Transaction.SavepointName(depth)) == Some(|stack|);
    assert forall k :: 0 <= k < depth + 1 ==> LastNamed(st, Transaction.SavepointName(k)).Some?;
    forall k, m | 0 <= k < m < depth + 1
      ensures LastNamed(st, Transaction.SavepointName(k)).value < LastNamed(st, Transaction.SavepointName(m)).value
    {
    }
    if depth == 0 {
      assert st == [f];
    }
  }

  lemma {:induction false} ConsistentAfterRelease(depth: nat, e: Engine)
    requires depth >= 1 && Consistent(depth, e.stack)
    ensures Apply(e, Transaction.CommitSql(depth)).Ok?
    ensures Consistent(depth - 1, Apply(e, Transaction.CommitSql(depth)).value.stack)
  {
    EndStatementsSucceed(depth, e);
    var i := LastNamed(e.stack, Transaction.SavepointName(depth - 1)).value;
    var st := e.stack[..i];
    assert Apply(e, Transaction.CommitSql(depth)).value.stack == st;
    forall k | 0 <= k < depth - 1
      ensures LastNamed(st, Transaction.SavepointName(k)) == LastNamed(e.stack, Transaction.SavepointName(k))
    {
      LastNamedCut(e.stack, i, Transaction.SavepointName(k));
    }
    if depth > 1 {
      assert LastNamed(e.stack, Transaction.SavepointName(0)).value < i;
    }
  }

  lemma {:induction false} ConsistentAfterRollback(depth: nat, e: Engine)
    requires depth >= 1 && Consistent(depth, e.stack)
    ensures Apply(e, Transaction.RollbackSql(depth)).Ok?
    ensures Consistent(depth - 1, Apply(e, Transaction.RollbackSql(depth)).value.stack)
  {
    EndStatementsSucceed(depth, e);
    if depth > 1 {
      var i := LastNamed(e.stack, Transaction.SavepointName(depth - 1)).value;
      var st := e.stack[..i + 1];
      assert Apply(e, Transaction.RollbackSql(depth)).value.stack == st;
      forall k | 0 <= k < depth - 1
        ensures LastNamed(st, Transaction.SavepointName(k)) == LastNamed(e.stack, Transaction.SavepointName(k))
      {
        LastNamedCut(e.stack, i + 1, Transaction.SavepointName(k));
      }
    }
  }

  /** Every command keeps the worker's depth and the engine's savepoints
      consistent while the loop runs. */
  lemma {:induction false} HandlePreserves(s: State, c: Command, env: Env)
    requires s.running ==> Consistent(s.depth, s.engine.stack)
    ensures var r := Handle(s, c, env).s; r.running ==> Consistent(r.depth, r.engine.stack)
  {
    if s.running {
      var d := s.depth;
      match c
      case Begin =>
        if env.fault.None? {
          ConsistentAfterBegin(d, s.engine);
          if !env.delivered && env.undoFault.None? {
            ConsistentAfterRollback(d + 1, Apply(s.engine, Transaction.BeginSql(d)).value);
          }
        }
      case Commit =>
        if d > 0 && env.fault.None? {
          ConsistentAfterRelease(d, s.engine);
        }
      case Rollback(_) =>
        if d > 0 && env.fault.None? {
          ConsistentAfterRollback(d, s.engine);
        }
      case Execute(_) =>
    }
  }

  lemma {:induction false} RunAllPreserves(s: State, cmds: seq<(Command, Env)>)
    requires s.running ==> Consistent(s.depth, s.engine.stack)
    ensures var r := RunAll(s, cmds); r.running ==> Consistent(r.depth, r.engine.stack)
    decreases |cmds|
  {
    if cmds != [] {
      HandlePreserves(s, cmds[0].0, cmds[0].1);
      assert RunAll(s, cmds) == RunAll(Step(s, cmds[0]), cmds[1..]);
      RunAllPreserves(Step(s, cmds[0]), cmds[1..]);
    }
  }

  /** A single command is handled once. */
  lemma {:induction false} RunAllOne(s: State, c: (Command, Env))
    ensures RunAll(s, [c]) == Handle(s, c.0, c.1).s
  {
    assert [c][1..] == [];
    assert Run(Step, s, [c]) == Run(Step, Step(s, c), []);
  }

  lemma {:induction false} RunAllAppend(s: State, a: seq<(Command, Env)>, b: seq<(Command, Env)>)
    ensures RunAll(s, a + b) == RunAll(RunAll(s, a), b)
  {
    RunAppend(Step, s, a, b);
  }

  /** Running two command sequences one after the other is running their
      concatenation. */
  lemma {:induction false} RunAppend<S, C>(step: (S, C) -> S, s: S, a: seq<C>, b: seq<C>)
    ensures Run(step, s, a + b) == Run(step, Run(step, s, a), b)
    decreases |a|
  {
    if a != [] {
      assert (a + b)[0] == a[0] && (a + b)[1..] == a[1..] + b;
      RunAppend(step, step(s, a[0]), a[1..], b);
    } else {
      assert a + b == b;
    }
  }

  /** The engine runs every statement and every reply is received. */
  const FINE: Env := Env(None, None, true)

  /** The user's inserts of `vs`, one command each. */
  function Inserts(vs: seq<int>): (cmds: seq<(Command, Env)>)
    ensures |cmds| == |vs|
    ensures forall i :: 0 <= i < |vs| ==> cmds[i] == (Execute(vs[i]), FINE)
  {
    if vs == [] then [] else [(Execute(vs[0]), FINE)] + Inserts(vs[1..])
  }

  lemma {:induction false} InsertsCons(vs: seq<int>)
    requires vs != []
    ensures Inserts(vs)[0] == (Execute(vs[0]), FINE) && Inserts(vs)[1..] == Inserts(vs[1..])
  {
  }

  lemma {:induction false} ExecuteInserts(s: State, v: int)
    requires s.running
    ensures Handle(s, Execute(v), FINE).s ==
      State(s.depth, s.ignoreNextStartRollback, Engine(s.engine.rows + [v], s.engine.stack), true)
  {
  }

  /** `step` handles a fault-free insert in a running state by adding its
      row and nothing else. */
  ghost predicate InsertsRows(step: (State, (Command, Env)) -> State) {
    forall s: State, v: int :: s.running ==>
      step(s, (Execute(v), FINE)) == State(s.depth, s.ignoreNextStartRollback, Engine(s.engine.rows + [v], s.engine.stack), true)
  }

  lemma StepInsertsRows()
    ensures InsertsRows(Step)
  {
    forall s: State, v: int | s.running
      ensures Step(s, (Execute(v), FINE)) ==
        State(s.depth, s.ignoreNextStartRollback, Engine(s.engine.rows + [v], s.engine.stack), true)
    {
      ExecuteInserts(s, v);
    }
  }

  /** Inserts add their rows in order and touch nothing else. */
  lemma {:induction false} RunInserts(s: State, vs: seq<int>)
    requires s.running
    ensures RunAll(s, Inserts(vs)) ==
      State(s.depth, s.ignoreNextStartRollback, Engine(s.engine.rows + vs, s.engine.stack), true)
  {
    StepInsertsRows();
    RunInsertsWith(Step, s, vs);
  }

  lemma {:induction false} RunInsertsWith(step: (State, (Command, Env)) -> State, s: State, vs: seq<int>)
    requires InsertsRows(step) && s.running
    ensures Run(step, s, Inserts(vs)) ==
      State(s.depth, s.ignoreNextStartRollback, Engine(s.engine.rows + vs, s.engine.stack), true)
    decreases |vs|
  {
    if vs == [] {
      assert s.engine.rows + vs == s.engine.rows;
    } else {
      var s1 := State(s.depth, s.ignoreNextStartRollback, Engine(s.engine.rows + [vs[0]], s.engine.stack), true);
      assert Run(step, s, Inserts(vs)) == Run(step, s1, Inserts(vs[1..])) by {
        InsertsCons(vs);
        assert step(s, (Execute(vs[0]), FINE)) == s1;
      }
      RunInsertsWith(step, s1, vs[1..]);
      assert s1.engine.rows + vs[1..] == s.engine.rows + vs;
    }
  }

  /** The state right after a received, successful begin: one level deeper,
      with a savepoint remembering the rows. */
  lemma {:induction false} BeginPushes(s: State)
    requires s.running
    ensures Handle(s, Begin, FINE).s == State(s.depth + 1, s.ignoreNextStartRollback,
      Engine(s.engine.rows, s.engine.stack + [Frame(Transaction.SavepointName(s.depth), s.engine.rows)]), true)
  {
  }

  /** The state after a received, successful begin at `s` followed by the
      inserts of `vs`. */
  function Begun(s: State, vs: seq<int>): State {
    State(s.depth + 1, s.ignoreNextStartRollback,
      Engine(s.engine.rows + vs, s.engine.stack + [Frame(Transaction.SavepointName(s.depth), s.engine.rows)]), true)
  }

  lemma {:induction false} BeginThenInserts(s: State, vs: seq<int>)
    requires s.running
    ensures Handle(s, Begin, FINE).reply == Some(Ok(()))
    ensures RunAll(Handle(s, Begin, FINE).s, Inserts(vs)) == Begun(s, vs)
  {
    BeginPushes(s);
    RunInserts(Handle(s, Begin, FINE).s, vs);
  }

  /** Committing a begun level releases its savepoint: the inserted rows
      stay, the depth and the stack are restored, and the reply is Ok. */
  lemma {:induction false} CommitBegun(s: State, vs: seq<int>)
    requires s.running && Consistent(s.depth, s.engine.stack)
    ensures var h := Handle(Begun(s, vs), Commit, FINE);
      h.reply == Some(Ok(())) && h.s.running && h.s.depth == s.depth &&
      h.s.engine.rows == s.engine.rows + vs && h.s.engine.stack == s.engine.stack &&
      h.s.ignoreNextStartRollback == s.ignoreNextStartRollback
  {
    var b := Begun(s, vs);
    assert LastNamed(b.engine.stack, Transaction.SavepointName(s.depth)) == Some(|s.engine.stack|);
    assert b.engine.stack[..|s.engine.stack|] == s.engine.stack;
  }

  /** A commit the engine refuses changes nothing and replies the fault. */
  lemma {:induction false} CommitBegunFails(s: State, vs: seq<int>, e: Error)
    ensures Handle(Begun(s, vs), Commit, Env(Some(e), None, true)).reply == Some(Err(e))
    ensures Handle(Begun(s, vs), Commit, Env(Some(e), None, true)).s == Begun(s, vs)
  {
  }

  /** Rolling back a begun level, with or without a reply (unless the flag
      makes the worker skip it), restores the rows and the depth. */
  lemma {:induction false} RollbackBegun(s: State, vs: seq<int>, withReply: bool)
    requires s.running && Consistent(s.depth, s.engine.stack)
    requires withReply || !s.ignoreNextStartRollback
    ensures var h := Handle(Begun(s, vs), Rollback(withReply), FINE);
      h.s.running && h.s.depth == s.depth && h.s.engine.rows == s.engine.rows &&
      h.s.ignoreNextStartRollback == s.ignoreNextStartRollback &&
      h.reply == (if withReply then Some(Ok(())) else None)
  {
    var b := Begun(s, vs);
    if s.depth > 0 {
      assert LastNamed(b.engine.stack, Transaction.SavepointName(s.depth)) == Some(|s.engine.stack|);
    } else {
      assert b.engine.stack[0] == Frame(Transaction.SavepointName(0), s.engine.rows);
    }
  }

  /** A transaction level that is begun, given some inserts and rolled back
      leaves the rows as they were and the depth where it was. Below the
      outermost level the savepoint stays on the engine's stack, because
      ROLLBACK TO does not release it. */
  lemma {:induction false} RollbackRestores(s: State, vs: seq<int>)
    requires s.running && Consistent(s.depth, s.engine.stack)
    ensures var r := RunAll(s, [(Begin, FINE)] + Inserts(vs) + [(Rollback(true), FINE)]);
      r.running && r.depth == s.depth && r.engine.rows == s.engine.rows &&
      r.ignoreNextStartRollback == s.ignoreNextStartRollback &&
      (s.depth == 0 ==> r.engine.stack == []) &&
      (s.depth > 0 ==> r.engine.stack == s.engine.stack + [Frame(Transaction.SavepointName(s.depth), s.engine.rows)])
  {
    var f := Frame(Transaction.SavepointName(s.depth), s.engine.rows);
    var s1 := Handle(s, Begin, FINE).s;
    BeginPushes(s);
    RunAllAppend(s, [(Begin, FINE)] + Inserts(vs), [(Rollback(true), FINE)]);
    RunAllAppend(s, [(Begin, FINE)], Inserts(vs));
    RunInserts(s1, vs);
    var s2 := State(s.depth + 1, s.ignoreNextStartRollback, Engine(s.engine.rows + vs, s.engine.stack + [f]), true);
    RunAllOne(s, (Begin, FINE));
    if s.depth > 0 {
      assert LastNamed(s2.engine.stack, Transaction.SavepointName(s.depth)) == Some(|s.engine.stack|);
      assert s2.engine.stack[..|s.engine.stack| + 1] == s.engine.stack + [f];
    }
    RunAllOne(s2, (Rollback(true), FINE));
  }

  /** A transaction level that is begun, given some inserts and committed
      keeps the rows and restores the depth and the savepoint stack. */
  lemma {:induction false} CommitKeeps(s: State, vs: seq<int>)
    requires s.running && Consistent(s.depth, s.engine.stack)
    ensures var r := RunAll(s, [(Begin, FINE)] + Inserts(vs) + [(Commit, FINE)]);
      r.running && r.depth == s.depth && r.engine == Engine(s.engine.rows + vs, s.engine.stack) &&
      r.ignoreNextStartRollback == s.ignoreNextStartRollback
  {
    var f := Frame(Transaction.SavepointName(s.depth), s.engine.rows);
    var s1 := Handle(s, Begin, FINE).s;
    BeginPushes(s);
    RunAllAppend(s, [(Begin, FINE)] + Inserts(vs), [(Commit, FINE)]);
    RunAllAppend(s, [(Begin, FINE)], Inserts(vs));
    RunInserts(s1, vs);
    var s2 := State(s.depth + 1, s.ignoreNextStartRollback, Engine(s.engine.rows + vs, s.engine.stack + [f]), true);
    RunAllOne(s, (Begin, FINE));
    assert LastNamed(s2.engine.stack, Transaction.SavepointName(s.depth)) == Some(|s.engine.stack|);
    assert s2.engine.stack[..|s.engine.stack|] == s.engine.stack;
    RunAllOne(s2, (Commit, FINE));
  }

  /** Outer begin and insert 0; a nested level with insert 1, rolled back;
      a nested level with insert 2, committed; outer commit. */
  function NestedScenario(): seq<(Command, Env)> {
    [(Begin, FINE), (Execute(0), FINE)] +
    ([(Begin, FINE)] + Inserts([1]) + [(Rollback(true), FINE)]) +
    ([(Begin, FINE)] + Inserts([2]) + [(Commit, FINE)]) +
    [(Commit, FINE)]
  }

  /** The nested rollback discards exactly row 1: starting with an empty
      table and no transaction, the scenario leaves rows 0 and 2, depth 0 and
      no savepoint. */
  lemma NestedRollbackKeepsOuterRows()
    ensures var r := RunAll(State(0, false, Engine([], []), true), NestedScenario());
      r.running && r.depth == 0 && r.engine == Engine([0, 2], [])
  {
    var s0 := State(0, false, Engine([], []), true);
    var a := [(Begin, FINE), (Execute(0), FINE)];
    var b := [(Begin, FINE)] + Inserts([1]) + [(Rollback(true), FINE)];
    var c := [(Begin, FINE)] + Inserts([2]) + [(Commit, FINE)];
    var d := [(Commit, FINE)];
    var f0 := Frame(Transaction.SavepointName(0), []);
    var s1 := State(1, false, Engine([0], [f0]), true);
    assert RunAll(s0, a) == s1 && Consistent(1, [f0]) by {
      OuterBegin();
    }
    var s2 := RunAll(s1, b);
    assert s2.running && s2.depth == 1 && s2.engine.rows == [0] && !s2.ignoreNextStartRollback &&
      Consistent(1, s2.engine.stack) by {
      RollbackRestores(s1, [1]);
      RunAllPreserves(s1, b);
    }
    var s3 := RunAll(s2, c);
    assert s3.running && s3.depth == 1 && s3.engine.rows == [0, 2] && Consistent(1, s3.engine.stack) by {
      CommitKeeps(s2, [2]);
      RunAllPreserves(s2, c);
    }
    RunAllOne(s3, (Commit, FINE));
    ConsistentAfterRelease(1, s3.engine);
    RunAllAppend(s0, a + b + c, d);
    RunAllAppend(s0, a + b, c);
    RunAllAppend(s0, a, b);
  }

  /** The outer begin and the insert of row 0. */
  lemma OuterBegin()
    ensures var f0 := Frame(Transaction.SavepointName(0), []);
      RunAll(State(0, false, Engine([], []), true), [(Begin, FINE), (Execute(0), FINE)]) ==
        State(1, false, Engine([0], [f0]), true) &&
      Consistent(1, [f0])
  {
    var s0 := State(0, false, Engine([], []), true);
    var a := [(Begin, FINE), (Execute(0), FINE)];
    var f0 := Frame(Transaction.SavepointName(0), []);
    var s1 := State(1, false, Engine([0], [f0]), true);
    BeginPushes(s0);
    var t1 := Handle(s0, Begin, FINE).s;
    assert [] + [f0] == [f0];
    assert t1 == State(1, false, Engine([], [f0]), true);
    assert a == [(Begin, FINE)] + [(Execute(0), FINE)];
    RunAllAppend(s0, [(Begin, FINE)], [(Execute(0), FINE)]);
    RunAllOne(s0, (Begin, FINE));
    RunAllOne(t1, (Execute(0), FINE));
    assert Handle(t1, Execute(0), FINE).s == s1;
    ConsistentAfterBegin(0, s0.engine);
  }

  /** A commit the engine ran but whose reply was lost: the `Transaction`
      still believes it is open and sends a reply-less rollback when dropped,
      which the worker skips, so the committed level is not rolled back. */
  lemma {:induction false} LostCommitReplySkipsDropRollback(s: State, env: Env)
    requires s.running && !s.ignoreNextStartRollback && s.depth >= 1 && Consistent(s.depth, s.engine.stack)
    ensures var c := Handle(s, Commit, Env(None, None, false));
      var r := Handle(c.s, Rollback(false), env);
      c.reply == Some(Ok(())) && r.sql == [] && r.s == State(s.depth - 1, false, c.s.engine, true)
  {
    EndStatementsSucceed(s.depth, s.engine);
  }

  /** A begin the engine ran but whose reply was lost is undone at once: the
      depth and the rows are those from before. */
  lemma {:induction false} LostBeginReplyUndone(s: State)
    requires s.running && Consistent(s.depth, s.engine.stack)
    ensures var r := Handle(s, Begin, Env(None, None, false)).s;
      r.running && r.depth == s.depth && r.engine.rows == s.engine.rows
  {
    var f := Frame(Transaction.SavepointName(s.depth), s.engine.rows);
    var e1 := Engine(s.engine.rows, s.engine.stack + [f]);
    if s.depth > 0 {
      assert LastNamed(e1.stack, Transaction.SavepointName(s.depth)) == Some(|s.engine.stack|);
    }
  }
}

=== FILE: wrappers.dfy ===
/** Failure-compatible helper datatypes shared by every module of the model.
    `Option` stands for Rust's `Option`, `Result` for Rust's `Result`; both can be
    used with Dafny's `:-` operator in the same way as Rust's `?`. */
module Wrappers {

  datatype Option<+T> = None | Some(value: T) {
    predicate IsFailure() {
      None?
    }

    function PropagateFailure<U>(): Option<U>
      requires None?
    {
      None
    }

    function Extract(): T
      requires Some?
    {
      value
    }

    function GetOr(default: T): T {
      match this
      case Some(v) => v
      case None => default
    }
  }

  datatype Result<+T, +E> = Ok(value: T) | Err(error: E) {
    predicate IsFailure() {
      Err?
    }

    function PropagateFailure<U>(): Result<U, E>
      requires Err?
    {
      Err(error)
    }

    function Extract(): T
      requires Ok?
    {
      value
    }
  }

  /** Rust's `Either`, used by the execute iterator for rows (Right) and results (Left). */
  datatype Either<+L, +R> = Left(left: L) | Right(right: R)
}
